=== FILE: README.md ===
# rat-salsa core logic in Dafny

A model of the sequential, deterministic logic of the rat-salsa terminal-UI
toolkit, and proofs of what that logic promises. Text is modelled as a
sequence of abstract grapheme units; segmentation and display width are
inputs, not computed.

Modules:

- `Util` (`util.dfy`): options and results, saturating subtraction, sums,
  decimal `usize` parsing, splitting and joining on one separator.
- `Palette` (`palette.dfy`): the colour-row names and their parser, the
  `name:idx` colour index codec, packing colours into `u32`, channel
  scaling, the integer interpolation of a palette row, and the sorted alias
  table of rat-theme4's `Palette`.
- `Focus` (`focus.dfy`): rat-focus's `FocusCore` — range shift, expand and
  shrink for inserted and removed widgets, the cyclic navigable search, the
  focused/gained/lost flag changes, container accumulation, the builder's
  registration, and inserting, removing and replacing containers.
- `Splitter` (`splitter.dfy`): the area lengths of rat-widget's
  `SplitState`, the prefix-sum "dual", moving a split in both resize modes,
  hiding and showing areas, and selecting splits.
- `Choice` (`choice.dfy`): the value/selection core of rat-widget's choice
  widget and the keyboard navigation on top of it.
- `TableState` (`tablestate.dfy`) and `FTableState` (`ftablestate.dfy`):
  row cursors, paging, scrolling and column widths of rat-ftable's
  `TableState` and of the older `FTableState`.
- `MarkdownStyle`, `MarkdownLine`, `MarkdownTable`, `MarkdownFormat`,
  `MarkdownItem`, `MarkdownQuote` (`md_*.dfy`): the helpers of the markdown
  editor example — style indices, line lengths, the table-row parser and
  tab movement between cells, the blank line between reformatted blocks,
  and the list-item and block-quote parsers.
- `PaletteEdit` (`palette_edit.dfy`): the palette editor's INI helpers —
  the multi-line text codec, value and array readers and writers — the
  file-name sanitising and the list of colour choices.
- `FileDialog` (`file_dialog.dfy`): rat-widget's file dialog — the
  outcome conversions, the "new directory" entry, what choosing returns in
  each mode, and the jump to the next name by its initial.
- `SplitTab` (`split_tab.dfy`): the splits and tabs of the markdown
  editor's `SplitTabState` — which split holds the focus, selecting,
  opening and closing tabs, and the shift of the selections when a tab or
  a split goes away.
- `TextLines` (`text_lines.dfy`): a text as lines of graphemes, positions
  and ranges, deleting and inserting, and the flat view (graphemes with a
  break unit between lines) that states what those edits do.
- `TextCursor` (`text_cursor.dfy`): the cursor moves, delete ranges,
  screen-row conversion and scroll-to-cursor shared by the two line-based
  text areas (`src/textarea.rs`, `src/text_area.rs`).
- `TextWords` (`text_words.dfy`): word navigation, word boundaries and the
  delete-word ranges over the text's characters.
- `TextAreaEdit` (`text_area_edit.dfy`): deleting a line, the indenting line
  break and duplicating text in `src/text_area.rs`.
- `RatTextArea` (`rat_text_area.dfy`) and `RatTextInput`
  (`rat_text_input.dfy`): rat-text's text area (wrap margins, cleaned
  offset, Shift-mode scrolling, scroll limits, insert-char) and single-line
  input (moves, scrolling, screen columns, selection, clipboard).
- `MaskKind` (`mask_kind.dfy`) and `MaskParse` (`mask_parse.dfy`): the mask
  token kinds with their direction, section and edit-value tables, and the
  mask parser with its escapes, sections, sub-sections and `Display`.
- `RatMask` (`rat_mask.dfy`) and `RatMaskEdit` (`rat_mask_edit.dfy`):
  rat-text's masked-input core — default text, `set_text`, section cursors
  and ranges, the sign toggle and the three removals.
- `MaskedInput` (`masked_input.dfy`): rat-text's masked input widget on top
  of that core — section ids and values, select-all, moves, deletes,
  clearing, the default cursor and the focus mode.
- `OldMaskCore` (`old_mask_core.dfy`): the older mask core's default cursor
  and `insert_sign`.
- `MaskedInputCore` (`maskedinput_core.dfy`) and `MaskedInputRemove`
  (`maskedinput_remove.dfy`): the middle-generation mask core — cursor and
  selection, `set_value`, `compact_value`, inserting left to right and right
  to left, the sign, and the removals.
- `MaskInput2` (`mask_input2.dfy`): the second masked-input widget — its
  parser, offset, width, cursor, value, mask, removal, word boundaries and
  request dispatcher.
- `Glyph` (`glyph.dfy`) and `GlyphWrap` (`glyph_wrap.dfy`): rat-text's glyph
  iterator — shaping one grapheme, the three prepare passes that record line
  breaks, and placing glyphs for shift-and-clip, hard and word wrap.

## Model

| member | source | states |
|---|---|---|
| Palette.ParseColors | rat-theme4/src/palette.rs:160-186 | a name that parses yields the row whose name it is (only the twenty names parse) |
| Palette.ParseName | rat-theme4/src/palette.rs:160-225 | every row's name parses back to that row, including "none" |
| Palette.AllColors | rat-theme4/src/palette.rs:189-200 | `Colors::array()` has `LEN` = 19 entries, entry i is the row with discriminant i, and `None` is excluded |
| Palette.ParseColorIdx | rat-theme4/src/palette.rs:93-112 | text without ':' is an error; an accepted text starts with a row name and ':' and its index fits a usize |
| Palette.ColorIdxRoundTrip | rat-theme4/src/palette.rs:76-112 | parsing the `name:idx` display of a colour index gives that index back |
| Palette.ColorToU32 | rat-theme4/src/palette.rs:1127-1131 | packing fits in 24 bits, and unpacking the packed value gives the RGB colour back |
| Palette.ColorU32RoundTrip | rat-theme4/src/palette.rs:1119-1131 | `color_to_u32(color_from_u32(c)) == c & 0xFFFFFF` |
| Palette.ScaleTo | rat-theme4/src/palette.rs:1242-1245 | the scaled channel is at most the value and at most the scale, is the value for scale 255, and 0 for a zero operand |
| Palette.Third1 | rat-theme4/src/palette.rs:1181-1187 | the one-third point lies between the two channel values |
| Palette.Third2 | rat-theme4/src/palette.rs:1189-1195 | the two-thirds point lies between the one-third point and the far end |
| Palette.Interpolate2 | rat-theme4/src/palette.rs:1179-1240 | entries 0,3,4,7 are the unpacked inputs; entries 1,2 and 5,6 lie per channel, in order, between their endpoints |
| Palette.ColorOf | rat-theme4/src/palette.rs:778-785 | `NoColor` gives `Reset`; any other row gives the stored shade |
| Palette.FgStyle | rat-theme4/src/palette.rs:817-824 | only a foreground is set, and exactly when the colour is not `Reset` |
| Palette.BgStyle | rat-theme4/src/palette.rs:827-834 | only a background is set, and exactly when the colour is not `Reset` |
| Palette.SearchAlias | rat-theme4/src/palette.rs:846-849 | bisection over the sorted names finds the name's index, or the insertion point with smaller names before and larger after |
| Palette.TryAliased | rat-theme4/src/palette.rs:853-859 | equals the linear lookup of the name in the table |
| Palette.AddAliased | rat-theme4/src/palette.rs:837-851 | the table stays sorted with unique names, the name now maps to the new colour, every other name keeps its colour |
| Focus.Expand | rat-focus/src/focus.rs:1252-1264 | a range expanded for an insert shrinks back to itself for the same range; it stays well-formed unless it is empty at the insert point |
| Focus.Shrink | rat-focus/src/focus.rs:1266-1286 | ranges before the removed part stay, ranges after it move left by its length, ranges inside collapse to its start |
| Focus.ChangeExamples | rat-focus/src/focus.rs:1768-1796 | the asserted examples of shift, expand and shrink |
| Focus.FirstNavigable | rat-focus/src/focus.rs:1641-1666 | the least index at or after start whose navigation is Reach/ReachLeaveBack/ReachLeaveFront/Regular, or None when there is none |
| Focus.NextAfter | rat-focus/src/focus.rs:1669-1702 | the next navigable index after start, cyclically, with no navigable index skipped; start only when no other index is navigable |
| Focus.PrevBefore | rat-focus/src/focus.rs:1705-1736 | the mirror of NextAfter, walking backward |
| Focus.NextNavigable | rat-focus/src/focus.rs:1669-1702 | the wrapping forward loop stops exactly where NextAfter says |
| Focus.PrevNavigable | rat-focus/src/focus.rs:1705-1736 | the wrapping backward loop stops exactly where PrevBefore says |
| Focus.StartChange | rat-focus/src/focus.rs:1288-1305 | every non-duplicate widget loses focused and gained, and lost becomes the old focus (or false); duplicates are skipped |
| Focus.FocusIndex | rat-focus/src/focus.rs:1306-1329 | focusing an out-of-range index changes nothing; refocusing the widget that lost the focus clears lost and gained and reports false; any other gains |
| Focus.RefocusClearsLostGained | rat-focus/src/focus.rs:1288-1329 | after a change, focusing the widget that held the focus leaves it focused with neither gained nor lost |
| Focus.Accumulate | rat-focus/src/focus.rs:1331-1383 | each container is focused iff some member is, gained iff some member gained and none lost, lost iff some member lost and none gained; widget flags are untouched |
| Focus.CoreNext | rat-focus/src/focus.rs:1565-1589 | reports no change only when no entry is navigable |
| Focus.CorePrev | rat-focus/src/focus.rs:1591-1614 | reports no change only when no entry is navigable |
| Focus.NextMovesFocus | rat-focus/src/focus.rs:1565-1589 | with one focused widget, next focuses exactly the next navigable widget after it; a different widget gains and the old one is marked lost |
| Focus.PrevMovesFocus | rat-focus/src/focus.rs:1591-1614 | the same for prev, walking backward |
| Focus.CurrentNavigation | rat-focus/src/focus.rs:1617-1623 | None iff no entry is focused, otherwise the navigation of a focused entry |
| Focus.Next | rat-focus/src/focus.rs:230-262 | with no focus it behaves as first() and reports a change; it moves only away from Leave, ReachLeaveBack or Regular widgets |
| Focus.Prev | rat-focus/src/focus.rs:273-303 | with no focus it behaves as first(); it moves only away from Leave, ReachLeaveFront or Regular widgets |
| Focus.First | rat-focus/src/focus.rs:1413-1421 | with no navigable entry nothing changes; otherwise the first navigable entry is focused |
| Focus.WidgetWithFlags | rat-focus/src/focus.rs:942-970 | a flag already present is refused unless its navigation is Mouse or None; otherwise the entry is appended and marked duplicate iff the flag was present |
| Focus.WidgetWithFlagsValid | rat-focus/src/focus.rs:942-970 | registration keeps the id set exact and marks as duplicate exactly the entries whose flag occurred earlier |
| Focus.StartContainer | rat-focus/src/focus.rs:981-1008 | a container flag started twice is refused; otherwise an unfinished container with an empty range at the current entry count is appended |
| Focus.End | rat-focus/src/focus.rs:886-907 | an unknown container flag is refused; only the matched container changes, and its range ends at the current entry count |
| Focus.ContainerCoversWidgets | rat-focus/src/focus.rs:886-1008 | starting a container, adding widgets and ending it gives the container exactly the range of those widgets |
| Focus.RemoveContainer | rat-focus/src/focus.rs:1199-1245 | the container's entries are cut out and returned, the container and every container inside its range go with them, and the remaining ranges stay inside the shortened list |
| Focus.InsertContainer | rat-focus/src/focus.rs:1159-1196 | a flag present on both sides is refused; otherwise the entries are spliced in at idx and the new containers sit at cidx, shifted to idx |
| Focus.ReplaceContainer | rat-focus/src/focus.rs:608-635 | the entries outside the replaced range keep their places around the new entries |
| Focus.ReplaceEqualSize | rat-focus/src/focus.rs:608-635 | an equal-size replacement keeps the outside entries in place and gives the new container the old range |
| Focus.ReplaceLosesEnclosing | rat-focus/src/focus.rs:608-635 | replacing an inner container of an enclosing container that ends at the same place shrinks the enclosing container to the part before the replaced range |
| Focus.ReplaceContainerFixed | rat-focus/src/focus.rs:608-635 | the corrected replace: refused when a flag is shared, otherwise the entries outside the replaced range surround the new ones |
| Focus.ReplaceFixedKeepsEnclosing | rat-focus/src/focus.rs:608-635 | with the corrected replace, every container that enclosed the replaced one still encloses the new entries |
| Focus.ReplaceFixedExample | rat-focus/src/focus.rs:608-635 | the enclosing container of the failing example keeps its full extent under the corrected replace |
| Splitter.SplitPos | rat-widget/src/splitter.rs:1367-1369 | the position of split n is the sum of the lengths of areas 0..=n, at least the length of area n |
| Splitter.Areas | rat-widget/src/splitter.rs:1431-1438 | reverting the dual succeeds exactly when the positions never decrease, and gives lengths whose running sums are the positions |
| Splitter.AreasOfPositions | rat-widget/src/splitter.rs:1405-1438 | building the dual and reverting it gives back the lengths |
| Splitter.SetSplitPosNeighbour | rat-widget/src/splitter.rs:1402-1438 | the total length stays, only the two areas beside the split change, the split sits at the requested position clamped to the neighbour bounds |
| Splitter.NeighbourMoveSucceeds | rat-widget/src/splitter.rs:1402-1438 | when the two areas beside the split hold at least two cells, moving the split never underflows |
| Splitter.SetSplitPosFull | rat-widget/src/splitter.rs:1443-1525 | the total length stays and the last area takes what the last split leaves |
| Splitter.SetSplitPos | rat-widget/src/splitter.rs:1386-1398 | an out-of-range split is ignored; otherwise the total length stays |
| Splitter.HideSplit | rat-widget/src/splitter.rs:1535-1576 | hiding is refused when already hidden or when there is length to give and no visible area to take it; otherwise the length goes to the next visible area, else the previous one, and is parked as hidden |
| Splitter.HideZeroGrowsTotal | rat-widget/src/splitter.rs:1535-1576 | hiding a zero-length area that is not the last reports success, leaves it unhidden and grows the total by one |
| Splitter.HideSplitFixed | rat-widget/src/splitter.rs:1535-1576 | the corrected hide keeps the total length on every path |
| Splitter.StealFrom | rat-widget/src/splitter.rs:1586-1594 | takes at most what is asked, never leaves the area below the splitter width, and changes no other area |
| Splitter.StealRight | rat-widget/src/splitter.rs:1584-1598 | only visible areas right of the shown one shrink, none below the splitter width, and the total drops by exactly what was taken |
| Splitter.StealLeft | rat-widget/src/splitter.rs:1599-1614 | the same for the visible areas to the left, nearest first |
| Splitter.ShowSplit | rat-widget/src/splitter.rs:1581-1622 | showing is refused for a visible area; otherwise the area is unhidden, regains at most its hidden length, hidden areas keep their lengths and the total stays |
| Splitter.HideThenShow | rat-widget/src/splitter.rs:1535-1622 | showing an area right after hiding it restores the hidden lengths and the total |
| Splitter.SetAreaLengths | rat-widget/src/splitter.rs:1276-1285 | the lengths are taken as given and the hidden lengths are truncated or zero-padded to match |
| Splitter.SelectNextSplit | rat-widget/src/splitter.rs:1223-1236 | only acts when focused; moves the marker to the next split, wrapping to 0, and stays within the splits |
| Splitter.SelectPrevSplit | rat-widget/src/splitter.rs:1239-1252 | only acts when focused; moves the marker to the previous split, wrapping to the last, and stays within the splits |
| Splitter.SelectNextPrev | rat-widget/src/splitter.rs:1223-1252 | next then previous, and previous then next, come back to any valid split |
| Choice.SetValues | rat-widget/src/choice.rs:293-301 | the value is kept and the index is looked up afresh: none exactly when the value is not among the new values, otherwise pointing at it |
| Choice.SetSelected | rat-widget/src/choice.rs:340-354 | an index inside the list takes that entry as value; any other index clears the index and keeps the value; the flag reports exactly an index change |
| Choice.SetValue | rat-widget/src/choice.rs:364-371 | the value is kept even when not listed, the index is none exactly when it is not listed, and the flag reports exactly a value change |
| Choice.Clear | rat-widget/src/choice.rs:382-393 | returns to the default value when there is one, keeps the index coherent and reports a change of either |
| Choice.SetValueIdempotent | rat-widget/src/choice.rs:364-371 | setting the same value twice reports no change the second time |
| Choice.SelectThenSetValue | rat-widget/src/choice.rs:340-371 | setting the value of a selected entry again is no change and finds an index holding the same entry |
| Choice.SelectByChar | rat-widget/src/choice.rs:1196-1228 | finds a match exactly when some item other than the selected one has that first character, and then selects the first such item cyclically after the selection |
| Choice.ReverseSelectByChar | rat-widget/src/choice.rs:1231-1268 | the backward cyclic search: finds a match exactly when some item has that first character, trying the selected item last |
| Choice.MoveOutcome | rat-widget/src/choice.rs:1271-1335 | the outcome is Value exactly when the selected index changed, Continue exactly when nothing changed, never Unchanged |
| Choice.MoveTo | rat-widget/src/choice.rs:1271-1283 | opens the popup and selects n when it is inside the list, else clears the index and keeps the value |
| Choice.MoveDown | rat-widget/src/choice.rs:1286-1309 | an empty list is Continue; otherwise the selection moves n down clamped to the last item, starting before the n-th item when nothing is selected |
| Choice.MoveUp | rat-widget/src/choice.rs:1312-1335 | an empty list is Continue; otherwise the selection moves n up, stopping at the first item |
| Choice.MoveDownThenUp | rat-widget/src/choice.rs:1286-1335 | moving down and back up by the same unclamped amount returns to the same item and value |
| TableState.Nth | rat-ftable/src/table.rs:161-181 | the first call lands on row n, later calls n+1 rows further (saturating), and the flag says whether the row exists |
| TableState.StepsVisitRows | rat-ftable/src/table.rs:161-181 | stepping with nth(0) from the start visits rows 0, 1, 2, ... and reports true exactly while rows remain |
| TableState.CalcLastPage | rat-ftable/src/table.rs:1658-1675 | None exactly when all heights together stay below the table height; otherwise the fewest trailing rows (at least one) whose heights reach it |
| TableState.AutoWidth | rat-ftable/src/table.rs:881-891 | defined exactly when every constraint is Min, Max or Length, and then the sum of their widths plus one spacing per column |
| TableState.TotalWidth | rat-ftable/src/table.rs:877-894 | an explicit layout width wins, then the automatic width, then the area width |
| TableState.ScrollToRow | rat-ftable/src/table.rs:1883-1901 | a row past the end or already visible leaves the offset; otherwise the offset moves just far enough to show the row, unless it sits just below a page that does not fill the table |
| TableState.ScrollToRowMinimal | rat-ftable/src/table.rs:1883-1901 | the new offset shows the row and is no further from the old offset than any other offset that shows it |
| TableState.ScrollToX | rat-ftable/src/table.rs:1919-1927 | the offset moves just far enough that the position lies on the page, and not at all when it already does |
| TableState.SelectedChecked | rat-ftable/src/table.rs:1997-2007 | the selection is returned exactly when it is a row that exists |
| TableState.ClampIndex | rat-ftable/src/table.rs:2177-2195 | a selected row or column is clamped to the last one there is, and kept when it exists |
| TableState.RemapOffsetSelection | rat-ftable/src/table.rs:2019-2025 | 0 without a scroll range; otherwise the proportional row, floor of rows times offset over the maximum offset |
| TableState.RemapMonotone | rat-ftable/src/table.rs:2019-2025 | the remapping keeps the order of offsets and sends the maximum offset to the row count |
| FTableState.Nth | src/table.rs:156-176 | the first call lands on row n, later calls n+1 rows further, and the flag says whether the row exists |
| FTableState.NthAgrees | src/table.rs:156-176 | away from the top of the usize range this cursor agrees with the saturating one of rat-ftable |
| FTableState.SetVerticalOffset | src/table.rs:1691-1699 | the offset is capped at the row count, nothing else changes, and the flag reports exactly a change |
| FTableState.SetHorizontalOffset | src/table.rs:1707-1715 | the offset is capped at the column count, nothing else changes, and the flag reports exactly a change |
| FTableState.ScrollUp | src/table.rs:1719-1721 | moves back by n rows, stopping at 0 |
| FTableState.ScrollDown | src/table.rs:1725-1727 | moves forward by n rows, never past the largest row offset |
| FTableState.ScrollLeft | src/table.rs:1731-1733 | moves back by n columns, stopping at 0 |
| FTableState.ScrollRight | src/table.rs:1737-1742 | moves forward by n columns, never past the largest column offset |
| FTableState.ScrollDownThenUp | src/table.rs:1719-1729 | scrolling down and back up by the same uncapped amount returns to the same state |
| FTableState.VerticalScroll | src/table.rs:1658-1660 | a tenth of the page, rounded down, and at least one row |
| FTableState.ScrollTo | src/table.rs:1621-1635 | each offset changes only as far as needed to show the position, and not at all when it is already visible |
| FTableState.RenderClamp | src/table.rs:916-927 | the counts are taken over and an offset past the end is pulled back to the last row or column; offsets in range stay |
| FTableState.MaxRowOffset | src/table.rs:1194-1209 | 0 when the rows do not fill a page, otherwise the row count minus the fewest trailing rows that fill it |
| MarkdownStyle.StyleIndex | examples/mdedit_parts/markdown.rs:66-70 | every style maps to an index below 34 |
| MarkdownStyle.StyleOfIndex | examples/mdedit_parts/markdown.rs:72-121 | an index converts to a style exactly when it is below 34; larger ones are an "invalid style" error |
| MarkdownStyle.StyleRoundTrip | examples/mdedit_parts/markdown.rs:66-121 | a style converted to its index and back is the same style |
| MarkdownStyle.IndexRoundTrip | examples/mdedit_parts/markdown.rs:66-121 | every index 0..=33 converted to a style and back is the same index |
| MarkdownStyle.StyleIndexInjective | examples/mdedit_parts/markdown.rs:66-70 | different styles have different indices |
| MarkdownLine.StrLineLen | examples/mdedit_parts/markdown.rs:2004-2007 | at most the number of graphemes, and equal to it exactly when no grapheme is "\n" or "\r\n" |
| MarkdownLine.StrLineLenAppend | examples/mdedit_parts/markdown.rs:2004-2007 | the count over two pieces of a line is the sum of the counts |
| MarkdownTable.ParseMdRow | examples/mdedit_parts/markdown.rs:2620-2667 | the cells cut the row at every bar not after a backslash, one more cell than bars; joined by bars they give the row back; the last cell ends at the last grapheme; the cursor cell is the number of bars before the cursor and the offset is the distance from that cell's start (cell 0, offset 0 at or past the end) |
| MarkdownTable.NextTabMdRow | examples/mdedit_parts/markdown.rs:2216-2223 | with no bar at or after the cursor the cursor stays; otherwise the result is just past the first bar at or after it; a cursor at or past the end of the row counts as being in the first cell, so the search starts at the row's start |
| MarkdownTable.PrevTabMdRow | examples/mdedit_parts/markdown.rs:2207-2214 | in the first cell or past the end the cursor stays; otherwise the result is the start of the previous cell, one bar back |
| MarkdownFormat.SeparatorNeeded | examples/mdedit_parts/markdown.rs:1344-1384 | a separator goes between two blocks unless either is None or both are Footnote, or both ReferenceDefs |
| MarkdownFormat.InsertEmpty | examples/mdedit_parts/markdown.rs:1344-1384 | when a separator is needed the line prefix and a line break are appended and the follow-up prefix takes over; otherwise nothing changes |
| MarkdownFormat.InsertEmptyTwice | examples/mdedit_parts/markdown.rs:1344-1384 | a second separator is written with the follow-up prefix |
| MarkdownItem.ParseMdItem | examples/mdedit_parts/markdown.rs:2528-2598 | a number is recorded exactly for ordered items, where it is the value of the digits with one '.' or ')' after them; an unordered mark is one bullet; all ranges are shifted by start; the text is a suffix of the input |
| MarkdownItem.ParseRenderedItem | examples/mdedit_parts/markdown.rs:2528-2598 | parsing a well-formed item line (indent, bullet or number with suffix, blanks, text) gives back its mark, suffix, number and text with their positions |
| MarkdownQuote.ParseMdBlockQuote | examples/mdedit_parts/markdown.rs:2453-2515 | the text is no longer than the input and the start is not before the given start |
| MarkdownQuote.ParseRenderedQuote | examples/mdedit_parts/markdown.rs:2453-2515 | a quote of well-formed lines (indent, '>', blanks, text without breaks, one line break) parses to the lines' texts each followed by a space, starting after the first marker and its blanks |
| MarkdownQuote.EmptyQuoteLineKeepsBreak | examples/mdedit_parts/markdown.rs:2453-2515 | as written, the quote "> a\n>\n> b\n" parses to the text "a \n> b " |
| MarkdownQuote.ParseMdBlockQuoteFixed | examples/mdedit_parts/markdown.rs:2453-2515 | the corrected parser's text never holds a line break |
| MarkdownQuote.EmptyQuoteLineSkipped | examples/mdedit_parts/markdown.rs:2453-2515 | the corrected parser reads "> a\n>\n> b\n" as "a b " |
| PaletteEdit.Get | rat-salsa/examples/palette_edit5.rs:3333 | the stored string exactly when the (section, key) is present |
| PaletteEdit.Decode | rat-salsa/examples/palette_edit5.rs:3334-3357 | from the non-escaped state a text without backslashes decodes to itself; the output is never longer than the input (plus one for a pending backslash) |
| PaletteEdit.UnescapeLoop | rat-salsa/examples/palette_edit5.rs:3334-3357 | the character loop with its pending-escape flag computes the decoding of the whole text |
| PaletteEdit.GetText | rat-salsa/examples/palette_edit5.rs:3327-3362 | the default exactly when the key is missing, otherwise the decoded stored text |
| PaletteEdit.Escape | rat-salsa/examples/palette_edit5.rs:3446-3455 | the encoding holds no carriage return and no line feed, and a text without either is stored unchanged |
| PaletteEdit.SetText | rat-salsa/examples/palette_edit5.rs:3446-3458 | only the written key changes, and it holds the encoded text |
| PaletteEdit.UnescapeEscape | rat-salsa/examples/palette_edit5.rs:3327-3362 | a text without backslashes and carriage returns survives `set_text` then `get_text` |
| PaletteEdit.UnescapeEscapeNoBackslash | rat-salsa/examples/palette_edit5.rs:3327-3362 | a text without backslashes comes back from the written encoding less its carriage returns |
| PaletteEdit.SetThenGetText | rat-salsa/examples/palette_edit5.rs:3327-3362 | writing a key and reading it back returns the text (no backslash, no carriage return) |
| PaletteEdit.SetTextKeepsOthers | rat-salsa/examples/palette_edit5.rs:3446-3458 | writing one key leaves what every other key reads unchanged |
| PaletteEdit.BackslashNotPreserved | rat-salsa/examples/palette_edit5.rs:3446-3458 | as written, the text backslash-n comes back as a line feed |
| PaletteEdit.EscapeFixed | rat-salsa/examples/palette_edit5.rs:3446-3455 | corrected encoding: no line break in the output, and a plain text is stored unchanged |
| PaletteEdit.UnescapeEscapeFixed | rat-salsa/examples/palette_edit5.rs:3327-3362 | with the corrected encoding every text comes back less its carriage returns |
| PaletteEdit.SetTextFixed | rat-salsa/examples/palette_edit5.rs:3446-3458 | with the corrected encoding reading the key back gives the text less its carriage returns, other keys unchanged |
| Util.TrimStart | rat-salsa/examples/palette_edit5.rs:3394 | a suffix not starting with white space, and only white space was removed |
| Util.TrimEnd | rat-salsa/examples/palette_edit5.rs:3394 | a prefix not ending with white space, and only white space was removed |
| Util.TrimSpace | rat-salsa/examples/palette_edit5.rs:3394 | a leading space does not change the trimmed text |
| PaletteEdit.ParseVal | rat-salsa/examples/palette_edit5.rs:3412-3423 | the default when the key is missing or its text does not parse, otherwise the parsed value |
| PaletteEdit.SetValThenParse | rat-salsa/examples/palette_edit5.rs:3412-3427 | a value written with `set_val` reads back with `parse_val` when its text parses back to it |
| PaletteEdit.ParseArray | rat-salsa/examples/palette_edit5.rs:3380-3410 | always `n` elements; element i is the value its trimmed i-th comma piece parses to, the default when that piece does not parse, and the default past the last piece; a missing key gives all defaults when "" does not parse |
| PaletteEdit.SetArray | rat-salsa/examples/palette_edit5.rs:3429-3444 | the values' texts joined by ", " are stored with `set_text` as written: no line break is stored, every other key is kept, and when no value's text holds a backslash the key reads back as the joined text less its carriage returns |
| PaletteEdit.SetArrayThenParse | rat-salsa/examples/palette_edit5.rs:3380-3444 | an array written by `set_array` reads back with `parse_array` as the same values when no value's text has a comma, carriage return or backslash and each parses back from its trimmed text |
| PaletteEdit.ElemKey | rat-salsa/examples/palette_edit5.rs:3373 | the element key is the array key, a dot and the decimal index |
| PaletteEdit.ParseArrayV4 | rat-salsa/examples/palette_edit5.rs:3364-3378 | always `n` elements; element i is the default when its key `key.i` is missing or does not parse, and the parsed value otherwise |
| PaletteEdit.SetValsV4 | rat-salsa/examples/palette_edit5.rs:3412-3427 | writing each value under its element key with `set_val` leaves key `key.i` holding the text of value i |
| PaletteEdit.SetValsThenParseArrayV4 | rat-salsa/examples/palette_edit5.rs:3364-3427 | values written one per element key read back with the older `parse_array` as the same values when each parses back from its text |
| PaletteEdit.ElemKeysDistinct | rat-salsa/examples/palette_edit5.rs:3364-3378 | two elements never read the same key |
| PaletteEdit.Sanitize | rat-salsa/examples/palette_edit5.rs:577-586 | same length; alphanumeric characters kept, every other character replaced by '_' |
| PaletteEdit.SanitizeIdempotent | rat-salsa/examples/palette_edit5.rs:633-645 | the result holds only alphanumerics and '_', and sanitising again changes nothing |
| PaletteEdit.ChoiceEntry | rat-salsa/examples/palette_edit5.rs:149-165 | entry n is a real row and a shade below 8 with row * 8 + shade = n, labelled "name-shade" |
| PaletteEdit.PalChoice | rat-salsa/examples/palette_edit5.rs:149-165 | `LEN` * 8 entries, entry n being `ChoiceEntry(n)` |
| PaletteEdit.PalChoiceHas | rat-salsa/examples/palette_edit5.rs:149-165 | every shade of every real row is offered, at index row * 8 + shade |
| PaletteEdit.PalChoiceLabelsDistinct | rat-salsa/examples/palette_edit5.rs:149-165 | no two choices share a label |
| FileDialog.ToOutcome | rat-widget/src/file_dialog.rs:300-311 | `Continue` and `Unchanged` map to themselves and are the only results of their kind; everything else reads as `Changed` |
| FileDialog.FromOutcome | rat-widget/src/file_dialog.rs:313-321 | an `Outcome` becomes one of the three plain dialog outcomes |
| FileDialog.FromBool | rat-widget/src/file_dialog.rs:324-332 | true is `Changed`, false `Unchanged`, and the event is always consumed |
| FileDialog.OutcomeRoundTrip | rat-widget/src/file_dialog.rs:300-321 | an outcome converted to the dialog's and back is unchanged |
| FileDialog.FileOutcomeRoundTrip | rat-widget/src/file_dialog.rs:300-321 | a dialog outcome survives the round trip exactly when it is one of the three plain ones |
| FileDialog.ConsumedPreserved | rat-widget/src/file_dialog.rs:294-321 | an outcome is consumed exactly when its converted form is not `Continue`, and the round trip keeps that |
| FileDialog.StartEditDir | rat-widget/src/file_dialog.rs:1282-1295 | when not editing, an empty entry is appended and editing starts (`Changed`); otherwise nothing changes (`Continue`) |
| FileDialog.CancelEditDir | rat-widget/src/file_dialog.rs:1297-1305 | when editing, exactly the last entry is removed and editing stops (`Changed`); otherwise nothing changes (`Continue`) |
| FileDialog.StartThenCancel | rat-widget/src/file_dialog.rs:1282-1305 | starting a new directory and cancelling it gives back the same state |
| FileDialog.LastDot | rat-widget/src/file_dialog.rs:1356 | the index of a dot with no dot after it, and none exactly when there is no dot |
| FileDialog.Extension | rat-widget/src/file_dialog.rs:1356 | no extension without a dot; otherwise the dot-free text after the last dot, which is not the first character |
| FileDialog.SaveName | rat-widget/src/file_dialog.rs:1354-1365 | for one file name: the default extension is appended after a dot exactly when the name has no extension and the default is present and non-empty |
| FileDialog.SavePath | rat-widget/src/file_dialog.rs:1354-1365 | a save name other than "." and "" is joined to the directory and given the default extension by that rule; "." and "" join to the directory itself, so its last component gets the extension, and a directory that ends in ".." or has no component is returned unchanged |
| FileDialog.ExtensionOfDotted | rat-widget/src/file_dialog.rs:1356 | a non-empty stem, a dot and a non-empty dot-free text have that text as their extension |
| FileDialog.SaveDotExtendsDirectory | rat-widget/src/file_dialog.rs:1354-1365 | saving "." with "md" in home/u/docs gives home/u/docs.md, a sibling of the directory; in home/u/docs.v2 it gives the directory unchanged |
| FileDialog.SavePathHasExtension | rat-widget/src/file_dialog.rs:1354-1365 | with a non-empty dot-free default extension, the saved path's last component always has an extension whenever there is a file name to carry one |
| FileDialog.ChooseSelected | rat-widget/src/file_dialog.rs:1333-1379 | Open returns the first selected file and OpenMany all selected files in the directory; Save returns the directory joined with the trimmed name and extended as `set_extension` does, the name "." extending the directory itself; Dir returns the selected directory, or the directory itself for ".."; a choice closes the dialog, no choice (`Continue`) changes nothing |
| FileDialog.SaveAddsExtension | rat-widget/src/file_dialog.rs:1354-1365 | saving "notes" with default extension "md" returns "notes.md" in the current directory |
| FileDialog.Handle | rat-widget/src/file_dialog.rs:1441-1445 | an inactive dialog returns `Continue` for every event |
| FileDialog.ChosenIgnoresEvents | rat-widget/src/file_dialog.rs:1333-1445 | once a file or directory is chosen the dialog ignores every further event |
| FileDialog.HasInitial | rat-widget/src/file_dialog.rs:1698-1703 | true exactly when some word (split on ' ', '_', '-') starts with a character that lower-cases to the key |
| FileDialog.Steps | rat-widget/src/file_dialog.rs:1687-1695 | the cyclic distance forward from the start, which is the full length only for the start itself |
| FileDialog.FindNextByKey | rat-widget/src/file_dialog.rs:1680-1711 | a result is never the start, its name has a word with the key's initial, and no name strictly between them (cyclically) has; nothing exactly when no other name has it |
| SplitTab.SetActiveSplit | rat-salsa/examples/mdedit.rs:1296-1313 | with no focused selected tab nothing changes; otherwise the remembered split is the first whose selected tab has the focus and the remembered tab is that selection; the flag is true exactly when either changed |
| SplitTab.SelectedPos | rat-salsa/examples/mdedit.rs:1429-1437 | a position exactly when a split is remembered and its tab bar has a selection, and then that position, which names an existing tab |
| SplitTab.Select | rat-salsa/examples/mdedit.rs:1391-1402 | an existing position becomes the remembered split and its bar's selection; any other position changes nothing |
| SplitTab.SelectNext | rat-salsa/examples/mdedit.rs:1404-1415 | true exactly when a remembered split has a successor, which then becomes remembered with a selection; otherwise nothing changes |
| SplitTab.SelectPrev | rat-salsa/examples/mdedit.rs:1417-1428 | true exactly when a remembered split has a predecessor, which then becomes remembered with a selection; otherwise nothing changes |
| SplitTab.SelectNextThenPrev | rat-salsa/examples/mdedit.rs:1404-1428 | moving to the next split and back returns to the same split with the same tabs |
| SplitTab.Open | rat-salsa/examples/mdedit.rs:1315-1332 | succeeds exactly for a position inside a split or the first tab of a new split after the last; the tab is inserted there, the selection moves with its tab or becomes the first tab, one tab more in total, all splits stay non-empty with in-range selections |
| SplitTab.OpenKeepsSelectedTab | rat-salsa/examples/mdedit.rs:1315-1332 | the tab selected before opening is still the selected one after |
| SplitTab.CloseWith | rat-salsa/examples/mdedit.rs:1334-1388 | a failed save of an existing tab is the only error; a position out of range changes nothing; otherwise one tab fewer, and the split is dropped exactly when it held only that tab |
| SplitTab.RemoveTab | rat-salsa/examples/mdedit.rs:1342-1362 | the tab is removed from its split, the bar's selection shifted, everything else kept and the state still well-formed |
| SplitTab.RemoveSplit | rat-salsa/examples/mdedit.rs:1364-1383 | the emptied split and its bar are removed, the remembered split shifted, and the state still well-formed |
| SplitTab.CloseShift | rat-salsa/examples/mdedit.rs:1347-1359 | as written: a selection after the removed index moves back one, at it moves back (none at 0), before it is kept except that 0 becomes none |
| SplitTab.CloseShiftFixed | rat-salsa/examples/mdedit.rs:1347-1359 | corrected: a selection before the removed index is always kept |
| SplitTab.CloseLaterTabDeselectsFirst | rat-salsa/examples/mdedit.rs:1334-1388 | as written, closing tab c of a, b, c with a selected leaves no tab selected |
| SplitTab.CloseFixedKeepsSelectedTab | rat-salsa/examples/mdedit.rs:1334-1388 | with the corrected shift, closing any tab but the selected one keeps the same tab selected |
| SplitTab.OpenThenClose | rat-salsa/examples/mdedit.rs:1315-1388 | opening a tab and closing it at the same position gives back the same tabs |
| TextLines.Offset | src/text_area.rs:948-957 | the index of a position in the flat text, where everything before it is the flat view of the text before it |
| TextLines.FlatGlue | src/text_area.rs:948-957 | joining two texts at a line joins their flat views |
| TextLines.FlatSplit | src/text_area.rs:948-957 | every valid position splits the flat text into the text before and after it |
| TextLines.DeleteFlat | src/text_area.rs:948-957 | removing a range from the lines removes exactly the slice between its offsets from the flat text |
| TextLines.InsertFlat | src/text_area.rs:963-992 | inserting a text at a position puts its flat view at that position's offset |
| TextLines.Slice | src/text_area.rs:963-992 | the text of a range, whose flat view is the slice between the range's offsets |
| TextLines.DeleteEmpty | src/textarea.rs:659-667 | removing an empty range would leave the text as it is |
| TextLines.StepChar | src/textarea.rs:671-690 | inside a line the next column is one grapheme further in the flat text |
| TextLines.StepBreak | src/textarea.rs:671-690 | from the end of a line that is not the last, the start of the next line is one break further |
| TextLines.OffsetMono | src/text_area.rs:948-957 | offsets follow the order of positions |
| TextLines.DeleteWholeLine | src/text_area.rs:996-1006 | the range from the start of a line to the start of the next removes that line |
| TextLines.InsertBreak | src/text_area.rs:917-946 | inserting a line break splits the line at the position |
| TextCursor.MoveLeft | src/textarea.rs:922-941 | never moves forward; at column 0 of a later line it goes to the end of the previous line; otherwise it goes back n columns, stopping at 0 |
| TextCursor.MoveRight | src/textarea.rs:945-964 | never moves backward; at a line end with a next line it goes to that line's start; otherwise it goes n columns right, stopping at the line end |
| TextCursor.MoveRightOneUnit | src/text_area.rs:1164-1181 | one step right crosses exactly one grapheme or line break, except at the end of the text |
| TextCursor.MoveLeftOneUnit | src/text_area.rs:1144-1160 | one step left crosses exactly one grapheme or line break, except at the start of the text |
| TextCursor.MoveLeftUndoesRight | src/text_area.rs:1144-1181 | a step left undoes a step right everywhere but at the end of the text |
| TextCursor.MoveRightUndoesLeft | src/text_area.rs:1144-1181 | a step right undoes a step left everywhere but at the start of the text |
| TextCursor.MoveUp | src/text_area.rs:1185-1199 | the row goes up n, stopping at 0, and the column is the remembered column (or the cursor's) clipped to that row's width |
| TextCursor.MoveDown | src/text_area.rs:1203-1217 | the row goes down n, stopping at the last line, and the column is the remembered column (or the cursor's) clipped to that row's width |
| TextCursor.MoveUpAsWritten | src/textarea.rs:968-984 | as written: the row goes up n, stopping at 0, and the column is clipped to the width of the line the cursor leaves |
| TextCursor.MoveDownAsWritten | src/textarea.rs:988-1004 | as written: the row goes down n, stopping at the last line, and the column is clipped to the width of the line the cursor leaves |
| TextCursor.MoveUpAsWrittenLeavesLine | src/textarea.rs:968-984 | as written, moving up from column 3 of "abc" onto an empty line gives column 3 of that line, which does not exist; the corrected move stays inside |
| TextCursor.MoveDownAsWrittenLeavesLine | src/textarea.rs:988-1004 | the same for moving down |
| TextCursor.MoveUpAgrees | src/textarea.rs:968-984 | where the target line is at least as wide as the line left and the column fits, both clippings agree |
| TextCursor.MoveDownThenUp | src/text_area.rs:1185-1217 | moving down n lines and back up with the column remembered returns to the start |
| TextCursor.DeleteNextRange | src/textarea.rs:671-690 | starts at the cursor and ends one step to the right; it is empty exactly at the end of the text |
| TextCursor.DeletePrevRange | src/textarea.rs:694-712 | ends at the cursor and starts one step to the left; it is empty exactly at (0, 0) |
| TextCursor.DeleteRange | src/textarea.rs:659-667 | true exactly for a non-empty range, which is then cut out of the flat text; an empty range leaves the text unchanged |
| TextCursor.DeleteNextChar | src/textarea.rs:671-690 | without a selection it reports a change exactly when the cursor is not at the end of the text |
| TextCursor.DeletePrevChar | src/textarea.rs:694-712 | without a selection it reports a change exactly when the cursor is not at (0, 0) |
| TextCursor.DeleteNextRemovesOne | src/textarea.rs:671-690 | without a selection, delete-next-char removes exactly the grapheme or line break after the cursor |
| TextCursor.DeletePrevRemovesOne | src/textarea.rs:694-712 | without a selection, delete-prev-char removes exactly the grapheme or line break before the cursor |
| TextCursor.ScreenToRow | src/textarea.rs:1124-1139 | rows above the area count back from the offset, stopping at 0; other rows are at most offset plus row; the result is a valid line for any row on or below the area, and for rows above it when the offset is a valid line |
| TextCursor.ScreenToRowOfVisible | src/text_area.rs:1334-1351 | a screen row showing a text line converts back to that line |
| TextCursor.ScrollToVisible | src/textarea.rs:1381-1406 | afterwards the cursor row is in [oy, oy+height) and its column in [ox, ox+width]; the offset is unchanged exactly when the cursor was already inside, and the flag says whether it changed |
| TextCursor.ScrollMinimal | src/text_area.rs:1592-1618 | no offset that shows the cursor is closer to the old offset, on either axis |
| TextWords.SkipFwd | src/textarea.rs:715-732 | the first index at or after the start whose character is not of the skipped kind, with every character skipped of that kind |
| TextWords.SkipBack | src/textarea.rs:793-809 | the last index at or before the start whose left neighbour is not of the skipped kind, with every character skipped of that kind |
| TextWords.NextWordStart | src/textarea.rs:715-732 | the walk over the characters stops where the whitespace after the position ends |
| TextWords.NextWordEnd | src/textarea.rs:735-758 | the walk skips the whitespace, then the word, and stops at the whitespace after it |
| TextWords.PrevWordStart | src/textarea.rs:763-788 | the backward walk skips the whitespace, then the word, and stops at the word's start |
| TextWords.PrevWordEnd | src/textarea.rs:793-809 | the backward walk stops where the whitespace before the position begins |
| TextWords.WordStart | src/textarea.rs:829-846 | the backward walk stops after the nearest whitespace before the position |
| TextWords.WordEnd | src/textarea.rs:848-864 | the walk stops at the nearest whitespace at or after the position |
| TextWords.SkipFwdBoundaries | src/textarea.rs:812-826 | a forward skip crosses no word boundary and, if it moved and did not hit the end, stops on one |
| TextWords.SkipBackBoundaries | src/textarea.rs:812-826 | a backward skip crosses no word boundary and, if it moved and did not hit the start, stops on one |
| TextWords.NextWordRange | src/textarea.rs:868-886 | the range delete-next-word removes is all whitespace or all word, and empty exactly at the end |
| TextWords.PrevWordRange | src/textarea.rs:895-913 | the range delete-prev-word removes is all whitespace or all word, and empty exactly at the start |
| TextWords.DeleteChars | src/textarea.rs:884-891 | true exactly for a non-empty range; the text before the range is kept and the text after it follows directly |
| TextWords.DeleteNextWordAlternates | src/textarea.rs:868-891 | from whitespace, a first delete-next-word removes the whitespace and a second removes the following word |
| TextAreaEdit.DeleteLine | src/text_area.rs:996-1006 | a line that is not the last is removed with its break; the last line is emptied, with a change reported exactly when it had content |
| TextAreaEdit.LeadingBlanks | src/text_area.rs:930-937 | the longest prefix of spaces and tabs |
| TextAreaEdit.InsertNewline | src/text_area.rs:917-946 | after removing the selection, the line splits at the position and the new line starts with the leading spaces and tabs of the line before it, the cursor behind them |
| TextAreaEdit.DuplicateText | src/text_area.rs:963-992 | a non-empty selection is repeated right after itself in the flat text; an empty one changes nothing; without a selection the line is repeated above itself, and the last line, whose range ends at the end of the text, is repeated on the same line |
| RatTextArea.TextWrapMargins | rat-text/src/text_area.rs:1928-1949 | Shift gives (shift, shift+w, shift+w), Hard (0, w, w) and Word(m) (0, w, w−m saturating); the right margin is always left plus w and the word margin between them |
| RatTextArea.CleanOffset | rat-text/src/text_area.rs:1047-1067 | a row offset past the text becomes 0; Shift keeps the column and has sub-row 0; wrap modes have column 0 and a sub-row clipped to the row's width |
| RatTextArea.CleanOffsetIdempotent | rat-text/src/text_area.rs:1047-1067 | storing a cleaned offset and cleaning again gives the same offset |
| RatTextArea.SetText | rat-text/src/text_area.rs:1411-1419 | the new text with both offsets, the sub-row offset and the remembered column reset and scroll-to-cursor off |
| RatTextArea.ScrollToPosShift | rat-text/src/text_area.rs:2664-2698 | with height at least 1 the row is on screen, with a usable width the column is inside it, and the flag is true exactly when the offset changed |
| RatTextArea.ScrollToPosShiftMinimal | rat-text/src/text_area.rs:2664-2745 | the offset changes exactly when the position was not already on screen |
| RatTextArea.ScrollToPosShiftStable | rat-text/src/text_area.rs:2664-2745 | scrolling to the same position again changes nothing |
| RatTextArea.MaxOffsets | rat-text/src/text_area.rs:426-450 | wrap modes get horizontal maximum 0 and vertical maximum lines−1; Shift keeps the widget's horizontal maximum and gets lines−height (saturating) |
| RatTextArea.ShiftMaxShowsLastLine | rat-text/src/text_area.rs:438-450 | in Shift mode a page at the vertical maximum shows the last line |
| RatTextArea.PosToLineStartShift | rat-text/src/text_area.rs:2017-2023 | the start of p's line, which comes before every position of that line |
| RatTextArea.Clear | rat-text/src/text_area.rs:1398-1405 | the text ends empty and true is reported exactly when it was not empty before |
| RatTextArea.PlanInsertChar | rat-text/src/text_area.rs:1444-1460 | the selection is wrapped exactly when it is non-empty, auto-quote is on and the character is one of ' " ` < [ ( { |
| RatTextArea.ReplaceWithChar | rat-text/src/text_area.rs:1462-1490 | the selection's slice of the flat text is replaced by the character, or by a line break for '\n' |
| RatTextInput.MoveRight | rat-text/src/text_input.rs:1281-1284 | one column right, stopping at the length |
| RatTextInput.MoveLeft | rat-text/src/text_input.rs:1288-1291 | one column left, stopping at 0 |
| RatTextInput.MoveLeftUndoesRight | rat-text/src/text_input.rs:1281-1291 | a step left undoes a step right before the end |
| RatTextInput.ScrollToCursor | rat-text/src/text_input.rs:285-306 | with a width w > 0 afterwards offset ≤ cursor < offset+w, and the offset is kept exactly when that already held; with no width nothing changes |
| RatTextInput.ScrollToCursorStable | rat-text/src/text_input.rs:285-306 | a second render keeps the offset |
| RatTextInput.ScreenToCol | rat-text/src/text_input.rs:1380-1403 | an `i16` overflow of the screen column plus the dark offset is the error; left of the area it counts back from the offset, stopping at 0; at or right of the width it is min(offset+x, len); for a line laid out contiguously from column 0 and closed by a line break the result is at most the length |
| RatTextInput.ColAtBound | rat-text/src/text_input.rs:1392-1400 | the glyph search over a laid-out line never passes the length, because the closing line break covers every column right of the text |
| RatTextInput.ScreenToColOfGlyph | rat-text/src/text_input.rs:1380-1403 | the screen column of a shown glyph of a laid-out line converts back to that glyph's text column |
| RatTextInput.ScreenToColPastText | rat-text/src/text_input.rs:1380-1403 | for "ab" a click right of the text inside the area lands on the closing line break, column 2 |
| RatTextInput.Selection | rat-text/src/text_input.rs:840-849 | the select-all sentinel (0, 1) at either end stands for the line width; the columns stay within the width |
| RatTextInput.TryDeleteRange | rat-text/src/text_input.rs:1124-1133 | true exactly for a non-empty range, which is cut out of the text |
| RatTextInput.Clear | rat-text/src/text_input.rs:1053-1061 | an empty text reports false and keeps the offset; otherwise the text empties, the offset resets to 0 and true is reported |
| RatTextInput.InsertCharAsWritten | rat-text/src/text_input.rs:1083-1098 | as written: the selection is removed first; '\n' then reports false, any other character is inserted where the selection started |
| RatTextInput.NewlineDeletesSelectionUnreported | rat-text/src/text_input.rs:1083-1098 | as written, '\n' with a, b selected leaves an empty text and reports no change |
| RatTextInput.InsertChar | rat-text/src/text_input.rs:1083-1098 | corrected: '\n' changes nothing and reports false; any other character replaces the selection and reports true |
| RatTextInput.InsertCharAgrees | rat-text/src/text_input.rs:1083-1098 | the corrected insert agrees with the one as written except for '\n' with a selection |
| RatTextInput.CopyToClip | rat-text/src/text_input.rs:622-632 | never reports a change; the selection reaches the clipboard exactly when there is one and the input is not a password field |
| RatTextInput.CutToClip | rat-text/src/text_input.rs:636-648 | without a clipboard or in password mode nothing happens; the selection is cut, with true, exactly when the clipboard took it and it was non-empty |
| MaskKind.IsLtor | rat-text/src/text_mask_core.rs:2161-2183 | the terminator is neither direction; fields, separators and the decimal separator edit left to right, the grouping separator and the two sign kinds do not |
| MaskKind.IsRtol | rat-text/src/text_mask_core.rs:2187-2209 | right to left is exactly "not left to right and not the terminator", so every editable token has exactly one direction |
| MaskKind.IsNumber | rat-text/src/text_mask_core.rs:2213-2225 | a number token is never a field, a separator or the terminator |
| MaskKind.IsFraction | rat-text/src/text_mask_core.rs:2238-2244 | a fraction token is exactly a digit kind written left to right |
| MaskKind.SubSection | rat-text/src/text_mask_core.rs:2248-2279 | group 12 is the terminator alone, group 11 the separators alone, and group 0 exactly the digit kinds and the grouping separator |
| MaskKind.Section | rat-text/src/text_mask_core.rs:2283-2307 | section 0 holds exactly the number tokens, 1 the fields, 2 the separators and 3 the terminator |
| MaskKind.SubSectionRefinesSection | rat-text/src/text_mask_core.rs:2248-2307 | tokens in the same sub-section group are in the same section group, so sub-sections nest in sections |
| MaskKind.EditValue | rat-text/src/text_mask_core.rs:2386-2408 | a separator shows its own text and the terminator nothing; every other token shows one grapheme, "0" for the zero-showing fields, "." for the decimal separator, "+" for the plus sign |
| MaskKind.CanDrop | rat-text/src/text_mask_core.rs:2360-2382 | the decimal separator, signs, separators and the terminator are never dropped; a grouping separator always is |
| MaskKind.CanDropIsEditValue | rat-text/src/text_mask_core.rs:2360-2408 | apart from grouping separators, a grapheme can be dropped only when it is the token's edit value, and every token that may drop at all drops its edit value |
| MaskKind.CanOverwrite | rat-text/src/text_mask_core.rs:2336-2356 | digits, grouping separators and the terminator are never overwritten; a separator is overwritten exactly by its own text and a sign cell exactly by "-" or a blank |
| MaskKind.NextDir | rat-text/src/text_mask_core.rs:145-174 | a decimal separator switches the parser to left to right, a field or separator back to right to left, and the other tokens keep the direction |
| MaskKind.ParseGraphemeAccepts | rat-text/src/text_mask_core.rs:112-143 | an accepted grapheme becomes a separator holding it only when it is not a mask character, every other token is the one its mask character names, and a digit token carries the current direction |
| MaskKind.ParseGraphemeEnd | rat-text/src/text_mask_core.rs:112-143 | the terminator comes exactly from the empty grapheme |
| MaskKind.ParseGraphemeRejects | src/text_mask_core.rs:114-146 | a grapheme is refused exactly when it is non-empty, no mask character and no blank, and (in the older engines) also none of ";", ":", "/" and ASCII |
| MaskParse.Lex | rat-text/src/text_mask_core.rs:112-174 | the token list has at most one token per grapheme, and is non-empty when the last grapheme is not a backslash |
| MaskParse.Prepend | rat-text/src/text_mask_core.rs:112-143 | a token in front of a parse succeeds exactly when the parse does and then adds that token first |
| MaskParse.LexEnd | rat-text/src/text_mask_core.rs:112-143 | the chained empty grapheme alone parses to the terminator alone |
| MaskParse.LexWellDirected | rat-text/src/text_mask_core.rs:145-174 | in every parsed list each digit token carries the direction in force at its place |
| MaskParse.WellDirectedCons | rat-text/src/text_mask_core.rs:145-174 | a correctly directed token in front of a list directed from its successor direction gives a directed list |
| MaskParse.DirAfterLtor | rat-text/src/text_mask_core.rs:145-174 | after a prefix the direction is left to right exactly when the prefix holds a decimal separator followed by no field and no separator |
| MaskParse.DirAfterSnoc | rat-text/src/text_mask_core.rs:145-174 | the direction after a prefix and one more token is that token's step from the prefix's direction |
| MaskParse.TrailingEscapes | rat-text/src/text_mask_core.rs:137-140 | the count is of the backslashes that end the mask and stops at the first other grapheme |
| MaskParse.EndsByParityCons | rat-text/src/text_mask_core.rs:112-143 | a token in front keeps how the list ends |
| MaskParse.LexTerminator | rat-text/src/text_mask_core.rs:112-143 | a parsed mask ends with the terminator when it ends in an even number of backslashes, and with an empty separator when the number is odd |
| MaskParse.TerminatorAlone | rat-text/src/text_mask_core.rs:112-143 | the empty grapheme alone parses, to the terminator, or to an empty separator when an escape is pending |
| MaskParse.TerminatorAfterEscaped | rat-text/src/text_mask_core.rs:113-116 | the ending rule carries over a grapheme taken as an escaped separator |
| MaskParse.TerminatorAfterEscape | rat-text/src/text_mask_core.rs:137-140 | the ending rule carries over a backslash that starts an escape |
| MaskParse.TerminatorAfterToken | rat-text/src/text_mask_core.rs:117-141 | the ending rule carries over an ordinary token |
| MaskParse.TrailingEscapesTail | rat-text/src/text_mask_core.rs:137-140 | dropping the first grapheme keeps the trailing backslashes unless the mask is only backslashes |
| MaskParse.LexPlainAccepts | rat-text/src/text_mask_core.rs:112-143 | a mask without backslashes parses exactly when every grapheme is accepted on its own |
| MaskParse.LexPlainTokens | rat-text/src/text_mask_core.rs:112-174 | without backslashes the list has one token per grapheme, each the one the table gives in the direction the tokens before it leave |
| MaskParse.ParseGraphemeAnyDir | rat-text/src/text_mask_core.rs:112-143 | whether a grapheme is accepted does not depend on the direction |
| MaskParse.DisplayToken | rat-text/src/text_mask_core.rs:2078-2104 | a separator is written as a backslash and its text, the terminator as nothing, every other token as its mask character |
| MaskParse.DisplayRoundTrip | rat-text/src/text_mask_core.rs:222-230 | writing a terminated, correctly directed token list with `mask()` and parsing the result gives the same list back |
| MaskParse.WellDirectedTail | rat-text/src/text_mask_core.rs:145-174 | the first token of a directed list carries the start direction, and the rest is directed from its step |
| MaskParse.RoundTripStep | rat-text/src/text_mask_core.rs:2078-2104 | one token written in front of a round-tripping list round-trips with it |
| MaskParse.ParseMaskChar | rat-text/src/text_mask_core.rs:112-143 | a token's mask character parses back to that token in its direction |
| MaskParse.OldDisplayToken | src/text_mask_core.rs:1735-1781 | the older display writes a backslash only in front of a separator that is a mask character; other tokens as the newer one |
| MaskParse.OldDisplayLosesEscape | src/text_mask_core.rs:1735-1781 | the mask "\x" parses to the separator x, the older display writes it back as "x", and "x" does not parse, while the newer display round-trips |
| MaskParse.GroupStart | rat-text/src/text_mask_core.rs:176-191 | a group starts at the last boundary at or before the token, or at 0, with no boundary in between |
| MaskParse.GroupEnd | rat-text/src/text_mask_core.rs:176-216 | a group ends at the next boundary after the token, or at the value the final fill gives, with no boundary in between |
| MaskParse.CountBoundaries | rat-text/src/text_mask_core.rs:176-184 | the id counter never exceeds the number of tokens seen |
| MaskParse.Tokens | rat-text/src/text_mask_core.rs:193-203 | one token per parsed mask, holding the mask, the one left of it (the terminator first) and its edit value |
| MaskParse.ParseMaskAsWritten | rat-text/src/text_mask_core.rs:102-219 | as written: the mask parses exactly when its graphemes lex, giving between one token and one per grapheme plus the terminator |
| MaskParse.ParseMask | rat-text/src/text_mask_core.rs:102-219 | corrected: the same acceptance, and every group ends at or before the terminator's position |
| MaskParse.GroupEndBound | rat-text/src/text_mask_core.rs:176-216 | with the final groups closed at the terminator no group ends past it |
| MaskParse.ParseMaskAgrees | rat-text/src/text_mask_core.rs:205-216 | without backslashes the written and the corrected parser give the same tokens |
| MaskParse.EscapeStretchesLastGroup | rat-text/src/text_mask_core.rs:205-216 | for "\-9" the written parser closes the terminator's group at 3, past the two-grapheme value; the corrected one at 2 |
| MaskParse.GroupContains | rat-text/src/text_mask_core.rs:176-216 | every token before the terminator lies inside its own group, which ends at or before the terminator |
| MaskParse.TerminatorGroup | rat-text/src/text_mask_core.rs:176-216 | the terminator is an empty group at the end of the value |
| MaskParse.GroupShared | rat-text/src/text_mask_core.rs:176-191 | tokens with no boundary between them record the same group and the same key |
| MaskParse.SeparatorAlone | rat-text/src/text_mask_core.rs:176-191 | a separator is a group of its own one token |
| MaskParse.IdStep | rat-text/src/text_mask_core.rs:176-184 | the group id grows by one exactly at a boundary |
| MaskParse.SectionBoundaryIsSub | rat-text/src/text_mask_core.rs:176-191 | every section boundary is a sub-section boundary |
| MaskParse.SubNested | rat-text/src/text_mask_core.rs:176-216 | a token's sub-section lies inside its section |
| RatMask.Edits | rat-text/src/text_mask_core.rs:2429-2435 | one edit value per token, in order, each the token's own |
| RatMask.DefaultText | rat-text/src/text_mask_core.rs:996-998 | the default value fits the mask (one grapheme per token before the terminator) and spells the concatenated edit values |
| RatMask.DefaultIsEmpty | rat-text/src/text_mask_core.rs:630-632 | the default value reads as empty |
| RatMask.Fit | rat-text/src/text_mask_core.rs:1021-1034 | the result has exactly n graphemes: the text's first n, or the whole text followed by blanks |
| RatMask.FitIdempotent | rat-text/src/text_mask_core.rs:1021-1034 | fitting keeps a text exactly when it already has the length, so fitting twice is fitting once |
| RatMask.SetText | rat-text/src/text_mask_core.rs:1021-1034 | the stored text has one grapheme per token before the terminator (the source's assertion), so it fits the mask |
| RatMask.SetTextIdempotent | rat-text/src/text_mask_core.rs:1021-1034 | setting the text twice is setting it once, and a text is kept exactly when it already fits |
| RatMask.NumberCursor | rat-text/src/text_mask_core.rs:375-391 | the cursor lies in the range, right after a right-to-left digit unless it is the range's start, with no right-to-left digit from it to the range's end |
| RatMask.CursorIn | rat-text/src/text_mask_core.rs:395-411 | the default cursor of a token lies inside that token's section |
| RatMask.SectionCursor | rat-text/src/text_mask_core.rs:395-411 | there is a cursor exactly for an editable token inside the mask, and it lies inside that token's section |
| RatMask.SectionRange | rat-text/src/text_mask_core.rs:483-498 | there is a range exactly for an editable token inside the mask, and it contains the token and ends before the terminator |
| RatMask.NextSectionStart | rat-text/src/text_mask_core.rs:414-439 | the section the loop finds starts after the given token, is editable and begins at its own section start |
| RatMask.SkipSeparators | rat-text/src/text_mask_core.rs:426-432 | the first non-separator at or after k, with only separators passed on the way |
| RatMask.NextSectionSkipsSeparators | rat-text/src/text_mask_core.rs:414-439 | the next editable section is found at the first non-separator after the current section, and there is none when that is the terminator |
| RatMask.PrevSectionFrom | rat-text/src/text_mask_core.rs:442-466 | the section the loop finds lies before the start position, is editable and begins at its own section start |
| RatMask.LastKept | rat-text/src/text_mask_core.rs:442-466 | the last non-separator before p, with only separators after it up to p |
| RatMask.PrevSectionIsLastKept | rat-text/src/text_mask_core.rs:442-466 | from a section start the previous editable section is the one holding the last non-separator before it, or none |
| RatMask.NextSectionCursor | rat-text/src/text_mask_core.rs:414-439 | a cursor past the mask has no next section; a next-section cursor lies right of the given one |
| RatMask.NextSectionRange | rat-text/src/text_mask_core.rs:501-526 | a next range lies right of the cursor and before the terminator, and exists exactly when the next-section cursor does |
| RatMask.PrevSectionCursor | rat-text/src/text_mask_core.rs:442-466 | a cursor past the mask has no previous section; a previous-section cursor lies at or before the current section's start |
| RatMask.PrevSectionRange | rat-text/src/text_mask_core.rs:529-552 | a previous range is non-empty and ends at or before the current section's start, and exists exactly when the previous-section cursor does |
| RatMask.SectionsOrdered | rat-text/src/text_mask_core.rs:176-184 | a section that starts before a boundary ends at or before it |
| RatMask.IsSectionBoundary | rat-text/src/text_mask_core.rs:469-479 | a position is a section boundary exactly when it lies strictly inside the mask and a new section starts there |
| RatMaskEdit.SignToggle | rat-text/src/text_mask_core.rs:1575-1591 | the new cell content is "-" exactly when the old was not; a plus cell alternates "-" and "+", any other cell "-" and a blank |
| RatMaskEdit.SignToggleTwice | rat-text/src/text_mask_core.rs:1575-1591 | on a cell that shows a sign state, toggling twice restores it |
| RatMaskEdit.FirstSignToken | rat-text/src/text_mask_core.rs:1508-1513 | the first explicit sign token of the section, with none before it |
| RatMaskEdit.FirstSignGrapheme | rat-text/src/text_mask_core.rs:1515-1528 | the first cell of the section showing "-" or "+", with none before it |
| RatMaskEdit.LastFreeNumeric | rat-text/src/text_mask_core.rs:1530-1551 | the last right-to-left numeric cell of the section that can take the sign, with none after it |
| RatMaskEdit.SignCell | rat-text/src/text_mask_core.rs:1508-1551 | the cell found lies in the section and, when neither an explicit sign nor a shown sign exists, is a free numeric cell; the downward scan underflows (a panic) exactly when the section starts at 0 and no cell is found |
| RatMaskEdit.SignTokenAt | rat-text/src/text_mask_core.rs:1503-1506 | the token used is the cursor's, or the one left of it exactly when a number ends at the cursor and a left-to-right token or the terminator follows |
| RatMaskEdit.InsertSign | rat-text/src/text_mask_core.rs:1499-1605 | the text keeps its length; without a change it is unchanged; a change toggles exactly one sign-holding cell, the one the sign-cell search picks inside the cursor's section, and happens only for the negative symbol or '-'; the error is exactly the search running below 0 or a found cell that cannot hold a sign |
| RatMaskEdit.SectionWithin | rat-text/src/text_mask_core.rs:176-216 | a token's section ends at or before the terminator |
| RatMaskEdit.FirstSignSlot | rat-text/src/text_mask_core.rs:1215-1234 | the first cell of the section that is a sign token or a right-to-left numeric, with none before it |
| RatMaskEdit.CanInsertSign | rat-text/src/text_mask_core.rs:1198-1237 | the guard admits only a minus character on a number section |
| RatMaskEdit.GuardedInsertSign | rat-text/src/text_mask_core.rs:1198-1237 | behind its guard, and with signs only in cells that may hold them, `insert_sign` neither panics nor underflows and reports a change |
| RatMaskEdit.ZeroFill | rat-text/src/text_mask_core.rs:1952-1986 | only the range changes; there every cell is kept or a blank turned into "0", and no zero-showing field is left blank |
| RatMaskEdit.ZeroFillIdempotent | rat-text/src/text_mask_core.rs:1952-1986 | filling twice is filling once |
| RatMaskEdit.Reformat | rat-text/src/text_mask_core.rs:1886-1987 | only the range changes, and each of its cells is kept or a blank filled with "0" |
| RatMaskEdit.ReformatDefault | rat-text/src/text_mask_core.rs:1886-1987 | a range holding its edit values is already formatted |
| RatMaskEdit.Splice | rat-text/src/text_mask_core.rs:1746-1775 | the text with [s, e) replaced and everything else kept |
| RatMaskEdit.SpliceReformat | rat-text/src/text_mask_core.rs:1886-1987 | a rewritten sub-section, once reformatted, holds what was written up to the zero fill |
| RatMaskEdit.SubWithin | rat-text/src/text_mask_core.rs:176-216 | a token before the terminator lies in its sub-section, which ends before the terminator |
| RatMaskEdit.ShiftInRtol | rat-text/src/text_mask_core.rs:1633-1638 | the grapheme at d leaves the range, what stood left of it moves one cell right, and the first token's edit value enters at the start |
| RatMaskEdit.ShiftInLtor | rat-text/src/text_mask_core.rs:1655-1661 | the grapheme at d leaves the range, what stood right of it moves one cell left, and the last token's edit value enters at the end |
| RatMaskEdit.RemovePrev | rat-text/src/text_mask_core.rs:1608-1670 | at 0 nothing happens; otherwise only the sub-section left of the cursor changes, a right-to-left cursor stays unless that sub-section was empty (then it goes to its start), and a left-to-right cursor steps left |
| RatMaskEdit.RemovePrevShiftsRtol | rat-text/src/text_mask_core.rs:1617-1650 | right to left, the fill enters at the sub-section's start, the graphemes left of the removed one move one cell right and those after the cursor stay, up to the zero fill |
| RatMaskEdit.RemovePrevShiftsLtor | rat-text/src/text_mask_core.rs:1652-1669 | left to right, the graphemes left of the removed one stay, those right of it move one cell left, and the fill enters at the end, up to the zero fill |
| RatMaskEdit.RemoveNext | rat-text/src/text_mask_core.rs:1673-1732 | at the end nothing happens; otherwise only the cursor's sub-section changes, a right-to-left cursor steps right, and a left-to-right cursor stays unless the sub-section was empty (then it goes to its end) |
| RatMaskEdit.Refill | rat-text/src/text_mask_core.rs:1744-1775 | the sub-section without [a, b), closed up and refilled with edit values at its start (right to left) or its end (left to right) |
| RatMaskEdit.WalkStep | rat-text/src/text_mask_core.rs:1784-1872 | one round of the loop changes only the sub-section of pos |
| RatMaskEdit.RemoveWalk | rat-text/src/text_mask_core.rs:1783-1878 | the loop leaves everything before the first sub-section it touches and after the last one unchanged |
| RatMaskEdit.WalkKeepsPrefix | rat-text/src/text_mask_core.rs:1783-1878 | later rounds keep what an earlier round kept before its sub-section |
| RatMaskEdit.WalkKeepsSuffix | rat-text/src/text_mask_core.rs:1783-1878 | what the first round keeps after its sub-section, later points keep too |
| RatMaskEdit.SameSubSection | rat-text/src/text_mask_core.rs:176-216 | a position inside a sub-section shares that sub-section's end |
| RatMaskEdit.SubEndMonotone | rat-text/src/text_mask_core.rs:176-216 | sub-section ends grow with the position |
| RatMaskEdit.RemoveRange | rat-text/src/text_mask_core.rs:1735-1882 | a range past the text is an error; the text keeps its length; a change is reported exactly for a non-empty range; an empty range changes nothing; only the sub-sections from the range's start to its end change |
| RatMaskEdit.RemoveRangeInSubRtol | rat-text/src/text_mask_core.rs:1746-1760 | right to left inside one sub-section: edit values fill the start, the graphemes before the range move right by its length and those after it stay, up to the zero fill |
| RatMaskEdit.RemoveRangeInSubLtor | rat-text/src/text_mask_core.rs:1761-1775 | left to right inside one sub-section: the graphemes before the range stay, those after it move left by its length, and edit values fill the end, up to the zero fill |
| RatMaskEdit.RemoveWholeSubSection | rat-text/src/text_mask_core.rs:1735-1882 | removing a whole sub-section resets it to its edit values, leaves the rest alone and reports a change |
| MaskedInput.SectionIdCovers | rat-text/src/text_input_mask.rs:1216-1223 | the id reported for a cursor is its token's section, or, at the gap right of a number, the section that ends there |
| MaskedInput.SectionIdAtGap | rat-text/src/text_input_mask.rs:1216-1223 | at the gap between a right-to-left number and a left-to-right token the id is the number's, whose section reaches the cursor |
| MaskedInput.FirstOfSection | rat-text/src/text_input_mask.rs:1449-1461 | the first token at or after the start with the given section id (no earlier one has it), or none exactly when no token has it |
| MaskedInput.SectionText | rat-text/src/text_input_mask.rs:1449-1461 | an unknown section id is the error (the source panics); a known one gives its section's text |
| MaskedInput.SetSectionText | rat-text/src/text_input_mask.rs:1465-1492 | an unknown id is the error; otherwise the text still fits the mask and only that section changes |
| MaskedInput.SetSectionTextReads | rat-text/src/text_input_mask.rs:1449-1492 | reading a section after setting it gives the new text cut or padded to the section's length |
| MaskedInput.SetSectionTextOwn | rat-text/src/text_input_mask.rs:1449-1492 | writing a section's own text back changes nothing |
| MaskedInput.Spaces | rat-text/src/text_input_mask.rs:1430-1434 | n blanks |
| MaskedInput.Align | rat-text/src/text_input_mask.rs:1430-1434 | `format!` with a width pads: the result is as long as the longer of the value and the width |
| MaskedInput.SetSectionValue | rat-text/src/text_input_mask.rs:1417-1441 | an unknown id is the error; otherwise the text still fits the mask |
| MaskedInput.SetSectionValueAligns | rat-text/src/text_input_mask.rs:1417-1441 | the section then holds the value cut to its length, or padded with blanks on the left for a right-to-left section and on the right otherwise |
| MaskedInput.SelRange | rat-text/src/text_input_mask.rs:1327-1336 | the selection as an ordered range inside the text; a select-all is the whole text |
| MaskedInput.SetCursor | rat-text/src/text_input_mask.rs:1102-1106 | the cursor goes to c, the anchor stays when extending and follows otherwise, and a change is reported exactly when the selection differs |
| MaskedInput.MoveRight | rat-text/src/text_input_mask.rs:1789-1792 | one cell right, stopping at the end, and the selection stays inside the text |
| MaskedInput.MoveLeft | rat-text/src/text_input_mask.rs:1796-1799 | one cell left, stopping at 0, and the selection stays inside the text |
| MaskedInput.MoveLeftUndoesRight | rat-text/src/text_input_mask.rs:1789-1799 | a step left undoes a step right before the end |
| MaskedInput.MoveReportsChange | rat-text/src/text_input_mask.rs:1789-1799 | a move reports a change exactly when the cursor could move |
| MaskedInput.SelectAllAsWritten | rat-text/src/text_input_mask.rs:1350-1364 | as written: the selection stays inside the text, and outside an editable section everything is selected |
| MaskedInput.SelectAllWalksOn | rat-text/src/text_input_mask.rs:1350-1364 | as written, on "99ll" a first select-all selects 0..2 and a second selects the next section 2..4 instead of everything |
| MaskedInput.SelectAll | rat-text/src/text_input_mask.rs:1350-1364 | corrected: without a selection it acts as written, and the selection stays inside the text |
| MaskedInput.SelectAllTwice | rat-text/src/text_input_mask.rs:1350-1364 | corrected: in an editable section the first select-all selects the section and the second everything |
| MaskedInput.DefaultCursor | rat-text/src/text_input_mask.rs:1302-1311 | the default cursor lies in the text |
| MaskedInput.DefaultCursorFirstEditable | rat-text/src/text_input_mask.rs:1302-1311 | the default cursor is 0 when the mask has no editable token, and otherwise lies in the section of the first token that is not a separator |
| MaskedInput.SetValue | rat-text/src/text_input_mask.rs:1673-1688 | the text then fits the mask, the cursor lies in it, the offset is 0, and a text of the right length is kept as it is |
| MaskedInput.Clear | rat-text/src/text_input_mask.rs:1647-1657 | afterwards the value is empty; a change is reported exactly when it was not, and otherwise nothing changes; after a change the offset is 0 |
| MaskedInput.ClearTwice | rat-text/src/text_input_mask.rs:1647-1657 | a second clear reports no change and keeps the text |
| MaskedInput.DeleteRange | rat-text/src/text_input_mask.rs:1710-1727 | a range past the text is the error; the text still fits the mask; a change is reported exactly for a non-empty range; an empty range keeps the text |
| MaskedInput.DeletePrevChar | rat-text/src/text_input_mask.rs:1747-1757 | with a selection the selection is removed; at 0 nothing happens and false is reported; otherwise a change is reported; the text always fits the mask |
| MaskedInput.DeleteNextChar | rat-text/src/text_input_mask.rs:1733-1743 | with a selection the selection is removed; at the end nothing happens and false is reported; otherwise a change is reported; the text always fits the mask |
| MaskedInput.DeletePrevCharLocal | rat-text/src/text_input_mask.rs:1747-1757 | deleting the character before the cursor changes only its sub-section |
| MaskedInput.Navigable | rat-text/src/text_input_mask.rs:587-612 | the focus mode is one of the four reach modes |
| MaskedInput.NavigableLeavesForward | rat-text/src/text_input_mask.rs:587-612 | the focus leaves forward exactly when the selection ends at the text's end or only separators lie between its section's end and the terminator |
| MaskedInput.NavigableLeavesBackward | rat-text/src/text_input_mask.rs:587-612 | the focus leaves backward exactly when only separators lie before the section left of the selection's start |
| OldMaskCore.FirstDecimalSep | src/text_mask_core.rs:381-386 | the first decimal separator at or after i, with none before it |
| OldMaskCore.FirstField | src/text_mask_core.rs:400-418 | the first field token at or after i, with none before it |
| OldMaskCore.OldDefaultCursor | src/text_mask_core.rs:379-423 | the default cursor lies in the text |
| OldMaskCore.OldDefaultCursorPriority | src/text_mask_core.rs:379-423 | the default cursor is the first decimal separator; else the position after the last right-to-left digit; else the first field; else 0 |
| OldMaskCore.OldSignCell | src/text_mask_core.rs:1169-1210 | the index found lies before the section's end, and for a section that starts at 0 it is the one the corrected search finds |
| OldMaskCore.InsertSignAsWritten | src/text_mask_core.rs:1161-1267 | as written: the text keeps its length, and a change toggles exactly one cell that can hold a sign; reaching `unreachable!` is the error |
| OldMaskCore.OldInsertSignAtStart | src/text_mask_core.rs:1161-1267 | for a number at the start of the mask the written version agrees with the corrected one |
| OldMaskCore.OldInsertSignPanics | src/text_mask_core.rs:1161-1267 | in the mask "l -99" the guard admits '-' at cursor 3, but the written version reads index 0, a letter, and panics; the corrected one toggles the sign at 2 |
| MaskedInputCore.SetCursor | src/text/maskedinput_core.rs:648-658 | the value is kept, the cursor is pos clamped to the length, the anchor stays when extending and follows otherwise, and a change is reported exactly when something changed |
| MaskedInputCore.SetCursorTwice | src/text/maskedinput_core.rs:648-658 | setting the cursor again to the same place changes nothing and reports so |
| MaskedInputCore.Selection | src/text/maskedinput_core.rs:798-804 | the ordered pair of cursor and anchor, non-empty exactly when there is a selection |
| MaskedInputCore.SelectAll | src/text/maskedinput_core.rs:787-794 | the whole value is selected and a change is reported exactly when it was not already |
| MaskedInputCore.SelectAllTwice | src/text/maskedinput_core.rs:787-794 | a second select-all reports no change |
| MaskedInputCore.DefaultCursor | src/text/maskedinput_core.rs:664-676 | the first decimal separator when there is one, else 0 |
| MaskedInputCore.PadSpaces | src/text/maskedinput_core.rs:708-711 | the value followed by blanks up to n |
| MaskedInputCore.SetValueAsWritten | src/text/maskedinput_core.rs:696-718 | as written: a value longer than the mask fails the length assertion (the error); a shorter one is padded, and the cursor is clamped while the anchor stays |
| MaskedInputCore.SetValue | src/text/maskedinput_core.rs:696-718 | corrected: the value is the one `set_text` gives, cut or padded, so it fits the mask; it agrees with the written version whenever that does not fail, and keeps the core valid |
| MaskedInputCore.SetValueTooLongPanics | src/text/maskedinput_core.rs:696-718 | with the mask "9" the value "12" fails as written, while the corrected version stores "1" |
| MaskedInputCore.IsEmptyZipIsDefault | src/text/maskedinput_core.rs:753-760 | for a fitting value, the pairwise test holds exactly when the value is the default value, and then the value is empty in the sense the other engines use |
| MaskedInputCore.Clear | src/text/maskedinput_core.rs:745-748 | the value becomes empty, cursor and anchor go to the default cursor, and setting the default value never fails |
| MaskedInputCore.CanSkip | src/text/maskedinput_core.rs:424-446 | the terminator and grouping separators are always skipped; zero-showing fields, decimal separator, signs, any-character fields and separators never are |
| MaskedInputCore.CanSkipIsBlankEdit | src/text/maskedinput_core.rs:424-471 | any other skippable grapheme is a blank that is its token's edit value |
| MaskedInputCore.CompactValue | src/text/maskedinput_core.rs:943-951 | the compact value is no longer than the value and holds only graphemes of it |
| MaskedInputCore.CompactAppend | src/text/maskedinput_core.rs:943-951 | compacting distributes over aligned concatenation |
| MaskedInputCore.CompactOne | src/text/maskedinput_core.rs:943-951 | one grapheme is kept exactly when its token cannot skip it |
| MaskedInputCore.CompactKeepsAll | src/text/maskedinput_core.rs:943-951 | a value with nothing skippable is its own compact value |
| MaskedInputCore.MergeLetters | src/text/maskedinput_core.rs:315-346 | merging the letter kinds keeps section, direction, separator-ness and terminator-ness |
| MaskedInputCore.SectionKeyMerged | src/text/maskedinput_core.rs:315-346 | this engine's section table groups two tokens together exactly when the fine table groups their merged kinds together |
| MaskedInputCore.Merged | src/text/maskedinput_core.rs:2000-2124 | the merged list has the same length, merges each token and stays terminated |
| MaskedInputCore.MWithin | src/text/maskedinput_core.rs:2000-2124 | a token lies in its section, which ends at or before the terminator, and a token before the terminator ends before its section's end |
| MaskedInputCore.MapInputC | src/text/maskedinput_core.rs:1392-1423 | tokens other than numbers, the decimal separator and signs keep the input; the locale's negative symbol becomes "-" in numeric and sign cells |
| MaskedInputCore.InsertLtor | src/text/maskedinput_core.rs:1590-1627 | the value keeps its length; without a change nothing moves; a change needs a character the token accepts, stores it translated at the cursor, steps the cursor and changes only the rest of the cursor's section |
| MaskedInputCore.UpdateOutside | src/text/maskedinput_core.rs:1595-1608 | overwriting one cell keeps everything outside its section |
| MaskedInputCore.InsertLtorShifts | src/text/maskedinput_core.rs:1610-1624 | when the cell is not overwritten, the section's last grapheme was droppable and the graphemes from the cursor move one cell right |
| MaskedInputCore.RtolTokenAt | src/text/maskedinput_core.rs:1632-1636 | the token used is the cursor's, or the one left of it exactly when a right-to-left section ends at the cursor and a left-to-right token or the terminator follows |
| MaskedInputCore.InsertRtol | src/text/maskedinput_core.rs:1631-1661 | the value keeps its length; without a change it is unchanged; a change needs an accepted character and a droppable first cell, and replaces only the section with the re-rendered shift-in |
| MaskedInputCore.ShiftInLeft | src/text/maskedinput_core.rs:1640-1644 | the section's first grapheme drops out, what stood up to the cursor moves one cell left, and g goes in right before the cursor |
| MaskedInputCore.FirstMinus | src/text/maskedinput_core.rs:1733-1735 | the first "-" of the range, with none before it |
| MaskedInputCore.FirstNumeric | src/text/maskedinput_core.rs:1750-1758 | the first right-to-left numeric token of the range, with none before it |
| MaskedInputCore.SignCellInput | src/text/maskedinput_core.rs:1680-1721 | a sign cell only ever becomes "-" or a blank, and a plus cell "-" or "+" |
| MaskedInputCore.InsertSignCore | src/text/maskedinput_core.rs:1666-1782 | the value keeps its length; without a change it is unchanged; only the number section of the cursor changes |
| MaskedInputCore.SignEdit | src/text/maskedinput_core.rs:1672-1781 | the value keeps its length and changes only inside the number; without a change it is unchanged |
| MaskedInputCore.InsertSignCoreNoPanic | src/text/maskedinput_core.rs:1666-1782 | the sign characters never reach `unreachable!` |
| MaskedInputCore.InsertSignCoreTwice | src/text/maskedinput_core.rs:1672-1701 | the negative symbol on an explicit sign cell toggles it, and doing it twice restores the value |
| MaskedInputCore.GuardedInsertSignCore | src/text/maskedinput_core.rs:1477-1498 | behind `can_edit_sign`, the negative symbol is used: no panic and a change is reported |
| MaskedInputRemove.RefillRtol | src/text/maskedinput_core.rs:1870-1883 | only the section changes, and it holds the re-rendered shift-in of its first edit value |
| MaskedInputRemove.RefillLtor | src/text/maskedinput_core.rs:1884-1897 | only the section changes: what stood left of d stays, what stood right of it moves one cell left, and the last cell takes its edit value |
| MaskedInputRemove.RemovePrevCore | src/text/maskedinput_core.rs:1851-1921 | at 0 nothing happens; otherwise only the section left of the cursor changes and the cursor stays in the text |
| MaskedInputRemove.RemovePrevLtor | src/text/maskedinput_core.rs:1884-1921 | left to right the cursor steps left and the section closes up over the removed cell, refilled at its end |
| MaskedInputRemove.RemovePrevRtol | src/text/maskedinput_core.rs:1870-1921 | right to left the section is re-rendered from its shift-in; the cursor goes to the section's start exactly when the section is then empty, and stays otherwise |
| MaskedInputRemove.RemoveNextCore | src/text/maskedinput_core.rs:1925-1995 | at the end nothing happens; otherwise only the cursor's section changes and the cursor stays in the text |
| MaskedInputRemove.RemoveNextCursor | src/text/maskedinput_core.rs:1974-1990 | right to left the cursor steps right; left to right it goes to the section's end exactly when the section is then empty, and stays otherwise |
| MaskedInputRemove.InsertLtorRemovePrev | src/text/maskedinput_core.rs:1610-1624 | a character inserted by shifting a left-to-right section whose last cell showed its edit value, then removed with `remove_prev`, leaves value and cursor as they were |
| MaskedInputRemove.RefillLtorUndoesShift | src/text/maskedinput_core.rs:1884-1897 | refilling at the end after a one-cell shift right whose dropped cell held its edit value gives the value back |
| MaskedInputRemove.SectionPiece | src/text/maskedinput_core.rs:1800-1827 | the rewritten section has the section's length |
| MaskedInputRemove.LtorPiece | src/text/maskedinput_core.rs:1816-1826 | the left-to-right piece has the section's length |
| MaskedInputRemove.SpliceLtorPiece | src/text/maskedinput_core.rs:1816-1826 | the piece keeps what stands before the range, moves what stands after it left by the range's length, and ends in edit values |
| MaskedInputRemove.SpliceAt | src/text/maskedinput_core.rs:1795-1839 | a spliced value shows the middle part inside its bounds |
| MaskedInputRemove.RangePiece | src/text/maskedinput_core.rs:1800-1827 | the piece for the section of a token inside the range has that section's length |
| MaskedInputRemove.RangeWalk | src/text/maskedinput_core.rs:1798-1837 | the walk yields a text as long as the value from the first section's start on |
| MaskedInputRemove.RangeWalkKeepsTail | src/text/maskedinput_core.rs:1829-1834 | past the last section the loop rewrites, the value is copied unchanged |
| MaskedInputRemove.RangeEnd | src/text/maskedinput_core.rs:1829-1836 | the end of the last section the loop rewrites lies at or after the range's end and inside the value |
| MaskedInputRemove.StartOfNext | src/text/maskedinput_core.rs:1836 | the section after a token's section starts where that one ends |
| MaskedInputRemove.RemoveRangeCore | src/text/maskedinput_core.rs:1785-1847 | the value keeps its length, cursor and anchor go to the range's start, and only the sections from the one holding the start to the one reaching the end change |
| MaskedInputRemove.RemoveEmptyRangeLtor | src/text/maskedinput_core.rs:1785-1847 | an empty range in a left-to-right section changes nothing but the cursor |
| MaskedInputRemove.RemoveRangeInSectionLtor | src/text/maskedinput_core.rs:1816-1834 | left to right inside one section: the graphemes before the range stay, those after it move left by its length, and edit values fill the end |
| MaskedInputRemove.RemoveRangeInSectionRtol | src/text/maskedinput_core.rs:1803-1815 | right to left inside one section: the section is re-rendered from the edit values for the removed cells followed by what is left |
| MaskedInputRemove.RangeInOneSection | src/text/maskedinput_core.rs:1795-1839 | a range that ends in the section of its start rewrites that section only |
| MaskInput2.Edit | src/widget/mask_input2.rs:1055-1075 | a separator edits as itself, the terminator as nothing, zero-showing fields as "0", and every other field as a blank or a number separator |
| MaskInput2.CanSkip | src/widget/mask_input2.rs:1000-1020 | grouping separators and the terminator are always skipped; zero-showing fields, the decimal separator, any-character fields and separators never are; anything else only when it shows a blank |
| MaskInput2.Edits | src/widget/mask_input2.rs:1276-1281 | the edit value of every token, in order |
| MaskInput2.TokenOf | src/widget/mask_input2.rs:1213-1237 | only the empty grapheme is the terminator, and an unknown grapheme is a separator showing itself |
| MaskInput2.Tokens | src/widget/mask_input2.rs:1210-1268 | the parse yields at most one token per grapheme |
| MaskInput2.TokensShape | src/widget/mask_input2.rs:1210-1268 | every grapheme but a consumed backslash yields one token, and the last token is the terminator or an escaped empty separator |
| MaskInput2.ParseMaskPlain | src/widget/mask_input2.rs:1204-1268 | a mask without backslashes yields one token per grapheme followed by the terminator |
| MaskInput2.ParseMaskClosed | src/widget/mask_input2.rs:1210-1268 | every parsed mask is non-empty and ends in a token that edits as nothing |
| MaskInput2.DefaultValue | src/widget/mask_input2.rs:1276-1281 | one edit value for every token but the last |
| MaskInput2.DefaultValueText | src/widget/mask_input2.rs:1276-1281 | for a parsed mask, leaving out the last token does not change the concatenated edit values |
| MaskInput2.Scrolled | src/widget/mask_input2.rs:1196-1201 | the new offset shows the cursor; it stays when the cursor is already shown, and otherwise moves just far enough |
| MaskInput2.SetOffset | src/widget/mask_input2.rs:1139-1149 | only the offset changes; an offset past the text becomes the length; otherwise it is moved just far enough to show the cursor |
| MaskInput2.SetOffsetCapHidesCursor | src/widget/mask_input2.rs:1139-1149 | the first branch wins over the cursor rule: an offset past the text leaves the cursor 0 out of view |
| MaskInput2.SetWidth | src/widget/mask_input2.rs:1157-1163 | only width and offset change; the cursor is then shown when it was not left of the offset, and the offset stays when the cursor still fits |
| MaskInput2.Selection | src/widget/mask_input2.rs:1178-1184 | the ordered pair of cursor and anchor, empty exactly when they are equal |
| MaskInput2.SetCursor | src/widget/mask_input2.rs:1186-1202 | the cursor is pos clamped to the length, the anchor follows unless it is kept, the cursor is shown, and the offset moves only when it has to |
| MaskInput2.SetCursorIdempotent | src/widget/mask_input2.rs:1186-1202 | setting the cursor twice to the same place is setting it once |
| MaskInput2.SetValue | src/widget/mask_input2.rs:1315-1330 | a value whose length is not the mask's minus one is the error (the source's assertion); otherwise the value is stored and cursor and offset are clamped to it |
| MaskInput2.SetValueKeepsVisible | src/widget/mask_input2.rs:1315-1330 | a shown cursor stays shown |
| MaskInput2.SetMaskAsWritten | src/widget/mask_input2.rs:1204-1282 | as written: the new mask is parsed, the value becomes its default value, cursor and offset are clamped and the anchor is kept as it was |
| MaskInput2.SetMask | src/widget/mask_input2.rs:1204-1282 | corrected: the same, with the anchor clamped as well, so the state stays valid; it agrees with the written version whenever the anchor already fits |
| MaskInput2.IsEmptyIsDefault | src/widget/mask_input2.rs:1346-1353 | a fitting value is empty exactly when it is the default value |
| MaskInput2.SetMaskIsEmpty | src/widget/mask_input2.rs:1204-1282 | right after setting a mask the value is empty |
| MaskInput2.CompactLength | src/widget/mask_input2.rs:1336-1344 | the compact value has one grapheme per cell its token does not skip |
| MaskInput2.CompactAppend | src/widget/mask_input2.rs:1336-1344 | compacting distributes over aligned concatenation |
| MaskInput2.CompactKeepsAll | src/widget/mask_input2.rs:1336-1344 | a value with nothing skippable is its own compact value |
| MaskInput2.CompactDropsAll | src/widget/mask_input2.rs:1336-1344 | a value whose every cell is skippable compacts to nothing |
| MaskInput2.Split3 | src/widget/mask_input2.rs:1712-1737 | a range inside the value splits it into three parts of the right lengths that concatenate back to it; any other range is the error |
| MaskInput2.Split3Join | src/widget/mask_input2.rs:1712-1737 | splitting a concatenation at its seams gives back the parts |
| MaskInput2.Remove | src/widget/mask_input2.rs:1572-1601 | a range outside the value is the error; otherwise the value keeps its length, the range holds edit values and nothing else changes, the cursor goes to the chosen end without an anchor and is shown |
| MaskInput2.RemoveTwice | src/widget/mask_input2.rs:1572-1601 | removing the same range twice is removing it once |
| MaskInput2.RemoveAllIsDefault | src/widget/mask_input2.rs:1572-1601 | removing everything gives the default value |
| MaskInput2.SkipWord | src/widget/mask_input2.rs:1393 | the first non-alphanumeric grapheme at or after i, with only alphanumerics before it |
| MaskInput2.FindWord | src/widget/mask_input2.rs:1394 | the first alphanumeric grapheme at or after i, with none before it |
| MaskInput2.SkipWordBack | src/widget/mask_input2.rs:1409 | the start of the alphanumeric run that ends at i |
| MaskInput2.SkipGapBack | src/widget/mask_input2.rs:1402-1414 | the start of the run without alphanumerics that ends at i |
| MaskInput2.NextWordBoundary | src/widget/mask_input2.rs:1386-1399 | the next word start after the cursor, or the end; no word starts in between |
| MaskInput2.PrevWordBoundaryAsWritten | src/widget/mask_input2.rs:1402-1414 | as written: the result lies at or before the cursor and right after a non-alphanumeric grapheme |
| MaskInput2.PrevWordBoundary | src/widget/mask_input2.rs:1402-1414 | corrected: the last word start before the cursor, or 0; no word starts in between |
| MaskInput2.PrevWordAfterWord | src/widget/mask_input2.rs:1402-1414 | with a word right before the cursor the written and the corrected versions agree |
| MaskInput2.PrevWordStuck | src/widget/mask_input2.rs:1402-1414 | on "a b" with the cursor after the blank the written version stays at 2; the corrected one goes to 0 |
| MaskInput2.VisibleSelection | src/widget/mask_input2.rs:540-557 | the part of the selection that is shown: its columns are exactly those in both the selection and the view |
| MaskInput2.Perform | src/widget/mask_input2.rs:596-750 | on a valid state no request fails and the state stays valid; the value keeps its length and mask; only deleting requests change it; "no change" means nothing changed; the word requests use `prev_word_boundary` as written |
| MaskInput2.Move | src/widget/mask_input2.rs:596-750 | the moving and selecting requests keep mask and value; "no change" means nothing changed |
| MaskInput2.GoToPrevWordTarget | src/widget/mask_input2.rs:674-682 | moving to the previous word goes to `prev_word_boundary` as written, keeps the value, and stays put when the cursor follows a blank |
| MaskInput2.DeletePrevWordAfterGap | src/widget/mask_input2.rs:700-709 | as written, deleting the previous word right after a blank reports a change but removes nothing and keeps the cursor |
| MaskInput2.Delete | src/widget/mask_input2.rs:624-745 | the deleting requests keep length and mask and keep a valid state valid; "no change" means nothing changed |
| MaskInput2.PerformNoChange | src/widget/mask_input2.rs:596-750 | deleting back at the start, deleting forward at the end, and setting the cursor where it stands report no change |
| MaskInput2.DeletePrevCharStepsLeft | src/widget/mask_input2.rs:624-638 | without a selection, deleting back blanks the cell left of the cursor to its edit value and steps the cursor left |
| MaskInput2.SetMaskLeavesAnchor | src/widget/mask_input2.rs:1204-1282 | with cursor and anchor at the end of "9999", setting the mask "9" leaves the anchor at 4 past the value, so the next removal of the selection fails; the corrected version deletes fine |
| Glyph.RemapGlyph | rat-text/src/glyph2.rs:959-1024 | a tab with tab width 0 is the only error; line breaks, tabs, soft hyphen and zero-width space, control codes and other graphemes get the glyphs and widths the shaper promises, and a tab reaches the next tab stop |
| Glyph.TabStop | rat-text/src/glyph2.rs:977-980 | a tab's width ends on a multiple of the tab width and passes no other on the way |
| Glyph.CreateGlyph | rat-text/src/glyph2.rs:927-956 | the glyph keeps the grapheme's bytes and the given text and screen position, is not a soft break, and carries the shape `remap_glyph` gives |
| Glyph.NewlineGlyph | rat-text/src/glyph2.rs:290-298 | the synthetic line break sits at one byte position, breaks the line exactly when line feeds break, and is 1 wide unless it breaks without being shown |
| Glyph.TrueRightMargin | rat-text/src/glyph2.rs:241-247 | one column less than the right margin when controls or wrap markers are shown and the margin is positive, the margin otherwise |
| Glyph.ContainsScreenXCover | rat-text/src/glyph2.rs:77-88 | a glyph covers exactly the columns of its width, and a line break also every column right of it |
| GlyphWrap.SyntheticBreak | rat-text/src/glyph2.rs:290-298 | the grapheme added after the text is an empty-ranged line feed |
| GlyphWrap.LfStep | rat-text/src/glyph2.rs:384-410 | a line break moves to the start of the next row and records where that row starts |
| GlyphWrap.HardStep | rat-text/src/glyph2.rs:629-672 | hard wrap: a line break or a glyph reaching the true right margin records a break and starts a new row; any other glyph advances the column by its width |
| GlyphWrap.WordStep | rat-text/src/glyph2.rs:384-485 | word wrap: past the word margin a break opportunity breaks after itself; at the true right margin the line breaks after the last blank, the next column then being the glyph's column less the blank's, or before the glyph when there is none |
| GlyphWrap.ShiftStep | rat-text/src/glyph2.rs:732-760 | shift and clip records only line breaks and never moves the screen column |
| GlyphWrap.PrepStep | rat-text/src/glyph2.rs:254-264 | one grapheme of `prepare`: a tab with tab width 0 is the only error; the text position moves forward; the row ends exactly at a breaking line feed |
| GlyphWrap.PrepareRun | rat-text/src/glyph2.rs:254-264 | over a whole text: the error is a tab with tab width 0 somewhere; the row is ended exactly when the last grapheme is a breaking line feed |
| GlyphWrap.StartPrep | rat-text/src/glyph2.rs:331-334 | preparing starts at the iterator's position and byte, with no breaks recorded, as if after a line feed |
| GlyphWrap.ExhaustedRounds | rat-text/src/glyph2.rs:346-354 | rounds after the text: once a line feed ended the row, preparing stops and changes nothing |
| GlyphWrap.PrepareNeverStops | rat-text/src/glyph2.rs:346-354 | without line-feed breaks the synthetic line feed never ends the row, however many rounds follow |
| GlyphWrap.PrepareHangs | rat-text/src/glyph2.rs:346-354 | as written: for any non-empty text with line-feed breaks off, the prepare loop never reaches its exit |
| GlyphWrap.Prepare | rat-text/src/glyph2.rs:254-264 | corrected: the error is a tab with tab width 0; with line-feed breaks the text ends on a row end; it is the written loop run one round past the text |
| GlyphWrap.PrepareStopsWithLf | rat-text/src/glyph2.rs:346-354 | with line-feed breaks, any number of further rounds gives what one gives |
| GlyphWrap.StepRecorded | rat-text/src/glyph2.rs:323-497 | every recorded break and the remembered blank lie behind the current position, and a step never changes a break already recorded |
| GlyphWrap.PrepareRunRecorded | rat-text/src/glyph2.rs:323-497 | over a whole text, recorded breaks stay behind the current position and are never changed |
| GlyphWrap.WordBreakColumn | rat-text/src/glyph2.rs:433-472 | the remembered blank never lies right of the current column, so the saturating subtraction never saturates |
| GlyphWrap.NewIter | rat-text/src/glyph2.rs:181-205 | a new iterator starts at the given position and byte, at screen column and row 0, with nothing pending |
| GlyphWrap.LineEnd | rat-text/src/glyph2.rs:508-521 | a row end moves text and screen to the start of the next row and changes nothing else |
| GlyphWrap.Advance | rat-text/src/glyph2.rs:558-569 | a glyph moves one text column and dx screen columns and changes nothing else |
| GlyphWrap.WrapNext | rat-text/src/glyph2.rs:499-570 | a line break missing from the prepared breaks is the assertion failure; a line break or a recorded break ends the screen row; everything else advances on the row |
| GlyphWrap.WrapRowEnds | rat-text/src/glyph2.rs:499-570 | the screen row ends exactly when the glyph is a line break or a wrap marker is pending; otherwise the row stays |
| GlyphWrap.SkipLine | rat-text/src/glyph2.rs:884-898 | what is left after skipping to the next line feed: a suffix of the text right after its first line feed, or nothing |
| GlyphWrap.ShiftClipNext | rat-text/src/glyph2.rs:764-924 | corrected: each of the six cases places the glyph as `shift_clip_next` does, shifted by the left margin, with a glyph crossing the left margin advancing by its full width |
| GlyphWrap.ShiftContiguous | rat-text/src/glyph2.rs:794-823 | corrected: after every glyph shown on the row the next one starts right where it ends |
| GlyphWrap.ShiftClipNextAsWritten | rat-text/src/glyph2.rs:764-924 | as written: a line break more than one column past the true right margin reaches `unreachable!`; a glyph crossing the left margin advances only by its clipped width; everything else agrees with the corrected version |
| GlyphWrap.LeftCrossingOverlaps | rat-text/src/glyph2.rs:794-823 | with left margin 5 and a tab at column 4, the clipped tab covers screen columns 0..3 but the written version puts the next glyph at column 2 |
| GlyphWrap.LineBreakPastMarginPanics | rat-text/src/glyph2.rs:775-793 | with right margin 10, a tab at column 9 takes the next column to 15, and the following line feed reaches `unreachable!`; the corrected version ends the row |
| GlyphWrap.Step | rat-text/src/glyph2.rs:306-319 | dispatching one glyph on the wrap mode: every failure is a panic; in shift and clip it fails exactly on a line break more than one column past the true right margin, in word or hard wrap only on a line break not prepared; only shift and clip can skip a glyph |
| GlyphWrap.Round | rat-text/src/glyph2.rs:286-319 | one pass of the loop takes a grapheme, or the synthetic line feed once the text is used up; every failure is a panic |
| GlyphWrap.Take | rat-text/src/glyph2.rs:287-298 | the next grapheme of the text, or the synthetic line feed at the current byte, marking the iterator done |
| GlyphWrap.Loop | rat-text/src/glyph2.rs:286-319 | the loop of `next`: yielding nothing means the text is used up; every yield consumes text; running out of fuel needs shift and clip |
| GlyphWrap.SkipLineSuffix | rat-text/src/glyph2.rs:884-898 | skipping a line leaves a suffix of the text |
| GlyphWrap.Next | rat-text/src/glyph2.rs:272-320 | a done iterator yields nothing; a pending glyph is yielded first and moves the byte position past it; yielding nothing leaves the iterator done |
| GlyphWrap.NextPanicsPastMargin | rat-text/src/glyph2.rs:272-320 | with right margin 10, `next` over a tab at column 9 and a line feed hands out the split tab and then panics |
| GlyphWrap.EmptyTextYieldsNothing | rat-text/src/glyph2.rs:1036-1068 | for the empty text, `prepare` records no break and `next` yields nothing at once |
| GlyphWrap.SyntheticFinalBreak | rat-text/src/glyph2.rs:286-298 | a text that does not end on a line feed is closed by one empty line break at its last byte, after which nothing more is yielded; in shift and clip this needs the column to be at most one past the true right margin |
| GlyphWrap.WordTestXPrepare | rat-text/src/glyph2.rs:1071-1089 | word wrap of "X" records the break at column 1 of row 0, pointing to row 1 at byte 1 |
| GlyphWrap.WordTestXGlyphs | rat-text/src/glyph2.rs:1090-1121 | word wrap of "X" yields the glyph "X" at column 0, then the empty line break at column 1, then nothing |

## Left out

- Rendering, ratatui layout, widget `render` bodies and event dispatch are outside the model; the state methods they call are modelled.
- Grapheme segmentation and display width are inputs: a grapheme is an abstract unit and its width, where needed, is given.
- Byte ranges are modelled only where a parser reports them relative to its input; cursor byte offsets of the markdown table row are not modelled.
- `u16` and `usize` arithmetic is unbounded except where a wrap-around, saturation or panic matters; such panics are modelled as `None` or `Err`.
- Palette: only `Reset` and RGB colours; the named and indexed ratatui colours, floating-point luminance and contrast, and serde are left out.
- Focus: `Rc`/`Cell` sharing and callbacks are plain fields; `next_navigable`/`prev_navigable` are modelled for a start index inside the list, where the source's loops terminate.
- Focus.Expand: an empty range at the insert point comes out inverted (start past end), as in the source; the contract states well-formedness only for the other ranges.
- Splitter: `u16` sums are taken not to overflow; a subtraction that would underflow (a panic) is `None`.
- MarkdownItem.ParseMdItem: a number that does not fit a `usize` panics in the source; the model returns `None`.
- PaletteEdit: the INI file is a map in memory (loading, writing and configparser's own parsing are left out); `FromStr`, `ToString` and `char::is_alphanumeric` are parameters; the upper/lower-casing of the sanitised name is left out (Unicode case mapping).
- FileDialog: reading and creating directories, focus, rendering and key handling are left out; `commit_edit_dir` needs the filesystem and is left out. A path is a list of components compared as `Path` compares them; the save name is one component, so a name holding a separator is not resolved as `Path` would, and a directory path is taken to hold no "." components. `char::to_lowercase` is a parameter.
- SplitTab: the tab widgets are opaque values and focus is given as one flag per tab; refreshing the focus container and moving the focus after `select` are left out; saving a tab is an input flag.
- Text areas: the rope store, undo, styles and the cursor/anchor bookkeeping of the text core are not part of this model; edits are stated on the text and on the positions the widget itself computes. Inserting or removing a selection leaves the cursor at the selection's start, as the core's contract says. `ScrollState::set_offset` is taken to store the offset as given.
- TextWords: positions are character indexes; the conversion between (column, line) positions and character indexes is the store's and is left out.
- TextCursor.ScrollToVisible: a height of 0 would underflow `height - 1`; the model requires a height of at least 1.
- TextAreaEdit.InsertNewline: the line break inserted is the store's newline; tab expansion of `insert_tab` and the undo grouping are left out.
- RatTextArea: the hard- and word-wrap branches of `scroll_to_pos` and `pos_to_line_start` work on the glyph cache (rat-text/src/glyph2.rs) and are left out; `insert_quotes` and `insert_tab` are not part of this model, so the wrapping branch of insert-char is modelled as a decision only.
- RatTextArea.ReplaceWithChar: the extra line break insert-char adds at the start of a last line without a final newline is left out (it depends on the rope's line count).
- RatTextInput: the text core's cursor after an edit is not modelled; the clipboard is an input saying whether it exists and takes the text.
- RatTextInput.ScreenToCol: the glyphs are an input; that `glyphs2` lays a line out contiguously from column 0 and closes it with a line break is stated as a precondition of the bound, not derived from GlyphWrap.Next.
- MarkdownQuote: how `textwrap` reflows the text afterwards is not part of this model.
- Mask graphemes are single strings and character classes (`is_alphanumeric`, digits of each radix) are parameters or fixed tables; multi-character graphemes and Unicode classes are left out.
- The character-insert dispatchers (`insert_char`, `advance_cursor`, `clear_section`, `skip_cursor`), `is_valid_char`'s Unicode tests, undo and the text store of the mask widgets are left out; the edits they call are modelled.
- RatMaskEdit.Reformat: the right-to-left number re-rendering (`clean_num` and `map_num` of the number-format crate) is not modelled; the section text is left as it is.
- MaskedInputCore.InsertLtor: the anchor, which the source sets to the new cursor after an insert, is not returned; the result is the value, the cursor and whether anything changed.
- MaskedInputCore: `remap_number` is a parameter that keeps the length of the section it renders; `split_remove_mask` and `split3` are read as cuts at the section's bounds.
- MaskInput2: `render_value`, `insert_char`, `reset`, the display mask and scrolling by rendered width are left out; `is_alphanumeric` is a parameter.
- Glyph: the display width of ordinary graphemes is an oracle in the options; `validate`'s `u16` assertions are left out; a tab with tab width 0 is an error value where the source divides by zero.
- GlyphWrap: the caches start empty, so `full_line_break`, the reuse of row starts and `skip_to` are left out; only the line-break map is modelled. The grapheme stream is a finite sequence that stays exhausted; `skip_line` skips to just after the next line feed; the byte position after a skipped line is not modelled.
- GlyphWrap.Next: the loop of `next` carries a fuel bound and reports `OutOfFuel` when it is spent; this happens only in shift-and-clip mode, where a left margin past the true right margin with line-feed breaks off skips every glyph of the text.
- GlyphWrap.WordStep: `next_screen_x = glyph.sx - space.x` is written saturating; WordBreakColumn shows the subtraction never saturates.
- GlyphWrap.EmptyTextYieldsNothing: for the empty text the test `test_word_0` expects a line-break glyph and a recorded break at (0, 0), but `prepare` stops at once because it starts as if after a line feed, and `next` yields nothing for the same reason; the model follows the code.

## Findings

| source | as written | input that shows it | evidently intended | confidence | as-written member | corrected member |
|---|---|---|---|---|---|---|
| rat-focus/src/focus.rs:608-635 | `replace_container` shrinks every remaining range by the removed part and then expands it by the inserted part; an enclosing container that ends where the replaced one ends collapses to the part before it | containers 0..4 and 1..4 over four widgets, replacing container 1 by three widgets: the outer container becomes 0..1 | enclosing containers keep covering the replacement (0..4) | not executed | Focus.ReplaceLosesEnclosing | Focus.ReplaceFixedKeepsEnclosing |
| rat-widget/src/splitter.rs:1535-1576 | `hide_split` of a zero-length area that is not the last sets its length to 1, records 0 as hidden and reports success | lengths [0, 5], nothing hidden, hide area 0: lengths [1, 5] | hiding never changes the total length | not executed | Splitter.HideZeroGrowsTotal | Splitter.HideSplitFixed |
| examples/mdedit_parts/markdown.rs:2453-2515 | a line holding only a marker leaves the scan in the "after text" state, so its line break and the next line's marker are copied into the text | "> a\n>\n> b\n" gives "a \n> b " | "a b " — markers dropped and line breaks turned into one space | not executed | MarkdownQuote.EmptyQuoteLineKeepsBreak | MarkdownQuote.EmptyQuoteLineSkipped |
| rat-salsa/examples/mdedit.rs:1334-1388 | `close` turns a selected tab (or remembered split) at index 0 into none also when the removed index lies after it | tabs a, b, c with a selected, close c: no tab selected | a selection before the removed index is kept | not executed | SplitTab.CloseLaterTabDeselectsFirst | SplitTab.CloseFixedKeepsSelectedTab |
| rat-salsa/examples/palette_edit5.rs:3446-3458 | `set_text` writes a backslash as it is, while `get_text` reads a backslash pair as an escape | the text backslash-n is read back as a line feed | `set_text` doubles backslashes, so every text without carriage returns reads back unchanged | not executed | PaletteEdit.BackslashNotPreserved | PaletteEdit.UnescapeEscapeFixed |
| rat-text/src/text_input.rs:1083-1098 | `insert_char` removes the selection before it checks for '\n', then returns false for '\n' | text a, b with both selected, '\n': the text is empty and false is reported | '\n' is refused before the selection is touched, so false means nothing changed | not executed | RatTextInput.NewlineDeletesSelectionUnreported | RatTextInput.InsertChar |
| src/textarea.rs:968-1004 | `move_up` and `move_down` clip the column to the width of the line the cursor leaves | text "" / "abc", cursor at column 3 of line 1, move up: column 3 of the empty line | the column is clipped to the width of the line moved to, as src/text_area.rs:1185-1217 does | medium, not executed (whether the store's `set_cursor` repairs the position is not part of this model) | TextCursor.MoveUpAsWrittenLeavesLine | TextCursor.MoveUp |
| src/text_mask_core.rs:1735-1781 | the older `Display` of a mask escapes only separators that are themselves mask characters | the mask made of a backslash and "x" parses to the separator "x", is written back as "x", and "x" alone is rejected by the parser | separators are written escaped, as rat-text's `mask()` does, so writing and parsing round-trips | not executed | MaskParse.OldDisplayLosesEscape | MaskParse.DisplayRoundTrip |
| rat-text/src/text_mask_core.rs:205-216 | the last group's end is the mask's grapheme count, backslashes included | the mask of a backslash, "-" and "9": the terminator's group ends at 3 instead of 2 | the last group ends at the terminator's index | not executed | MaskParse.EscapeStretchesLastGroup | MaskParse.ParseMask |
| rat-text/src/text_input_mask.rs:1350-1364 | a second `select_all` looks up the section at the cursor, which sits at the end of the selected section, and so selects the next one | mask "99ll", cursor 0: the first call selects 0..2, the second 2..4 | the second call selects everything | not executed | MaskedInput.SelectAllWalksOn | MaskedInput.SelectAll |
| src/text_mask_core.rs:1161-1267 | `insert_sign` finds the sign cell by an index relative to the section and then uses it as an absolute index | mask "l -99", text "a  99", cursor 3, '-': index 0 is the letter, so `unreachable!` is hit | the index is offset by the section start, toggling the sign at 2 | not executed | OldMaskCore.OldInsertSignPanics | RatMaskEdit.InsertSign |
| src/text/maskedinput_core.rs:696-718 | `set_value` pads a short value, but its long-value branch pops over the empty range `len..mask.len()-1`, so nothing is cut and the length assertion fails | mask "9", value "12" | a long value is cut to the mask, as the other engines' `set_text` does | not executed | MaskedInputCore.SetValueTooLongPanics | MaskedInputCore.SetValue |
| src/widget/mask_input2.rs:1204-1282 | `set_mask` clamps the cursor and the offset to the new value but not the anchor | cursor and anchor at the end of "9999", then the mask "9": the anchor stays at 4, and deleting the selection slices past the value | the anchor is clamped like the cursor | not executed | MaskInput2.SetMaskLeavesAnchor | MaskInput2.SetMask |
| src/widget/mask_input2.rs:1402-1414 | `prev_word_boundary` skips alphanumerics twice instead of skipping the gap and then the word | "a b", cursor 2 (after the blank): the result is 2 | the start of the previous word, 0 | not executed | MaskInput2.PrevWordStuck | MaskInput2.PrevWordBoundary |
| rat-text/src/glyph2.rs:346-354 | the three prepare loops end only once `was_lf` is set, but with line-feed breaks off the synthetic line feed is not a line break and never sets it | line-feed breaks off, text "a" | the loop ends after the synthetic line feed | medium, not executed (it relies on the grapheme iterator staying exhausted) | GlyphWrap.PrepareHangs | GlyphWrap.Prepare |
| rat-text/src/glyph2.rs:794-823 | a glyph crossing the left margin advances the next screen column by its clipped width instead of its full width | left margin 5, a tab at column 4: the clipped tab covers screen columns 0..3, the next glyph lands at 2 | the next glyph starts where the clipped one ends | not executed | GlyphWrap.LeftCrossingOverlaps | GlyphWrap.ShiftClipNext |
| rat-text/src/glyph2.rs:775-793 | a line break more than one column past the true right margin reaches `unreachable!` | right margin 10, nine "a", a tab (the next column becomes 15), then a line feed | the line break ends the row wherever it lies | not executed | GlyphWrap.LineBreakPastMarginPanics | GlyphWrap.ShiftClipNext |

=== FILE: choice.dfy ===
/**
 * The value/selection core of the choice widget (`rat-widget/src/choice.rs`):
 * a list of values, the current value, and the index of that value in the
 * list when it is there. The current value survives even when it is not
 * in the list; the index is a best-effort companion that must agree with it.
 * On top of the core, the widget state adds the first-character table used
 * for keyboard navigation and the popup's active flag.
 */
module Choice {
  import opened Util

  datatype ChoiceCore<T> = ChoiceCore(values: seq<T>, defaultValue: Option<T>, value: T, selected: Option<nat>)

  /** The index, when present, points at the current value. */
  predicate Coherent<T(==)>(c: ChoiceCore<T>) {
    c.selected.Some? ==> c.selected.value < |c.values| && c.values[c.selected.value] == c.value
  }

  /** `iter().position(|v| *v == x)`: the first index holding `x`. */
  function Position<T(==)>(s: seq<T>, x: T): (r: Option<nat>)
    ensures r.Some? ==> r.value < |s| && s[r.value] == x && forall j :: 0 <= j < r.value ==> s[j] != x
    ensures r.None? <==> x !in s
  {
    if |s| == 0 then None
    else if s[0] == x then Some(0)
    else match Position(s[1..], x)
      case None => None
      case Some(i) => Some(i + 1)
  }

  /** `set_values`: new values, the same value, and its index looked up afresh. */
  function SetValues<T(==)>(c: ChoiceCore<T>, values: seq<T>): (r: ChoiceCore<T>)
    ensures Coherent(r)
    ensures r.values == values && r.value == c.value && r.defaultValue == c.defaultValue
    ensures r.selected.None? <==> c.value !in values
  {
    if |values| == 0 then c.(values := values, selected := None)
    else c.(values := values, selected := Position(values, c.value))
  }

  /**
   * `set_selected`: an index inside the list takes that value; any other
   * index (and an empty list) clears the index and keeps the value. The
   * flag says whether the index changed.
   */
  function SetSelected<T(==)>(c: ChoiceCore<T>, select: nat): (r: (ChoiceCore<T>, bool))
    requires Coherent(c)
    ensures Coherent(r.0)
    ensures r.0.values == c.values && r.0.defaultValue == c.defaultValue
    ensures select < |c.values| ==> r.0.selected == Some(select) && r.0.value == c.values[select]
    ensures select >= |c.values| ==> r.0.selected.None? && r.0.value == c.value
    ensures r.1 <==> r.0.selected != c.selected
  {
    var r := if |c.values| == 0 then c.(selected := None)
      else if select < |c.values| then c.(value := c.values[select], selected := Some(select))
      else c.(selected := None);
    (r, r.selected != c.selected)
  }

  /** `set_value`: the value is kept even when it is not in the list; the flag says whether it changed. */
  function SetValue<T(==)>(c: ChoiceCore<T>, v: T): (r: (ChoiceCore<T>, bool))
    ensures Coherent(r.0)
    ensures r.0.value == v && r.0.values == c.values && r.0.defaultValue == c.defaultValue
    ensures r.0.selected.None? <==> v !in c.values
    ensures r.1 <==> c.value != v
  {
    (c.(value := v, selected := Position(c.values, v)), c.value != v)
  }

  /**
   * `clear`: return to the default value when there is one, look the
   * index up again, and report whether either changed.
   */
  function Clear<T(==)>(c: ChoiceCore<T>): (r: (ChoiceCore<T>, bool))
    ensures Coherent(r.0)
    ensures r.0.values == c.values && r.0.defaultValue == c.defaultValue
    ensures r.0.value == (if c.defaultValue.Some? then c.defaultValue.value else c.value)
    ensures r.1 <==> r.0.selected != c.selected || r.0.value != c.value
  {
    var v := if c.defaultValue.Some? then c.defaultValue.value else c.value;
    var sel := Position(c.values, v);
    (c.(value := v, selected := sel), sel != c.selected || v != c.value)
  }

  /** Setting a value a second time reports no change and leaves the core as it was. */
  lemma SetValueIdempotent<T>(c: ChoiceCore<T>, v: T)
    ensures var once := SetValue(c, v).0;
      SetValue(once, v) == (once, false)
  {
  }

  /** Selecting an index in the list and reading the value gives that entry back; setting that value again finds an index holding it. */
  lemma SelectThenSetValue<T>(c: ChoiceCore<T>, i: nat)
    requires Coherent(c) && i < |c.values|
    ensures var s := SetSelected(c, i).0;
      var t := SetValue(s, s.value);
      !t.1 && t.0.selected.Some? && t.0.selected.value <= i && c.values[t.0.selected.value] == c.values[i]
  {
    var s := SetSelected(c, i).0;
    assert s.values[i] == s.value;
  }

  // ---------------------------------------------------------------------
  // The widget state: keyboard navigation over the values
  // ---------------------------------------------------------------------

  /**
   * The widget state: the core, the lower-cased first character of each
   * item (empty when an item has no text), and whether the popup list is
   * open. The render that fills the table also fills the values, so the
   * two have the same length.
   */
  datatype ChoiceState<T> = ChoiceState(core: ChoiceCore<T>, navChar: seq<seq<char>>, popupActive: bool)

  predicate ValidState<T(==)>(s: ChoiceState<T>) {
    Coherent(s.core) && |s.navChar| == |s.core.values|
  }

  datatype ChoiceOutcome = Continue | Unchanged | Changed | Value

  /**
   * The place of index `k` in the order `select_by_char` tries indices:
   * from the one after the selection round to the one before it, or from
   * 0 when nothing is selected. The selected index itself is never tried.
   */
  function ForwardRank(sel: Option<nat>, k: nat, n: nat): nat
    requires sel.Some? ==> sel.value < n && k != sel.value
  {
    match sel
    case None => k
    case Some(s) => if k > s then k - s - 1 else k + n - s - 1
  }

  /** An index `select_by_char` may land on: any but the selected one. */
  predicate ForwardEligible(sel: Option<nat>, k: nat) {
    sel.None? || k != sel.value
  }

  /**
   * The place of index `k` in the order `reverse_select_by_char` tries
   * indices: from the one before the selection down and round, ending
   * with the selected index itself; from the last one down when nothing
   * (or index 0) is selected.
   */
  function BackwardRank(sel: Option<nat>, k: nat, n: nat): nat
    requires k < n && (sel.Some? ==> sel.value < n)
  {
    var s := if sel.Some? then sel.value else 0;
    if k < s then s - 1 - k else s + n - 1 - k
  }

  /** A match for `lc` whose rank is least among the eligible matches. */
  predicate FirstForwardMatch(nav: seq<seq<char>>, lc: seq<char>, sel: Option<nat>, k: nat)
    requires sel.Some? ==> sel.value < |nav|
  {
    k < |nav| && ForwardEligible(sel, k) && nav[k] == lc &&
    forall j :: 0 <= j < |nav| && ForwardEligible(sel, j) && ForwardRank(sel, j, |nav|) < ForwardRank(sel, k, |nav|) ==> nav[j] != lc
  }

  predicate FirstBackwardMatch(nav: seq<seq<char>>, lc: seq<char>, sel: Option<nat>, k: nat)
    requires sel.Some? ==> sel.value < |nav|
  {
    k < |nav| && nav[k] == lc && BackwardClear(nav, lc, sel, k)
  }

  /** No index the backward search tries before `k` matches. */
  predicate BackwardClear(nav: seq<seq<char>>, lc: seq<char>, sel: Option<nat>, k: nat)
    requires k < |nav| && (sel.Some? ==> sel.value < |nav|)
  {
    forall j :: 0 <= j < |nav| && BackwardRank(sel, j, |nav|) < BackwardRank(sel, k, |nav|) ==> nav[j] != lc
  }

  /**
   * `select_by_char`: select the next item, cyclically after the current
   * selection, whose first character is `lc` (already lower-cased). The
   * current selection is never chosen again. Case folding is left to the
   * caller.
   */
  method SelectByChar<T(==)>(st: ChoiceState<T>, lc: seq<char>) returns (r: ChoiceState<T>, found: bool)
    requires ValidState(st)
    ensures ValidState(r)
    ensures found <==> exists k :: 0 <= k < |st.navChar| && ForwardEligible(st.core.selected, k) && st.navChar[k] == lc
    ensures !found ==> r == st
    ensures found ==> (r.core.selected.Some? &&
      FirstForwardMatch(st.navChar, lc, st.core.selected, r.core.selected.value) &&
      r == st.(core := SetSelected(st.core, r.core.selected.value).0))
  {
    var n := |st.navChar|;
    if n == 0 {
      return st, false;
    }
    var idx: nat, endLoop: nat;
    if st.core.selected.Some? {
      idx, endLoop := st.core.selected.value + 1, st.core.selected.value;
    } else {
      if st.navChar[0] == lc {
        r := st.(core := SetSelected(st.core, 0).0);
        return r, true;
      }
      idx, endLoop := 1, 0;
    }
    ghost var wrapped := false;
    while true
      invariant endLoop < n && idx <= n
      invariant !wrapped ==> endLoop < idx
      invariant wrapped ==> idx <= endLoop
      invariant st.core.selected.None? ==> endLoop == 0 && st.navChar[0] != lc
      invariant st.core.selected.Some? ==> endLoop == st.core.selected.value
      invariant forall j :: 0 <= j < n && j != endLoop && ((endLoop < j < idx) || (wrapped && (endLoop < j || j < idx))) ==> st.navChar[j] != lc
      decreases (if wrapped then 0 else n + 1) + endLoop - idx + 1
    {
      if idx >= n {
        idx := 0;
        wrapped := true;
      }
      if idx == endLoop {
        break;
      }
      if st.navChar[idx] == lc {
        r := st.(core := SetSelected(st.core, idx).0);
        return r, true;
      }
      idx := idx + 1;
    }
    return st, false;
  }

  /**
   * `reverse_select_by_char`: the same search walking backward. Unlike the
   * forward search it tries the current selection last, so a lone match
   * on the selected item is found (and selected again).
   */
  method ReverseSelectByChar<T(==)>(st: ChoiceState<T>, lc: seq<char>) returns (r: ChoiceState<T>, found: bool)
    requires ValidState(st)
    ensures ValidState(r)
    ensures found <==> exists k :: 0 <= k < |st.navChar| && st.navChar[k] == lc
    ensures !found ==> r == st
    ensures found ==> (r.core.selected.Some? &&
      FirstBackwardMatch(st.navChar, lc, st.core.selected, r.core.selected.value) &&
      r == st.(core := SetSelected(st.core, r.core.selected.value).0))
  {
    var n := |st.navChar|;
    if n == 0 {
      return st, false;
    }
    var idx: nat, endLoop: nat;
    if st.core.selected.Some? {
      if st.core.selected.value == 0 {
        idx, endLoop := n - 1, 0;
      } else {
        idx, endLoop := st.core.selected.value - 1, st.core.selected.value;
      }
    } else {
      if st.navChar[n - 1] == lc {
        r := st.(core := SetSelected(st.core, n - 1).0);
        return r, true;
      }
      idx, endLoop := n - 1, 0;
    }
    ghost var s: nat := if st.core.selected.Some? then st.core.selected.value else 0;
    ghost var wrapped := s == 0;
    while true
      invariant idx < n && endLoop < n
      invariant endLoop == s
      invariant !wrapped ==> idx < s
      invariant wrapped ==> s <= idx
      invariant BackwardClear(st.navChar, lc, st.core.selected, idx)
      decreases (if wrapped then 0 else n) + idx
    {
      if st.navChar[idx] == lc {
        r := st.(core := SetSelected(st.core, idx).0);
        return r, true;
      }
      if idx == endLoop {
        BackwardExhausted(st.navChar, lc, st.core.selected, idx);
        break;
      }
      var next := if idx == 0 then n - 1 else idx - 1;
      BackwardAdvance(st.navChar, lc, st.core.selected, idx, next);
      if idx == 0 {
        wrapped := true;
      }
      idx := next;
    }
    return st, false;
  }

  /** Stepping the backward search past a non-matching index that is not the selected one keeps it clear. */
  lemma BackwardAdvance(nav: seq<seq<char>>, lc: seq<char>, sel: Option<nat>, idx: nat, next: nat)
    requires idx < |nav| && (sel.Some? ==> sel.value < |nav|)
    requires idx != (if sel.Some? then sel.value else 0)
    requires next == (if idx == 0 then |nav| - 1 else idx - 1)
    requires BackwardClear(nav, lc, sel, idx) && nav[idx] != lc
    ensures BackwardClear(nav, lc, sel, next)
  {
    var n := |nav|;
    assert BackwardRank(sel, next, n) == BackwardRank(sel, idx, n) + 1;
    forall j | 0 <= j < n && BackwardRank(sel, j, n) < BackwardRank(sel, next, n) ensures nav[j] != lc {
      BackwardRankBijective(sel, n, j, idx);
    }
  }

  /** The selected index (or 0) is tried last: when it is clear and does not match, nothing matches. */
  lemma BackwardExhausted(nav: seq<seq<char>>, lc: seq<char>, sel: Option<nat>, last: nat)
    requires last < |nav| && (sel.Some? ==> sel.value < |nav|)
    requires last == (if sel.Some? then sel.value else 0)
    requires BackwardClear(nav, lc, sel, last) && nav[last] != lc
    ensures forall k :: 0 <= k < |nav| ==> nav[k] != lc
  {
    var n := |nav|;
    assert BackwardRank(sel, last, n) == n - 1;
    forall k | 0 <= k < n ensures nav[k] != lc {
      BackwardRankBijective(sel, n, k, last);
    }
  }

  /** Each of the `n` indices has its own backward rank below `n`: the backward search tries them all. */
  lemma BackwardRankBijective(sel: Option<nat>, n: nat, j: nat, k: nat)
    requires j < n && k < n && (sel.Some? ==> sel.value < n)
    ensures BackwardRank(sel, k, n) < n
    ensures BackwardRank(sel, j, n) == BackwardRank(sel, k, n) ==> j == k
  {
  }

  // ---------------------------------------------------------------------
  // Moving the selection
  // ---------------------------------------------------------------------

  /**
   * The outcome of a move: `Value` when the selected index changed, else
   * `Changed` when the popup opened, the selection was rewritten or the
   * list scrolled, else `Continue`.
   */
  function MoveOutcome(oldSel: Option<nat>, newSel: Option<nat>, other: bool): (o: ChoiceOutcome)
    ensures o == Value <==> oldSel != newSel
    ensures o == Continue <==> oldSel == newSel && !other
    ensures o != Unchanged
  {
    if oldSel != newSel then Value else if other then Changed else Continue
  }

  /**
   * `move_to`: open the popup and select index `n`. `scrolled` is what
   * scrolling the popup list to the selection reported; the popup's
   * scroll state is not part of this model.
   */
  function MoveTo<T(==)>(st: ChoiceState<T>, n: nat, scrolled: bool): (r: (ChoiceState<T>, ChoiceOutcome))
    requires ValidState(st)
    ensures ValidState(r.0) && r.0.popupActive && r.0.navChar == st.navChar
    ensures n < |st.core.values| ==> r.0.core.selected == Some(n) && r.0.core.value == st.core.values[n]
    ensures n >= |st.core.values| ==> r.0.core.selected.None? && r.0.core.value == st.core.value
    ensures r.1 == Value <==> r.0.core.selected != st.core.selected
  {
    var s := SetSelected(st.core, n);
    var r := st.(core := s.0, popupActive := true);
    (r, MoveOutcome(st.core.selected, s.0.selected, !st.popupActive || s.1 || scrolled))
  }

  /**
   * `move_down`: with an empty list nothing happens. Otherwise open the
   * popup and select `n` further down, clamped to the last item; with no
   * selection the `n`-th item (counting from one) is the target.
   */
  function MoveDown<T(==)>(st: ChoiceState<T>, n: nat, scrolled: bool): (r: (ChoiceState<T>, ChoiceOutcome))
    requires ValidState(st)
    ensures ValidState(r.0) && r.0.navChar == st.navChar
    ensures |st.core.values| == 0 ==> r == (st, Continue)
    ensures |st.core.values| > 0 ==>
      var target := if st.core.selected.Some? then st.core.selected.value + n else SatSub(n, 1);
      r.0.popupActive && r.0.core.selected == Some(Min(target, |st.core.values| - 1))
    ensures |st.core.values| > 0 ==> (r.1 == Value <==> r.0.core.selected != st.core.selected)
  {
    if |st.core.values| == 0 then (st, Continue)
    else
      var target := if st.core.selected.Some? then st.core.selected.value + n else SatSub(n, 1);
      var idx := Min(target, |st.core.values| - 1);
      var s := SetSelected(st.core, idx);
      (st.(core := s.0, popupActive := true), MoveOutcome(st.core.selected, s.0.selected, !st.popupActive || s.1 || scrolled))
  }

  /** `move_up`: the same upward, stopping at the first item; with no selection the first item. */
  function MoveUp<T(==)>(st: ChoiceState<T>, n: nat, scrolled: bool): (r: (ChoiceState<T>, ChoiceOutcome))
    requires ValidState(st)
    ensures ValidState(r.0) && r.0.navChar == st.navChar
    ensures |st.core.values| == 0 ==> r == (st, Continue)
    ensures |st.core.values| > 0 ==>
      var target := if st.core.selected.Some? then SatSub(st.core.selected.value, n) else 0;
      r.0.popupActive && r.0.core.selected == Some(target)
    ensures |st.core.values| > 0 ==> (r.1 == Value <==> r.0.core.selected != st.core.selected)
  {
    if |st.core.values| == 0 then (st, Continue)
    else
      var target := if st.core.selected.Some? then SatSub(st.core.selected.value, n) else 0;
      var idx := Min(target, |st.core.values| - 1);
      var s := SetSelected(st.core, idx);
      (st.(core := s.0, popupActive := true), MoveOutcome(st.core.selected, s.0.selected, !st.popupActive || s.1 || scrolled))
  }

  /** Moving down by `n` and back up by `n` returns to the same item when the way down was not clamped. */
  lemma MoveDownThenUp<T>(st: ChoiceState<T>, n: nat, sc1: bool, sc2: bool)
    requires ValidState(st) && st.core.selected.Some? && st.core.selected.value + n < |st.core.values|
    ensures var down := MoveDown(st, n, sc1).0;
      var up := MoveUp(down, n, sc2).0;
      up.core.selected == st.core.selected && up.core.value == st.core.value
  {
  }

  /** Moving up from the first item, or down from the last, is not a change of value. */
  lemma MoveAtEndsKeepsSelection<T>(st: ChoiceState<T>, n: nat, scrolled: bool)
    requires ValidState(st) && |st.core.values| > 0 && st.core.selected.Some?
    ensures st.core.selected.value == 0 ==> MoveUp(st, n, scrolled).1 != Value
    ensures st.core.selected.value == |st.core.values| - 1 ==> MoveDown(st, n, scrolled).1 != Value
  {
  }
}

=== FILE: file_dialog.dfy ===
/**
 * The non-filesystem logic of rat-widget's file dialog
 * (`rat-widget/src/file_dialog.rs`): the outcome type and its conversions,
 * starting and cancelling the "new directory" entry, what "choose" returns
 * in each mode, the inactive dialog, and the jump to the next name with a
 * given initial.
 *
 * Paths are sequences of components; reading directories, creating them
 * and the widgets' rendering are outside the model.
 */
module FileDialog {
  import opened Util

  /** A path as its components; `join` appends one. */
  datatype Path = Path(parts: seq<string>)

  function Join(p: Path, name: string): (r: Path)
    ensures |r.parts| == |p.parts| + 1 && r.parts[..|p.parts|] == p.parts && r.parts[|p.parts|] == name
  {
    Path(p.parts + [name])
  }

  // ---------------------------------------------------------------------
  // Outcomes
  // ---------------------------------------------------------------------

  /** The general event outcome. */
  datatype Outcome = Continue | Unchanged | Changed

  /** The dialog's own outcome. */
  datatype FileOutcome =
    | FContinue | FUnchanged | FChanged | Cancel
    | Ok(path: Path) | OkList(paths: seq<Path>)

  /** `is_consumed`: every outcome but `Continue` consumes the event. */
  predicate IsConsumed(f: FileOutcome)
  {
    !f.FContinue?
  }

  /** `From<FileOutcome> for Outcome`: the three plain outcomes map to themselves, the rest to `Changed`. */
  function ToOutcome(f: FileOutcome): (r: Outcome)
    ensures f.FContinue? <==> r == Continue
    ensures f.FUnchanged? <==> r == Unchanged
  {
    match f
    case FContinue => Continue
    case FUnchanged => Unchanged
    case FChanged => Changed
    case Cancel => Changed
    case Ok(_) => Changed
    case OkList(_) => Changed
  }

  /** `From<Outcome> for FileOutcome`. */
  function FromOutcome(o: Outcome): (r: FileOutcome)
    ensures !r.Cancel? && !r.Ok? && !r.OkList?
  {
    match o
    case Continue => FContinue
    case Unchanged => FUnchanged
    case Changed => FChanged
  }

  /** `From<bool> for FileOutcome`: a change or no change, never `Continue`. */
  function FromBool(b: bool): (r: FileOutcome)
    ensures IsConsumed(r)
    ensures r.FChanged? <==> b
    ensures r.FUnchanged? <==> !b
  {
    if b then FChanged else FUnchanged
  }

  /** Converting an outcome to the dialog's and back gives it back. */
  lemma OutcomeRoundTrip(o: Outcome)
    ensures ToOutcome(FromOutcome(o)) == o
  {
  }

  /** The plain outcomes convert back and forth unchanged; the final ones all read as `Changed`. */
  lemma FileOutcomeRoundTrip(f: FileOutcome)
    ensures (f.FContinue? || f.FUnchanged? || f.FChanged?) <==> FromOutcome(ToOutcome(f)) == f
  {
  }

  /** The conversion keeps whether the event was consumed. */
  lemma ConsumedPreserved(f: FileOutcome)
    ensures IsConsumed(f) <==> ToOutcome(f) != Continue
    ensures IsConsumed(FromOutcome(ToOutcome(f))) == IsConsumed(f)
  {
  }

  // ---------------------------------------------------------------------
  // The dialog state
  // ---------------------------------------------------------------------

  datatype Mode = Open | OpenMany | Save | Dir

  /**
   * The dialog: whether it is shown, its mode and directory, the listed
   * directories and files, the directory entry being edited, the
   * selections, and the save name and default extension.
   */
  datatype DialogState = DialogState(
    active: bool, mode: Mode, path: Path,
    dirs: seq<string>, editing: bool, dirSel: Option<nat>,
    files: seq<string>, firstSelected: Option<nat>, selected: seq<nat>,
    saveName: string, saveExt: Option<string>)

  /** While a new directory is being edited its placeholder is the last entry. */
  predicate Valid(st: DialogState)
  {
    st.editing ==> |st.dirs| > 0
  }

  /** `start_edit_dir`: add an empty entry to edit, unless an edit is already running. */
  function StartEditDir(st: DialogState): (r: (DialogState, FileOutcome))
    requires Valid(st)
    ensures Valid(r.0) && r.0.editing
    ensures st.editing ==> r == (st, FContinue)
    ensures !st.editing ==> r.1 == FChanged && r.0 == st.(dirs := st.dirs + [""], editing := true)
  {
    if !st.editing then (st.(dirs := st.dirs + [""], editing := true), FChanged)
    else (st, FContinue)
  }

  /** `cancel_edit_dir`: drop the entry being edited. */
  function CancelEditDir(st: DialogState): (r: (DialogState, FileOutcome))
    requires Valid(st)
    ensures Valid(r.0) && !r.0.editing
    ensures !st.editing ==> r == (st, FContinue)
    ensures st.editing ==> r.1 == FChanged && r.0.dirs == st.dirs[..|st.dirs| - 1]
  {
    if st.editing then (st.(dirs := st.dirs[..|st.dirs| - 1], editing := false), FChanged)
    else (st, FContinue)
  }

  /** Starting a new directory and cancelling it restores the listing. */
  lemma StartThenCancel(st: DialogState)
    requires Valid(st) && !st.editing
    ensures CancelEditDir(StartEditDir(st).0).0 == st
  {
    assert (st.dirs + [""])[..|st.dirs|] == st.dirs;
  }

  // ---------------------------------------------------------------------
  // Choosing
  // ---------------------------------------------------------------------

  /**
   * `Path::extension` of a last component: the text after the last dot,
   * unless there is no dot, the only dot starts the name, or the name is "..".
   */
  function Extension(name: string): (r: Option<string>)
    ensures '.' !in name ==> r.None?
    ensures r.Some? ==> |r.value| < |name| && r.value == name[|name| - |r.value|..] && '.' !in r.value
    ensures r.Some? ==> name[|name| - |r.value| - 1] == '.' && |name| - |r.value| - 1 > 0
  {
    if name == ".." then None
    else
      match LastDot(name)
      case None => None
      case Some(k) => if k == 0 then None else Some(name[k + 1..])
  }

  /** The index of the last '.' in `s`. */
  function LastDot(s: string): (r: Option<nat>)
    ensures r.None? <==> '.' !in s
    ensures r.Some? ==> r.value < |s| && s[r.value] == '.' && '.' !in s[r.value + 1..]
    decreases |s|
  {
    if |s| == 0 then None
    else if s[|s| - 1] == '.' then Some(|s| - 1)
    else
      var r := LastDot(s[..|s| - 1]);
      assert r.Some? ==> s[r.value + 1..] == s[..|s| - 1][r.value + 1..] + [s[|s| - 1]];
      assert '.' !in s[..|s| - 1] ==> '.' !in s by { assert s == s[..|s| - 1] + [s[|s| - 1]]; }
      r
  }

  /** The save name, with the default extension added when it has none and the default is not empty. */
  function SaveName(name: string, ext: Option<string>): (r: string)
    ensures Extension(name).Some? || ext.None? || (ext.Some? && |ext.value| == 0) || name == ".." ==> r == name
    ensures Extension(name).None? && ext.Some? && |ext.value| > 0 && name != ".." ==> r == name + "." + ext.value
  {
    if Extension(name).None? && ext.Some? && |ext.value| > 0 && name != ".." then name + "." + ext.value
    else name
  }

  /**
   * The Save branch of `choose_selected`: `path.join(name)`, then
   * `set_extension` when `extension()` finds none. `Path` compares by
   * components, and a trailing "." or an empty name adds none, so joining
   * "." or "" gives the directory itself; its extension and `set_extension`
   * then act on the directory's own last component. A last component ".."
   * (or none at all) has no file name, so `set_extension` changes nothing.
   */
  function SavePath(dir: Path, name: string, ext: Option<string>): (r: Path)
    ensures name != "." && name != "" ==> r == Join(dir, SaveName(name, ext))
    ensures (name == "." || name == "") && (|dir.parts| == 0 || dir.parts[|dir.parts| - 1] == "..") ==> r == dir
    ensures (name == "." || name == "") && |dir.parts| > 0 ==>
      var n := |dir.parts| - 1;
      |r.parts| == |dir.parts| && r.parts[..n] == dir.parts[..n]
      && (dir.parts[n] != ".." ==> r.parts[n] == SaveName(dir.parts[n], ext))
  {
    if name != "." && name != "" then Join(dir, SaveName(name, ext))
    else if |dir.parts| == 0 then dir
    else
      var n := |dir.parts| - 1;
      if dir.parts[n] == ".." then dir
      else Path(dir.parts[..n] + [SaveName(dir.parts[n], ext)])
  }

  /** A name ending in a dot and a dot-free extension: the extension is the part after that dot. */
  lemma ExtensionOfDotted(stem: string, ext: string)
    requires |stem| > 0 && |ext| > 0 && '.' !in ext
    ensures Extension(stem + "." + ext) == Some(ext)
  {
    var s := stem + "." + ext;
    assert s[|stem|] == '.';
    assert s[|stem| + 1..] == ext;
    assert |s| > 2;
  }

  /**
   * Saving as "." in a directory whose name has no extension renames the
   * directory itself: "." with "md" in home/u/docs gives home/u/docs.md; a
   * directory named docs.v2 is returned unchanged.
   */
  lemma SaveDotExtendsDirectory()
    ensures SavePath(Path(["home", "u", "docs"]), ".", Some("md")) == Path(["home", "u", "docs.md"])
    ensures SavePath(Path(["home", "u", "docs.v2"]), ".", Some("md")) == Path(["home", "u", "docs.v2"])
  {
    assert LastDot("docs") == None by { assert '.' !in "docs"; }
    assert SaveName("docs", Some("md")) == "docs.md";
    assert ["home", "u", "docs"][..2] + ["docs.md"] == ["home", "u", "docs.md"];
    ExtensionOfDotted("docs", "v2");
  }

  /**
   * With a non-empty, dot-free default extension the saved path always ends
   * in a component that has an extension, unless there is no file name to
   * give one to (the name "..", or "." in the root or in a "..").
   */
  lemma SavePathHasExtension(dir: Path, name: string, ext: string)
    requires |ext| > 0 && '.' !in ext && name != ".."
    requires name == "." || name == "" ==>
      |dir.parts| > 0 && dir.parts[|dir.parts| - 1] != ".." && dir.parts[|dir.parts| - 1] != ""
    ensures var r := SavePath(dir, name, Some(ext));
      |r.parts| > 0 && Extension(r.parts[|r.parts| - 1]).Some?
  {
    var stem := if name == "." || name == "" then dir.parts[|dir.parts| - 1] else name;
    if Extension(stem).None? {
      ExtensionOfDotted(stem, ext);
    }
  }

  /**
   * `choose_selected`: in Open mode the first selected file, in OpenMany
   * mode all selected files, in Save mode the trimmed save name, and in
   * Dir mode the selected directory (the current directory for "..").
   * Choosing closes the dialog; without a choice nothing changes.
   */
  function ChooseSelected(st: DialogState): (r: (DialogState, FileOutcome))
    requires st.mode == OpenMany ==> forall k :: 0 <= k < |st.selected| ==> st.selected[k] < |st.files|
    ensures r.1.FContinue? ==> r.0 == st
    ensures !r.1.FContinue? ==> r.0 == st.(active := false) && (r.1.Ok? || r.1.OkList?)
    ensures st.mode == Open ==>
      (r.1.FContinue? <==> !(st.firstSelected.Some? && st.firstSelected.value < |st.files|))
    ensures st.mode == Open && r.1.Ok? ==> r.1.path == Join(st.path, st.files[st.firstSelected.value])
    ensures st.mode == OpenMany ==>
      r.1.OkList? && |r.1.paths| == |st.selected| &&
      (forall k :: 0 <= k < |st.selected| ==> r.1.paths[k] == Join(st.path, st.files[st.selected[k]]))
    ensures st.mode == Save ==> r.1 == FileOutcome.Ok(SavePath(st.path, Trim(st.saveName), st.saveExt))
    ensures st.mode == Dir ==> (r.1.FContinue? <==> !(st.dirSel.Some? && st.dirSel.value < |st.dirs|))
    ensures st.mode == Dir && r.1.Ok? ==>
      var d := st.dirs[st.dirSel.value];
      r.1.path == if d == ".." then st.path else Join(st.path, d)
  {
    match st.mode
    case Open =>
      if st.firstSelected.Some? && st.firstSelected.value < |st.files| then
        (st.(active := false), FileOutcome.Ok(Join(st.path, st.files[st.firstSelected.value])))
      else (st, FContinue)
    case OpenMany =>
      (st.(active := false), OkList(seq(|st.selected|, k requires 0 <= k < |st.selected| => Join(st.path, st.files[st.selected[k]]))))
    case Save =>
      (st.(active := false), FileOutcome.Ok(SavePath(st.path, Trim(st.saveName), st.saveExt)))
    case Dir =>
      if st.dirSel.Some? && st.dirSel.value < |st.dirs| then
        var d := st.dirs[st.dirSel.value];
        (st.(active := false), FileOutcome.Ok(if d == ".." then st.path else Join(st.path, d)))
      else (st, FContinue)
  }

  /** An inactive dialog lets every event pass: `handled` is what the active dialog would report. */
  function Handle(st: DialogState, handled: FileOutcome): (r: FileOutcome)
    ensures !st.active ==> r == FContinue
    ensures st.active ==> r == handled
  {
    if !st.active then FContinue else handled
  }

  /** Once something is chosen the dialog is closed and ignores every further event. */
  lemma ChosenIgnoresEvents(st: DialogState, handled: FileOutcome)
    requires st.mode == OpenMany ==> forall k :: 0 <= k < |st.selected| ==> st.selected[k] < |st.files|
    requires IsConsumed(ChooseSelected(st).1)
    ensures Handle(ChooseSelected(st).0, handled) == FContinue
  {
  }

  /** Saving as "notes" with the default extension "md" gives "notes.md" in the current directory. */
  lemma SaveAddsExtension(st: DialogState)
    requires st.mode == Save && st.saveName == "notes" && st.saveExt == Some("md")
    ensures ChooseSelected(st).1 == FileOutcome.Ok(Join(st.path, "notes.md"))
  {
    NotesName(st.saveName);
  }

  lemma NotesName(name: string)
    requires name == "notes"
    ensures SaveName(Trim(name), Some("md")) == "notes.md"
  {
    assert Trim(name) == name;
    assert '.' !in name;
  }

  // ---------------------------------------------------------------------
  // Jump by initial
  // ---------------------------------------------------------------------

  /** The characters `find_next_by_key` splits names on. */
  predicate IsWordSep(c: char)
  {
    c == ' ' || c == '_' || c == '-'
  }

  /** Position `i` of `name` starts a word. */
  predicate InitialAt(name: string, i: nat)
    requires i < |name|
  {
    !IsWordSep(name[i]) && (i == 0 || IsWordSep(name[i - 1]))
  }

  /**
   * Whether some word of `name` starts with a character that lower-cases
   * to `c`; `lower` is the first character of `char::to_lowercase`.
   */
  function HasInitial(name: string, c: char, lower: char -> char): (r: bool)
    ensures r <==> exists i :: 0 <= i < |name| && InitialAt(name, i) && lower(name[i]) == c
    decreases |name|
  {
    if |name| == 0 then false
    else
      var n := |name| - 1;
      var rest := HasInitial(name[..n], c, lower);
      assert forall i :: 0 <= i < n ==> (InitialAt(name[..n], i) <==> InitialAt(name, i));
      rest || (InitialAt(name, n) && lower(name[n]) == c)
  }

  /** How many steps forward from `start`, cyclically, index `j` lies. */
  function Steps(start: nat, j: nat, n: nat): (r: nat)
    requires start < n && j < n
    ensures 0 < r <= n
    ensures r == n <==> j == start
  {
    if j > start then j - start else j + n - start
  }

  predicate Matches(names: seq<string>, k: nat, c: char, lower: char -> char)
    requires k < |names|
  {
    HasInitial(names[k], lower(c), lower)
  }

  /**
   * `find_next_by_key`: the first name after `start`, cyclically and not
   * `start` itself, with a word starting with `c` (compared in lower case).
   * The source panics or loops for a start outside the list, except that an
   * empty list with start 0 gives nothing.
   */
  method FindNextByKey(c: char, start: nat, names: seq<string>, lower: char -> char) returns (r: Option<nat>)
    requires start < |names| || (|names| == 0 && start == 0)
    ensures r.Some? ==> r.value < |names| && r.value != start && Matches(names, r.value, c, lower)
    ensures r.Some? ==> forall j :: 0 <= j < |names| && Steps(start, j, |names|) < Steps(start, r.value, |names|) ==>
      !Matches(names, j, c, lower)
    ensures r.None? ==> forall j :: 0 <= j < |names| && j != start ==> !Matches(names, j, c, lower)
  {
    var n := |names|;
    if n == 0 {
      return None;
    }
    var idx := start;
    ghost var d: nat := 0;
    while true
      invariant d < n && idx < n
      invariant idx == if start + d < n then start + d else start + d - n
      invariant forall j :: 0 <= j < n && j != start && Steps(start, j, n) <= d ==> !Matches(names, j, c, lower)
      decreases n - d
    {
      idx := idx + 1;
      if idx >= n {
        idx := 0;
      }
      if idx == start {
        break;
      }
      d := d + 1;
      assert Steps(start, idx, n) == d;
      if Matches(names, idx, c, lower) {
        return Some(idx);
      }
    }
    return None;
  }
}

=== FILE: focus.dfy ===
/**
 * The focus ring of rat-focus (`focus.rs`): a flat list of widget focus
 * flags with a keyboard navigation mode each, and containers that cover a
 * range of that list. Focus moves cyclically between navigable widgets; a
 * change resets the focused/gained/lost flags, focuses one widget, and
 * then summarises each container from its members.
 *
 * The shared `FocusFlag` cells are modelled as a map from widget id to
 * the three booleans; a duplicate entry of a widget shares its id.
 */
module Focus {
  import opened Util

  /** How a widget takes part in keyboard navigation. */
  datatype Navigation = NavNone | Mouse | Leave | Reach | ReachLeaveFront | ReachLeaveBack | Regular | Lock

  /** The three booleans of a focus flag. */
  datatype FlagState = FlagState(focused: bool, gained: bool, lost: bool)

  type Flags = map<nat, FlagState>

  /** A half-open index range `start..end`. */
  datatype Range = Range(start: nat, end: nat)

  /** One registration of a widget: its flag id, whether it repeats an earlier id, its navigation. */
  datatype Entry = Entry(id: nat, duplicate: bool, nav: Navigation)

  /** A container: its own flag id and the range of entries it covers. */
  datatype Container = Container(id: nat, range: Range)

  /** `FocusCore`: the widget entries and the containers over them. */
  datatype Core = Core(entries: seq<Entry>, containers: seq<Container>)

  /** The navigation modes `first_navigable`, `next_navigable` and `prev_navigable` stop at. */
  predicate IsNavigable(n: Navigation)
  {
    n == Reach || n == ReachLeaveBack || n == ReachLeaveFront || n == Regular
  }

  predicate RangesIn(core: Core)
  {
    forall k :: 0 <= k < |core.containers| ==>
      core.containers[k].range.start <= core.containers[k].range.end <= |core.entries|
  }

  /** Every flag the core refers to has a state. */
  predicate FlagsCover(core: Core, flags: Flags)
  {
    (forall i :: 0 <= i < |core.entries| ==> core.entries[i].id in flags) &&
    (forall k :: 0 <= k < |core.containers| ==> core.containers[k].id in flags)
  }

  /** Container flags are distinct from each other and from widget flags. */
  predicate DistinctContainers(core: Core)
  {
    (forall k, l :: 0 <= k < l < |core.containers| ==> core.containers[k].id != core.containers[l].id) &&
    (forall k, i :: 0 <= k < |core.containers| && 0 <= i < |core.entries| ==>
       core.containers[k].id != core.entries[i].id)
  }

  /**
   * Every widget flag has a first, non-duplicate entry (the builder marks
   * exactly the repeats as duplicates).
   */
  predicate AllPrimary(core: Core)
  {
    forall i :: 0 <= i < |core.entries| ==> core.entries[i].id in PrimaryIds(core)
  }

  predicate ValidCore(core: Core, flags: Flags)
  {
    RangesIn(core) && FlagsCover(core, flags) && DistinctContainers(core) && AllPrimary(core)
  }

  // ---------------------------------------------------------------------
  // Range arithmetic for inserting and removing containers
  // ---------------------------------------------------------------------

  /** `shift`: move a range right by `n`. */
  function Shift(n: nat, r: Range): (s: Range)
    ensures s.end - s.start == r.end - r.start
    ensures s.start - n == r.start
  {
    Range(r.start + n, r.end + n)
  }

  /**
   * `expand`: adjust a range for `ins.end - ins.start` entries inserted at
   * `ins.start`. A range starting at the insert point moves; a range
   * ending there stays.
   */
  function Expand(ins: Range, r: Range): (s: Range)
    requires ins.start <= ins.end
    ensures r.start <= r.end && (r.start < r.end || r.start != ins.start) ==> s.start <= s.end
    ensures Shrink(ins, s) == r
  {
    var len := ins.end - ins.start;
    Range(if r.start >= ins.start then r.start + len else r.start,
          if r.end > ins.start then r.end + len else r.end)
  }

  /**
   * `shrink`: adjust a range for the entries `rem` removed. Bounds inside
   * the removed part collapse onto its start, later bounds move left.
   */
  function Shrink(rem: Range, r: Range): (s: Range)
    requires rem.start <= rem.end
    ensures r.start <= r.end ==> s.start <= s.end
    ensures r.start <= r.end && r.end <= rem.start ==> s == r
    ensures r.start <= r.end && r.start >= rem.end ==>
      s == Range(r.start - (rem.end - rem.start), r.end - (rem.end - rem.start))
    ensures rem.start <= r.start <= r.end <= rem.end ==> s == Range(rem.start, rem.start)
  {
    var len := rem.end - rem.start;
    Range(if r.start < rem.start then r.start
          else if r.start <= rem.end then rem.start
          else r.start - len,
          if r.end < rem.start then r.end
          else if r.end <= rem.end then rem.start
          else r.end - len)
  }

  /** The asserted examples of `test_change`. */
  lemma ChangeExamples()
    ensures Shift(0, Range(1, 1)) == Range(1, 1) && Shift(1, Range(1, 1)) == Range(2, 2)
    ensures Expand(Range(3, 4), Range(0, 1)) == Range(0, 1)
    ensures Expand(Range(3, 4), Range(2, 3)) == Range(2, 3)
    ensures Expand(Range(3, 4), Range(3, 4)) == Range(4, 5)
    ensures Expand(Range(3, 4), Range(4, 5)) == Range(5, 6)
    ensures Expand(Range(3, 3), Range(3, 4)) == Range(3, 4)
    ensures Shrink(Range(3, 4), Range(0, 1)) == Range(0, 1)
    ensures Shrink(Range(3, 4), Range(3, 4)) == Range(3, 3)
    ensures Shrink(Range(3, 4), Range(4, 5)) == Range(3, 4)
    ensures Shrink(Range(3, 4), Range(5, 6)) == Range(4, 5)
    ensures Shrink(Range(3, 3), Range(3, 4)) == Range(3, 4)
  {
  }

  // ---------------------------------------------------------------------
  // Navigable searches
  // ---------------------------------------------------------------------

  function Navs(core: Core): (navs: seq<Navigation>)
    ensures |navs| == |core.entries|
    ensures forall i :: 0 <= i < |navs| ==> navs[i] == core.entries[i].nav
  {
    seq(|core.entries|, i requires 0 <= i < |core.entries| => core.entries[i].nav)
  }

  /** `first_navigable`: the least navigable index at or after `start`. */
  function FirstNavigable(navs: seq<Navigation>, start: nat): (r: Option<nat>)
    ensures r.Some? ==> start <= r.value < |navs| && IsNavigable(navs[r.value])
    ensures r.Some? ==> forall i :: start <= i < r.value ==> !IsNavigable(navs[i])
    ensures r.None? ==> forall i :: start <= i < |navs| ==> !IsNavigable(navs[i])
    decreases |navs| - start
  {
    if start >= |navs| then None
    else if IsNavigable(navs[start]) then Some(start)
    else FirstNavigable(navs, start + 1)
  }

  /** The greatest navigable index before `end`. */
  function LastNavigable(navs: seq<Navigation>, end: nat): (r: Option<nat>)
    requires end <= |navs|
    ensures r.Some? ==> r.value < end && IsNavigable(navs[r.value])
    ensures r.Some? ==> forall i :: r.value < i < end ==> !IsNavigable(navs[i])
    ensures r.None? ==> forall i :: 0 <= i < end ==> !IsNavigable(navs[i])
  {
    if end == 0 then None
    else if IsNavigable(navs[end - 1]) then Some(end - 1)
    else LastNavigable(navs, end - 1)
  }

  /**
   * Where the cyclic forward walk from `start` stops: the first navigable
   * index after `start`, else the first one from the beginning, else `start`.
   */
  function NextAfter(navs: seq<Navigation>, start: nat): (r: nat)
    requires start < |navs|
    ensures r < |navs|
    ensures r == start || IsNavigable(navs[r])
    ensures (exists i :: 0 <= i < |navs| && i != start && IsNavigable(navs[i])) ==>
      r != start && IsNavigable(navs[r])
    ensures r > start ==> forall i :: start < i < r ==> !IsNavigable(navs[i])
    ensures r <= start ==> forall i :: (start < i < |navs| || 0 <= i < r) ==> !IsNavigable(navs[i])
  {
    match FirstNavigable(navs, start + 1)
    case Some(n) => n
    case None =>
      match FirstNavigable(navs, 0)
      case Some(n) => n
      case None => start
  }

  /**
   * Where the cyclic backward walk from `start` stops: the last navigable
   * index before `start`, else the last one overall, else `start`.
   */
  function PrevBefore(navs: seq<Navigation>, start: nat): (r: nat)
    requires start < |navs|
    ensures r < |navs|
    ensures r == start || IsNavigable(navs[r])
    ensures (exists i :: 0 <= i < |navs| && i != start && IsNavigable(navs[i])) ==>
      r != start && IsNavigable(navs[r])
    ensures r < start ==> forall i :: r < i < start ==> !IsNavigable(navs[i])
    ensures r >= start ==> forall i :: (0 <= i < start || r < i < |navs|) ==> !IsNavigable(navs[i])
  {
    match LastNavigable(navs, start)
    case Some(n) => n
    case None =>
      match LastNavigable(navs, |navs|)
      case Some(n) => n
      case None => start
  }

  /**
   * `next_navigable`: step forward from `start`, wrapping to 0 after the
   * last entry, until a navigable entry or `start` itself is reached.
   */
  method NextNavigable(navs: seq<Navigation>, start: nat) returns (n: nat)
    requires start < |navs|
    ensures n == NextAfter(navs, start)
  {
    n := start;
    while true
      invariant n < |navs|
      invariant n > start ==> forall i :: start < i <= n ==> !IsNavigable(navs[i])
      invariant n < start ==> forall i :: (start < i < |navs| || 0 <= i <= n) ==> !IsNavigable(navs[i])
      decreases if n >= start then |navs| - n + start + 1 else start - n
    {
      n := if n + 1 < |navs| then n + 1 else 0;
      if IsNavigable(navs[n]) {
        return;
      }
      if n == start {
        return;
      }
    }
  }

  /**
   * `prev_navigable`: step backward from `start`, wrapping to the last
   * entry before 0, until a navigable entry or `start` itself is reached.
   */
  method PrevNavigable(navs: seq<Navigation>, start: nat) returns (n: nat)
    requires start < |navs|
    ensures n == PrevBefore(navs, start)
  {
    n := start;
    while true
      invariant n < |navs|
      invariant n < start ==> forall i :: n <= i < start ==> !IsNavigable(navs[i])
      invariant n > start ==> forall i :: (0 <= i < start || n <= i < |navs|) ==> !IsNavigable(navs[i])
      decreases if n <= start then n + |navs| - start + 1 else n - start
    {
      n := if n > 0 then n - 1 else |navs| - 1;
      if IsNavigable(navs[n]) {
        return;
      }
      if n == start {
        return;
      }
    }
  }

  // ---------------------------------------------------------------------
  // The flag state machine
  // ---------------------------------------------------------------------

  /** Ids of the entries that are not duplicates: the flags `__start_change` resets. */
  function PrimaryIds(core: Core): set<nat>
  {
    set i | 0 <= i < |core.entries| && !core.entries[i].duplicate :: core.entries[i].id
  }

  /**
   * `__start_change`: clear focused and gained of every widget, and set
   * lost to the old focus (with `setLost`) or clear it.
   */
  function StartChange(core: Core, flags: Flags, setLost: bool): (f: Flags)
    ensures f.Keys == flags.Keys
    ensures forall id :: id in flags && id in PrimaryIds(core) ==>
      f[id] == FlagState(false, false, setLost && flags[id].focused)
    ensures forall id :: id in flags && id !in PrimaryIds(core) ==> f[id] == flags[id]
  {
    map id | id in flags :: if id in PrimaryIds(core) then FlagState(false, false, setLost && flags[id].focused) else flags[id]
  }

  /**
   * `__focus`: focus entry `n`. With `setLost`, a widget that just lost
   * the focus gets neither lost nor gained (and the result is false);
   * any other gains it (and the result is true).
   */
  function FocusIndex(core: Core, flags: Flags, n: nat, setLost: bool): (res: (Flags, bool))
    requires FlagsCover(core, flags)
    ensures res.0.Keys == flags.Keys
    ensures n >= |core.entries| ==> res == (flags, false)
    ensures n < |core.entries| ==>
      var id := core.entries[n].id;
      res.0 == flags[id := res.0[id]] && res.0[id].focused &&
      (setLost && flags[id].lost ==> res == (flags[id := FlagState(true, false, false)], false)) &&
      (setLost && !flags[id].lost ==> res == (flags[id := flags[id].(focused := true, gained := true)], true)) &&
      (!setLost ==> res == (flags[id := flags[id].(focused := true)], false))
  {
    if n >= |core.entries| then (flags, false)
    else
      var id := core.entries[n].id;
      var f := flags[id];
      if setLost then
        if f.lost then (flags[id := FlagState(true, false, false)], false)
        else (flags[id := f.(focused := true, gained := true)], true)
      else (flags[id := f.(focused := true)], false)
  }

  predicate AnyFocused(core: Core, flags: Flags, r: Range)
    requires FlagsCover(core, flags) && r.end <= |core.entries|
  {
    exists i :: r.start <= i < r.end && flags[core.entries[i].id].focused
  }

  predicate AnyGained(core: Core, flags: Flags, r: Range)
    requires FlagsCover(core, flags) && r.end <= |core.entries|
  {
    exists i :: r.start <= i < r.end && flags[core.entries[i].id].gained
  }

  predicate AnyLost(core: Core, flags: Flags, r: Range)
    requires FlagsCover(core, flags) && r.end <= |core.entries|
  {
    exists i :: r.start <= i < r.end && flags[core.entries[i].id].lost
  }

  /** The container flag summarising the members in `r`. */
  function Summary(core: Core, flags: Flags, r: Range): FlagState
    requires FlagsCover(core, flags) && r.end <= |core.entries|
  {
    var g, l := AnyGained(core, flags, r), AnyLost(core, flags, r);
    FlagState(AnyFocused(core, flags, r), g && !l, l && !g)
  }

  /** The container loop of `__accumulate`, from container `k` on. */
  function AccumulateFrom(core: Core, flags: Flags, k: nat): (f: Flags)
    requires ValidCore(core, flags) && k <= |core.containers|
    ensures f.Keys == flags.Keys
    ensures forall i :: 0 <= i < |core.entries| ==> f[core.entries[i].id] == flags[core.entries[i].id]
    ensures forall j :: 0 <= j < k ==> f[core.containers[j].id] == flags[core.containers[j].id]
    ensures forall j :: k <= j < |core.containers| ==>
      f[core.containers[j].id] == Summary(core, flags, core.containers[j].range)
    ensures forall id :: id in flags && (forall j :: k <= j < |core.containers| ==> core.containers[j].id != id) ==>
      f[id] == flags[id]
    decreases |core.containers| - k
  {
    if k == |core.containers| then flags
    else
      var c := core.containers[k];
      var next := flags[c.id := Summary(core, flags, c.range)];
      assert ValidCore(core, next);
      SummaryFrame(core, flags, next, c.range, c.id);
      forall j | k < j < |core.containers|
        ensures Summary(core, next, core.containers[j].range) == Summary(core, flags, core.containers[j].range)
      {
        SummaryFrame(core, flags, next, core.containers[j].range, c.id);
      }
      AccumulateFrom(core, next, k + 1)
  }

  /** Changing a container flag does not change any summary. */
  lemma SummaryFrame(core: Core, flags: Flags, next: Flags, r: Range, cid: nat)
    requires ValidCore(core, flags) && r.end <= |core.entries|
    requires next.Keys == flags.Keys
    requires forall id :: id in flags && id != cid ==> next[id] == flags[id]
    requires forall i :: 0 <= i < |core.entries| ==> core.entries[i].id != cid
    ensures FlagsCover(core, next)
    ensures Summary(core, next, r) == Summary(core, flags, r)
  {
  }

  /**
   * `__accumulate`: every container flag becomes the summary of its
   * members: focused iff some member is focused, gained iff some member
   * gained and none lost, lost iff some member lost and none gained.
   * Widget flags are untouched.
   */
  function Accumulate(core: Core, flags: Flags): (f: Flags)
    requires ValidCore(core, flags)
    ensures f.Keys == flags.Keys
    ensures forall i :: 0 <= i < |core.entries| ==> f[core.entries[i].id] == flags[core.entries[i].id]
    ensures forall k :: 0 <= k < |core.containers| ==>
      var r := core.containers[k].range;
      var c := f[core.containers[k].id];
      (c.focused <==> AnyFocused(core, flags, r)) &&
      (c.gained <==> AnyGained(core, flags, r) && !AnyLost(core, flags, r)) &&
      (c.lost <==> AnyLost(core, flags, r) && !AnyGained(core, flags, r))
  {
    AccumulateFrom(core, flags, 0)
  }

  /** `navigation`: the navigation mode of the first focused entry. */
  function CurrentNavigation(core: Core, flags: Flags, i: nat): (r: Option<Navigation>)
    requires FlagsCover(core, flags)
    ensures r.None? <==> forall j :: i <= j < |core.entries| ==> !flags[core.entries[j].id].focused
    ensures r.Some? ==>
      exists j :: i <= j < |core.entries| && flags[core.entries[j].id].focused && r.value == core.entries[j].nav
    decreases |core.entries| - i
  {
    if i >= |core.entries| then None
    else if flags[core.entries[i].id].focused then Some(core.entries[i].nav)
    else CurrentNavigation(core, flags, i + 1)
  }

  /** The first entry whose flag has lost the focus. */
  function FirstLost(core: Core, flags: Flags, i: nat): (r: Option<nat>)
    requires FlagsCover(core, flags)
    ensures r.Some? ==> i <= r.value < |core.entries| && flags[core.entries[r.value].id].lost
    ensures r.Some? ==> forall j :: i <= j < r.value ==> !flags[core.entries[j].id].lost
    ensures r.None? ==> forall j :: i <= j < |core.entries| ==> !flags[core.entries[j].id].lost
    decreases |core.entries| - i
  {
    if i >= |core.entries| then None
    else if flags[core.entries[i].id].lost then Some(i)
    else FirstLost(core, flags, i + 1)
  }

  /** `FocusCore::first`: focus the first navigable widget, if there is one. */
  function First(core: Core, flags: Flags): (f: Flags)
    requires ValidCore(core, flags)
    ensures f.Keys == flags.Keys
    ensures FirstNavigable(Navs(core), 0).None? ==> f == flags
    ensures FirstNavigable(Navs(core), 0).Some? ==> f[core.entries[FirstNavigable(Navs(core), 0).value].id].focused
  {
    match FirstNavigable(Navs(core), 0)
    case None => flags
    case Some(n) =>
      var f0 := StartChange(core, flags, true);
      Accumulate(core, FocusIndex(core, f0, n, true).0)
  }

  /**
   * `FocusCore::next`: after resetting the flags, move from the widget
   * that lost the focus to the next navigable one; with no focus, take the
   * first navigable widget. Reports false only when nothing is navigable.
   */
  function CoreNext(core: Core, flags: Flags): (res: (Flags, bool))
    requires ValidCore(core, flags)
    ensures res.0.Keys == flags.Keys
    ensures !res.1 ==> forall i :: 0 <= i < |core.entries| ==> !IsNavigable(core.entries[i].nav)
  {
    var f0 := StartChange(core, flags, true);
    match FirstLost(core, f0, 0)
    case Some(n) => (Accumulate(core, FocusIndex(core, f0, NextAfter(Navs(core), n), true).0), true)
    case None =>
      match FirstNavigable(Navs(core), 0)
      case Some(n) => (Accumulate(core, FocusIndex(core, f0, n, true).0), true)
      case None => (f0, false)
  }

  /** `FocusCore::prev`: as `CoreNext`, walking backward. */
  function CorePrev(core: Core, flags: Flags): (res: (Flags, bool))
    requires ValidCore(core, flags)
    ensures res.0.Keys == flags.Keys
    ensures !res.1 ==> forall i :: 0 <= i < |core.entries| ==> !IsNavigable(core.entries[i].nav)
  {
    var f0 := StartChange(core, flags, true);
    match FirstLost(core, f0, 0)
    case Some(n) => (Accumulate(core, FocusIndex(core, f0, PrevBefore(Navs(core), n), true).0), true)
    case None =>
      match FirstNavigable(Navs(core), 0)
      case Some(n) => (Accumulate(core, FocusIndex(core, f0, n, true).0), true)
      case None => (f0, false)
  }

  /**
   * Focusing entry `m` right after a change that took the focus from the
   * first focused entry `n`: exactly the flag of `m` is focused, and when
   * it is another widget, `n` has lost and `m` has gained the focus.
   */
  lemma {:induction false} MoveFocus(core: Core, flags: Flags, n: nat, m: nat)
    requires ValidCore(core, flags) && n < |core.entries| && m < |core.entries|
    requires flags[core.entries[n].id].focused
    requires forall j :: 0 <= j < |core.entries| ==> (flags[core.entries[j].id].focused <==> core.entries[j].id == core.entries[n].id)
    ensures var f0 := StartChange(core, flags, true);
      var f := Accumulate(core, FocusIndex(core, f0, m, true).0);
      var idn, idm := core.entries[n].id, core.entries[m].id;
      (forall i :: 0 <= i < |core.entries| ==> (f[core.entries[i].id].focused <==> core.entries[i].id == idm)) &&
      (idm != idn ==> f[idn].lost && !f[idn].gained && f[idm].gained && !f[idm].lost) &&
      (idm == idn ==> f[idm] == FlagState(true, false, false))
  {
    var f0 := StartChange(core, flags, true);
    assert forall i :: 0 <= i < |core.entries| ==> core.entries[i].id in PrimaryIds(core);
    assert forall i :: 0 <= i < |core.entries| ==> !f0[core.entries[i].id].focused;
    assert f0[core.entries[n].id].lost;
  }

  /** The entry where `FirstLost` stops after a change is the first entry that was focused. */
  lemma {:induction false} FirstLostAfterChange(core: Core, flags: Flags, n: nat)
    requires ValidCore(core, flags) && n < |core.entries|
    requires flags[core.entries[n].id].focused
    requires forall j :: 0 <= j < n ==> !flags[core.entries[j].id].focused
    ensures FirstLost(core, StartChange(core, flags, true), 0) == Some(n)
  {
    var f0 := StartChange(core, flags, true);
    assert forall i :: 0 <= i < |core.entries| ==> core.entries[i].id in PrimaryIds(core);
    assert forall i :: 0 <= i < |core.entries| ==> f0[core.entries[i].id].lost == flags[core.entries[i].id].focused;
  }

  /**
   * `next` moves the focus from the first focused widget to the next
   * navigable one after it (cyclically): that flag alone is focused.
   */
  lemma NextMovesFocus(core: Core, flags: Flags, n: nat)
    requires ValidCore(core, flags) && n < |core.entries|
    requires flags[core.entries[n].id].focused
    requires forall j :: 0 <= j < |core.entries| ==> (flags[core.entries[j].id].focused <==> core.entries[j].id == core.entries[n].id)
    requires forall j :: 0 <= j < n ==> !flags[core.entries[j].id].focused
    ensures var m := NextAfter(Navs(core), n);
      var res := CoreNext(core, flags);
      res.1 &&
      (forall i :: 0 <= i < |core.entries| ==> (res.0[core.entries[i].id].focused <==> core.entries[i].id == core.entries[m].id)) &&
      (core.entries[m].id != core.entries[n].id ==> res.0[core.entries[n].id].lost && res.0[core.entries[m].id].gained)
  {
    FirstLostAfterChange(core, flags, n);
    MoveFocus(core, flags, n, NextAfter(Navs(core), n));
  }

  /** `prev` moves the focus to the previous navigable widget, cyclically. */
  lemma PrevMovesFocus(core: Core, flags: Flags, n: nat)
    requires ValidCore(core, flags) && n < |core.entries|
    requires flags[core.entries[n].id].focused
    requires forall j :: 0 <= j < |core.entries| ==> (flags[core.entries[j].id].focused <==> core.entries[j].id == core.entries[n].id)
    requires forall j :: 0 <= j < n ==> !flags[core.entries[j].id].focused
    ensures var m := PrevBefore(Navs(core), n);
      var res := CorePrev(core, flags);
      res.1 &&
      (forall i :: 0 <= i < |core.entries| ==> (res.0[core.entries[i].id].focused <==> core.entries[i].id == core.entries[m].id)) &&
      (core.entries[m].id != core.entries[n].id ==> res.0[core.entries[n].id].lost && res.0[core.entries[m].id].gained)
  {
    FirstLostAfterChange(core, flags, n);
    MoveFocus(core, flags, n, PrevBefore(Navs(core), n));
  }

  /**
   * `Focus::next`: with nothing focused, focus the first widget and report
   * a change; otherwise move only away from a `Leave`, `ReachLeaveBack` or
   * `Regular` widget.
   */
  function Next(core: Core, flags: Flags): (res: (Flags, bool))
    requires ValidCore(core, flags)
    ensures res.0.Keys == flags.Keys
    ensures CurrentNavigation(core, flags, 0).None? ==> res == (First(core, flags), true)
    ensures CurrentNavigation(core, flags, 0).Some? &&
            CurrentNavigation(core, flags, 0).value !in {Leave, ReachLeaveBack, Regular} ==>
            res == (flags, false)
  {
    match CurrentNavigation(core, flags, 0)
    case None => (First(core, flags), true)
    case Some(nav) =>
      if nav == Leave || nav == ReachLeaveBack || nav == Regular then CoreNext(core, flags)
      else (flags, false)
  }

  /** `Focus::prev`: as `Next`, leaving only `Leave`, `ReachLeaveFront` or `Regular` widgets. */
  function Prev(core: Core, flags: Flags): (res: (Flags, bool))
    requires ValidCore(core, flags)
    ensures res.0.Keys == flags.Keys
    ensures CurrentNavigation(core, flags, 0).None? ==> res == (First(core, flags), true)
    ensures CurrentNavigation(core, flags, 0).Some? &&
            CurrentNavigation(core, flags, 0).value !in {Leave, ReachLeaveFront, Regular} ==>
            res == (flags, false)
  {
    match CurrentNavigation(core, flags, 0)
    case None => (First(core, flags), true)
    case Some(nav) =>
      if nav == Leave || nav == ReachLeaveFront || nav == Regular then CorePrev(core, flags)
      else (flags, false)
  }

  /**
   * Focusing the widget that held the focus before the change leaves it
   * focused with neither gained nor lost set, and reports no change.
   */
  lemma RefocusClearsLostGained(core: Core, flags: Flags, n: nat)
    requires ValidCore(core, flags) && n < |core.entries| && !core.entries[n].duplicate
    requires flags[core.entries[n].id].focused
    ensures var f0 := StartChange(core, flags, true);
            var res := FocusIndex(core, f0, n, true);
            res.0[core.entries[n].id] == FlagState(true, false, false) && !res.1
  {
    assert core.entries[n].id in PrimaryIds(core);
  }

  // ---------------------------------------------------------------------
  // Building
  // ---------------------------------------------------------------------

  /**
   * The part of `FocusBuilder` that registers widgets and containers;
   * `complete[k]` records whether container `k` has been ended.
   */
  datatype Builder = Builder(focusIds: set<nat>, entries: seq<Entry>, containerIds: set<nat>,
                             containers: seq<Container>, complete: seq<bool>)

  /** The builder's id set is exactly the entry ids, and an entry is a duplicate iff its id occurs earlier. */
  predicate ValidBuilder(b: Builder)
  {
    b.focusIds == (set i | 0 <= i < |b.entries| :: b.entries[i].id) &&
    (forall i :: 0 <= i < |b.entries| ==>
      (b.entries[i].duplicate <==> exists j :: 0 <= j < i && b.entries[j].id == b.entries[i].id)) &&
    (forall i :: 0 <= i < |b.entries| && b.entries[i].duplicate ==> b.entries[i].nav in {Mouse, NavNone})
  }

  /**
   * `widget_with_flags`: append a widget. A flag that is already present
   * may only be added again for `Mouse` or `None` navigation; anything
   * else panics.
   */
  function WidgetWithFlags(b: Builder, id: nat, nav: Navigation): (r: Result<Builder, ()>)
    ensures r.Err? <==> id in b.focusIds && nav !in {Mouse, NavNone}
    ensures r.Ok? ==> r.value.entries == b.entries + [Entry(id, id in b.focusIds, nav)]
    ensures r.Ok? ==> r.value.focusIds == b.focusIds + {id}
    ensures r.Ok? ==> r.value.containers == b.containers
  {
    var duplicate := id in b.focusIds;
    if duplicate && !(nav == Mouse || nav == NavNone) then Err(())
    else Ok(b.(focusIds := b.focusIds + {id}, entries := b.entries + [Entry(id, duplicate, nav)]))
  }

  /** Registering widgets keeps the builder's bookkeeping exact. */
  lemma WidgetWithFlagsValid(b: Builder, id: nat, nav: Navigation)
    requires ValidBuilder(b)
    requires WidgetWithFlags(b, id, nav).Ok?
    ensures ValidBuilder(WidgetWithFlags(b, id, nav).value)
  {
    var e := WidgetWithFlags(b, id, nav).value.entries;
    var n := |b.entries|;
    assert forall i :: 0 <= i < n ==> e[i] == b.entries[i];
    assert e[n].duplicate <==> exists j :: 0 <= j < n && e[j].id == id by {
      if id in b.focusIds {
        var j :| 0 <= j < n && b.entries[j].id == id;
        assert e[j].id == id;
      }
    }
    assert (set i | 0 <= i < |e| :: e[i].id) == b.focusIds + {id} by {
      assert forall i :: 0 <= i < n ==> e[i].id == b.entries[i].id;
    }
  }

  /** `start_with_flags`: open a container; a container flag added twice asserts. */
  function StartContainer(b: Builder, id: nat): (r: Result<Builder, ()>)
    ensures r.Err? <==> id in b.containerIds
    ensures r.Ok? ==> r.value.containers == b.containers + [Container(id, Range(|b.entries|, |b.entries|))]
    ensures r.Ok? ==> r.value.complete == b.complete + [false]
    ensures r.Ok? ==> r.value.entries == b.entries && r.value.containerIds == b.containerIds + {id}
  {
    if id in b.containerIds then Err(())
    else Ok(b.(containerIds := b.containerIds + {id},
               containers := b.containers + [Container(id, Range(|b.entries|, |b.entries|))],
               complete := b.complete + [false]))
  }

  /**
   * The backward walk of `end`, from container `k - 1` down: the last
   * container with flag `id` ends at the current entry count; an
   * unfinished container after it panics.
   */
  function EndFrom(b: Builder, id: nat, k: nat): (r: Result<Builder, ()>)
    requires |b.complete| == |b.containers| && k <= |b.containers|
    ensures r.Ok? ==>
      r.value.entries == b.entries && r.value.focusIds == b.focusIds &&
      r.value.containerIds == b.containerIds && |r.value.containers| == |b.containers| &&
      |r.value.complete| == |b.complete|
    ensures r.Ok? ==> forall j :: 0 <= j < |b.containers| ==>
      r.value.containers[j].id == b.containers[j].id &&
      (r.value.containers[j] != b.containers[j] ==>
         b.containers[j].id == id && r.value.containers[j].range == Range(b.containers[j].range.start, |b.entries|))
    ensures r.Err? ==> exists j :: 0 <= j < k && b.containers[j].id != id && !b.complete[j]
  {
    if k == 0 then Ok(b)
    else if b.containers[k - 1].id != id then
      if !b.complete[k - 1] then Err(()) else EndFrom(b, id, k - 1)
    else
      var c := b.containers[k - 1];
      Ok(b.(containers := b.containers[k - 1 := Container(id, Range(c.range.start, |b.entries|))],
            complete := b.complete[k - 1 := true]))
  }

  /** `end`: close the container with flag `id`, which must have been started. */
  function End(b: Builder, id: nat): (r: Result<Builder, ()>)
    requires |b.complete| == |b.containers|
    ensures id !in b.containerIds ==> r.Err?
    ensures r.Ok? ==> r.value.entries == b.entries && |r.value.containers| == |b.containers|
    ensures r.Ok? ==> forall j :: 0 <= j < |b.containers| ==>
      r.value.containers[j].id == b.containers[j].id &&
      (r.value.containers[j] != b.containers[j] ==> r.value.containers[j].range.end == |b.entries|)
  {
    if id !in b.containerIds then Err(()) else EndFrom(b, id, |b.containers|)
  }

  /** Register widgets one after another, as a container's `build` does. */
  function Widgets(b: Builder, ws: seq<(nat, Navigation)>): (r: Result<Builder, ()>)
    ensures r.Ok? ==> |r.value.entries| == |b.entries| + |ws| && r.value.entries[..|b.entries|] == b.entries
    ensures r.Ok? ==>
      r.value.containers == b.containers && r.value.complete == b.complete && r.value.containerIds == b.containerIds
    decreases |ws|
  {
    if |ws| == 0 then Ok(b)
    else match WidgetWithFlags(b, ws[0].0, ws[0].1)
      case Err(e) => Err(e)
      case Ok(b1) => Widgets(b1, ws[1..])
  }

  /**
   * Starting a container, adding widgets and ending it gives the container
   * exactly the range of the widgets added in between.
   */
  lemma {:induction false} ContainerCoversWidgets(b: Builder, id: nat, ws: seq<(nat, Navigation)>)
    requires |b.complete| == |b.containers|
    requires StartContainer(b, id).Ok?
    requires Widgets(StartContainer(b, id).value, ws).Ok?
    ensures var b2 := Widgets(StartContainer(b, id).value, ws).value;
      var r := End(b2, id);
      r.Ok? && r.value.containers[|b.containers|] == Container(id, Range(|b.entries|, |b.entries| + |ws|))
  {
    var b1 := StartContainer(b, id).value;
    var b2 := Widgets(b1, ws).value;
    assert b2.containers[|b.containers|].id == id;
    assert id in b2.containerIds;
  }

  // ---------------------------------------------------------------------
  // Replacing containers
  // ---------------------------------------------------------------------

  predicate Inside(r: Range, outer: Range)
  {
    r.start >= outer.start && r.end <= outer.end
  }

  function KeepOutside(cs: seq<Container>, rem: Range): (out: seq<Container>)
    requires rem.start <= rem.end
    requires forall k :: 0 <= k < |cs| ==> cs[k].range.start <= cs[k].range.end
    ensures |out| <= |cs|
    ensures (exists k :: 0 <= k < |cs| && Inside(cs[k].range, rem)) ==> |out| < |cs|
    ensures forall k :: 0 <= k < |out| ==> out[k].range.start <= out[k].range.end
    ensures forall c :: c in out <==> c in cs && !Inside(c.range, rem)
  {
    if |cs| == 0 then []
    else
      var rest := KeepOutside(cs[1..], rem);
      assert forall k :: 1 <= k < |cs| ==> cs[k] == cs[1..][k - 1];
      if Inside(cs[0].range, rem) then rest else [cs[0]] + rest
  }

  function KeepInside(cs: seq<Container>, rem: Range): (out: seq<Container>)
    ensures forall c :: c in out <==> c in cs && Inside(c.range, rem)
  {
    if |cs| == 0 then []
    else
      var rest := KeepInside(cs[1..], rem);
      if Inside(cs[0].range, rem) then [cs[0]] + rest else rest
  }

  function ShrinkAll(cs: seq<Container>, rem: Range): (out: seq<Container>)
    requires rem.start <= rem.end
    ensures |out| == |cs|
    ensures forall k :: 0 <= k < |cs| ==> out[k] == Container(cs[k].id, Shrink(rem, cs[k].range))
  {
    if |cs| == 0 then [] else [Container(cs[0].id, Shrink(rem, cs[0].range))] + ShrinkAll(cs[1..], rem)
  }

  function ExpandAll(cs: seq<Container>, ins: Range): (out: seq<Container>)
    requires ins.start <= ins.end
    ensures |out| == |cs|
    ensures forall k :: 0 <= k < |cs| ==> out[k] == Container(cs[k].id, Expand(ins, cs[k].range))
  {
    if |cs| == 0 then [] else [Container(cs[0].id, Expand(ins, cs[0].range))] + ExpandAll(cs[1..], ins)
  }

  function ShiftAll(cs: seq<Container>, n: nat): (out: seq<Container>)
    ensures |out| == |cs|
    ensures forall k :: 0 <= k < |cs| ==> out[k] == Container(cs[k].id, Shift(n, cs[k].range))
  {
    if |cs| == 0 then [] else [Container(cs[0].id, Shift(n, cs[0].range))] + ShiftAll(cs[1..], n)
  }

  predicate WellFormedRanges(core: Core)
  {
    forall k :: 0 <= k < |core.containers| ==> core.containers[k].range.start <= core.containers[k].range.end
  }

  /**
   * `remove_container`: cut the container's entries out; the container and
   * every container inside its range leave with them, and the remaining
   * ranges shrink. Returns the rest and the removed part.
   */
  function RemoveContainer(core: Core, cidx: nat): (res: (Core, Core))
    requires cidx < |core.containers| && RangesIn(core)
    ensures var r := core.containers[cidx].range;
      res.0.entries == core.entries[..r.start] + core.entries[r.end..] &&
      res.1.entries == core.entries[r.start..r.end]
    ensures core.containers[cidx] in res.1.containers
    ensures forall c :: c in res.1.containers <==> c in core.containers && Inside(c.range, core.containers[cidx].range)
    ensures |res.0.containers| < |core.containers|
    ensures WellFormedRanges(res.0) && RangesIn(res.0)
  {
    var r := core.containers[cidx].range;
    var outside := KeepOutside(core.containers, r);
    var shrunk := ShrinkAll(outside, r);
    forall k | 0 <= k < |shrunk|
      ensures shrunk[k].range.start <= shrunk[k].range.end <= |core.entries| - (r.end - r.start)
    {
      assert outside[k] in core.containers;
      ShrinkWithin(r, outside[k].range, |core.entries|);
    }
    (Core(core.entries[..r.start] + core.entries[r.end..], shrunk),
     Core(core.entries[r.start..r.end], KeepInside(core.containers, r)))
  }

  /** Shrinking a range of a list of `n` entries leaves it within the shortened list. */
  lemma ShrinkWithin(rem: Range, r: Range, n: nat)
    requires rem.start <= rem.end <= n && r.start <= r.end <= n
    ensures Shrink(rem, r).start <= Shrink(rem, r).end <= n - (rem.end - rem.start)
  {
  }

  /**
   * `insert_container`: splice the entries of `ins` in at `idx`, expand the
   * existing ranges, and splice the containers of `ins` in at `cidx`,
   * shifted to `idx`. A flag present on both sides panics.
   */
  function InsertContainer(core: Core, idx: nat, cidx: nat, ins: Core): (r: Result<Core, ()>)
    requires idx <= |core.entries| && cidx <= |core.containers|
    ensures r.Err? <==> exists i, j :: 0 <= i < |core.entries| && 0 <= j < |ins.entries| &&
                                     core.entries[i].id == ins.entries[j].id
    ensures r.Ok? ==> r.value.entries == core.entries[..idx] + ins.entries + core.entries[idx..]
    ensures r.Ok? ==> |r.value.containers| == |core.containers| + |ins.containers|
    ensures r.Ok? ==> forall k :: 0 <= k < |ins.containers| ==>
      r.value.containers[cidx + k] == Container(ins.containers[k].id, Shift(idx, ins.containers[k].range))
  {
    if exists i, j :: 0 <= i < |core.entries| && 0 <= j < |ins.entries| && core.entries[i].id == ins.entries[j].id then
      Err(())
    else
      var ir := Range(idx, idx + |ins.entries|);
      var expanded := ExpandAll(core.containers, ir);
      Ok(Core(core.entries[..idx] + ins.entries + core.entries[idx..],
              expanded[..cidx] + ShiftAll(ins.containers, idx) + expanded[cidx..]))
  }

  /**
   * `Focus::replace_container` as written: remove the container, then
   * insert the freshly built replacement at the old start.
   */
  function ReplaceContainer(core: Core, cidx: nat, repl: Core): (r: Result<Core, ()>)
    requires cidx < |core.containers| && RangesIn(core) && WellFormedRanges(core)
    ensures r.Ok? ==>
      var cr := core.containers[cidx].range;
      r.value.entries == core.entries[..cr.start] + repl.entries + core.entries[cr.end..]
  {
    var cr := core.containers[cidx].range;
    var (rest, _) := RemoveContainer(core, cidx);
    if cidx > |rest.containers| then Err(())
    else
      assert rest.entries[..cr.start] == core.entries[..cr.start];
      assert rest.entries[cr.start..] == core.entries[cr.end..];
      InsertContainer(rest, cr.start, cidx, repl)
  }

  /**
   * An equal-size replacement that is itself one container over all its
   * entries takes the old container's place and range, and the entries
   * outside the old range stay where they were.
   */
  lemma ReplaceEqualSize(core: Core, cidx: nat, repl: Core)
    requires cidx < |core.containers| && RangesIn(core) && WellFormedRanges(core)
    requires |repl.containers| > 0 && repl.containers[0].range == Range(0, |repl.entries|)
    requires |repl.entries| == core.containers[cidx].range.end - core.containers[cidx].range.start
    requires ReplaceContainer(core, cidx, repl).Ok?
    ensures var r := ReplaceContainer(core, cidx, repl).value;
      var cr := core.containers[cidx].range;
      r.containers[cidx] == Container(repl.containers[0].id, cr) &&
      |r.entries| == |core.entries| &&
      r.entries[..cr.start] == core.entries[..cr.start] &&
      r.entries[cr.end..] == core.entries[cr.end..]
  {
    var r := ReplaceContainer(core, cidx, repl).value;
    var cr := core.containers[cidx].range;
    assert r.entries == core.entries[..cr.start] + repl.entries + core.entries[cr.end..];
    assert r.entries[..cr.start] == core.entries[..cr.start];
    assert r.entries[cr.end..] == core.entries[cr.end..];
  }

  /**
   * As written, a container enclosing the replaced one and ending where it
   * ends stops covering the replacement: outer `0..4` around inner `1..4`
   * becomes `0..1` after replacing the inner container.
   */
  lemma ReplaceLosesEnclosing()
    ensures
      var core := Core([Entry(1, false, Regular), Entry(2, false, Regular), Entry(3, false, Regular), Entry(4, false, Regular)],
                       [Container(10, Range(0, 4)), Container(11, Range(1, 4))]);
      var repl := Core([Entry(5, false, Regular), Entry(6, false, Regular), Entry(7, false, Regular)],
                       [Container(12, Range(0, 3))]);
      var r := ReplaceContainer(core, 1, repl);
      r.Ok? && r.value.containers == [Container(10, Range(0, 1)), Container(12, Range(1, 4))]
  {
    var core := Core([Entry(1, false, Regular), Entry(2, false, Regular), Entry(3, false, Regular), Entry(4, false, Regular)],
                     [Container(10, Range(0, 4)), Container(11, Range(1, 4))]);
    var repl := Core([Entry(5, false, Regular), Entry(6, false, Regular), Entry(7, false, Regular)],
                     [Container(12, Range(0, 3))]);
    var cr := Range(1, 4);
    assert KeepOutside(core.containers, cr) == [Container(10, Range(0, 4))];
    var (rest, _) := RemoveContainer(core, 1);
    assert rest.containers == [Container(10, Range(0, 1))];
    assert rest.entries == [Entry(1, false, Regular)];
    assert !exists i, j :: 0 <= i < |rest.entries| && 0 <= j < |repl.entries| && rest.entries[i].id == repl.entries[j].id;
  }

  /**
   * The range adjustment replacement needs, bound by bound: a bound up to
   * the start of the replaced range `cr` stays, a bound from its end on
   * moves by the change in size, a bound strictly inside collapses.
   */
  function Readjust(cr: Range, newLen: nat, r: Range): (s: Range)
    requires cr.start <= cr.end
    ensures r.end <= cr.start && r.end < cr.end ==> s.end == r.end
    ensures r.start <= cr.start ==> s.start == r.start
    ensures r.start <= cr.start && cr.end <= r.end ==>
      s.end + (cr.end - cr.start) == r.end + newLen && Inside(Range(cr.start, cr.start + newLen), s)
    ensures r.start <= r.end && r.start >= cr.end && r.start > cr.start ==>
      s.start + (cr.end - cr.start) == r.start + newLen && s.end + (cr.end - cr.start) == r.end + newLen
    ensures newLen == cr.end - cr.start && !(cr.start < r.start < cr.end) && !(cr.start < r.end < cr.end) ==> s == r
  {
    var oldLen := cr.end - cr.start;
    Range(if r.start <= cr.start then r.start
          else if r.start >= cr.end then r.start - oldLen + newLen
          else cr.start,
          if r.end >= cr.end then r.end - oldLen + newLen
          else if r.end <= cr.start then r.end
          else cr.start + newLen)
  }

  function ReadjustAll(cs: seq<Container>, cr: Range, newLen: nat): (out: seq<Container>)
    requires cr.start <= cr.end
    ensures |out| == |cs|
    ensures forall k :: 0 <= k < |cs| ==> out[k] == Container(cs[k].id, Readjust(cr, newLen, cs[k].range))
  {
    if |cs| == 0 then [] else [Container(cs[0].id, Readjust(cr, newLen, cs[0].range))] + ReadjustAll(cs[1..], cr, newLen)
  }

  /**
   * Replacement with enclosing containers kept whole: as the code, but each
   * remaining range is adjusted once against the replaced range instead of
   * being shrunk and expanded.
   */
  function ReplaceContainerFixed(core: Core, cidx: nat, repl: Core): (r: Result<Core, ()>)
    requires cidx < |core.containers| && RangesIn(core)
    ensures r.Err? <==>
      (cidx > |KeepOutside(core.containers, core.containers[cidx].range)| ||
       exists i, j :: 0 <= i < |core.entries| && 0 <= j < |repl.entries| && core.entries[i].id == repl.entries[j].id)
    ensures r.Ok? ==>
      var cr := core.containers[cidx].range;
      r.value.entries == core.entries[..cr.start] + repl.entries + core.entries[cr.end..] &&
      |r.value.containers| == |KeepOutside(core.containers, cr)| + |repl.containers|
  {
    var cr := core.containers[cidx].range;
    var outside := KeepOutside(core.containers, cr);
    if cidx > |outside| then Err(())
    else if exists i, j :: 0 <= i < |core.entries| && 0 <= j < |repl.entries| && core.entries[i].id == repl.entries[j].id then
      Err(())
    else
      var kept := ReadjustAll(outside, cr, |repl.entries|);
      Ok(Core(core.entries[..cr.start] + repl.entries + core.entries[cr.end..],
              kept[..cidx] + ShiftAll(repl.containers, cr.start) + kept[cidx..]))
  }

  /** No entry of the replacement shares an id with an entry of the core, the other condition for a replacement to succeed. */
  predicate IdsDisjoint(core: Core, repl: Core)
  {
    forall i, j :: 0 <= i < |core.entries| && 0 <= j < |repl.entries| ==> core.entries[i].id != repl.entries[j].id
  }

  /**
   * After the corrected replacement, every container that enclosed the
   * replaced one (without lying inside it) is still there and covers the
   * whole replacement.
   */
  lemma ReplaceFixedKeepsEnclosing(core: Core, cidx: nat, repl: Core, c: Container)
    requires cidx < |core.containers| && RangesIn(core)
    requires cidx <= |KeepOutside(core.containers, core.containers[cidx].range)| && IdsDisjoint(core, repl)
    requires c in core.containers
    requires var cr := core.containers[cidx].range;
      !Inside(c.range, cr) && c.range.start <= cr.start && cr.end <= c.range.end
    ensures var r := ReplaceContainerFixed(core, cidx, repl).value;
      var cr := core.containers[cidx].range;
      exists k :: 0 <= k < |r.containers| && r.containers[k].id == c.id &&
        Inside(Range(cr.start, cr.start + |repl.entries|), r.containers[k].range)
  {
    var cr := core.containers[cidx].range;
    var outside := KeepOutside(core.containers, cr);
    var kept := ReadjustAll(outside, cr, |repl.entries|);
    var cs := kept[..cidx] + ShiftAll(repl.containers, cr.start) + kept[cidx..];
    assert ReplaceContainerFixed(core, cidx, repl).value.containers == cs;
    var k :| 0 <= k < |outside| && outside[k] == c;
    assert kept[k] == Container(c.id, Readjust(cr, |repl.entries|, c.range));
    SpliceKeeps(kept, ShiftAll(repl.containers, cr.start), cidx, k);
  }

  /** Splicing a sequence in at `cidx` keeps every old element, shifted past the insert from `cidx` on. */
  lemma SpliceKeeps(kept: seq<Container>, mid: seq<Container>, cidx: nat, k: nat)
    requires cidx <= |kept| && k < |kept|
    ensures var cs := kept[..cidx] + mid + kept[cidx..];
      var j := if k < cidx then k else k + |mid|;
      j < |cs| && cs[j] == kept[k]
  {
  }

  /** On the example that shows the fault, the corrected replacement keeps the outer container whole. */
  lemma ReplaceFixedExample()
    ensures
      var core := Core([Entry(1, false, Regular), Entry(2, false, Regular), Entry(3, false, Regular), Entry(4, false, Regular)],
                       [Container(10, Range(0, 4)), Container(11, Range(1, 4))]);
      var repl := Core([Entry(5, false, Regular), Entry(6, false, Regular), Entry(7, false, Regular)],
                       [Container(12, Range(0, 3))]);
      var r := ReplaceContainerFixed(core, 1, repl);
      r.Ok? && r.value.containers == [Container(10, Range(0, 4)), Container(12, Range(1, 4))]
  {
    var core := Core([Entry(1, false, Regular), Entry(2, false, Regular), Entry(3, false, Regular), Entry(4, false, Regular)],
                     [Container(10, Range(0, 4)), Container(11, Range(1, 4))]);
    var repl := Core([Entry(5, false, Regular), Entry(6, false, Regular), Entry(7, false, Regular)],
                     [Container(12, Range(0, 3))]);
    assert KeepOutside(core.containers, Range(1, 4)) == [Container(10, Range(0, 4))];
    assert !exists i, j :: 0 <= i < |core.entries| && 0 <= j < |repl.entries| && core.entries[i].id == repl.entries[j].id;
  }
}

=== FILE: ftablestate.dfy ===
/**
 * Row and column paging of the older `FTableState` (`src/table.rs`): offsets
 * counted in rows and columns, capped at the row and column count, page
 * sizes taken from the last render, and the largest row offset that still
 * fills a page.
 *
 * Offsets are `usize` in the source; the additions here cannot overflow
 * for any table that fits in memory, so they are taken as unbounded.
 */
module FTableState {
  import opened Util
  import TableState

  /**
   * `nth(n)` of this generation: the same cursor as rat-ftable's, without
   * the saturation.
   */
  function Nth(row: Option<nat>, n: nat, rows: nat): (r: (Option<nat>, bool))
    ensures r.0.Some? && (r.1 <==> r.0.value < rows)
    ensures row.None? ==> r.0.value == n
    ensures row.Some? ==> r.0.value == row.value + n + 1
  {
    match row
    case None => (Some(n), n < rows)
    case Some(w) => (Some(w + n + 1), w + n + 1 < rows)
  }

  /** Away from the top of the `usize` range the two generations of the row cursor agree. */
  lemma NthAgrees(row: Option<nat>, n: nat, rows: nat)
    requires n < USIZE_LIMIT && (row.Some? ==> row.value + n + 1 < USIZE_LIMIT)
    ensures Nth(row, n, rows) == TableState.Nth(row, n, rows)
  {
  }

  datatype FState = FState(
    rows: nat, columns: nat,
    rowOffset: nat, colOffset: nat,
    rowPage: nat, colPage: nat,
    maxRowOffset: nat, maxColOffset: nat)

  /** `set_vertical_offset`: the offset is capped at the row count; the flag says whether it changed. */
  function SetVerticalOffset(st: FState, offset: nat): (r: (FState, bool))
    ensures r.0 == st.(rowOffset := r.0.rowOffset)
    ensures r.0.rowOffset <= st.rows
    ensures offset <= st.rows ==> r.0.rowOffset == offset
    ensures offset > st.rows ==> r.0.rowOffset == st.rows
    ensures r.1 <==> r.0.rowOffset != st.rowOffset
  {
    var o := if offset >= st.rows then st.rows else offset;
    (st.(rowOffset := o), o != st.rowOffset)
  }

  /** `set_horizontal_offset`: the offset is capped at the column count. */
  function SetHorizontalOffset(st: FState, offset: nat): (r: (FState, bool))
    ensures r.0 == st.(colOffset := r.0.colOffset)
    ensures r.0.colOffset <= st.columns
    ensures offset <= st.columns ==> r.0.colOffset == offset
    ensures offset > st.columns ==> r.0.colOffset == st.columns
    ensures r.1 <==> r.0.colOffset != st.colOffset
  {
    var o := if offset >= st.columns then st.columns else offset;
    (st.(colOffset := o), o != st.colOffset)
  }

  /** `scroll_up`: back by `n` rows, stopping at 0. */
  function ScrollUp(st: FState, n: nat): (r: (FState, bool))
    requires st.rowOffset <= st.rows
    ensures r.0 == st.(rowOffset := r.0.rowOffset)
    ensures r.0.rowOffset <= st.rowOffset
    ensures r.0.rowOffset + n >= st.rowOffset
    ensures st.rowOffset >= n ==> r.0.rowOffset == st.rowOffset - n
    ensures r.1 <==> r.0.rowOffset != st.rowOffset
  {
    SetVerticalOffset(st, SatSub(st.rowOffset, n))
  }

  /** `scroll_down`: forward by `n` rows, stopping at the largest row offset. */
  function ScrollDown(st: FState, n: nat): (r: (FState, bool))
    requires st.maxRowOffset <= st.rows
    ensures r.0 == st.(rowOffset := r.0.rowOffset)
    ensures r.0.rowOffset <= st.maxRowOffset
    ensures r.0.rowOffset <= st.rowOffset + n
    ensures st.rowOffset + n <= st.maxRowOffset ==> r.0.rowOffset == st.rowOffset + n
    ensures r.1 <==> r.0.rowOffset != st.rowOffset
  {
    SetVerticalOffset(st, Min(st.rowOffset + n, st.maxRowOffset))
  }

  /** `scroll_left`: back by `n` columns, stopping at 0. */
  function ScrollLeft(st: FState, n: nat): (r: (FState, bool))
    requires st.colOffset <= st.columns
    ensures r.0 == st.(colOffset := r.0.colOffset)
    ensures r.0.colOffset <= st.colOffset
    ensures st.colOffset >= n ==> r.0.colOffset == st.colOffset - n
    ensures st.colOffset < n ==> r.0.colOffset == 0
  {
    SetHorizontalOffset(st, SatSub(st.colOffset, n))
  }

  /** `scroll_right`: forward by `n` columns, stopping at the largest column offset. */
  function ScrollRight(st: FState, n: nat): (r: (FState, bool))
    requires st.maxColOffset <= st.columns
    ensures r.0 == st.(colOffset := r.0.colOffset)
    ensures r.0.colOffset <= st.maxColOffset
    ensures st.colOffset + n <= st.maxColOffset ==> r.0.colOffset == st.colOffset + n
  {
    SetHorizontalOffset(st, Min(st.colOffset + n, st.maxColOffset))
  }

  /** Scrolling down and back up by the same amount returns to the start unless the way down was capped. */
  lemma ScrollDownThenUp(st: FState, n: nat)
    requires st.maxRowOffset <= st.rows && st.rowOffset + n <= st.maxRowOffset
    ensures ScrollUp(ScrollDown(st, n).0, n).0 == st
  {
  }

  /** `vertical_scroll`: a tenth of the page per scroll event, at least one row. */
  function VerticalScroll(page: nat): (r: nat)
    ensures r >= 1
    ensures page >= 10 ==> r * 10 <= page < (r + 1) * 10
    ensures page < 10 ==> r == 1
  {
    Max(page / 10, 1)
  }

  /**
   * `scroll_to`: change each offset only as far as needed to show the
   * position `(column, row)` on the current pages.
   */
  function ScrollTo(st: FState, pos: (nat, nat)): (r: FState)
    ensures r == st.(rowOffset := r.rowOffset, colOffset := r.colOffset)
    ensures st.rowOffset <= pos.1 < st.rowOffset + st.rowPage ==> r.rowOffset == st.rowOffset
    ensures st.colOffset <= pos.0 < st.colOffset + st.colPage ==> r.colOffset == st.colOffset
    ensures pos.1 < st.rows && st.rowPage > 0 ==> r.rowOffset <= pos.1 < r.rowOffset + st.rowPage
    ensures pos.0 < st.columns && st.colPage > 0 ==> r.colOffset <= pos.0 < r.colOffset + st.colPage
    ensures pos.1 < st.rows && pos.1 < st.rowOffset ==> r.rowOffset == pos.1
    ensures pos.1 < st.rows && st.rowPage > 0 && st.rowOffset + st.rowPage <= pos.1 ==> r.rowOffset + st.rowPage == pos.1 + 1
  {
    var s1 := if st.rowOffset + st.rowPage <= pos.1 then SetVerticalOffset(st, pos.1 - st.rowPage + 1).0 else st;
    var s2 := if s1.rowOffset > pos.1 then SetVerticalOffset(s1, pos.1).0 else s1;
    var s3 := if s2.colOffset + s2.colPage <= pos.0 then SetHorizontalOffset(s2, pos.0 - s2.colPage + 1).0 else s2;
    if s3.colOffset > pos.0 then SetHorizontalOffset(s3, pos.0).0 else s3
  }

  /**
   * The offset check at the start of a render: take the row count when
   * the data knows it and the column count from the widths, then pull an
   * offset past the end back to the last row or column.
   */
  function RenderClamp(st: FState, dataRows: Option<nat>, columns: nat): (r: FState)
    ensures r.columns == columns && r.colOffset <= st.colOffset
    ensures columns > 0 ==> r.colOffset < columns
    ensures st.colOffset < columns ==> r.colOffset == st.colOffset
    ensures dataRows.Some? ==> r.rows == dataRows.value && r.rowOffset <= st.rowOffset
    ensures dataRows.Some? && dataRows.value > 0 ==> r.rowOffset < dataRows.value
    ensures dataRows.Some? && st.rowOffset < dataRows.value ==> r.rowOffset == st.rowOffset
    ensures dataRows.None? ==> r.rows == st.rows && r.rowOffset == st.rowOffset
  {
    var s1 := if dataRows.Some? then st.(rows := dataRows.value) else st;
    var s2 := s1.(columns := columns);
    var s3 := if dataRows.Some? && s2.rowOffset >= dataRows.value then s2.(rowOffset := SatSub(dataRows.value, 1)) else s2;
    if s3.colOffset >= columns then s3.(colOffset := SatSub(columns, 1)) else s3
  }

  /**
   * `max_row_offset` as the render computes it from the heights of the
   * last rows: the row count minus the rows that fill the last page, or 0
   * when the rows do not fill a page.
   */
  method MaxRowOffset(rows: nat, heights: seq<nat>, height: nat) returns (r: nat)
    requires |heights| <= rows
    ensures Sum(heights) < height ==> r == 0
    ensures Sum(heights) >= height ==>
      r <= rows && rows - r <= |heights| && Sum(TableState.Last(heights, rows - r)) >= height &&
      forall m :: 1 <= m < rows - r ==> Sum(TableState.Last(heights, m)) < height
  {
    var page := TableState.CalcLastPage(heights, height);
    if page.None? {
      return 0;
    }
    return rows - page.value;
  }
}

=== FILE: glyph.dfy ===
// The glyph shaper of rat-text (rat-text/src/glyph2.rs), first half: how one
// grapheme becomes a display glyph. The display width of ordinary graphemes
// comes from an oracle carried in the options.

module Glyph {
  import opened Util

  /** `TextWrap2`: shift and clip, hard break, or word break. */
  datatype Wrap = Shift | Hard | Word

  /** The settings of a `GlyphIter2`, with `unicode_display_width::width` as `displayWidth`. */
  datatype Options = Options(
    tabs: nat, showCtrl: bool, wrapCtrl: bool, lfBreaks: bool, wrap: Wrap,
    leftMargin: nat, rightMargin: nat, wordMargin: nat,
    displayWidth: string -> nat)

  /** A text position: grapheme column and text row. */
  datatype Pos = Pos(x: nat, y: nat)

  /** A grapheme of the text with its byte range. */
  datatype Grapheme = Grapheme(text: string, start: nat, end: nat)

  /**
   * `Glyph2`: the displayed text, the byte range, the screen position, the
   * display width, the text position and the break flags; `hiddenGlyph` is
   * what a hidden break shows when a wrap falls on it.
   */
  datatype Glyph = Glyph(
    glyph: string, start: nat, end: nat, sx: nat, sy: nat, width: nat, pos: Pos,
    lineBreak: bool, softBreak: bool, hiddenBreak: bool, hiddenGlyph: string)

  /** What `remap_glyph` decides for one grapheme. */
  datatype Shape = Shape(glyph: string, width: nat, lineBreak: bool, hiddenBreak: bool, hiddenGlyph: string)

  const SoftHyphen: string := "\U{AD}"
  const ZeroWidthSpace: string := "\U{200B}"

  predicate IsNewline(t: string)
  {
    t == "\n" || t == "\r\n"
  }

  predicate IsHiddenBreak(t: string)
  {
    t == SoftHyphen || t == ZeroWidthSpace
  }

  /** `("\x00".."\x20").contains(t)`: a non-empty text whose first character lies below the space. */
  predicate IsControl(t: string)
  {
    |t| > 0 && t[0] < ' '
  }

  /** The Control Pictures character for a control code. */
  function ControlPicture(c: char): char
    requires c < ' '
  {
    (0x2400 + c as int) as char
  }

  /**
   * `remap_glyph`: line breaks, tabs, the two hidden breaks, control codes
   * and everything else. A tab with tab width 0 divides by zero, which is
   * the error case.
   */
  function RemapGlyph(t: string, sx: nat, o: Options): (r: Result<Shape, ()>)
    ensures r.Err? <==> t == "\t" && o.tabs == 0
    ensures r.Ok? ==> (r.value.lineBreak <==> IsNewline(t) && o.lfBreaks)
    ensures r.Ok? ==> (r.value.hiddenBreak <==> IsHiddenBreak(t))
    ensures r.Ok? && !IsHiddenBreak(t) ==> r.value.hiddenGlyph == ""
    ensures IsNewline(t) && o.lfBreaks ==> r.Ok? && r.value.width == (if o.showCtrl then 1 else 0)
    ensures IsNewline(t) && o.lfBreaks ==> r.Ok? && r.value.glyph == (if o.showCtrl then "\U{240A}" else "")
    ensures IsNewline(t) && !o.lfBreaks ==> r.Ok? && r.value.width == 1 && r.value.glyph == "\U{240A}"
    ensures t == "\t" && r.Ok? ==> 0 < r.value.width <= o.tabs && (sx + r.value.width) % o.tabs == 0
    ensures t == "\t" && r.Ok? ==> r.value.glyph == (if o.showCtrl then "\U{2409}" else " ")
    ensures IsHiddenBreak(t) ==> r.Ok? && r.value.width == (if o.showCtrl || o.wrapCtrl then 1 else 0)
    ensures t == SoftHyphen ==> r.Ok? && r.value.hiddenGlyph == "-"
    ensures t == ZeroWidthSpace ==> r.Ok? && r.value.hiddenGlyph == " "
    ensures IsControl(t) && !IsNewline(t) && t != "\t" ==> r.Ok? && r.value.width == 1
    ensures IsControl(t) && !IsNewline(t) && t != "\t" && o.showCtrl ==> r.Ok? && r.value.glyph == [ControlPicture(t[0])]
    ensures IsControl(t) && !IsNewline(t) && t != "\t" && !o.showCtrl ==> r.Ok? && r.value.glyph == "\U{FFFD}"
    ensures !IsNewline(t) && t != "\t" && !IsHiddenBreak(t) && !IsControl(t) ==>
      r.Ok? && r.value.glyph == t && r.value.width == o.displayWidth(t)
  {
    if IsNewline(t) then
      if o.lfBreaks then Ok(Shape(if o.showCtrl then "\U{240A}" else "", if o.showCtrl then 1 else 0, true, false, ""))
      else Ok(Shape("\U{240A}", 1, false, false, ""))
    else if t == "\t" then
      if o.tabs == 0 then Err(())
      else
        var w := o.tabs - sx % o.tabs;
        TabStop(sx, o.tabs);
        Ok(Shape(if o.showCtrl then "\U{2409}" else " ", w, false, false, ""))
    else if t == SoftHyphen then
      var shown := o.showCtrl || o.wrapCtrl;
      Ok(Shape(if shown then "\U{2E1A}" else "", if shown then 1 else 0, false, true, "-"))
    else if t == ZeroWidthSpace then
      var shown := o.showCtrl || o.wrapCtrl;
      Ok(Shape(if shown then "\U{A8}" else "", if shown then 1 else 0, false, true, " "))
    else if IsControl(t) then
      Ok(Shape(if o.showCtrl then [ControlPicture(t[0])] else "\U{FFFD}", 1, false, false, ""))
    else
      Ok(Shape(t, o.displayWidth(t), false, false, ""))
  }

  /** A multiple of t smaller than t in size is zero. */
  lemma SmallMultiple(a: int, t: nat, b: int)
    requires a * t == b && 0 < b + t && b < t
    ensures a == 0
  {
  }

  /** Adding whole multiples of the divisor keeps the remainder. */
  lemma ModOfMultiple(q: nat, t: nat, r: nat)
    requires r < t
    ensures (q * t + r) % t == r
  {
    var x := q * t + r;
    var d, m := x / t, x % t;
    assert x == d * t + m;
    assert (q - d) * t == m - r;
    SmallMultiple(q - d, t, m - r);
  }

  /**
   * The width of a tab at column sx reaches the next tab stop: it ends on a
   * multiple of the tab width and passes no other on the way.
   */
  lemma TabStop(sx: nat, tabs: nat)
    requires tabs > 0
    ensures var w := tabs - sx % tabs;
      0 < w <= tabs && (sx + w) % tabs == 0
      && forall k :: sx < k < sx + w ==> k % tabs != 0
  {
    var q, m := sx / tabs, sx % tabs;
    var w := tabs - m;
    assert sx + w == (q + 1) * tabs + 0;
    ModOfMultiple(q + 1, tabs, 0);
    forall k | sx < k < sx + w
      ensures k % tabs != 0
    {
      assert k == q * tabs + (m + (k - sx));
      ModOfMultiple(q, tabs, m + (k - sx));
    }
  }

  /** `create_glyph`: the grapheme at its text and screen position, shaped by `remap_glyph`. */
  function CreateGlyph(o: Options, gr: Grapheme, pos: Pos, sx: nat, sy: nat): (r: Result<Glyph, ()>)
    ensures r.Err? <==> gr.text == "\t" && o.tabs == 0
    ensures r.Ok? ==> r.value.start == gr.start && r.value.end == gr.end && r.value.pos == pos
    ensures r.Ok? ==> r.value.sx == sx && r.value.sy == sy && !r.value.softBreak
    ensures r.Ok? ==> var s := RemapGlyph(gr.text, sx, o).value;
      r.value.glyph == s.glyph && r.value.width == s.width && r.value.lineBreak == s.lineBreak
      && r.value.hiddenBreak == s.hiddenBreak && r.value.hiddenGlyph == s.hiddenGlyph
  {
    match RemapGlyph(gr.text, sx, o)
    case Err(e) => Err(e)
    case Ok(s) => Ok(Glyph(s.glyph, gr.start, gr.end, sx, sy, s.width, pos, s.lineBreak, false, s.hiddenBreak, s.hiddenGlyph))
  }

  /** The synthetic line break the iterator adds at byte b, as `create_glyph` shapes it. */
  lemma NewlineGlyph(o: Options, b: nat, pos: Pos, sx: nat, sy: nat)
    ensures var r := CreateGlyph(o, Grapheme("\n", b, b), pos, sx, sy);
      r.Ok? && r.value.start == b == r.value.end
      && r.value.lineBreak == o.lfBreaks && !r.value.hiddenBreak
      && r.value.width == (if o.lfBreaks && !o.showCtrl then 0 else 1)
  {
  }

  /**
   * `true_right_margin`: one column is kept free for the control or wrap
   * marker when either is shown; the subtraction saturates at 0.
   */
  function TrueRightMargin(o: Options): (m: nat)
    ensures m <= o.rightMargin
    ensures m + 1 >= o.rightMargin
    ensures m == o.rightMargin <==> !(o.showCtrl || o.wrapCtrl) || o.rightMargin == 0
  {
    if o.showCtrl || o.wrapCtrl then SatSub(o.rightMargin, 1) else o.rightMargin
  }

  /**
   * `contains_screen_x`: the glyph covers the columns of its width; a line
   * break also covers every column right of it.
   */
  predicate ContainsScreenX(g: Glyph, x: nat)
  {
    x >= g.sx && (x < g.sx + g.width || g.lineBreak)
  }

  /** A glyph of positive width covers its first column; a line break covers the rest of its row. */
  lemma ContainsScreenXCover(g: Glyph, x: nat)
    ensures g.width > 0 ==> ContainsScreenX(g, g.sx)
    ensures g.lineBreak && x >= g.sx ==> ContainsScreenX(g, x)
    ensures x < g.sx ==> !ContainsScreenX(g, x)
    ensures !g.lineBreak && x >= g.sx + g.width ==> !ContainsScreenX(g, x)
  {
  }
}

=== FILE: glyph_wrap.dfy ===
// The glyph shaper of rat-text (rat-text/src/glyph2.rs), second half: the
// prepare passes that find the line breaks of a text, and the glyph iterator
// that places each glyph on the screen. The grapheme stream is a finite
// sequence; the caches start empty, so only the line-break map is modelled.

module GlyphWrap {
  import opened Util
  import opened Glyph

  /** `LineBreakCache`: where the text continues after a break, and at which byte. */
  datatype LineBreak = LineBreak(startPos: Pos, byte: nat)

  /** The last break opportunity a word-wrap pass has seen on the current row. */
  datatype Space = Space(pos: Pos, x: nat, byte: nat)

  /**
   * The state of a prepare pass: the next text position, screen column and
   * byte, whether the last glyph was a line break, the last opportunity
   * (word wrap only) and the line breaks found so far.
   */
  datatype Prep = Prep(
    nextPos: Pos, nextX: nat, nextByte: nat, wasLf: bool,
    space: Option<Space>, breaks: map<Pos, LineBreak>)

  /** Errors of the iterator: a panic of the source, or the fuel bound of the model. */
  datatype Fault = Panic | OutOfFuel

  /** A space, a hyphen or a hidden break: where word wrap may break. */
  predicate Opportunity(g: Glyph)
  {
    g.glyph == " " || g.glyph == "-" || g.hiddenBreak
  }

  /** Text position a lies strictly before text position b. */
  predicate Behind(a: Pos, b: Pos)
  {
    a.y < b.y || (a.y == b.y && a.x < b.x)
  }

  /** The zero-width line break added at the end of a text that does not end in one. */
  function SyntheticBreak(b: nat): (gr: Grapheme)
    ensures IsNewline(gr.text) && gr.start == b == gr.end
  {
    Grapheme("\n", b, b)
  }

  /** A line break in a prepare pass: the next glyph starts the next text row. */
  function LfStep(p: Prep, g: Glyph): (r: Prep)
    ensures r.nextPos == Pos(0, p.nextPos.y + 1) && r.nextX == 0 && r.wasLf
    ensures r.breaks.Keys == p.breaks.Keys + {g.pos}
    ensures r.breaks[g.pos] == LineBreak(r.nextPos, g.end) && r.space.None?
  {
    var next := Pos(0, p.nextPos.y + 1);
    Prep(next, 0, g.end, true, None, p.breaks[g.pos := LineBreak(next, g.end)])
  }

  /**
   * One glyph of `prepare_hard_wrap`: a glyph whose end reaches the true
   * right margin is the last of its screen row; the next glyph starts at
   * screen column 0 on the same text row.
   */
  function HardStep(o: Options, p: Prep, g: Glyph): (r: Prep)
    requires g.pos == p.nextPos && g.sx == p.nextX
    ensures r.nextByte == g.end && r.space.None?
    ensures r.wasLf <==> g.lineBreak
    ensures r.breaks.Keys == p.breaks.Keys + (if g.lineBreak || g.sx + g.width >= TrueRightMargin(o) then {g.pos} else {})
    ensures g.lineBreak ==> r.nextPos == Pos(0, g.pos.y + 1) && r.nextX == 0
    ensures !g.lineBreak ==> r.nextPos == Pos(g.pos.x + 1, g.pos.y)
    ensures !g.lineBreak && g.sx + g.width >= TrueRightMargin(o) ==>
      r.nextX == 0 && r.breaks[g.pos] == LineBreak(r.nextPos, g.start)
    ensures !g.lineBreak && g.sx + g.width < TrueRightMargin(o) ==> r.nextX == p.nextX + g.width
  {
    if g.lineBreak then LfStep(p, g)
    else
      var next := Pos(p.nextPos.x + 1, p.nextPos.y);
      if g.sx + g.width >= TrueRightMargin(o) then
        Prep(next, 0, g.end, false, None, p.breaks[g.pos := LineBreak(next, g.start)])
      else
        Prep(next, p.nextX + g.width, g.end, false, None, p.breaks)
  }

  /**
   * One glyph of `prepare_word_wrap`: an opportunity past the word margin
   * breaks after itself; a glyph reaching the margin breaks at the last
   * opportunity of the row, or hard-breaks when there is none.
   */
  function WordStep(o: Options, p: Prep, g: Glyph): (r: Prep)
    requires g.pos == p.nextPos && g.sx == p.nextX
    ensures r.nextByte == g.end
    ensures r.wasLf <==> g.lineBreak
    ensures !g.lineBreak ==> r.nextPos == Pos(g.pos.x + 1, g.pos.y)
    ensures !g.lineBreak && g.sx > o.wordMargin && Opportunity(g) ==>
      r.nextX == 0 && r.breaks == p.breaks[g.pos := LineBreak(r.nextPos, g.end)]
    ensures !g.lineBreak && !(g.sx > o.wordMargin && Opportunity(g)) && g.sx + g.width >= TrueRightMargin(o) ==>
      r.space.None? &&
      if p.space.Some? then
        var s := p.space.value;
        r.breaks == p.breaks[s.pos := LineBreak(Pos(s.pos.x + 1, s.pos.y), s.byte)]
        && (s.x <= g.sx ==> r.nextX == g.sx - s.x)
      else
        r.nextX == 0 && r.breaks == p.breaks[g.pos := LineBreak(r.nextPos, g.start)]
    ensures !g.lineBreak && !(g.sx > o.wordMargin && Opportunity(g)) && g.sx + g.width < TrueRightMargin(o) ==>
      r.breaks == p.breaks && r.nextX == p.nextX + g.width
      && r.space == (if Opportunity(g) then Some(Space(g.pos, g.sx, g.end)) else p.space)
  {
    if g.lineBreak then LfStep(p, g)
    else
      var next := Pos(p.nextPos.x + 1, p.nextPos.y);
      if g.sx > o.wordMargin && Opportunity(g) then
        Prep(next, 0, g.end, false, None, p.breaks[g.pos := LineBreak(next, g.end)])
      else if g.sx + g.width >= TrueRightMargin(o) then
        match p.space
        case Some(s) =>
          Prep(next, SatSub(g.sx, s.x), g.end, false, None,
            p.breaks[s.pos := LineBreak(Pos(s.pos.x + 1, s.pos.y), s.byte)])
        case None =>
          Prep(next, 0, g.end, false, None, p.breaks[g.pos := LineBreak(next, g.start)])
      else
        Prep(next, p.nextX + g.width, g.end, false,
          if Opportunity(g) then Some(Space(g.pos, g.sx, g.end)) else p.space, p.breaks)
  }

  /** One glyph of `prepare_shift_clip`: only line breaks are recorded. */
  function ShiftStep(p: Prep, g: Glyph): (r: Prep)
    requires g.pos == p.nextPos
    ensures r.nextByte == g.end && r.space.None?
    ensures r.wasLf <==> g.lineBreak
    ensures r.breaks.Keys == p.breaks.Keys + (if g.lineBreak then {g.pos} else {})
    ensures !g.lineBreak ==> r.nextPos == Pos(g.pos.x + 1, g.pos.y) && r.nextX == p.nextX
  {
    if g.lineBreak then LfStep(p, g)
    else Prep(Pos(p.nextPos.x + 1, p.nextPos.y), p.nextX, g.end, false, None, p.breaks)
  }

  /**
   * One grapheme of a prepare pass: the glyph is shaped at the pass's
   * position (screen column 0 for shift and clip) and handed to the wrap
   * mode's step. A tab with tab width 0 divides by zero.
   */
  function PrepStep(o: Options, p: Prep, gr: Grapheme): (r: Result<Prep, Fault>)
    ensures r.Err? <==> gr.text == "\t" && o.tabs == 0
    ensures r.Ok? ==> Behind(p.nextPos, r.value.nextPos)
    ensures r.Ok? ==> (r.value.wasLf <==> IsNewline(gr.text) && o.lfBreaks)
  {
    var sx := if o.wrap == Shift then 0 else p.nextX;
    match CreateGlyph(o, gr, p.nextPos, sx, 0)
    case Err(_) => Err(Panic)
    case Ok(g) =>
      Ok(match o.wrap
        case Shift => ShiftStep(p, g)
        case Hard => HardStep(o, p, g)
        case Word => WordStep(o, p, g))
  }

  /** The main loop of a prepare pass over the graphemes of the text. */
  function PrepareRun(o: Options, p: Prep, text: seq<Grapheme>): (r: Result<Prep, Fault>)
    ensures r.Err? <==> exists i :: 0 <= i < |text| && text[i].text == "\t" && o.tabs == 0
    ensures r.Ok? && |text| > 0 ==> (r.value.wasLf <==> IsNewline(text[|text| - 1].text) && o.lfBreaks)
    ensures r.Ok? && |text| == 0 ==> r.value == p
    decreases |text|
  {
    if |text| == 0 then Ok(p)
    else
      match PrepStep(o, p, text[0])
      case Err(f) => Err(f)
      case Ok(q) =>
        var r := PrepareRun(o, q, text[1..]);
        assert forall i :: 0 < i < |text| ==> text[i] == text[1..][i - 1];
        r
  }

  /** The state a pass starts from: `was_lf` is set, the screen column is 0. */
  function StartPrep(pos: Pos, byte: nat): (p: Prep)
    ensures p.wasLf && p.breaks == map[] && p.nextPos == pos && p.nextByte == byte
  {
    Prep(pos, 0, byte, true, None, map[])
  }

  /**
   * `prepare` as written, after the graphemes are exhausted: each round adds
   * a synthetic line break and the loop ends only once `was_lf` is set.
   * `n` bounds the rounds looked at.
   */
  function ExhaustedRounds(o: Options, p: Prep, n: nat): (r: Result<Prep, Fault>)
    ensures r.Ok?
    ensures n == 0 || p.wasLf ==> r == Ok(p)
    decreases n
  {
    if n == 0 || p.wasLf then Ok(p)
    else
      match PrepStep(o, p, SyntheticBreak(p.nextByte))
      case Err(f) => Err(f)
      case Ok(q) => ExhaustedRounds(o, q, n - 1)
  }

  /**
   * Without line breaks a synthetic "\n" is a plain glyph, so `was_lf`
   * stays false and the as-written loop never ends once it has seen a glyph.
   */
  lemma {:induction false} PrepareNeverStops(o: Options, p: Prep, n: nat)
    requires !o.lfBreaks && !p.wasLf
    ensures !ExhaustedRounds(o, p, n).value.wasLf
    decreases n
  {
    if n > 0 {
      var q := PrepStep(o, p, SyntheticBreak(p.nextByte)).value;
      PrepareNeverStops(o, q, n - 1);
    }
  }

  /** Any non-empty text leaves the as-written pass spinning when line breaks are off. */
  lemma PrepareHangs(o: Options, pos: Pos, byte: nat, text: seq<Grapheme>, n: nat)
    requires !o.lfBreaks && |text| > 0 && PrepareRun(o, StartPrep(pos, byte), text).Ok?
    ensures !ExhaustedRounds(o, PrepareRun(o, StartPrep(pos, byte), text).value, n).value.wasLf
  {
    PrepareNeverStops(o, PrepareRun(o, StartPrep(pos, byte), text).value, n);
  }

  /**
   * `prepare`, corrected: the passes run over the text and then add at most
   * one synthetic line break, as the iterator itself does.
   */
  function Prepare(o: Options, pos: Pos, byte: nat, text: seq<Grapheme>): (r: Result<Prep, Fault>)
    ensures r.Err? <==> exists i :: 0 <= i < |text| && text[i].text == "\t" && o.tabs == 0
    ensures r.Ok? && o.lfBreaks ==> r.value.wasLf
    ensures r.Ok? ==> r == ExhaustedRounds(o, PrepareRun(o, StartPrep(pos, byte), text).value, 1)
  {
    match PrepareRun(o, StartPrep(pos, byte), text)
    case Err(f) => Err(f)
    case Ok(p) =>
      if p.wasLf then Ok(p)
      else PrepStep(o, p, SyntheticBreak(p.nextByte))
  }

  /** With line breaks on, the as-written loop stops after the one synthetic round the corrected pass takes. */
  lemma {:induction false} PrepareStopsWithLf(o: Options, pos: Pos, byte: nat, text: seq<Grapheme>, n: nat)
    requires o.lfBreaks && n >= 1 && Prepare(o, pos, byte, text).Ok?
    ensures ExhaustedRounds(o, PrepareRun(o, StartPrep(pos, byte), text).value, n) == Prepare(o, pos, byte, text)
  {
    var p := PrepareRun(o, StartPrep(pos, byte), text).value;
    if !p.wasLf {
      var q := PrepStep(o, p, SyntheticBreak(p.nextByte)).value;
      assert q.wasLf;
      assert ExhaustedRounds(o, q, n - 1) == Ok(q);
    }
  }

  /**
   * What a pass keeps about its line breaks: every break and the remembered
   * opportunity lie behind the next position, and the opportunity is not a
   * break yet and lies left of the next screen column.
   */
  predicate Recorded(p: Prep)
  {
    (forall k :: k in p.breaks ==> Behind(k, p.nextPos))
    && (p.space.Some? ==>
      Behind(p.space.value.pos, p.nextPos) && p.space.value.pos !in p.breaks
      && p.space.value.x <= p.nextX)
  }

  /** One step keeps `Recorded` and never changes a break it found before. */
  lemma StepRecorded(o: Options, p: Prep, gr: Grapheme)
    requires Recorded(p) && PrepStep(o, p, gr).Ok?
    ensures Recorded(PrepStep(o, p, gr).value)
    ensures forall k :: k in p.breaks ==>
      k in PrepStep(o, p, gr).value.breaks && PrepStep(o, p, gr).value.breaks[k] == p.breaks[k]
  {
    var sx := if o.wrap == Shift then 0 else p.nextX;
    var g := CreateGlyph(o, gr, p.nextPos, sx, 0).value;
    assert !(g.pos in p.breaks);
  }

  /** A whole pass keeps `Recorded`: breaks once found stay as they were. */
  lemma {:induction false} PrepareRunRecorded(o: Options, p: Prep, text: seq<Grapheme>)
    requires Recorded(p) && PrepareRun(o, p, text).Ok?
    ensures Recorded(PrepareRun(o, p, text).value)
    ensures forall k :: k in p.breaks ==>
      k in PrepareRun(o, p, text).value.breaks && PrepareRun(o, p, text).value.breaks[k] == p.breaks[k]
    decreases |text|
  {
    if |text| > 0 {
      StepRecorded(o, p, text[0]);
      var q := PrepStep(o, p, text[0]).value;
      PrepareRunRecorded(o, q, text[1..]);
    }
  }

  /** In word wrap the row's screen column after a break at an opportunity never underflows. */
  lemma WordBreakColumn(o: Options, p: Prep, g: Glyph)
    requires Recorded(p) && g.pos == p.nextPos && g.sx == p.nextX && p.space.Some?
    ensures p.space.value.x <= g.sx
  {
  }

  // ---------------------------------------------------------------------
  // The iterator

  /**
   * `GlyphIter2`: the graphemes still to come, a glyph waiting to be
   * emitted, the end flag, the next text position, screen column, screen
   * row and byte, and whether the last glyph was a line break.
   */
  datatype Iter = Iter(
    rest: seq<Grapheme>, emit: Option<Glyph>, done: bool,
    nextPos: Pos, nextX: nat, nextY: nat, nextByte: nat, wasLf: bool)

  /** `GlyphIter2::new`: nothing pending, at the given position and byte, `was_lf` set. */
  function NewIter(pos: Pos, byte: nat, text: seq<Grapheme>): (it: Iter)
    ensures it.rest == text && it.emit.None? && !it.done && it.wasLf
    ensures it.nextPos == pos && it.nextX == 0 && it.nextY == 0 && it.nextByte == byte
  {
    Iter(text, None, false, pos, 0, 0, byte, true)
  }

  /** `ControlFlow`: keep looking, or hand out a glyph. */
  datatype Flow = Continue(it: Iter) | Break(it: Iter, out: Glyph)

  /** A line break ends the text row: the next glyph starts the next row at column 0. */
  function LineEnd(it: Iter, g: Glyph): (r: Iter)
    ensures r.nextPos == Pos(0, it.nextPos.y + 1) && r.nextX == 0 && r.nextY == it.nextY + 1
    ensures r.nextByte == g.end && r.rest == it.rest && r.emit == it.emit && r.done == it.done
  {
    it.(nextX := 0, nextY := it.nextY + 1, nextPos := Pos(0, it.nextPos.y + 1),
        nextByte := g.end, wasLf := g.lineBreak)
  }

  /** The next glyph follows g on the same text row, `dx` columns further right. */
  function Advance(it: Iter, g: Glyph, dx: nat): (r: Iter)
    ensures r.nextPos == Pos(it.nextPos.x + 1, it.nextPos.y) && r.nextX == it.nextX + dx
    ensures r.nextY == it.nextY && r.nextByte == g.end && r.wasLf == g.lineBreak
    ensures r.rest == it.rest && r.emit == it.emit && r.done == it.done
  {
    it.(nextX := it.nextX + dx, nextPos := Pos(it.nextPos.x + 1, it.nextPos.y),
        nextByte := g.end, wasLf := g.lineBreak)
  }

  const ReturnSymbol: string := "\U{21B5}"

  /**
   * `wrap_next`, for hard and word wrap: a line break must have been
   * recorded by the prepare pass (an assertion of the source); a glyph at a
   * recorded soft break ends its screen row, shown by a following return
   * symbol when `wrap_ctrl` is set and by its own break flags otherwise; a
   * hidden break a wrap falls on shows its replacement.
   */
  function WrapNext(o: Options, breaks: map<Pos, LineBreak>, it: Iter, g: Glyph): (r: Result<Flow, Fault>)
    requires it.emit.None?
    ensures r.Err? <==> g.lineBreak && g.pos !in breaks
    ensures r.Ok? ==> r.value.Break? && r.value.it.rest == it.rest && r.value.it.nextByte == g.end
    ensures r.Ok? ==> r.value.it.done == it.done
    ensures g.lineBreak && r.Ok? ==> r.value.out == g && r.value.it.nextX == 0 && r.value.it.wasLf
    ensures !g.lineBreak && g.pos in breaks ==> r.Ok?
    ensures !g.lineBreak && g.pos in breaks && r.Ok? ==>
      r.value.it.nextX == 0 && r.value.it.nextY == it.nextY + 1
      && r.value.it.nextPos == Pos(it.nextPos.x + 1, it.nextPos.y)
    ensures !g.lineBreak && g.pos in breaks && r.Ok? ==>
      (r.value.out.lineBreak <==> !o.wrapCtrl) && (r.value.it.emit.Some? <==> o.wrapCtrl)
    ensures !g.lineBreak && g.pos in breaks && r.Ok? && !o.wrapCtrl ==> r.value.out.softBreak
    ensures !g.lineBreak && g.pos in breaks && r.Ok? && o.wrapCtrl ==>
      var e := r.value.it.emit.value;
      e.lineBreak && e.softBreak && e.sx == g.sx + 1 && e.start == g.end == e.end && e.glyph == ReturnSymbol
    ensures !g.lineBreak && g.pos in breaks && r.Ok? && g.hiddenBreak ==>
      r.value.out.glyph == g.hiddenGlyph && r.value.out.width == 1
    ensures !g.lineBreak && g.pos in breaks && r.Ok? && !g.hiddenBreak ==>
      r.value.out.glyph == g.glyph && r.value.out.width == g.width
    ensures !g.lineBreak && g.pos !in breaks ==> r.Ok?
    ensures !g.lineBreak && g.pos !in breaks && r.Ok? ==>
      r.value.out == g && r.value.it.nextX == it.nextX + g.width && r.value.it.nextY == it.nextY
  {
    if g.lineBreak then
      if g.pos !in breaks then Err(Panic)
      else Ok(Break(LineEnd(it, g), g))
    else if g.pos in breaks then
      var it' := it.(nextX := 0, nextY := it.nextY + 1, nextPos := Pos(it.nextPos.x + 1, it.nextPos.y),
                     nextByte := g.end, wasLf := false);
      var shown := if g.hiddenBreak then g.(width := 1, glyph := g.hiddenGlyph) else g;
      if o.wrapCtrl then
        var ret := Glyph(ReturnSymbol, g.end, g.end, g.sx + 1, g.sy, 1, g.pos, true, true, false, "");
        Ok(Break(it'.(emit := Some(ret)), shown))
      else
        Ok(Break(it', shown.(lineBreak := true, softBreak := true)))
    else
      Ok(Break(Advance(it, g, g.width), g))
  }

  /**
   * In hard and word wrap the screen row advances exactly when a line break
   * is handed out, by the glyph itself or by the return symbol after it.
   */
  lemma WrapRowEnds(o: Options, breaks: map<Pos, LineBreak>, it: Iter, g: Glyph)
    requires it.emit.None? && WrapNext(o, breaks, it, g).Ok?
    ensures var f := WrapNext(o, breaks, it, g).value;
      (f.it.nextY == it.nextY + 1 <==> f.out.lineBreak || f.it.emit.Some?)
      && (f.it.nextY != it.nextY + 1 ==> f.it.nextY == it.nextY && f.it.emit.None?)
  {
  }

  const SplitSymbol: string := "\U{2426}"
  const MarginSymbol: string := "\U{2424}"

  /** `SkipLine::skip_line`: drop the graphemes up to and including the next newline. */
  function SkipLine(rest: seq<Grapheme>): (r: seq<Grapheme>)
    ensures |r| <= |rest| && r == rest[|rest| - |r|..]
    ensures forall i :: 0 <= i < |rest| - |r| - 1 ==> !IsNewline(rest[i].text)
    ensures |r| == |rest| ==> |rest| == 0
    ensures 0 < |r| ==> IsNewline(rest[|rest| - |r| - 1].text)
  {
    if |rest| == 0 then []
    else if IsNewline(rest[0].text) then rest[1..]
    else
      var r := SkipLine(rest[1..]);
      assert forall i :: 0 < i < |rest| ==> rest[i] == rest[1..][i - 1];
      r
  }

  /**
   * `shift_clip_next`, with the two corrections of the findings: every line
   * break is handed out, and a glyph crossing the left margin advances the
   * column by its full width. A glyph left of the left margin is dropped, a
   * glyph split by either margin shows the split symbol, the first glyph at
   * the true right margin becomes a line-break marker, and anything further
   * right skips the rest of the text row.
   */
  function ShiftClipNext(o: Options, it: Iter, g: Glyph): (r: Flow)
    requires g.sx == it.nextX
    ensures r.it.emit == it.emit && r.it.done == it.done
    ensures r.it.rest == it.rest || r.it.rest == SkipLine(it.rest)
    ensures g.lineBreak ==> r.Break? && r.out == g.(sx := SatSub(g.sx, o.leftMargin)) && r.it == LineEnd(it, g)
    ensures !g.lineBreak && g.sx < o.leftMargin && g.sx + g.width <= o.leftMargin ==> r.Continue? && r.it == Advance(it, g, g.width)
    ensures !g.lineBreak && g.sx < o.leftMargin < g.sx + g.width ==>
      r.Break? && r.out.sx == 0 && r.out.glyph == SplitSymbol && r.out.width == g.sx + g.width - o.leftMargin
    ensures !g.lineBreak && o.leftMargin <= g.sx && g.sx + g.width <= TrueRightMargin(o) && g.sx < TrueRightMargin(o) ==>
      r.Break? && r.out == g.(sx := g.sx - o.leftMargin) && r.it == Advance(it, g, g.width)
    ensures !g.lineBreak && o.leftMargin <= g.sx == TrueRightMargin(o) ==>
      r.Break? && r.out.lineBreak && r.out.start == it.nextByte == r.out.end
      && r.out.width == (if o.wrapCtrl then 1 else 0) && r.it.wasLf && r.it.nextX == g.sx + 1
    ensures !g.lineBreak && o.leftMargin <= g.sx && g.sx > TrueRightMargin(o) ==>
      r.Continue? && r.it.rest == SkipLine(it.rest) && r.it.nextX == 0 && r.it.nextY == it.nextY + 1
  {
    var trm := TrueRightMargin(o);
    var lm := o.leftMargin;
    if g.lineBreak then
      Break(LineEnd(it, g), g.(sx := SatSub(g.sx, lm)))
    else if g.sx < lm && g.sx + g.width > lm then
      var w := it.nextX + g.width - lm;
      Break(Advance(it, g, g.width), g.(glyph := SplitSymbol, width := w, sx := 0))
    else if g.sx < lm then
      Continue(Advance(it, g, g.width))
    else if it.nextX < trm && it.nextX + g.width > trm then
      var w := it.nextX + g.width - o.rightMargin;
      Break(Advance(it, g, w), g.(glyph := SplitSymbol, sx := SatSub(g.sx, lm), width := w))
    else if g.sx == trm then
      var mark := g.(lineBreak := true, sx := SatSub(g.sx, lm),
                     width := if o.wrapCtrl then 1 else 0,
                     glyph := if o.wrapCtrl then MarginSymbol else "",
                     start := it.nextByte, end := it.nextByte);
      Break(Advance(it, mark, 1), mark)
    else if g.sx > trm then
      Continue(it.(rest := SkipLine(it.rest), nextX := 0, nextY := it.nextY + 1,
                   nextPos := Pos(0, it.nextPos.y + 1), nextByte := g.end, wasLf := false))
    else
      Break(Advance(it, g, g.width), g.(sx := SatSub(g.sx, lm)))
  }

  /**
   * What the corrected iterator promises in shift-and-clip mode: every glyph
   * it hands out, other than a line break, ends exactly where the next glyph
   * begins on the screen.
   */
  lemma ShiftContiguous(o: Options, it: Iter, g: Glyph)
    requires g.sx == it.nextX
    ensures var r := ShiftClipNext(o, it, g);
      r.Break? && !r.out.lineBreak ==> r.it.nextX == o.leftMargin + r.out.sx + r.out.width
  {
  }

  /**
   * `shift_clip_next` as written: a line break more than one column past
   * the true right margin reaches `unreachable!`, and a glyph crossing the
   * left margin advances the column by its clipped width only.
   */
  function ShiftClipNextAsWritten(o: Options, it: Iter, g: Glyph): (r: Result<Flow, Fault>)
    requires g.sx == it.nextX
    ensures r.Err? <==> g.lineBreak && g.sx > TrueRightMargin(o) + 1
    ensures r.Ok? && !(g.sx < o.leftMargin < g.sx + g.width && !g.lineBreak) ==> r.value == ShiftClipNext(o, it, g)
    ensures r.Ok? && g.sx < o.leftMargin < g.sx + g.width && !g.lineBreak ==>
      r.value.Break? && r.value.out == ShiftClipNext(o, it, g).out
      && r.value.it.nextX == it.nextX + r.value.out.width
  {
    var lm := o.leftMargin;
    if g.lineBreak && g.sx > TrueRightMargin(o) + 1 then Err(Panic)
    else if !g.lineBreak && g.sx < lm && g.sx + g.width > lm then
      var w := it.nextX + g.width - lm;
      Ok(Break(Advance(it, g, w), g.(glyph := SplitSymbol, width := w, sx := 0)))
    else Ok(ShiftClipNext(o, it, g))
  }

  /** Settings for the shift-and-clip examples: tab width 8, no control glyphs. */
  function ShiftOptions(lm: nat, rm: nat): (o: Options)
    ensures o.wrap == Shift && o.tabs == 8 && TrueRightMargin(o) == rm && o.lfBreaks
  {
    Options(8, false, false, true, Shift, lm, rm, rm, t => 1)
  }

  /**
   * With left margin 5 a tab at column 4 is four wide and crosses the
   * margin: the split symbol covers screen columns 0 to 2, yet the as-written
   * iterator places the next glyph at screen column 2; the corrected one at 3.
   */
  lemma LeftCrossingOverlaps()
    ensures var o := ShiftOptions(5, 20);
      var it := Iter([], None, false, Pos(4, 0), 4, 0, 4, false);
      var g := CreateGlyph(o, Grapheme("\t", 4, 5), Pos(4, 0), 4, 0).value;
      var bad := ShiftClipNextAsWritten(o, it, g).value;
      var good := ShiftClipNext(o, it, g);
      bad.Break? && bad.out.sx + bad.out.width == 3 && bad.it.nextX - o.leftMargin == 2
      && good.Break? && good.out == bad.out && good.it.nextX - o.leftMargin == 3
  {
    var o := ShiftOptions(5, 20);
    TabStop(4, 8);
    assert RemapGlyph("\t", 4, o).value.width == 4;
  }

  /**
   * With right margin 10 a tab at column 9 is seven wide and crosses the
   * margin; the column moves on to 15, and a line break there is more than
   * one column past the margin: the as-written iterator panics, the
   * corrected one ends the row.
   */
  lemma LineBreakPastMarginPanics()
    ensures var o := ShiftOptions(0, 10);
      var it := Iter([Grapheme("\n", 10, 11)], None, false, Pos(9, 0), 9, 0, 9, false);
      var tab := CreateGlyph(o, Grapheme("\t", 9, 10), Pos(9, 0), 9, 0).value;
      var r := ShiftClipNextAsWritten(o, it, tab).value;
      var lf := CreateGlyph(o, Grapheme("\n", 10, 11), r.it.nextPos, r.it.nextX, r.it.nextY).value;
      r.Break? && r.it.nextX == 15 && lf.lineBreak
      && ShiftClipNextAsWritten(o, r.it, lf) == Err(Panic)
      && ShiftClipNext(o, r.it, lf).Break? && ShiftClipNext(o, r.it, lf).out.lineBreak
  {
    var o := ShiftOptions(0, 10);
    TabStop(9, 8);
    assert RemapGlyph("\t", 9, o).value.width == 7;
  }

  /**
   * `next`'s dispatch on the wrap mode, with `shift_clip_next` as written: in
   * shift-and-clip mode a line break more than one column past the true
   * right margin panics.
   */
  function Step(o: Options, breaks: map<Pos, LineBreak>, it: Iter, g: Glyph): (r: Result<Flow, Fault>)
    requires g.sx == it.nextX && it.emit.None?
    ensures r.Err? ==> r == Err(Panic)
    ensures o.wrap == Shift ==> (r.Err? <==> g.lineBreak && g.sx > TrueRightMargin(o) + 1)
    ensures o.wrap != Shift && r.Err? ==> g.lineBreak && g.pos !in breaks
    ensures r.Ok? && r.value.Continue? ==> o.wrap == Shift && r.value.it.emit.None? && r.value.it.done == it.done
    ensures r.Ok? ==> IsSuffix(r.value.it.rest, it.rest)
    ensures r.Ok? ==> r.value.it.done == it.done
  {
    SkipLineSuffix(it.rest);
    if o.wrap == Shift then ShiftClipNextAsWritten(o, it, g) else WrapNext(o, breaks, it, g)
  }

  /** A round that hands out a glyph is one call of `next`. */
  lemma NextOfBreakRound(o: Options, breaks: map<Pos, LineBreak>, it: Iter, fuel: nat)
    requires !it.done && it.emit.None? && |it.rest| > 0 && fuel > 0
    requires Round(o, breaks, it).Ok? && Round(o, breaks, it).value.Break?
    ensures var f := Round(o, breaks, it).value;
      Next(o, breaks, it, fuel) == Ok((Some(f.out), f.it))
  {
  }

  /** A round that panics makes `next` panic. */
  lemma NextOfPanicRound(o: Options, breaks: map<Pos, LineBreak>, it: Iter, fuel: nat)
    requires !it.done && it.emit.None? && fuel > 0
    requires |it.rest| > 0 && Round(o, breaks, it) == Err(Panic)
    ensures Next(o, breaks, it, fuel) == Err(Panic)
  {
  }

  /** The first round over a tab at column 9 and a line feed: the tab, shaped and placed. */
  lemma TabRoundExample()
    ensures var o := ShiftOptions(0, 10);
      var it1 := Iter([Grapheme("\n", 10, 11)], None, false, Pos(9, 0), 9, 0, 9, false);
      var tab := CreateGlyph(o, Grapheme("\t", 9, 10), Pos(9, 0), 9, 0).value;
      var it := Iter([Grapheme("\t", 9, 10), Grapheme("\n", 10, 11)], None, false, Pos(9, 0), 9, 0, 9, false);
      Round(o, map[], it) == ShiftClipNextAsWritten(o, it1, tab)
  {
    var it := Iter([Grapheme("\t", 9, 10), Grapheme("\n", 10, 11)], None, false, Pos(9, 0), 9, 0, 9, false);
    var it1 := Iter([Grapheme("\n", 10, 11)], None, false, Pos(9, 0), 9, 0, 9, false);
    assert Take(it) == (Grapheme("\t", 9, 10), it1);
  }

  /** After the split tab, the round over the line feed panics. */
  lemma LineFeedRoundPanics()
    ensures var o := ShiftOptions(0, 10);
      var it1 := Iter([Grapheme("\n", 10, 11)], None, false, Pos(9, 0), 9, 0, 9, false);
      var tab := CreateGlyph(o, Grapheme("\t", 9, 10), Pos(9, 0), 9, 0).value;
      var f := ShiftClipNextAsWritten(o, it1, tab);
      f.Ok? && f.value.Break? && f.value.out.glyph == SplitSymbol
      && !f.value.it.done && f.value.it.emit.None? && |f.value.it.rest| > 0
      && Round(o, map[], f.value.it) == Err(Panic)
  {
    var o := ShiftOptions(0, 10);
    var it1 := Iter([Grapheme("\n", 10, 11)], None, false, Pos(9, 0), 9, 0, 9, false);
    var tab := CreateGlyph(o, Grapheme("\t", 9, 10), Pos(9, 0), 9, 0).value;
    LineBreakPastMarginPanics();
    var it2 := ShiftClipNextAsWritten(o, it1, tab).value.it;
    assert Take(it2) == (Grapheme("\n", 10, 11), it2.(rest := []));
  }

  /**
   * The panic reaches the iterator: over a tab at column 9 and a line feed
   * with right margin 10, `next` hands out the split tab and then panics.
   */
  lemma NextPanicsPastMargin(fuel: nat)
    requires fuel > 0
    ensures var o := ShiftOptions(0, 10);
      var it := Iter([Grapheme("\t", 9, 10), Grapheme("\n", 10, 11)], None, false, Pos(9, 0), 9, 0, 9, false);
      var r := Next(o, map[], it, fuel);
      r.Ok? && r.value.0.Some? && r.value.0.value.glyph == SplitSymbol
      && Next(o, map[], r.value.1, fuel) == Err(Panic)
  {
    var o := ShiftOptions(0, 10);
    var it := Iter([Grapheme("\t", 9, 10), Grapheme("\n", 10, 11)], None, false, Pos(9, 0), 9, 0, 9, false);
    TabRoundExample();
    LineFeedRoundPanics();
    NextOfBreakRound(o, map[], it, fuel);
    var f := Round(o, map[], it).value;
    NextOfPanicRound(o, map[], f.it, fuel);
  }

  /**
   * One round of `next`'s loop: take the next grapheme, or, once the text is
   * exhausted, a synthetic line break; shape it at the next position and let
   * the wrap mode place it. The round before an exhausted text after a line
   * break never happens: the loop stops there.
   */
  function Round(o: Options, breaks: map<Pos, LineBreak>, it: Iter): (r: Result<Flow, Fault>)
    requires it.emit.None?
    ensures r.Err? ==> r == Err(Panic)
    ensures r.Ok? ==> IsSuffix(r.value.it.rest, it.rest)
    ensures r.Ok? && |it.rest| > 0 ==> |r.value.it.rest| < |it.rest|
    ensures r.Ok? && |it.rest| == 0 ==> r.value.it.done && r.value.it.rest == []
    ensures r.Ok? && r.value.Continue? ==> r.value.it.emit.None? && o.wrap == Shift
  {
    var (gr, it1) := Take(it);
    match CreateGlyph(o, gr, it.nextPos, it.nextX, it.nextY)
    case Err(_) => Err(Panic)
    case Ok(g) =>
      var r := Step(o, breaks, it1, g);
      if r.Err? then r
      else
        SuffixTrans(r.value.it.rest, it1.rest, it.rest);
        r
  }

  /** `iter.next()`, or the synthetic line break once the graphemes are exhausted. */
  function Take(it: Iter): (r: (Grapheme, Iter))
    ensures |it.rest| > 0 ==> r.0 == it.rest[0] && r.1 == it.(rest := it.rest[1..])
    ensures |it.rest| == 0 ==> r.0 == SyntheticBreak(it.nextByte) && r.1 == it.(done := true)
    ensures IsSuffix(r.1.rest, it.rest) && r.1.emit == it.emit
  {
    if |it.rest| > 0 then (it.rest[0], it.(rest := it.rest[1..]))
    else (SyntheticBreak(it.nextByte), it.(done := true))
  }

  /**
   * The loop of `next`: rounds until a glyph is handed out or the text is
   * over; glyphs dropped by shift and clip go round again, and `fuel`
   * bounds the rounds.
   */
  function Loop(o: Options, breaks: map<Pos, LineBreak>, it: Iter, fuel: nat): (r: Result<(Option<Glyph>, Iter), Fault>)
    requires it.emit.None?
    ensures r.Ok? && r.value.0.None? ==> r.value.1.done && r.value.1.rest == []
    ensures r.Ok? ==> IsSuffix(r.value.1.rest, it.rest)
    ensures r.Ok? && |it.rest| > 0 && r.value.0.Some? ==> |r.value.1.rest| < |it.rest|
    ensures r == Err(OutOfFuel) ==> fuel == 0 || o.wrap == Shift
    decreases fuel
  {
    if fuel == 0 then Err(OutOfFuel)
    else if |it.rest| == 0 && it.wasLf then Ok((None, it.(done := true)))
    else
      match Round(o, breaks, it)
      case Err(f) => Err(f)
      case Ok(Continue(it2)) =>
        var r := Loop(o, breaks, it2, fuel - 1);
        if r.Err? then r
        else
          SuffixTrans(r.value.1.rest, it2.rest, it.rest);
          r
      case Ok(Break(it2, out)) => Ok((Some(out), it2))
  }

  /** a is what remains of b after dropping some of its front. */
  predicate IsSuffix(a: seq<Grapheme>, b: seq<Grapheme>)
  {
    |a| <= |b| && a == b[|b| - |a|..]
  }

  lemma SuffixTrans(a: seq<Grapheme>, b: seq<Grapheme>, c: seq<Grapheme>)
    requires IsSuffix(a, b) && IsSuffix(b, c)
    ensures IsSuffix(a, c)
  {
    assert b[|b| - |a|..] == c[|c| - |a|..];
  }

  /** What `skip_line` leaves is a suffix of what it was given. */
  lemma SkipLineSuffix(rest: seq<Grapheme>)
    ensures IsSuffix(SkipLine(rest), rest)
  {
  }

  /**
   * `Iterator::next` of `GlyphIter2`: nothing once done; a glyph waiting in
   * `emit` comes first and moves the byte position past it; otherwise the loop.
   */
  function Next(o: Options, breaks: map<Pos, LineBreak>, it: Iter, fuel: nat): (r: Result<(Option<Glyph>, Iter), Fault>)
    ensures it.done ==> r == Ok((None, it))
    ensures !it.done && it.emit.Some? ==> r.Ok? && r.value.0 == it.emit
    ensures !it.done && it.emit.Some? && r.Ok? ==>
      r.value.1.emit.None? && r.value.1.nextByte == it.emit.value.end && r.value.1.wasLf == it.emit.value.lineBreak
    ensures r.Ok? && r.value.0.None? ==> r.value.1.done
    ensures r.Ok? ==> |r.value.1.rest| <= |it.rest|
  {
    if it.done then Ok((None, it))
    else if it.emit.Some? then
      var e := it.emit.value;
      Ok((Some(e), it.(emit := None, nextByte := e.end, wasLf := e.lineBreak)))
    else Loop(o, breaks, it, fuel)
  }

  /** `test_word_0`'s situation: an empty text yields no glyph at all. */
  lemma EmptyTextYieldsNothing(o: Options, breaks: map<Pos, LineBreak>, pos: Pos, byte: nat, fuel: nat)
    requires fuel > 0
    ensures Next(o, breaks, NewIter(pos, byte, []), fuel) == Ok((None, NewIter(pos, byte, []).(done := true)))
    ensures Prepare(o, pos, byte, []) == Ok(StartPrep(pos, byte))
  {
  }

  /**
   * A text that does not end in a line break ends with a synthetic one: a
   * zero-length glyph at the end byte that ends the row, after which the
   * iterator is done.
   */
  lemma SyntheticFinalBreak(o: Options, breaks: map<Pos, LineBreak>, it: Iter, fuel: nat)
    requires !it.done && it.emit.None? && it.rest == [] && !it.wasLf && o.lfBreaks && fuel > 0
    requires o.wrap != Shift ==> it.nextPos in breaks
    requires o.wrap == Shift ==> it.nextX <= TrueRightMargin(o) + 1
    ensures var r := Next(o, breaks, it, fuel);
      r.Ok? && r.value.0.Some? && r.value.1.done
      && r.value.0.value.lineBreak && r.value.0.value.start == it.nextByte == r.value.0.value.end
      && Next(o, breaks, r.value.1, fuel) == Ok((None, r.value.1))
  {
    NewlineGlyph(o, it.nextByte, it.nextPos, it.nextX, it.nextY);
    var it1 := it.(done := true);
    var g := CreateGlyph(o, SyntheticBreak(it.nextByte), it.nextPos, it.nextX, it.nextY).value;
    assert g.lineBreak && g.start == it.nextByte == g.end;
    var f := Step(o, breaks, it1, g);
    assert f.Ok? && f.value.Break? && f.value.it.done;
    assert f.value.out.lineBreak && f.value.out.start == it.nextByte == f.value.out.end;
    assert Round(o, breaks, it) == f;
  }

  /** The settings of the word-wrap unit tests: right margin 70, word margin 68. */
  function WordTestOptions(): (o: Options)
    ensures o.wrap == Word && o.lfBreaks && !o.showCtrl && !o.wrapCtrl && TrueRightMargin(o) == 70
  {
    Options(8, false, false, true, Word, 0, 70, 68, t => 1)
  }

  /**
   * `test_word_1`, first half: the prepare pass over the text "X" records
   * one break, after X at column 1, continuing at row 1 and byte 1.
   */
  lemma WordTestXPrepare()
    ensures Prepare(WordTestOptions(), Pos(0, 0), 0, [Grapheme("X", 0, 1)])
      == Ok(Prep(Pos(0, 1), 0, 1, true, None, map[Pos(1, 0) := LineBreak(Pos(0, 1), 1)]))
  {
    var o := WordTestOptions();
    assert RemapGlyph("X", 0, o).value.width == 1;
    var p1 := Prep(Pos(1, 0), 1, 1, false, None, map[]);
    assert PrepStep(o, StartPrep(Pos(0, 0), 0), Grapheme("X", 0, 1)) == Ok(p1);
    assert PrepareRun(o, StartPrep(Pos(0, 0), 0), [Grapheme("X", 0, 1)]) == Ok(p1);
    NewlineGlyph(o, 1, Pos(1, 0), 1, 0);
  }

  /** The break the prepare pass records for "X". */
  function WordTestXBreaks(): map<Pos, LineBreak>
  {
    map[Pos(1, 0) := LineBreak(Pos(0, 1), 1)]
  }

  /** `test_word_1`'s first glyph: X over bytes 0..1 at screen column 0. */
  lemma WordTestXFirst()
    ensures Round(WordTestOptions(), WordTestXBreaks(), NewIter(Pos(0, 0), 0, [Grapheme("X", 0, 1)]))
      == Ok(Break(Iter([], None, false, Pos(1, 0), 1, 0, 1, false),
                  Glyph("X", 0, 1, 0, 0, 1, Pos(0, 0), false, false, false, "")))
  {
    var o := WordTestOptions();
    var it0 := NewIter(Pos(0, 0), 0, [Grapheme("X", 0, 1)]);
    var x := Glyph("X", 0, 1, 0, 0, 1, Pos(0, 0), false, false, false, "");
    assert RemapGlyph("X", 0, o).value.width == 1;
    assert CreateGlyph(o, Grapheme("X", 0, 1), Pos(0, 0), 0, 0) == Ok(x);
    assert Pos(0, 0) !in WordTestXBreaks();
    assert it0.rest[1..] == [];
  }

  /** `test_word_1`'s second glyph: the synthetic break over bytes 1..1, after which the iterator is done. */
  lemma WordTestXSecond()
    ensures Round(WordTestOptions(), WordTestXBreaks(), Iter([], None, false, Pos(1, 0), 1, 0, 1, false))
      == Ok(Break(Iter([], None, true, Pos(0, 1), 0, 1, 1, true),
                  Glyph("", 1, 1, 1, 0, 0, Pos(1, 0), true, false, false, "")))
  {
    var o := WordTestOptions();
    var lf := Glyph("", 1, 1, 1, 0, 0, Pos(1, 0), true, false, false, "");
    NewlineGlyph(o, 1, Pos(1, 0), 1, 0);
    assert CreateGlyph(o, SyntheticBreak(1), Pos(1, 0), 1, 0) == Ok(lf);
  }

  /**
   * `test_word_1`, second half: with that break the iterator yields X over
   * bytes 0..1, then an empty line break over 1..1, then nothing.
   */
  lemma WordTestXGlyphs()
    ensures var o := WordTestOptions();
      var it0 := NewIter(Pos(0, 0), 0, [Grapheme("X", 0, 1)]);
      var it1 := Iter([], None, false, Pos(1, 0), 1, 0, 1, false);
      var it2 := Iter([], None, true, Pos(0, 1), 0, 1, 1, true);
      Next(o, WordTestXBreaks(), it0, 1) == Ok((Some(Glyph("X", 0, 1, 0, 0, 1, Pos(0, 0), false, false, false, "")), it1))
      && Next(o, WordTestXBreaks(), it1, 1) == Ok((Some(Glyph("", 1, 1, 1, 0, 0, Pos(1, 0), true, false, false, "")), it2))
      && Next(o, WordTestXBreaks(), it2, 1) == Ok((None, it2))
  {
    WordTestXFirst();
    WordTestXSecond();
  }
}

=== FILE: mask_input2.dfy ===
// The second masked-input widget (src/widget/mask_input2.rs): its own token
// kinds and tables, the editing core `InputMaskCore` (cursor, offset and
// anchor bookkeeping, `set_value`, `set_mask`, `remove`, `compact_value`),
// the `split3` helper, and the request dispatcher `perform` of
// `MaskedInputState` together with `visible_selection`.

module MaskInput2 {
  import opened Util
  import RatMask

  // -------------------------------------------------------------------
  // Tokens
  // -------------------------------------------------------------------

  /**
   * The mask kinds of this generation. Digits always fill right to left and
   * there are no sign tokens; `End` is the terminator `Mask::None`.
   */
  datatype Token =
    | Digit0 | Digit | Numeric | DecimalSep | GroupingSep
    | Hex0 | Hex | Oct0 | Oct | Dec0 | Dec
    | Letter | LetterOrDigit | LetterDigitSpace | AnyChar
    | Separator(sep: string)
    | End

  /** `edit_value`: what a token shows while nothing was entered. */
  function Edit(m: Token): (g: string)
    ensures m.Separator? ==> g == m.sep
    ensures m.End? ==> g == ""
    ensures !m.Separator? && !m.End? ==> g == "0" || g == " " || g == "." || g == ","
    ensures m.Digit0? || m.Hex0? || m.Oct0? || m.Dec0? ==> g == "0"
  {
    match m
    case Digit0 => "0"
    case DecimalSep => "."
    case GroupingSep => ","
    case Hex0 => "0"
    case Oct0 => "0"
    case Dec0 => "0"
    case Separator(g) => g
    case End => ""
    case _ => " "
  }

  /** `can_skip`: a grapheme `compact_value` leaves out. */
  function CanSkip(m: Token, g: string): (b: bool)
    ensures m.GroupingSep? || m.End? ==> b
    ensures m.Digit0? || m.Hex0? || m.Oct0? || m.Dec0? || m.DecimalSep? || m.AnyChar? || m.Separator? ==> !b
    ensures b && !m.GroupingSep? && !m.End? ==> g == " "
  {
    match m
    case GroupingSep => true
    case End => true
    case Digit => g == " "
    case Numeric => g == " "
    case Hex => g == " "
    case Oct => g == " "
    case Dec => g == " "
    case Letter => g == " "
    case LetterOrDigit => g == " "
    case LetterDigitSpace => g == " "
    case _ => false
  }

  /** The edit values of a token list, one per token. */
  function Edits(ms: seq<Token>): (es: seq<string>)
    ensures |es| == |ms|
    ensures forall i :: 0 <= i < |ms| ==> es[i] == Edit(ms[i])
  {
    seq(|ms|, i requires 0 <= i < |ms| => Edit(ms[i]))
  }

  // -------------------------------------------------------------------
  // Parsing the mask
  // -------------------------------------------------------------------

  /** The mask-character table of `set_mask`; anything unlisted is a separator. */
  function TokenOf(g: string): (m: Token)
    requires g != "\\"
    ensures g == "" <==> m.End?
    ensures m.Separator? ==> m.sep == g
  {
    if g == "0" then Digit0
    else if g == "9" then Digit
    else if g == "#" then Numeric
    else if g == "." then DecimalSep
    else if g == "," then GroupingSep
    else if g == "h" then Hex
    else if g == "H" then Hex0
    else if g == "o" then Oct
    else if g == "O" then Oct0
    else if g == "d" then Dec
    else if g == "D" then Dec0
    else if g == "l" then Letter
    else if g == "a" then LetterOrDigit
    else if g == "c" then LetterDigitSpace
    else if g == "_" then AnyChar
    else if g == "" then End
    else Separator(g)
  }

  /**
   * The token loop of `set_mask` over the mask's graphemes with the empty
   * grapheme chained on: a backslash turns the next grapheme into a
   * separator and yields no token of its own.
   */
  function Tokens(gs: seq<string>, esc: bool): (ms: seq<Token>)
    ensures |ms| <= |gs|
    decreases |gs|
  {
    if |gs| == 0 then []
    else if esc then [Separator(gs[0])] + Tokens(gs[1..], false)
    else if gs[0] == "\\" then Tokens(gs[1..], true)
    else [TokenOf(gs[0])] + Tokens(gs[1..], false)
  }

  /** `set_mask`'s token list for a mask given as its graphemes. */
  function ParseMask(mask: seq<string>): seq<Token>
  {
    Tokens(mask + [""], false)
  }

  /** The number of graphemes of gs that start an escape, reading from the given state. */
  function Escapes(gs: seq<string>, esc: bool): (n: nat)
    decreases |gs|
  {
    if |gs| == 0 then 0
    else if esc then Escapes(gs[1..], false)
    else if gs[0] == "\\" then 1 + Escapes(gs[1..], true)
    else Escapes(gs[1..], false)
  }

  /**
   * One token per grapheme that does not start an escape; the list ends in
   * the terminator, or, when the mask ends in a lone backslash, in the
   * separator holding the empty grapheme.
   */
  lemma {:induction false} TokensShape(gs: seq<string>, esc: bool)
    requires |gs| > 0 && gs[|gs| - 1] == ""
    ensures |Tokens(gs, esc)| == |gs| - Escapes(gs, esc) > 0
    ensures var ms := Tokens(gs, esc);
      ms[|ms| - 1] == End || ms[|ms| - 1] == Separator("")
    decreases |gs|
  {
    var ms := Tokens(gs, esc);
    if |gs| == 1 {
      assert gs[0] == "";
      assert Tokens(gs[1..], false) == [] && Escapes(gs[1..], false) == 0;
    } else if esc {
      TokensShape(gs[1..], false);
    } else if gs[0] == "\\" {
      TokensShape(gs[1..], true);
    } else {
      TokensShape(gs[1..], false);
    }
  }

  /** Without backslashes every grapheme becomes the token the table gives it, and the terminator closes the list. */
  lemma {:induction false} ParseMaskPlain(mask: seq<string>)
    requires forall i :: 0 <= i < |mask| ==> mask[i] != "\\" && mask[i] != ""
    ensures |ParseMask(mask)| == |mask| + 1
    ensures forall i :: 0 <= i < |mask| ==> ParseMask(mask)[i] == TokenOf(mask[i])
    ensures ParseMask(mask)[|mask|] == End
    decreases |mask|
  {
    if |mask| == 0 {
      assert [""][1..] == [];
    } else {
      var rest := mask[1..];
      assert mask + [""] == [mask[0]] + (rest + [""]);
      assert (mask + [""])[1..] == rest + [""];
      ParseMaskPlain(rest);
      forall i | 0 <= i < |mask|
        ensures ParseMask(mask)[i] == TokenOf(mask[i])
      {
        if i > 0 {
          assert mask[i] == rest[i - 1];
        }
      }
    }
  }

  /** A well-formed token list: the terminator last, or the empty separator a trailing backslash leaves. */
  predicate Closed(ms: seq<Token>)
  {
    |ms| > 0 && Edit(ms[|ms| - 1]) == ""
  }

  /** The parsed mask of any grapheme sequence is closed. */
  lemma ParseMaskClosed(mask: seq<string>)
    ensures Closed(ParseMask(mask))
  {
    TokensShape(mask + [""], false);
  }

  /** The value `set_mask` builds: every token's edit value but the last's, which is empty. */
  function DefaultValue(ms: seq<Token>): (v: seq<string>)
    requires |ms| > 0
    ensures |v| == |ms| - 1
    ensures forall i :: 0 <= i < |v| ==> v[i] == Edit(ms[i])
  {
    Edits(ms[..|ms| - 1])
  }

  /** As one string, the default value is the concatenation of all edit values. */
  lemma DefaultValueText(ms: seq<Token>)
    requires Closed(ms)
    ensures RatMask.Cat(DefaultValue(ms)) == RatMask.Cat(Edits(ms))
  {
    var n := |ms| - 1;
    assert Edits(ms) == DefaultValue(ms) + [Edit(ms[n])];
    RatMask.CatAppend(DefaultValue(ms), [Edit(ms[n])]);
    assert RatMask.Cat([Edit(ms[n])]) == "";
  }

  // -------------------------------------------------------------------
  // The editing core
  // -------------------------------------------------------------------

  /** `InputMaskCore`: tokens, value graphemes, scroll offset, display width, cursor and anchor. */
  datatype Core = Core(toks: seq<Token>, value: seq<string>, offset: nat, width: nat, cursor: nat, anchor: nat)

  /** The value has one grapheme per token before the last. */
  predicate Fits(c: Core)
  {
    |c.toks| > 0 && |c.value| == |c.toks| - 1
  }

  /** The core's invariant: the value fits, and offset, cursor and anchor lie within it. */
  predicate Valid(c: Core)
  {
    Fits(c) && c.offset <= |c.value| && c.cursor <= |c.value| && c.anchor <= |c.value|
  }

  /** The cursor lies in the displayed window. */
  predicate Visible(c: Core)
  {
    c.offset <= c.cursor <= c.offset + c.width
  }

  /** The offset that shows the cursor, moving the old one as little as possible. */
  function Scrolled(offset: nat, width: nat, cursor: nat): (r: nat)
    ensures r <= cursor <= r + width
    ensures offset <= cursor <= offset + width ==> r == offset
    ensures cursor < offset ==> r == cursor
    ensures offset + width < cursor ==> r + width == cursor
  {
    if offset > cursor then cursor
    else if offset + width < cursor then cursor - width
    else offset
  }

  /** `set_offset`: capped at the length, then moved so that the cursor shows. */
  function SetOffset(c: Core, offset: nat): (r: Core)
    ensures r == c.(offset := r.offset)
    ensures offset > |c.value| ==> r.offset == |c.value|
    ensures offset <= |c.value| ==> r.offset <= c.cursor <= r.offset + c.width
    ensures offset <= |c.value| && offset <= c.cursor <= offset + c.width ==> r.offset == offset
    ensures Valid(c) ==> Valid(r)
  {
    if offset > |c.value| then c.(offset := |c.value|)
    else c.(offset := Scrolled(offset, c.width, c.cursor))
  }

  /** An offset past the length is capped even when the cursor then lies left of the window. */
  lemma SetOffsetCapHidesCursor()
    ensures var c := Core([Digit, Digit, End], [" ", " "], 0, 1, 0, 0);
      var r := SetOffset(c, 5);
      r.offset == 2 && !Visible(r)
  {
  }

  /** `set_width`: the new width, and the offset moved right when the cursor would fall off the window's end. */
  function SetWidth(c: Core, width: nat): (r: Core)
    ensures r == c.(width := width, offset := r.offset)
    ensures c.offset <= c.cursor ==> Visible(r)
    ensures c.cursor <= c.offset + width ==> r.offset == c.offset
    ensures Valid(c) ==> Valid(r)
  {
    if c.offset + width < c.cursor then c.(width := width, offset := c.cursor - width)
    else c.(width := width)
  }

  /** `is_anchored`: a selection exists. */
  predicate IsAnchored(c: Core)
  {
    c.cursor != c.anchor
  }

  /** `selection`: the range between cursor and anchor, in order. */
  function Selection(c: Core): (r: (nat, nat))
    ensures r.0 <= r.1
    ensures {r.0, r.1} == {c.cursor, c.anchor}
    ensures r.0 == r.1 <==> !IsAnchored(c)
  {
    if c.cursor < c.anchor then (c.cursor, c.anchor) else (c.anchor, c.cursor)
  }

  /**
   * `set_cursor`: the position clamped to the length; without `anchored` the
   * anchor follows; the offset moves so that the cursor shows.
   */
  function SetCursor(c: Core, pos: nat, anchored: bool): (r: Core)
    ensures r.toks == c.toks && r.value == c.value && r.width == c.width
    ensures r.cursor == Min(pos, |c.value|)
    ensures r.anchor == (if anchored then c.anchor else r.cursor)
    ensures Visible(r)
    ensures c.offset <= r.cursor <= c.offset + c.width ==> r.offset == c.offset
    ensures Valid(c) ==> Valid(r)
  {
    var cur := if pos > |c.value| then |c.value| else pos;
    c.(cursor := cur, anchor := if anchored then c.anchor else cur, offset := Scrolled(c.offset, c.width, cur))
  }

  /** Setting the cursor twice to the same place changes nothing the second time. */
  lemma SetCursorIdempotent(c: Core, pos: nat, anchored: bool)
    ensures SetCursor(SetCursor(c, pos, anchored), pos, anchored) == SetCursor(c, pos, anchored)
  {
  }

  /**
   * `set_value`: a value whose grapheme count differs from the mask's
   * panics; otherwise offset and cursor are clamped to the length. The
   * anchor is left as it was.
   */
  function SetValue(c: Core, v: seq<string>): (r: Result<Core, ()>)
    ensures r.Err? <==> |c.toks| == 0 || |v| != |c.toks| - 1
    ensures r.Ok? ==> Fits(r.value) && r.value.value == v && r.value.toks == c.toks
    ensures r.Ok? ==> r.value.cursor == Min(c.cursor, |v|) && r.value.offset == Min(c.offset, |v|)
    ensures r.Ok? ==> r.value.anchor == c.anchor && r.value.width == c.width
  {
    if |c.toks| == 0 || |v| != |c.toks| - 1 then Err(())
    else Ok(c.(value := v, offset := Min(c.offset, |v|), cursor := Min(c.cursor, |v|)))
  }

  /** Clamping keeps the cursor visible when it was. */
  lemma SetValueKeepsVisible(c: Core, v: seq<string>)
    requires SetValue(c, v).Ok? && Visible(c)
    ensures Visible(SetValue(c, v).value)
  {
  }

  /**
   * `set_mask` as written: the new tokens, then `set_value` with their
   * default value, which clamps offset and cursor but not the anchor.
   */
  function SetMaskAsWritten(c: Core, mask: seq<string>): (r: Core)
    ensures r.toks == ParseMask(mask) && Fits(r) && r.value == DefaultValue(r.toks)
    ensures r.cursor == Min(c.cursor, |r.value|) && r.offset == Min(c.offset, |r.value|)
    ensures r.anchor == c.anchor
  {
    var ms := ParseMask(mask);
    ParseMaskClosed(mask);
    var sv := SetValue(c.(toks := ms), DefaultValue(ms));
    sv.value
  }

  /** `set_mask` with the anchor clamped like the cursor. */
  function SetMask(c: Core, mask: seq<string>): (r: Core)
    ensures r.toks == ParseMask(mask) && Valid(r)
    ensures r.value == DefaultValue(r.toks)
    ensures r.cursor == Min(c.cursor, |r.value|) && r.anchor == Min(c.anchor, |r.value|)
    ensures c.anchor <= |r.value| ==> r == SetMaskAsWritten(c, mask)
  {
    var w := SetMaskAsWritten(c, mask);
    w.(anchor := Min(c.anchor, |w.value|))
  }

  /** `is_empty`: every grapheme equals its token's edit value. */
  predicate IsEmpty(c: Core)
  {
    forall i :: 0 <= i < |c.value| && i < |c.toks| ==> c.value[i] == Edit(c.toks[i])
  }

  /** For a fitting value, being empty is being the default value. */
  lemma IsEmptyIsDefault(c: Core)
    requires Fits(c)
    ensures IsEmpty(c) <==> c.value == DefaultValue(c.toks)
  {
    if IsEmpty(c) {
      assert forall i :: 0 <= i < |c.value| ==> c.value[i] == DefaultValue(c.toks)[i];
    }
  }

  /** A freshly set mask shows an empty value. */
  lemma SetMaskIsEmpty(c: Core, mask: seq<string>)
    ensures IsEmpty(SetMask(c, mask))
  {
  }

  /** `compact_value`: the graphemes whose token cannot skip them, over the zipped pairs. */
  function Compact(ms: seq<Token>, t: seq<string>): (r: seq<string>)
    ensures |r| <= |t|
    decreases |t|
  {
    if |t| == 0 || |ms| == 0 then []
    else (if CanSkip(ms[0], t[0]) then [] else [t[0]]) + Compact(ms[1..], t[1..])
  }

  /** The number of pairs a token cannot skip. */
  function Kept(ms: seq<Token>, t: seq<string>): (n: nat)
    decreases |t|
  {
    if |t| == 0 || |ms| == 0 then 0
    else (if CanSkip(ms[0], t[0]) then 0 else 1) + Kept(ms[1..], t[1..])
  }

  /** The compact value has one grapheme per pair that cannot be skipped. */
  lemma {:induction false} CompactLength(ms: seq<Token>, t: seq<string>)
    ensures |Compact(ms, t)| == Kept(ms, t)
    decreases |t|
  {
    if |t| > 0 && |ms| > 0 {
      CompactLength(ms[1..], t[1..]);
    }
  }

  /** Compacting works piece by piece: the compact value of two aligned halves is the two compact values. */
  lemma {:induction false} CompactAppend(ms1: seq<Token>, t1: seq<string>, ms2: seq<Token>, t2: seq<string>)
    requires |ms1| == |t1|
    ensures Compact(ms1 + ms2, t1 + t2) == Compact(ms1, t1) + Compact(ms2, t2)
    decreases |t1|
  {
    if |t1| > 0 {
      assert (ms1 + ms2)[1..] == ms1[1..] + ms2;
      assert (t1 + t2)[1..] == t1[1..] + t2;
      CompactAppend(ms1[1..], t1[1..], ms2, t2);
    } else {
      assert ms1 + ms2 == ms2 && t1 + t2 == t2;
    }
  }

  /** A value with nothing skippable is its own compact value. */
  lemma {:induction false} CompactKeepsAll(ms: seq<Token>, t: seq<string>)
    requires |t| <= |ms|
    requires forall i :: 0 <= i < |t| ==> !CanSkip(ms[i], t[i])
    ensures Compact(ms, t) == t
    decreases |t|
  {
    if |t| > 0 {
      CompactKeepsAll(ms[1..], t[1..]);
    }
  }

  /** A value whose every grapheme is skippable compacts to nothing. */
  lemma {:induction false} CompactDropsAll(ms: seq<Token>, t: seq<string>)
    requires |t| <= |ms|
    requires forall i :: 0 <= i < |t| ==> CanSkip(ms[i], t[i])
    ensures Compact(ms, t) == []
    decreases |t|
  {
    if |t| > 0 {
      CompactDropsAll(ms[1..], t[1..]);
    }
  }

  // -------------------------------------------------------------------
  // Splitting and removing
  // -------------------------------------------------------------------

  /**
   * `split3`: the value cut at grapheme indices a and b. An index past the
   * end is never found and a start after the end cannot be sliced; both
   * panic.
   */
  function Split3(v: seq<string>, a: nat, b: nat): (r: Option<(seq<string>, seq<string>, seq<string>)>)
    ensures r.Some? <==> a <= b <= |v|
    ensures r.Some? ==> |r.value.0| == a && |r.value.1| == b - a
    ensures r.Some? ==> r.value.0 + r.value.1 + r.value.2 == v
  {
    if a <= b <= |v| then Some((v[..a], v[a..b], v[b..])) else None
  }

  /** The three parts of a split join back to the value, and the split of a join gives the parts back. */
  lemma Split3Join(x: seq<string>, y: seq<string>, z: seq<string>)
    ensures Split3(x + y + z, |x|, |x| + |y|) == Some((x, y, z))
  {
    var v := x + y + z;
    assert v[..|x|] == x;
    assert v[|x|..|x| + |y|] == y;
    assert v[|x| + |y|..] == z;
  }

  /** Where `remove` leaves the cursor. */
  datatype CursorPos = Start | Finish

  /**
   * `remove`: the graphemes in [a, b) replaced by their tokens' edit
   * values; cursor and anchor at a (Start) or b (Finish), the offset moved
   * to show the cursor. A range the value does not contain panics.
   */
  function Remove(c: Core, a: nat, b: nat, pos: CursorPos): (r: Result<Core, ()>)
    requires Fits(c)
    ensures r.Err? <==> !(a <= b <= |c.value|)
    ensures r.Ok? ==> r.value.toks == c.toks && r.value.width == c.width && |r.value.value| == |c.value|
    ensures r.Ok? ==> r.value.value[..a] == c.value[..a] && r.value.value[b..] == c.value[b..]
    ensures r.Ok? ==> forall i :: a <= i < b ==> r.value.value[i] == Edit(c.toks[i])
    ensures r.Ok? ==> r.value.cursor == (if pos == Start then a else b) && r.value.anchor == r.value.cursor
    ensures r.Ok? ==> Visible(r.value)
    ensures r.Ok? && Valid(c) ==> Valid(r.value)
  {
    match Split3(c.value, a, b)
    case None => Err(())
    case Some(parts) =>
      var (before, sel, after) := parts;
      var cur := if pos == Start then |before| else |before| + |sel|;
      var v := before + Edits(c.toks[a..b]) + after;
      assert v[..a] == before;
      assert v[b..] == after;
      assert forall i :: a <= i < b ==> v[i] == Edits(c.toks[a..b])[i - a];
      Ok(c.(value := v, cursor := cur, anchor := cur, offset := Scrolled(c.offset, c.width, cur)))
  }

  /** Removing a range twice is the same as removing it once. */
  lemma RemoveTwice(c: Core, a: nat, b: nat, pos: CursorPos)
    requires Fits(c) && a <= b <= |c.value|
    ensures var r := Remove(c, a, b, pos).value;
      Remove(r, a, b, pos) == Ok(r)
  {
    var r := Remove(c, a, b, pos).value;
    var r2 := Remove(r, a, b, pos).value;
    assert r2.value == r.value by {
      assert r2.value[..a] == r.value[..a] && r2.value[b..] == r.value[b..];
      assert r2.value == r2.value[..a] + r2.value[a..b] + r2.value[b..];
      assert r.value == r.value[..a] + r.value[a..b] + r.value[b..];
      assert r2.value[a..b] == r.value[a..b];
    }
  }

  /** Removing everything gives the default value. */
  lemma RemoveAllIsDefault(c: Core, pos: CursorPos)
    requires Fits(c)
    ensures Remove(c, 0, |c.value|, pos).Ok?
    ensures Remove(c, 0, |c.value|, pos).value.value == DefaultValue(c.toks)
  {
    var r := Remove(c, 0, |c.value|, pos).value;
    assert forall i :: 0 <= i < |r.value| ==> r.value[i] == DefaultValue(c.toks)[i];
  }

  // -------------------------------------------------------------------
  // Word boundaries
  // -------------------------------------------------------------------

  /** The first position at or after i whose grapheme is not part of a word, or the end. */
  function SkipWord(v: seq<string>, i: nat, alnum: string -> bool): (r: nat)
    requires i <= |v|
    ensures i <= r <= |v|
    ensures r < |v| ==> !alnum(v[r])
    ensures forall k :: i <= k < r ==> alnum(v[k])
    decreases |v| - i
  {
    if i == |v| || !alnum(v[i]) then i else SkipWord(v, i + 1, alnum)
  }

  /** The first position at or after i whose grapheme is part of a word, or the end. */
  function FindWord(v: seq<string>, i: nat, alnum: string -> bool): (r: nat)
    requires i <= |v|
    ensures i <= r <= |v|
    ensures r < |v| ==> alnum(v[r])
    ensures forall k :: i <= k < r ==> !alnum(v[k])
    decreases |v| - i
  {
    if i == |v| || alnum(v[i]) then i else FindWord(v, i + 1, alnum)
  }

  /** Going left from i, the first position whose left neighbour is not part of a word, or 0. */
  function SkipWordBack(v: seq<string>, i: nat, alnum: string -> bool): (r: nat)
    requires i <= |v|
    ensures r <= i
    ensures r > 0 ==> !alnum(v[r - 1])
    ensures forall k :: r <= k < i ==> alnum(v[k])
  {
    if i == 0 || !alnum(v[i - 1]) then i else SkipWordBack(v, i - 1, alnum)
  }

  /** Going left from i, the first position whose left neighbour is part of a word, or 0. */
  function SkipGapBack(v: seq<string>, i: nat, alnum: string -> bool): (r: nat)
    requires i <= |v|
    ensures r <= i
    ensures r > 0 ==> alnum(v[r - 1])
    ensures forall k :: r <= k < i ==> !alnum(v[k])
  {
    if i == 0 || alnum(v[i - 1]) then i else SkipGapBack(v, i - 1, alnum)
  }

  /** A word starts at k: its grapheme is part of a word and its left neighbour is not. */
  predicate WordStart(v: seq<string>, k: nat, alnum: string -> bool)
    requires k < |v|
  {
    alnum(v[k]) && (k == 0 || !alnum(v[k - 1]))
  }

  /** `next_word_boundary`: past the rest of the current word to the start of the next one, or the end. */
  function NextWordBoundary(v: seq<string>, cur: nat, alnum: string -> bool): (r: nat)
    requires cur <= |v|
    ensures cur <= r <= |v|
    ensures cur < |v| ==> cur < r
    ensures r < |v| ==> WordStart(v, r, alnum)
    ensures forall k :: cur < k < r ==> !WordStart(v, k, alnum)
  {
    if cur == |v| then |v| else FindWord(v, SkipWord(v, cur, alnum), alnum)
  }

  /**
   * `prev_word_boundary` as written: it skips the word left of the cursor
   * twice, so a cursor after a gap stays where it is.
   */
  function PrevWordBoundaryAsWritten(v: seq<string>, cur: nat, alnum: string -> bool): (r: nat)
    requires cur <= |v|
    ensures r <= cur
    ensures r > 0 ==> !alnum(v[r - 1])
  {
    if cur == 0 then 0 else SkipWordBack(v, SkipWordBack(v, cur, alnum), alnum)
  }

  /** `prev_word_boundary` with the evident intent: back over the gap, then over the word. */
  function PrevWordBoundary(v: seq<string>, cur: nat, alnum: string -> bool): (r: nat)
    requires cur <= |v|
    ensures r <= cur
    ensures cur > 0 ==> r < cur
    ensures 0 < r ==> r < |v| && WordStart(v, r, alnum)
    ensures r == 0 && 0 < cur && alnum(v[0]) ==> WordStart(v, 0, alnum)
    ensures forall k :: r < k < cur ==> !WordStart(v, k, alnum)
  {
    if cur == 0 then 0 else SkipWordBack(v, SkipGapBack(v, cur, alnum), alnum)
  }

  /** Both readings agree when the cursor follows a word. */
  lemma PrevWordAfterWord(v: seq<string>, cur: nat, alnum: string -> bool)
    requires 0 < cur <= |v| && alnum(v[cur - 1])
    ensures PrevWordBoundaryAsWritten(v, cur, alnum) == PrevWordBoundary(v, cur, alnum)
  {
  }

  /** In "a b" with the cursor after the space, the written boundary is the cursor itself; the intended one is 0. */
  lemma PrevWordStuck(alnum: string -> bool)
    requires alnum("a") && !alnum(" ") && alnum("b")
    ensures PrevWordBoundaryAsWritten(["a", " ", "b"], 2, alnum) == 2
    ensures PrevWordBoundary(["a", " ", "b"], 2, alnum) == 0
  {
    var v := ["a", " ", "b"];
    assert SkipWordBack(v, 2, alnum) == 2;
    assert SkipGapBack(v, 2, alnum) == 1;
    assert SkipWordBack(v, 1, alnum) == 0;
  }

  // -------------------------------------------------------------------
  // The widget state
  // -------------------------------------------------------------------

  /** Position k lies in the half-open range [a, b). */
  predicate Between(a: nat, k: nat, b: nat)
  {
    a <= k < b
  }

  /** `visible_selection`: both ends of the selection clamped into the window [offset, offset + width]. */
  function VisibleSelection(c: Core): (r: (nat, nat))
    ensures c.offset <= r.0 <= r.1 <= c.offset + c.width
    ensures forall k :: Between(r.0, k, r.1) <==>
      Between(Selection(c).0, k, Selection(c).1) && Between(c.offset, k, c.offset + c.width)
  {
    var (s, e) := Selection(c);
    var s1 := if s < c.offset then c.offset else if s > c.offset + c.width then c.offset + c.width else s;
    var e1 := if e < c.offset then c.offset else if e > c.offset + c.width then c.offset + c.width else e;
    (s1, e1)
  }

  /** The editing requests `perform` handles; character input is not part of this model. */
  datatype Request =
    | SetCursorTo(pos: nat, anchored: bool)
    | Select(anchor: nat, cursor: nat)
    | GoToPrevChar(anchored: bool)
    | GoToNextChar(anchored: bool)
    | GoToPrevWord(anchored: bool)
    | GoToNextWord(anchored: bool)
    | GoToStart(anchored: bool)
    | GoToEnd(anchored: bool)
    | SelectAll
    | DeletePrevChar
    | DeleteNextChar
    | DeletePrevWord
    | DeleteNextWord
    | DeleteLine
    | DeleteTillStart
    | DeleteTillEnd

  datatype Outcome = NoChange | Change

  /** The requests that edit the value. */
  predicate Deletes(req: Request)
  {
    req.DeletePrevChar? || req.DeleteNextChar? || req.DeletePrevWord? || req.DeleteNextWord?
    || req.DeleteLine? || req.DeleteTillStart? || req.DeleteTillEnd?
  }

  /**
   * `perform`: one request applied to the core; Err stands for a panic in
   * `remove`. The caller's core keeps the cursor within the value, as every
   * operation of the core does; the anchor is not constrained.
   */
  function Perform(c: Core, req: Request, alnum: string -> bool): (r: Result<(Core, Outcome), ()>)
    requires Fits(c) && c.cursor <= |c.value|
    ensures Valid(c) ==> r.Ok? && Valid(r.value.0)
    ensures r.Ok? ==> Fits(r.value.0) && r.value.0.toks == c.toks && |r.value.0.value| == |c.value|
    ensures r.Ok? && !Deletes(req) ==> r.value.0.value == c.value
    ensures r.Ok? && r.value.1 == NoChange ==> r.value.0 == c
  {
    if Deletes(req) then Delete(c, req, alnum) else Ok(Move(c, req, alnum))
  }

  /** The cursor movements of `perform`: they never touch the value. */
  function Move(c: Core, req: Request, alnum: string -> bool): (r: (Core, Outcome))
    requires Fits(c) && c.cursor <= |c.value| && !Deletes(req)
    ensures r.0.toks == c.toks && r.0.value == c.value && r.0.cursor <= |c.value|
    ensures Valid(c) ==> Valid(r.0)
    ensures r.1 == NoChange ==> r.0 == c
  {
    if req.Select? then (SetCursor(SetCursor(c, req.anchor, false), req.cursor, true), Change)
    else if req.SelectAll? then (SetCursor(SetCursor(c, 0, false), |c.value|, true), Change)
    else
      match Target(c, req, alnum)
      case None => (c, NoChange)
      case Some(t) => (SetCursor(c, t.0, t.1), Change)
  }

  /** Where a single cursor movement goes and whether it keeps the anchor; None when `perform` reports no change. */
  function Target(c: Core, req: Request, alnum: string -> bool): (t: Option<(nat, bool)>)
    requires c.cursor <= |c.value| && !Deletes(req) && !req.Select? && !req.SelectAll?
  {
    var len := |c.value|;
    match req
    case SetCursorTo(pos, anchored) =>
      var p := pos + c.offset;
      if c.cursor == p then None else Some((p, anchored))
    case GoToPrevChar(anchored) =>
      if !anchored && IsAnchored(c) then Some((Selection(c).0, false))
      else if c.cursor == 0 then None
      else Some((c.cursor - 1, anchored))
    case GoToNextChar(anchored) =>
      if !anchored && IsAnchored(c) then Some((Selection(c).1, false))
      else if c.cursor == len then None
      else Some((c.cursor + 1, anchored))
    case GoToPrevWord(anchored) =>
      if c.cursor == 0 then None
      else Some((PrevWordBoundaryAsWritten(c.value, c.cursor, alnum), anchored))
    case GoToNextWord(anchored) =>
      if c.cursor == len then None
      else Some((NextWordBoundary(c.value, c.cursor, alnum), anchored))
    case GoToStart(anchored) =>
      if c.cursor == 0 then None else Some((0, anchored))
    case GoToEnd(anchored) =>
      if c.cursor == len then None else Some((len, anchored))
  }

  /** The deletions of `perform`: each resets a range to the edit values, or reports no change. */
  function Delete(c: Core, req: Request, alnum: string -> bool): (r: Result<(Core, Outcome), ()>)
    requires Fits(c) && c.cursor <= |c.value| && Deletes(req)
    ensures Valid(c) ==> r.Ok? && Valid(r.value.0)
    ensures r.Ok? ==> Fits(r.value.0) && r.value.0.toks == c.toks && |r.value.0.value| == |c.value|
    ensures r.Ok? && r.value.1 == NoChange ==> r.value.0 == c
  {
    var len := |c.value|;
    match req
    case DeletePrevChar =>
      if IsAnchored(c) then Changed(Remove(c, Selection(c).0, Selection(c).1, Start))
      else if c.cursor == 0 then Ok((c, NoChange))
      else Changed(Remove(c, c.cursor - 1, c.cursor, Start))
    case DeleteNextChar =>
      if IsAnchored(c) then Changed(Remove(c, Selection(c).0, Selection(c).1, Finish))
      else if c.cursor == len then Ok((c, NoChange))
      else Changed(Remove(c, c.cursor, c.cursor + 1, Finish))
    case DeletePrevWord =>
      if c.cursor == 0 then Ok((c, NoChange))
      else Changed(Remove(c, PrevWordBoundaryAsWritten(c.value, c.cursor, alnum), c.cursor, Start))
    case DeleteNextWord =>
      if c.cursor == len then Ok((c, NoChange))
      else Changed(Remove(c, c.cursor, NextWordBoundary(c.value, c.cursor, alnum), Finish))
    case DeleteLine =>
      if IsEmpty(c) then Ok((c, NoChange)) else Changed(Remove(c, 0, len, Start))
    case DeleteTillStart =>
      Changed(Remove(c, 0, c.cursor, Finish))
    case DeleteTillEnd =>
      Changed(Remove(c, c.cursor, len, Start))
  }

  /** A removal reported as a change. */
  function Changed(r: Result<Core, ()>): (p: Result<(Core, Outcome), ()>)
    ensures p.Ok? <==> r.Ok?
    ensures p.Ok? ==> p.value == (r.value, Change)
  {
    match r
    case Ok(c) => Ok((c, Change))
    case Err(e) => Err(e)
  }

  /** The requests that report no change: deleting before the start or after the end, and setting the cursor where it is. */
  lemma PerformNoChange(c: Core, alnum: string -> bool)
    requires Valid(c)
    ensures !IsAnchored(c) && c.cursor == 0 ==> Perform(c, DeletePrevChar, alnum) == Ok((c, NoChange))
    ensures !IsAnchored(c) && c.cursor == |c.value| ==> Perform(c, DeleteNextChar, alnum) == Ok((c, NoChange))
    ensures c.offset <= c.cursor ==> Perform(c, SetCursorTo(c.cursor - c.offset, true), alnum) == Ok((c, NoChange))
    ensures c.offset <= c.cursor ==> Perform(c, SetCursorTo(c.cursor - c.offset, false), alnum) == Ok((c, NoChange))
  {
  }

  /** Deleting the character before the cursor empties that cell and steps the cursor left. */
  lemma DeletePrevCharStepsLeft(c: Core, alnum: string -> bool)
    requires Valid(c) && !IsAnchored(c) && c.cursor > 0
    ensures var r := Perform(c, DeletePrevChar, alnum).value.0;
      r.cursor == r.anchor == c.cursor - 1
      && r.value == c.value[c.cursor - 1 := Edit(c.toks[c.cursor - 1])]
  {
    var r := Perform(c, DeletePrevChar, alnum).value.0;
    var want := c.value[c.cursor - 1 := Edit(c.toks[c.cursor - 1])];
    assert forall i :: 0 <= i < |r.value| ==> r.value[i] == want[i] by {
      forall i | 0 <= i < |r.value|
        ensures r.value[i] == want[i]
      {
        if i < c.cursor - 1 {
          assert r.value[i] == r.value[..c.cursor - 1][i];
        } else if i >= c.cursor {
          assert r.value[i] == r.value[c.cursor..][i - c.cursor];
        }
      }
    }
  }

  /**
   * `GoToPrevWord` puts the cursor on `prev_word_boundary` as written: a
   * change is reported, but after a gap the cursor does not move.
   */
  lemma GoToPrevWordTarget(c: Core, anchored: bool, alnum: string -> bool)
    requires Valid(c) && c.cursor > 0
    ensures var r := Perform(c, GoToPrevWord(anchored), alnum);
      r.Ok? && r.value.1 == Change && r.value.0.value == c.value
      && r.value.0.cursor == PrevWordBoundaryAsWritten(c.value, c.cursor, alnum)
    ensures !alnum(c.value[c.cursor - 1]) ==> Perform(c, GoToPrevWord(anchored), alnum).value.0.cursor == c.cursor
  {
  }

  /**
   * `DeletePrevWord` removes from `prev_word_boundary` as written up to the
   * cursor: after a gap that range is empty and the value stays as it was,
   * though a change is reported.
   */
  lemma DeletePrevWordAfterGap(c: Core, alnum: string -> bool)
    requires Valid(c) && c.cursor > 0 && !alnum(c.value[c.cursor - 1])
    ensures var r := Perform(c, DeletePrevWord, alnum);
      r.Ok? && r.value.1 == Change && r.value.0.value == c.value && r.value.0.cursor == c.cursor
  {
    var r := Perform(c, DeletePrevWord, alnum).value.0;
    assert r.value == r.value[..c.cursor] + r.value[c.cursor..];
    assert c.value == c.value[..c.cursor] + c.value[c.cursor..];
  }

  /**
   * After `set_mask` shrinks the mask, the anchor stays behind the end:
   * with cursor and anchor at the end of "9999", the mask "9" leaves cursor 1
   * and anchor 4, and deleting the selection panics in `split3`. Clamping
   * the anchor lets the same request succeed.
   */
  lemma SetMaskLeavesAnchor()
    ensures var c := Core(ParseMask(["9", "9", "9", "9"]), [" ", " ", " ", " "], 0, 10, 4, 4);
      var w := SetMaskAsWritten(c, ["9"]);
      w.cursor == 1 && w.anchor == 4 && Valid(c)
      && Remove(w, 1, 4, Start).Err?
      && Perform(SetMask(c, ["9"]), DeletePrevChar, (g: string) => false).Ok?
  {
    ParseMaskPlain(["9", "9", "9", "9"]);
    ParseMaskPlain(["9"]);
    var c := Core(ParseMask(["9", "9", "9", "9"]), [" ", " ", " ", " "], 0, 10, 4, 4);
    var w := SetMaskAsWritten(c, ["9"]);
    assert |w.value| == 1;
  }
}

=== FILE: mask_kind.dfy ===
// The tokens of an input mask and their classification tables, shared by the
// masked-input engines (rat-text/src/text_mask_core.rs, src/text_mask_core.rs
// and src/text/maskedinput_core.rs declare the same tables). A mask grapheme is
// a string; the terminating token that sits at position len is NoMask.

module MaskKind {
  import Util

  /** Edit direction: the integer part of a number fills right to left, the fraction left to right. */
  datatype Dir = Ltor | Rtol

  datatype Mask =
    | Digit0(dir: Dir)          // 0-9, shown as 0
    | Digit(dir: Dir)           // 0-9, shown as space
    | Numeric(dir: Dir)         // 0-9 or sign, shown as space
    | DecimalSep
    | GroupingSep
    | Sign
    | Plus
    | Hex0
    | Hex
    | Oct0
    | Oct
    | Dec0
    | Dec
    | Letter
    | LetterOrDigit
    | LetterDigitSpace
    | AnyChar
    | Separator(sep: string)
    | NoMask                    // the terminator at position len: a cursor position, not editable

  predicate IsDigitKind(m: Mask)
  {
    m.Digit0? || m.Digit? || m.Numeric?
  }

  /** Fields whose edit value is a blank or a zero and that can take one grapheme of input. */
  predicate IsFieldKind(m: Mask)
  {
    m.Hex0? || m.Hex? || m.Oct0? || m.Oct? || m.Dec0? || m.Dec?
      || m.Letter? || m.LetterOrDigit? || m.LetterDigitSpace? || m.AnyChar?
  }

  /** Left-to-right editing. */
  function IsLtor(m: Mask): (b: bool)
    ensures m.NoMask? ==> !b
    ensures IsFieldKind(m) || m.Separator? || m.DecimalSep? ==> b
    ensures m.GroupingSep? || m.Sign? || m.Plus? ==> !b
  {
    match m
    case Digit0(d) => d == Ltor
    case Digit(d) => d == Ltor
    case Numeric(d) => d == Ltor
    case GroupingSep => false
    case Sign => false
    case Plus => false
    case NoMask => false
    case _ => true
  }

  /** Right-to-left editing. */
  function IsRtol(m: Mask): (b: bool)
    ensures m.NoMask? ==> !b
    ensures b <==> !IsLtor(m) && !m.NoMask?
  {
    match m
    case Digit0(d) => d == Rtol
    case Digit(d) => d == Rtol
    case Numeric(d) => d == Rtol
    case GroupingSep => true
    case Sign => true
    case Plus => true
    case _ => false
  }

  /** Part of a number: digits, separators and signs. */
  function IsNumber(m: Mask): (b: bool)
    ensures b ==> !IsFieldKind(m) && !m.Separator? && !m.NoMask?
  {
    IsDigitKind(m) || m.DecimalSep? || m.GroupingSep? || m.Sign? || m.Plus?
  }

  /** A digit of the fraction part. */
  function IsFraction(m: Mask): (b: bool)
    ensures b <==> IsDigitKind(m) && IsLtor(m)
  {
    match m
    case Digit0(d) => d == Ltor
    case Digit(d) => d == Ltor
    case Numeric(d) => d == Ltor
    case _ => false
  }

  /**
   * The fine grouping: which kinds are put together into one run (called
   * `sub_section` in rat-text and `section` in the older engines).
   */
  function SubSection(m: Mask): (k: nat)
    ensures k == 12 <==> m.NoMask?
    ensures k == 11 <==> m.Separator?
    ensures k == 0 <==> IsDigitKind(m) || m.GroupingSep?
  {
    match m
    case Digit0(_) => 0
    case Digit(_) => 0
    case Numeric(_) => 0
    case GroupingSep => 0
    case Sign => 1
    case Plus => 2
    case DecimalSep => 3
    case Hex0 => 4
    case Hex => 4
    case Oct0 => 5
    case Oct => 5
    case Dec0 => 6
    case Dec => 6
    case Letter => 7
    case LetterOrDigit => 8
    case LetterDigitSpace => 9
    case AnyChar => 10
    case Separator(_) => 11
    case NoMask => 12
  }

  /**
   * The coarse grouping: a whole number, a run of other fields, separators,
   * the terminator (called `section` in rat-text and `number` in the older
   * engines).
   */
  function Section(m: Mask): (k: nat)
    ensures k == 0 <==> IsNumber(m)
    ensures k == 1 <==> IsFieldKind(m)
    ensures k == 2 <==> m.Separator?
    ensures k == 3 <==> m.NoMask?
  {
    if IsNumber(m) then 0
    else if m.Separator? then 2
    else if m.NoMask? then 3
    else 1
  }

  /** Kinds in the same fine group are in the same coarse group. */
  lemma SubSectionRefinesSection(a: Mask, b: Mask)
    requires SubSection(a) == SubSection(b)
    ensures Section(a) == Section(b)
  {
  }

  /** The default grapheme of a token: what an empty field shows. */
  function EditValue(m: Mask): (v: string)
    ensures m.Separator? ==> v == m.sep
    ensures m.NoMask? ==> v == ""
    ensures !m.Separator? && !m.NoMask? ==> |v| == 1
    ensures m.Digit0? || m.Hex0? || m.Oct0? || m.Dec0? ==> v == "0"
    ensures m.DecimalSep? ==> v == "."
    ensures m.Plus? ==> v == "+"
  {
    match m
    case Digit0(_) => "0"
    case DecimalSep => "."
    case Plus => "+"
    case Hex0 => "0"
    case Oct0 => "0"
    case Dec0 => "0"
    case Separator(g) => g
    case NoMask => ""
    case _ => " "
  }

  /** A grapheme that can be dropped from the text without losing anything. */
  function CanDrop(m: Mask, g: string): (b: bool)
    ensures m.DecimalSep? || m.Sign? || m.Plus? || m.Separator? || m.NoMask? ==> !b
    ensures m.GroupingSep? ==> b
  {
    match m
    case DecimalSep => false
    case Sign => false
    case Plus => false
    case GroupingSep => true
    case Separator(_) => false
    case NoMask => false
    case _ => g == EditValue(m)
  }

  /** What can be dropped is exactly the edit value, grouping separators aside. */
  lemma CanDropIsEditValue(m: Mask, g: string)
    ensures CanDrop(m, g) && !m.GroupingSep? ==> g == EditValue(m)
    ensures CanDrop(m, EditValue(m)) <==>
      !(m.DecimalSep? || m.Sign? || m.Plus? || m.Separator? || m.NoMask?)
  {
  }

  /** Input that overwrites the grapheme under the cursor instead of being inserted. */
  function CanOverwrite(m: Mask, g: string): (b: bool)
    ensures IsDigitKind(m) || m.GroupingSep? || m.NoMask? ==> !b
    ensures m.Separator? ==> (b <==> g == m.sep)
    ensures m.Sign? ==> (b <==> g == "-" || g == " ")
  {
    match m
    case DecimalSep => g == "."
    case Sign => g == "-" || g == " "
    case Plus => g == "-" || g == "+" || g == " "
    case Hex0 => g == "0"
    case Oct0 => g == "0"
    case Dec0 => g == "0"
    case Separator(s) => s == g
    case _ => false
  }

  /** The mask character of a token kind; "" for separators and the terminator. */
  function MaskChar(m: Mask): string
  {
    match m
    case Digit0(_) => "0"
    case Digit(_) => "9"
    case Numeric(_) => "#"
    case DecimalSep => "."
    case GroupingSep => ","
    case Sign => "-"
    case Plus => "+"
    case Hex0 => "H"
    case Hex => "h"
    case Oct0 => "O"
    case Oct => "o"
    case Dec0 => "D"
    case Dec => "d"
    case Letter => "l"
    case LetterOrDigit => "a"
    case LetterDigitSpace => "c"
    case AnyChar => "_"
    case _ => ""
  }

  /** The graphemes with a meaning of their own in a mask. */
  predicate IsMaskChar(g: string)
  {
    g == "0" || g == "9" || g == "#" || g == "." || g == "," || g == "-" || g == "+"
      || g == "H" || g == "h" || g == "O" || g == "o" || g == "D" || g == "d"
      || g == "l" || g == "a" || g == "c" || g == "_"
  }

  /** The direction in force after a token: '.' starts the fraction, other fields reset it. */
  function NextDir(m: Mask, dir: Dir): (r: Dir)
    ensures m.DecimalSep? ==> r == Ltor
    ensures IsFieldKind(m) || m.Separator? ==> r == Rtol
    ensures IsDigitKind(m) || m.GroupingSep? || m.Sign? || m.Plus? || m.NoMask? ==> r == dir
  {
    if m.DecimalSep? then Ltor
    else if IsFieldKind(m) || m.Separator? then Rtol
    else dir
  }

  /**
   * The token for an unescaped mask grapheme other than the escape, read with
   * the current direction; `extraSeps` selects the older engines, which also
   * take ";", ":", "/" and every non-ASCII grapheme as a separator. None means
   * the mask is rejected.
   */
  function ParseGrapheme(g: string, dir: Dir, extraSeps: bool): Util.Option<Mask>
  {
    if g == "0" then Util.Some(Digit0(dir))
    else if g == "9" then Util.Some(Digit(dir))
    else if g == "#" then Util.Some(Numeric(dir))
    else if g == "." then Util.Some(DecimalSep)
    else if g == "," then Util.Some(GroupingSep)
    else if g == "-" then Util.Some(Sign)
    else if g == "+" then Util.Some(Plus)
    else if g == "h" then Util.Some(Hex)
    else if g == "H" then Util.Some(Hex0)
    else if g == "o" then Util.Some(Oct)
    else if g == "O" then Util.Some(Oct0)
    else if g == "d" then Util.Some(Dec)
    else if g == "D" then Util.Some(Dec0)
    else if g == "l" then Util.Some(Letter)
    else if g == "a" then Util.Some(LetterOrDigit)
    else if g == "c" then Util.Some(LetterDigitSpace)
    else if g == "_" then Util.Some(AnyChar)
    else if g == "" then Util.Some(NoMask)
    else if g == " " then Util.Some(Separator(g))
    else if extraSeps && (g == ";" || g == ":" || g == "/" || !IsAscii(g)) then Util.Some(Separator(g))
    else Util.None
  }

  /**
   * An accepted grapheme is read back as the token whose mask character it is,
   * or as a separator holding it; digit tokens take the current direction.
   */
  lemma ParseGraphemeAccepts(g: string, dir: Dir, extraSeps: bool)
    requires ParseGrapheme(g, dir, extraSeps).Some?
    ensures var m := ParseGrapheme(g, dir, extraSeps).value;
      (m.Separator? ==> m.sep == g && !IsMaskChar(g))
      && (!m.Separator? && !m.NoMask? ==> MaskChar(m) == g)
      && (IsDigitKind(m) ==> m.dir == dir)
  {
  }

  /** Only the empty grapheme gives the terminator. */
  lemma ParseGraphemeEnd(g: string, dir: Dir, extraSeps: bool)
    ensures ParseGrapheme(g, dir, extraSeps) == Util.Some(NoMask) <==> g == ""
  {
  }

  /**
   * A grapheme is rejected exactly when it is not empty, not a mask character,
   * not a space and, for the older engines, not one of their extra separators.
   */
  lemma ParseGraphemeRejects(g: string, dir: Dir, extraSeps: bool)
    ensures ParseGrapheme(g, dir, extraSeps).None? <==>
      (g != "" && !IsMaskChar(g) && g != " "
       && (!extraSeps || (g != ";" && g != ":" && g != "/" && IsAscii(g))))
  {
  }

  predicate IsAscii(g: string)
  {
    forall i :: 0 <= i < |g| ==> g[i] < '\U{80}'
  }
}

=== FILE: mask_parse.dfy ===
// The mask parser shared by the masked-input engines
// (rat-text/src/text_mask_core.rs, rat-text/src/text_input_mask.rs,
// src/text_mask_core.rs, src/text/maskedinput_core.rs): the mask string's
// graphemes, followed by one empty grapheme, become one token each, except
// that a backslash turns the next grapheme into a separator. Each token then
// gets two groupings: the coarse section (a whole number, a run of fields, a
// separator) and the fine sub-section, each as an id and a [start, end) range.

module MaskParse {
  import opened Util
  import opened MaskKind

  /** The token list the parser builds on, before grouping. */
  function Lex(gs: seq<string>, dir: Dir, esc: bool, extraSeps: bool): (r: Result<seq<Mask>, ()>)
    ensures r.Ok? ==> |r.value| <= |gs|
    ensures r.Ok? && |gs| > 0 && gs[|gs| - 1] != "\\" ==> |r.value| > 0
    decreases |gs|
  {
    if |gs| == 0 then Ok([])
    else if esc then Prepend(Separator(gs[0]), Lex(gs[1..], NextDir(Separator(gs[0]), dir), false, extraSeps))
    else if gs[0] == "\\" then Lex(gs[1..], dir, true, extraSeps)
    else
      match ParseGrapheme(gs[0], dir, extraSeps)
      case None => Err(())
      case Some(m) => Prepend(m, Lex(gs[1..], NextDir(m, dir), false, extraSeps))
  }

  /** A token in front of a successful parse; a failure stays a failure. */
  function Prepend(m: Mask, r: Result<seq<Mask>, ()>): (p: Result<seq<Mask>, ()>)
    ensures p.Ok? <==> r.Ok?
    ensures p.Ok? ==> p.value == [m] + r.value
  {
    match r
    case Ok(ms) => Ok([m] + ms)
    case Err(e) => Err(e)
  }

  /** The parsed empty grapheme is the terminator. */
  lemma LexEnd(dir: Dir, extraSeps: bool)
    ensures Lex([""], dir, false, extraSeps) == Ok([NoMask])
  {
    assert [""][0] == "";
    ParseGraphemeEnd("", dir, extraSeps);
    assert [""][1..] == [];
    assert Lex([], NextDir(NoMask, dir), false, extraSeps) == Ok([]);
    assert [NoMask] + [] == [NoMask];
  }

  /** Every digit token of a parse carries the direction in force where it stands. */
  lemma {:induction false} LexWellDirected(gs: seq<string>, dir: Dir, esc: bool, extraSeps: bool)
    requires Lex(gs, dir, esc, extraSeps).Ok?
    ensures WellDirected(Lex(gs, dir, esc, extraSeps).value, dir)
    decreases |gs|
  {
    if |gs| > 0 {
      if esc {
        var m := Separator(gs[0]);
        LexWellDirected(gs[1..], NextDir(m, dir), false, extraSeps);
        WellDirectedCons(m, Lex(gs[1..], NextDir(m, dir), false, extraSeps).value, dir);
      } else if gs[0] == "\\" {
        LexWellDirected(gs[1..], dir, true, extraSeps);
      } else {
        var m := ParseGrapheme(gs[0], dir, extraSeps).value;
        LexWellDirected(gs[1..], NextDir(m, dir), false, extraSeps);
        WellDirectedCons(m, Lex(gs[1..], NextDir(m, dir), false, extraSeps).value, dir);
      }
    }
  }

  /** The direction in force after reading the tokens p, starting in direction dir. */
  function DirAfter(dir: Dir, p: seq<Mask>): Dir
    decreases |p|
  {
    if |p| == 0 then dir else DirAfter(NextDir(p[0], dir), p[1..])
  }

  /** Every digit token carries the direction in force where it stands. */
  ghost predicate WellDirected(ms: seq<Mask>, dir: Dir)
  {
    forall j :: 0 <= j < |ms| && IsDigitKind(ms[j]) ==> ms[j].dir == DirAfter(dir, ms[..j])
  }

  lemma WellDirectedCons(m: Mask, ms: seq<Mask>, dir: Dir)
    requires IsDigitKind(m) ==> m.dir == dir
    requires WellDirected(ms, NextDir(m, dir))
    ensures WellDirected([m] + ms, dir)
  {
    var s := [m] + ms;
    forall j | 0 <= j < |s| && IsDigitKind(s[j])
      ensures s[j].dir == DirAfter(dir, s[..j])
    {
      if j > 0 {
        assert s[j] == ms[j - 1];
        assert s[..j][1..] == ms[..j - 1];
      }
    }
  }

  /**
   * The direction after a prefix is left to right exactly when it holds a
   * decimal separator with no field or separator after it.
   */
  lemma {:induction false} DirAfterLtor(p: seq<Mask>)
    ensures DirAfter(Rtol, p) == Ltor <==>
      exists i :: 0 <= i < |p| && p[i].DecimalSep? && NoReset(p, i + 1)
    decreases |p|
  {
    if |p| > 0 {
      var last := p[|p| - 1];
      DirAfterSnoc(Rtol, p[..|p| - 1], last);
      assert p[..|p| - 1] + [last] == p;
      DirAfterLtor(p[..|p| - 1]);
      var q := p[..|p| - 1];
      if last.DecimalSep? {
        assert p[|p| - 1].DecimalSep? && NoReset(p, |p|);
      } else if IsFieldKind(last) || last.Separator? {
        forall i | 0 <= i < |p| && p[i].DecimalSep?
          ensures !NoReset(p, i + 1)
        {
          assert i != |p| - 1;
          assert Resets(p[|p| - 1]);
        }
      } else {
        if DirAfter(Rtol, q) == Ltor {
          var i :| 0 <= i < |q| && q[i].DecimalSep? && NoReset(q, i + 1);
          assert p[i].DecimalSep? && NoReset(p, i + 1);
        } else {
          forall i | 0 <= i < |p| && p[i].DecimalSep?
            ensures !NoReset(p, i + 1)
          {
            assert i < |q| && q[i] == p[i];
            assert !NoReset(q, i + 1);
            var k :| i + 1 <= k < |q| && Resets(q[k]);
            assert p[k] == q[k];
          }
        }
      }
    }
  }

  /** Tokens that put the direction back to right to left. */
  predicate Resets(m: Mask)
  {
    IsFieldKind(m) || m.Separator?
  }

  predicate NoReset(p: seq<Mask>, from: nat)
  {
    forall k :: from <= k < |p| ==> !Resets(p[k])
  }

  lemma {:induction false} DirAfterSnoc(dir: Dir, p: seq<Mask>, m: Mask)
    ensures DirAfter(dir, p + [m]) == NextDir(m, DirAfter(dir, p))
    decreases |p|
  {
    if |p| > 0 {
      assert (p + [m])[1..] == p[1..] + [m];
      DirAfterSnoc(NextDir(p[0], dir), p[1..], m);
    }
  }

  // -------------------------------------------------------------------
  // Shape of the token list
  // -------------------------------------------------------------------

  /** The number of backslashes at the end of gs. */
  function TrailingEscapes(gs: seq<string>): (n: nat)
    ensures n <= |gs|
    ensures forall i :: |gs| - n <= i < |gs| ==> gs[i] == "\\"
    ensures n < |gs| ==> gs[|gs| - n - 1] != "\\"
  {
    if |gs| == 0 || gs[|gs| - 1] != "\\" then 0 else TrailingEscapes(gs[..|gs| - 1]) + 1
  }

  predicate AllEscapes(gs: seq<string>)
  {
    forall i :: 0 <= i < |gs| ==> gs[i] == "\\"
  }

  /**
   * The parsed list ends with the terminator exactly when the mask does not
   * end in an unpaired backslash; otherwise the chained empty grapheme becomes
   * an empty separator. (A pending escape counts as one more backslash in
   * front of the mask.)
   */
  /** The list ends with the terminator when n is even and with an empty separator when n is odd. */
  predicate EndsByParity(ms: seq<Mask>, n: nat)
  {
    |ms| > 0 && ms[|ms| - 1] == (if n % 2 == 0 then NoMask else Separator(""))
  }

  lemma EndsByParityCons(m: Mask, ms: seq<Mask>, n: nat, k: nat)
    requires EndsByParity(ms, n) && k % 2 == n % 2
    ensures EndsByParity([m] + ms, k)
  {
    assert ([m] + ms)[|ms|] == ms[|ms| - 1];
  }

  lemma {:induction false} LexTerminator(gs: seq<string>, dir: Dir, esc: bool, extraSeps: bool)
    requires Lex(gs + [""], dir, esc, extraSeps).Ok?
    ensures EndsByParity(Lex(gs + [""], dir, esc, extraSeps).value,
      TrailingEscapes(gs) + (if esc && AllEscapes(gs) then 1 else 0))
    decreases |gs|
  {
    var s := gs + [""];
    if |gs| == 0 {
      TerminatorAlone(dir, esc, extraSeps);
      assert s == [""];
    } else {
      assert s[1..] == gs[1..] + [""];
      if esc {
        LexTerminator(gs[1..], NextDir(Separator(gs[0]), dir), false, extraSeps);
        TerminatorAfterEscaped(gs, dir, extraSeps);
      } else if gs[0] == "\\" {
        LexTerminator(gs[1..], dir, true, extraSeps);
        TerminatorAfterEscape(gs, dir, extraSeps);
      } else {
        var m := ParseGrapheme(gs[0], dir, extraSeps).value;
        LexTerminator(gs[1..], NextDir(m, dir), false, extraSeps);
        TerminatorAfterToken(gs, dir, extraSeps);
      }
    }
  }

  /** The base case of LexTerminator: the empty grapheme alone, escaped or not. */
  lemma TerminatorAlone(dir: Dir, esc: bool, extraSeps: bool)
    ensures Lex([""], dir, esc, extraSeps).Ok?
    ensures EndsByParity(Lex([""], dir, esc, extraSeps).value, if esc then 1 else 0)
  {
    if esc {
      assert [""][1..] == [];
    } else {
      LexEnd(dir, extraSeps);
    }
  }

  /** The step of LexTerminator for an escaped grapheme. */
  lemma TerminatorAfterEscaped(gs: seq<string>, dir: Dir, extraSeps: bool)
    requires |gs| > 0
    requires Lex(gs + [""], dir, true, extraSeps).Ok?
    requires Lex(gs[1..] + [""], NextDir(Separator(gs[0]), dir), false, extraSeps).Ok?
    requires EndsByParity(Lex(gs[1..] + [""], NextDir(Separator(gs[0]), dir), false, extraSeps).value, TrailingEscapes(gs[1..]))
    ensures EndsByParity(Lex(gs + [""], dir, true, extraSeps).value,
      TrailingEscapes(gs) + (if AllEscapes(gs) then 1 else 0))
  {
    var m := Separator(gs[0]);
    var tail := gs[1..];
    assert (gs + [""])[1..] == tail + [""];
    var rest := Lex(tail + [""], NextDir(m, dir), false, extraSeps).value;
    TrailingEscapesTail(gs);
    var n := TrailingEscapes(gs) + (if AllEscapes(gs) then 1 else 0);
    if AllEscapes(gs) {
      assert AllEscapes(tail);
      assert n == TrailingEscapes(tail) + 2;
    }
    EndsByParityCons(m, rest, TrailingEscapes(tail), n);
  }

  /** The step of LexTerminator for an escape. */
  lemma TerminatorAfterEscape(gs: seq<string>, dir: Dir, extraSeps: bool)
    requires |gs| > 0 && gs[0] == "\\"
    requires Lex(gs + [""], dir, false, extraSeps).Ok?
    requires Lex(gs[1..] + [""], dir, true, extraSeps).Ok?
    requires EndsByParity(Lex(gs[1..] + [""], dir, true, extraSeps).value,
      TrailingEscapes(gs[1..]) + (if AllEscapes(gs[1..]) then 1 else 0))
    ensures EndsByParity(Lex(gs + [""], dir, false, extraSeps).value, TrailingEscapes(gs))
  {
    var tail := gs[1..];
    assert (gs + [""])[1..] == tail + [""];
    TrailingEscapesTail(gs);
    if AllEscapes(tail) {
      assert AllEscapes(gs);
    }
  }

  /** The step of LexTerminator for a grapheme read as a token. */
  lemma TerminatorAfterToken(gs: seq<string>, dir: Dir, extraSeps: bool)
    requires |gs| > 0 && gs[0] != "\\"
    requires Lex(gs + [""], dir, false, extraSeps).Ok?
    requires var p := ParseGrapheme(gs[0], dir, extraSeps);
      p.Some? && Lex(gs[1..] + [""], NextDir(p.value, dir), false, extraSeps).Ok?
      && EndsByParity(Lex(gs[1..] + [""], NextDir(p.value, dir), false, extraSeps).value, TrailingEscapes(gs[1..]))
    ensures EndsByParity(Lex(gs + [""], dir, false, extraSeps).value, TrailingEscapes(gs))
  {
    var m := ParseGrapheme(gs[0], dir, extraSeps).value;
    var tail := gs[1..];
    assert (gs + [""])[1..] == tail + [""];
    var rest := Lex(tail + [""], NextDir(m, dir), false, extraSeps).value;
    TrailingEscapesTail(gs);
    assert !AllEscapes(gs);
    EndsByParityCons(m, rest, TrailingEscapes(tail), TrailingEscapes(gs));
  }

  lemma {:induction false} TrailingEscapesTail(gs: seq<string>)
    requires |gs| > 0
    ensures TrailingEscapes(gs) == if AllEscapes(gs) then |gs| else TrailingEscapes(gs[1..])
    decreases |gs|
  {
    if |gs| > 1 && gs[|gs| - 1] == "\\" {
      var p := gs[..|gs| - 1];
      TrailingEscapesTail(p);
      assert p[1..] == gs[1..][..|gs[1..]| - 1];
      if AllEscapes(p) {
        assert AllEscapes(gs[1..]) ==> AllEscapes(gs);
      }
    }
  }

  /**
   * Without backslashes, the mask is rejected exactly when some grapheme is
   * not in the table.
   */
  lemma {:induction false} LexPlainAccepts(gs: seq<string>, dir: Dir, extraSeps: bool)
    requires forall i :: 0 <= i < |gs| ==> gs[i] != "\\"
    ensures Lex(gs, dir, false, extraSeps).Ok? <==>
      forall i :: 0 <= i < |gs| ==> ParseGrapheme(gs[i], Rtol, extraSeps).Some?
    decreases |gs|
  {
    if |gs| > 0 {
      ParseGraphemeAnyDir(gs[0], dir, extraSeps);
      var p := ParseGrapheme(gs[0], dir, extraSeps);
      if p.Some? {
        var m := p.value;
        LexPlainAccepts(gs[1..], NextDir(m, dir), extraSeps);
        forall i | 0 <= i < |gs[1..]|
          ensures ParseGrapheme(gs[1..][i], Rtol, extraSeps).Some? == ParseGrapheme(gs[i + 1], Rtol, extraSeps).Some?
        {
        }
      }
    }
  }

  /**
   * Without backslashes, every grapheme becomes one token: the one the table
   * gives it in the direction in force there.
   */
  lemma {:induction false} LexPlainTokens(gs: seq<string>, dir: Dir, extraSeps: bool)
    requires forall i :: 0 <= i < |gs| ==> gs[i] != "\\"
    ensures Lex(gs, dir, false, extraSeps).Ok? ==>
      |Lex(gs, dir, false, extraSeps).value| == |gs|
    ensures Lex(gs, dir, false, extraSeps).Ok? ==>
      var ms := Lex(gs, dir, false, extraSeps).value;
      forall j :: 0 <= j < |ms| ==> Util.Some(ms[j]) == ParseGrapheme(gs[j], DirAfter(dir, ms[..j]), extraSeps)
    decreases |gs|
  {
    if |gs| > 0 && Lex(gs, dir, false, extraSeps).Ok? {
      var m := ParseGrapheme(gs[0], dir, extraSeps).value;
      LexPlainTokens(gs[1..], NextDir(m, dir), extraSeps);
      var ms := Lex(gs, dir, false, extraSeps).value;
      var rest := Lex(gs[1..], NextDir(m, dir), false, extraSeps).value;
      assert ms == [m] + rest;
      forall j | 0 <= j < |ms|
        ensures Util.Some(ms[j]) == ParseGrapheme(gs[j], DirAfter(dir, ms[..j]), extraSeps)
      {
        if j > 0 {
          assert ms[..j][1..] == rest[..j - 1];
          assert gs[j] == gs[1..][j - 1];
        }
      }
    }
  }

  /** Whether a grapheme is accepted does not depend on the direction. */
  lemma ParseGraphemeAnyDir(g: string, dir: Dir, extraSeps: bool)
    ensures ParseGrapheme(g, dir, extraSeps).Some? == ParseGrapheme(g, Rtol, extraSeps).Some?
  {
    ParseGraphemeRejects(g, dir, extraSeps);
    ParseGraphemeRejects(g, Rtol, extraSeps);
  }

  // -------------------------------------------------------------------
  // Writing a mask back
  // -------------------------------------------------------------------

  /** rat-text's Display: the mask character, or a backslash and the separator. */
  function DisplayToken(m: Mask): (gs: seq<string>)
    ensures m.Separator? ==> gs == ["\\", m.sep]
    ensures m.NoMask? ==> gs == []
    ensures !m.Separator? && !m.NoMask? ==> gs == [MaskChar(m)] && IsMaskChar(MaskChar(m))
  {
    match m
    case Separator(s) => ["\\", s]
    case NoMask => []
    case _ => [MaskChar(m)]
  }

  /** `mask()`: the display of every token, one after the other. */
  function DisplayAll(ms: seq<Mask>, tok: Mask -> seq<string>): seq<string>
    decreases |ms|
  {
    if |ms| == 0 then [] else tok(ms[0]) + DisplayAll(ms[1..], tok)
  }

  /** A parsed token list: the terminator comes last and only there. */
  predicate Terminated(ms: seq<Mask>)
  {
    |ms| > 0 && ms[|ms| - 1] == NoMask && forall j :: 0 <= j < |ms| - 1 ==> ms[j] != NoMask
  }

  /**
   * Parsing the displayed mask (with the chained empty grapheme) gives back the
   * token list, in both dialects.
   */
  lemma {:induction false} DisplayRoundTrip(ms: seq<Mask>, dir: Dir, extraSeps: bool)
    requires Terminated(ms) && WellDirected(ms, dir)
    ensures Lex(DisplayAll(ms, DisplayToken) + [""], dir, false, extraSeps) == Ok(ms)
    decreases |ms|
  {
    var m := ms[0];
    var rest := ms[1..];
    if |ms| == 1 {
      assert ms == [NoMask];
      assert DisplayAll(ms, DisplayToken) + [""] == [""];
      LexEnd(dir, extraSeps);
    } else {
      assert Terminated(rest) by {
        assert forall j :: 0 <= j < |rest| - 1 ==> rest[j] == ms[j + 1];
      }
      WellDirectedTail(ms, dir);
      DisplayRoundTrip(rest, NextDir(m, dir), extraSeps);
      assert ms == [m] + rest;
      RoundTripStep(m, rest, dir, extraSeps);
    }
  }

  lemma WellDirectedTail(ms: seq<Mask>, dir: Dir)
    requires |ms| > 0 && WellDirected(ms, dir)
    ensures IsDigitKind(ms[0]) ==> ms[0].dir == dir
    ensures WellDirected(ms[1..], NextDir(ms[0], dir))
  {
    assert ms[..0] == [];
    var rest := ms[1..];
    forall j | 0 <= j < |rest| && IsDigitKind(rest[j])
      ensures rest[j].dir == DirAfter(NextDir(ms[0], dir), rest[..j])
    {
      assert rest[j] == ms[j + 1];
      assert ms[..j + 1][1..] == rest[..j];
    }
  }

  /** One token in front: its display parses back to it, and the rest follows. */
  lemma RoundTripStep(m: Mask, rest: seq<Mask>, dir: Dir, extraSeps: bool)
    requires m != NoMask && (IsDigitKind(m) ==> m.dir == dir)
    requires Lex(DisplayAll(rest, DisplayToken) + [""], NextDir(m, dir), false, extraSeps) == Ok(rest)
    ensures Lex(DisplayAll([m] + rest, DisplayToken) + [""], dir, false, extraSeps) == Ok([m] + rest)
  {
    var tail := DisplayAll(rest, DisplayToken) + [""];
    var all := DisplayAll([m] + rest, DisplayToken) + [""];
    assert ([m] + rest)[1..] == rest;
    assert all == DisplayToken(m) + tail;
    if m.Separator? {
      assert all[0] == "\\";
      assert all[1..] == [m.sep] + tail;
      assert all[1..][1..] == tail;
      assert Lex(all[1..], dir, true, extraSeps) == Ok([m] + rest);
    } else {
      ParseMaskChar(m, dir, extraSeps);
      assert all[0] == MaskChar(m) && all[0] != "\\";
      assert all[1..] == tail;
    }
  }

  /** Reading back a token's mask character gives the token, in the direction in force. */
  lemma ParseMaskChar(m: Mask, dir: Dir, extraSeps: bool)
    requires !m.Separator? && !m.NoMask?
    requires IsDigitKind(m) ==> m.dir == dir
    ensures ParseGrapheme(MaskChar(m), dir, extraSeps) == Util.Some(m)
  {
  }

  /**
   * The older engines' Display (src/text_mask_core.rs): a separator is
   * prefixed with a backslash only when it is itself a mask character.
   */
  function OldDisplayToken(m: Mask): (gs: seq<string>)
    ensures m.Separator? && IsMaskChar(m.sep) ==> gs == ["\\", m.sep]
    ensures m.Separator? && !IsMaskChar(m.sep) ==> gs == [m.sep]
    ensures !m.Separator? ==> gs == DisplayToken(m)
  {
    match m
    case Separator(s) => if IsMaskChar(s) then ["\\", s] else [s]
    case _ => DisplayToken(m)
  }

  /** The escaped separator "x" is written back bare, and the older parser then rejects the mask. */
  lemma OldDisplayLosesEscape()
    ensures Lex(["\\", "x", ""], Rtol, false, true) == Ok([Separator("x"), NoMask])
    ensures DisplayAll([Separator("x"), NoMask], OldDisplayToken) == ["x"]
    ensures Lex(["x", ""], Rtol, false, true).Err?
    ensures Lex(DisplayAll([Separator("x"), NoMask], DisplayToken) + [""], Rtol, false, true)
      == Ok([Separator("x"), NoMask])
  {
    assert ["\\", "x", ""][1..] == ["x", ""];
    assert ["x", ""][1..] == [""];
    assert [""][1..] == [];
    assert DisplayAll([Separator("x"), NoMask], OldDisplayToken) == ["x"] + DisplayAll([NoMask], OldDisplayToken);
    assert [Separator("x"), NoMask][1..] == [NoMask];
    assert [NoMask][1..] == [];
    assert "x" != "\\" && !IsMaskChar("x") && IsAscii("x");
    ParseGraphemeRejects("x", Rtol, true);
    DisplayRoundTrip([Separator("x"), NoMask], Rtol, true);
  }

  // -------------------------------------------------------------------
  // Grouping
  // -------------------------------------------------------------------

  /** An id and the [start, end) range of the group a token belongs to. */
  datatype Span = Span(id: nat, start: nat, end: nat)

  /** The grouping key: the coarse section or the fine sub-section. */
  function Key(m: Mask, fine: bool): nat
  {
    if fine then SubSection(m) else Section(m)
  }

  /** The token before position i; the terminator stands before the first. */
  function PeekLeft(ms: seq<Mask>, i: nat): Mask
    requires i <= |ms|
  {
    if i == 0 then NoMask else ms[i - 1]
  }

  /** A new group starts at every separator and wherever the key changes. */
  predicate IsBoundary(ms: seq<Mask>, fine: bool, i: nat)
    requires i < |ms|
  {
    ms[i].Separator? || Key(ms[i], fine) != Key(PeekLeft(ms, i), fine)
  }

  /** The start of j's group: the last boundary at or before j, or 0. */
  function GroupStart(ms: seq<Mask>, fine: bool, j: nat): (s: nat)
    requires j < |ms|
    ensures s <= j && (s == 0 || IsBoundary(ms, fine, s))
    ensures forall i :: s < i <= j ==> !IsBoundary(ms, fine, i)
  {
    if IsBoundary(ms, fine, j) || j == 0 then j else GroupStart(ms, fine, j - 1)
  }

  /** The end of j's group: the next boundary after j, or `last` for the final group. */
  function GroupEnd(ms: seq<Mask>, fine: bool, j: nat, last: nat): (e: nat)
    requires j < |ms|
    ensures (j < e < |ms| && IsBoundary(ms, fine, e)) || e == last
    ensures e != last || e < |ms| ==> forall i :: j < i < e ==> !IsBoundary(ms, fine, i)
    ensures e == last && (last <= j || last >= |ms|) ==> forall i :: j < i < |ms| ==> !IsBoundary(ms, fine, i)
    decreases |ms| - j
  {
    if j + 1 == |ms| then last
    else if IsBoundary(ms, fine, j + 1) then j + 1
    else GroupEnd(ms, fine, j + 1, last)
  }

  /** The number of boundaries in [0, k). */
  function CountBoundaries(ms: seq<Mask>, fine: bool, k: nat): (n: nat)
    requires k <= |ms|
    ensures n <= k
  {
    if k == 0 then 0 else CountBoundaries(ms, fine, k - 1) + (if IsBoundary(ms, fine, k - 1) then 1 else 0)
  }

  /**
   * The group of token j as the parser records it: the id counts the
   * boundaries up to j, and the final group ends at `last`.
   */
  function GroupOf(ms: seq<Mask>, fine: bool, j: nat, last: nat): Span
    requires j < |ms|
  {
    Span(CountBoundaries(ms, fine, j + 1), GroupStart(ms, fine, j), GroupEnd(ms, fine, j, last))
  }

  /** One token of the parsed mask. */
  datatype Token = Token(sec: Span, sub: Span, peekLeft: Mask, right: Mask, edit: string)

  /** The token list with both groupings; the final groups end at `last`. */
  function Tokens(ms: seq<Mask>, last: nat): (ts: seq<Token>)
    ensures |ts| == |ms|
    ensures forall j :: 0 <= j < |ms| ==>
      ts[j].right == ms[j] && ts[j].peekLeft == PeekLeft(ms, j) && ts[j].edit == EditValue(ms[j])
  {
    seq(|ms|, j requires 0 <= j < |ms| =>
      Token(GroupOf(ms, false, j, last), GroupOf(ms, true, j, last), PeekLeft(ms, j), ms[j], EditValue(ms[j])))
  }

  /**
   * `parse_mask` as written: the final groups end at the number of graphemes
   * in the mask string, backslashes included.
   */
  function ParseMaskAsWritten(gs: seq<string>, extraSeps: bool): (r: Result<seq<Token>, ()>)
    ensures r.Ok? <==> Lex(gs + [""], Rtol, false, extraSeps).Ok?
    ensures r.Ok? ==> |r.value| > 0 && |r.value| <= |gs| + 1
  {
    match Lex(gs + [""], Rtol, false, extraSeps)
    case Ok(ms) => Ok(Tokens(ms, |gs|))
    case Err(e) => Err(e)
  }

  /** The parser with the final groups ending at the terminator's position. */
  function ParseMask(gs: seq<string>, extraSeps: bool): (r: Result<seq<Token>, ()>)
    ensures r.Ok? <==> Lex(gs + [""], Rtol, false, extraSeps).Ok?
    ensures r.Ok? ==>
      var ts := r.value;
      |ts| > 0 && |ts| <= |gs| + 1
      && forall j :: 0 <= j < |ts| ==> ts[j].sec.end <= |ts| - 1 && ts[j].sub.end <= |ts| - 1
  {
    match Lex(gs + [""], Rtol, false, extraSeps)
    case Ok(ms) =>
      var ts := Tokens(ms, |ms| - 1);
      forall j | 0 <= j < |ms|
        ensures ts[j].sec.end <= |ms| - 1 && ts[j].sub.end <= |ms| - 1
      {
        GroupEndBound(ms, false, j);
        GroupEndBound(ms, true, j);
      }
      Ok(ts)
    case Err(e) => Err(e)
  }

  lemma GroupEndBound(ms: seq<Mask>, fine: bool, j: nat)
    requires j < |ms|
    ensures GroupEnd(ms, fine, j, |ms| - 1) <= |ms| - 1
  {
  }

  /** Without backslashes both parsers agree. */
  lemma ParseMaskAgrees(gs: seq<string>, extraSeps: bool)
    requires forall i :: 0 <= i < |gs| ==> gs[i] != "\\"
    ensures ParseMaskAsWritten(gs, extraSeps) == ParseMask(gs, extraSeps)
  {
    var s := gs + [""];
    LexPlainAccepts(s, Rtol, extraSeps);
    LexPlainTokens(s, Rtol, extraSeps);
  }

  /**
   * With the escaped sign "\-9", the terminator's group ends past the text:
   * its range is 2..3 while the value has two graphemes.
   */
  lemma EscapeStretchesLastGroup()
    ensures ParseMaskAsWritten(["\\", "-", "9"], false).Ok?
    ensures var ts := ParseMaskAsWritten(["\\", "-", "9"], false).value;
      |ts| == 3 && ts[2].right == NoMask && ts[2].sec == Span(3, 2, 3)
    ensures var ts := ParseMask(["\\", "-", "9"], false).value;
      ts[2].sec == Span(3, 2, 2)
  {
    var gs := ["\\", "-", "9", ""];
    assert ["\\", "-", "9"] + [""] == gs;
    var ms := [Separator("-"), Digit(Rtol), NoMask];
    assert ms[..1] == [Separator("-")] && ms[..0] == [];
    assert WellDirected(ms, Rtol);
    assert DisplayAll(ms, DisplayToken) == ["\\", "-", "9"] by {
      assert ms[1..] == [Digit(Rtol), NoMask] && ms[1..][1..] == [NoMask] && ms[1..][1..][1..] == [];
    }
    DisplayRoundTrip(ms, Rtol, false);
    assert Lex(gs, Rtol, false, false) == Ok(ms);
    assert IsBoundary(ms, false, 0) && IsBoundary(ms, false, 1) && IsBoundary(ms, false, 2);
    assert CountBoundaries(ms, false, 3) == 3;
  }

  // -------------------------------------------------------------------
  // Properties of the grouping
  // -------------------------------------------------------------------

  /** Groups partition the tokens before the terminator: j lies inside its own range. */
  lemma GroupContains(ms: seq<Mask>, fine: bool, j: nat)
    requires Terminated(ms) && j < |ms| - 1
    ensures var g := GroupOf(ms, fine, j, |ms| - 1);
      g.start <= j < g.end <= |ms| - 1
  {
    var e := GroupEnd(ms, fine, j, |ms| - 1);
    if e == |ms| - 1 {
    } else {
      assert j < e;
    }
  }

  /** The terminator is a group of its own, empty, at the end of the text. */
  lemma TerminatorGroup(ms: seq<Mask>, fine: bool)
    requires Terminated(ms)
    ensures GroupOf(ms, fine, |ms| - 1, |ms| - 1).start == |ms| - 1
    ensures GroupOf(ms, fine, |ms| - 1, |ms| - 1).end == |ms| - 1
  {
    assert |ms| - 1 == 0 || IsBoundary(ms, fine, |ms| - 1);
  }

  /** Every token of a group records the same group. */
  lemma {:induction false} GroupShared(ms: seq<Mask>, fine: bool, j: nat, k: nat, last: nat)
    requires j < k < |ms|
    requires forall i :: j < i <= k ==> !IsBoundary(ms, fine, i)
    ensures GroupOf(ms, fine, k, last) == GroupOf(ms, fine, j, last)
    ensures Key(ms[k], fine) == Key(ms[j], fine)
    decreases k - j
  {
    if k > j + 1 {
      GroupShared(ms, fine, j, k - 1, last);
    }
    assert !IsBoundary(ms, fine, k);
  }

  /** A separator is a group of one token. */
  lemma SeparatorAlone(ms: seq<Mask>, fine: bool, j: nat)
    requires Terminated(ms) && j < |ms| && ms[j].Separator?
    ensures GroupStart(ms, fine, j) == j
    ensures GroupEnd(ms, fine, j, |ms| - 1) == j + 1
    ensures j + 1 < |ms| && IsBoundary(ms, fine, j + 1)
  {
    assert j + 1 < |ms|;
    assert IsBoundary(ms, fine, j + 1) by {
      if !ms[j + 1].Separator? {
        assert Key(ms[j + 1], fine) != Key(ms[j], fine);
      }
    }
  }

  /** Neighbouring tokens have different ids exactly at a boundary. */
  lemma IdStep(ms: seq<Mask>, fine: bool, j: nat, last: nat)
    requires 0 < j < |ms|
    ensures GroupOf(ms, fine, j, last).id == GroupOf(ms, fine, j - 1, last).id + (if IsBoundary(ms, fine, j) then 1 else 0)
  {
  }

  /** A coarse boundary is always a fine boundary, so sub-sections nest inside sections. */
  lemma SectionBoundaryIsSub(ms: seq<Mask>, i: nat)
    requires i < |ms| && IsBoundary(ms, false, i)
    ensures IsBoundary(ms, true, i)
  {
    if !ms[i].Separator? && SubSection(ms[i]) == SubSection(PeekLeft(ms, i)) {
      SubSectionRefinesSection(ms[i], PeekLeft(ms, i));
    }
  }

  /** Sub-sections nest inside sections. */
  lemma SubNested(ms: seq<Mask>, j: nat)
    requires Terminated(ms) && j < |ms|
    ensures GroupStart(ms, false, j) <= GroupStart(ms, true, j)
    ensures GroupEnd(ms, true, j, |ms| - 1) <= GroupEnd(ms, false, j, |ms| - 1)
  {
    var s := GroupStart(ms, false, j);
    if s > 0 {
      SectionBoundaryIsSub(ms, s);
    }
    var e := GroupEnd(ms, false, j, |ms| - 1);
    if j < e < |ms| && IsBoundary(ms, false, e) {
      SectionBoundaryIsSub(ms, e);
    }
  }
}

=== FILE: masked_input.dfy ===
// The masked text input widget of rat-text (rat-text/src/text_input_mask.rs):
// the state operations it adds on top of the mask core — section ids, setting
// one section's text or value, select-all, cursor moves, deleting characters,
// clearing, the default cursor and the focus navigation mode.

module MaskedInput {
  import opened Util
  import opened MaskKind
  import opened MaskParse
  import opened RatMask
  import opened RatMaskEdit
  import Focus

  // -------------------------------------------------------------------
  // Section ids
  // -------------------------------------------------------------------

  /**
   * `section_id`: the id of the section at the cursor, except that a cursor
   * right after a right-to-left token, in front of anything but another
   * right-to-left token, belongs to the section on its left.
   */
  function SectionId(ms: seq<Mask>, c: nat): (r: nat)
    requires c < |ms|
  {
    if IsRtol(PeekLeft(ms, c)) && (IsLtor(ms[c]) || ms[c].NoMask?) then SecId(ms, SatSub(c, 1)) else SecId(ms, c)
  }

  /** The section reported is the one at the cursor, or the one that ends exactly at it. */
  lemma SectionIdCovers(ms: seq<Mask>, c: nat)
    requires Terminated(ms) && c < |ms|
    ensures var r := SectionId(ms, c);
      r == SecId(ms, c) || (0 < c && r == SecId(ms, c - 1) && SecStart(ms, c - 1) < c == SecEnd(ms, c - 1))
  {
    if c > 0 {
      IdStep(ms, false, c, |ms| - 1);
      if IsBoundary(ms, false, c) {
        assert SecEnd(ms, c - 1) == c;
      }
    }
  }

  /** Right after a right-to-left token, unless another one follows, the cursor reports the left section. */
  lemma SectionIdAtGap(ms: seq<Mask>, c: nat)
    requires Terminated(ms) && 0 < c < |ms| && IsRtol(ms[c - 1]) && !IsRtol(ms[c])
    ensures SectionId(ms, c) == SecId(ms, c - 1)
    ensures SecStart(ms, c - 1) < c <= SecEnd(ms, c - 1)
  {
    GroupContains(ms, false, c - 1);
  }

  // -------------------------------------------------------------------
  // Setting and reading one section
  // -------------------------------------------------------------------

  /** The first token at or after j whose section has the given id. */
  function FirstOfSection(ms: seq<Mask>, id: nat, j: nat): (r: Option<nat>)
    requires j <= |ms|
    ensures r.Some? ==> j <= r.value < |ms| && SecId(ms, r.value) == id
    ensures r.Some? ==> forall k :: j <= k < r.value ==> SecId(ms, k) != id
    ensures r.None? <==> forall k :: j <= k < |ms| ==> SecId(ms, k) != id
    decreases |ms| - j
  {
    if j == |ms| then None
    else if SecId(ms, j) == id then Some(j)
    else FirstOfSection(ms, id, j + 1)
  }

  /** `section_text`: the graphemes of the section with the given id; an unknown id panics. */
  function SectionText(ms: seq<Mask>, t: seq<string>, id: nat): (r: Result<seq<string>, ()>)
    requires Fits(ms, t)
    ensures r.Err? <==> forall k :: 0 <= k < |ms| ==> SecId(ms, k) != id
  {
    match FirstOfSection(ms, id, 0)
    case None => Err(())
    case Some(j) =>
      SectionWithin(ms, j);
      Ok(t[SecStart(ms, j)..SecEnd(ms, j)])
  }

  /** The length of the section with the given id. */
  function SectionLen(ms: seq<Mask>, id: nat): (n: nat)
    requires Terminated(ms) && FirstOfSection(ms, id, 0).Some?
  {
    var j := FirstOfSection(ms, id, 0).value;
    SectionWithin(ms, j);
    SecEnd(ms, j) - SecStart(ms, j)
  }

  /**
   * `set_section_text`: the text is cut or padded to the section's length and
   * replaces that section; an unknown id panics.
   */
  function SetSectionText(ms: seq<Mask>, t: seq<string>, id: nat, txt: seq<string>): (r: Result<seq<string>, ()>)
    requires Fits(ms, t)
    ensures r.Err? <==> forall k :: 0 <= k < |ms| ==> SecId(ms, k) != id
    ensures r.Ok? ==> Fits(ms, r.value)
    ensures r.Ok? ==>
      (var j := FirstOfSection(ms, id, 0).value;
       r.value[..SecStart(ms, j)] == t[..SecStart(ms, j)] && r.value[SecEnd(ms, j)..] == t[SecEnd(ms, j)..])
  {
    match FirstOfSection(ms, id, 0)
    case None => Err(())
    case Some(j) =>
      var s := SecStart(ms, j);
      var e := SecEnd(ms, j);
      SectionWithin(ms, j);
      Ok(t[..s] + Fit(txt, e - s) + t[e..])
  }

  /** Reading a section back after setting it gives the text cut or padded to the section. */
  lemma SetSectionTextReads(ms: seq<Mask>, t: seq<string>, id: nat, txt: seq<string>)
    requires Fits(ms, t) && SetSectionText(ms, t, id, txt).Ok?
    ensures SectionText(ms, SetSectionText(ms, t, id, txt).value, id) == Ok(Fit(txt, SectionLen(ms, id)))
  {
    var j := FirstOfSection(ms, id, 0).value;
    var s := SecStart(ms, j);
    var e := SecEnd(ms, j);
    SectionWithin(ms, j);
    var mid := Fit(txt, e - s);
    assert (t[..s] + mid + t[e..])[s..e] == mid;
  }

  /** Setting a section to what it already holds changes nothing. */
  lemma SetSectionTextOwn(ms: seq<Mask>, t: seq<string>, id: nat)
    requires Fits(ms, t) && SectionText(ms, t, id).Ok?
    ensures SetSectionText(ms, t, id, SectionText(ms, t, id).value) == Ok(t)
  {
    var j := FirstOfSection(ms, id, 0).value;
    var s := SecStart(ms, j);
    var e := SecEnd(ms, j);
    SectionWithin(ms, j);
    FitIdempotent(t[s..e], e - s);
    assert t[..s] + t[s..e] + t[e..] == t;
  }

  function Spaces(n: nat): (r: seq<string>)
    ensures |r| == n && forall k :: 0 <= k < n ==> r[k] == " "
  {
    seq(n, k => " ")
  }

  /**
   * The padding of Rust's `{:n}` and `{:>n}` formats: shorter values are padded
   * with spaces on the right or on the left, longer ones are kept whole.
   */
  function Align(v: seq<string>, n: nat, left: bool): (r: seq<string>)
    ensures |r| == Max(|v|, n)
  {
    if |v| >= n then v
    else if left then v + Spaces(n - |v|)
    else Spaces(n - |v|) + v
  }

  /**
   * `set_section_value`: the value is aligned to the section's length, to the
   * right when the section's first token is right to left and to the left
   * otherwise, and then set as the section's text; an unknown id panics.
   */
  function SetSectionValue(ms: seq<Mask>, t: seq<string>, id: nat, v: seq<string>): (r: Result<seq<string>, ()>)
    requires Fits(ms, t)
    ensures r.Err? <==> forall k :: 0 <= k < |ms| ==> SecId(ms, k) != id
    ensures r.Ok? ==> Fits(ms, r.value)
  {
    match FirstOfSection(ms, id, 0)
    case None => Err(())
    case Some(j) =>
      var txt := Align(v, SectionLen(ms, id), !IsRtol(ms[j]));
      SetSectionText(ms, t, id, txt)
  }

  /**
   * After `set_section_value` the section holds the value right-aligned in a
   * right-to-left section and left-aligned in any other; a value longer than
   * the section loses its tail.
   */
  lemma SetSectionValueAligns(ms: seq<Mask>, t: seq<string>, id: nat, v: seq<string>)
    requires Fits(ms, t) && SetSectionValue(ms, t, id, v).Ok?
    ensures var j := FirstOfSection(ms, id, 0).value;
      var n := SectionLen(ms, id);
      var sec := SectionText(ms, SetSectionValue(ms, t, id, v).value, id);
      sec.Ok?
      && (|v| >= n ==> sec.value == v[..n])
      && (|v| < n && IsRtol(ms[j]) ==> sec.value == Spaces(n - |v|) + v)
      && (|v| < n && !IsRtol(ms[j]) ==> sec.value == v + Spaces(n - |v|))
  {
    var j := FirstOfSection(ms, id, 0).value;
    var n := SectionLen(ms, id);
    var txt := Align(v, n, !IsRtol(ms[j]));
    SetSectionTextReads(ms, t, id, txt);
    FitIdempotent(txt, n);
  }

  // -------------------------------------------------------------------
  // Selection and cursor
  // -------------------------------------------------------------------

  /**
   * The selection: anchor and cursor columns, or the select-all state, whose
   * end is the sentinel position that reads as the line's width and whose
   * cursor column reads as 0.
   */
  datatype Sel = Sel(anchor: nat, cursor: nat) | All

  predicate SelIn(s: Sel, len: nat)
  {
    s.Sel? ==> s.anchor <= len && s.cursor <= len
  }

  function SelCursor(s: Sel): nat
  {
    if s.All? then 0 else s.cursor
  }

  function SelAnchor(s: Sel): nat
  {
    if s.All? then 0 else s.anchor
  }

  /** `selection`: the ordered range; select-all covers the whole text. */
  function SelRange(s: Sel, len: nat): (r: (nat, nat))
    requires SelIn(s, len)
    ensures r.0 <= r.1 <= len
    ensures s.Sel? ==> r.0 == Min(s.anchor, s.cursor) && r.1 == Max(s.anchor, s.cursor)
    ensures s.All? ==> r == (0, len)
  {
    if s.All? then (0, len) else (Min(s.anchor, s.cursor), Max(s.anchor, s.cursor))
  }

  predicate HasSelection(s: Sel)
  {
    s.All? || s.anchor != s.cursor
  }

  /**
   * Setting the cursor: it moves to c, the anchor follows unless the
   * selection is extended, and the result tells whether anything moved.
   */
  function SetCursor(s: Sel, c: nat, extend: bool): (r: (Sel, bool))
    ensures r.0.Sel? && r.0.cursor == c
    ensures r.0.anchor == (if extend then SelAnchor(s) else c)
    ensures r.1 <==> r.0 != s
  {
    var n := Sel(if extend then SelAnchor(s) else c, c);
    (n, n != s)
  }

  /** `move_right`: one column right, stopping at the length. */
  function MoveRight(s: Sel, len: nat, extend: bool): (r: (Sel, bool))
    requires SelIn(s, len)
    ensures SelIn(r.0, len)
    ensures SelCursor(s) < len ==> SelCursor(r.0) == SelCursor(s) + 1
    ensures SelCursor(s) == len ==> SelCursor(r.0) == len
  {
    SetCursor(s, Min(SelCursor(s) + 1, len), extend)
  }

  /** `move_left`: one column left, stopping at 0. */
  function MoveLeft(s: Sel, len: nat, extend: bool): (r: (Sel, bool))
    requires SelIn(s, len)
    ensures SelIn(r.0, len)
    ensures SelCursor(s) > 0 ==> SelCursor(r.0) + 1 == SelCursor(s)
    ensures SelCursor(s) == 0 ==> SelCursor(r.0) == 0
  {
    SetCursor(s, SatSub(SelCursor(s), 1), extend)
  }

  /** A step left after a step right, both without extending, is back where it started with no selection. */
  lemma MoveLeftUndoesRight(s: Sel, len: nat)
    requires SelIn(s, len) && SelCursor(s) < len
    ensures MoveLeft(MoveRight(s, len, false).0, len, false).0 == Sel(SelCursor(s), SelCursor(s))
  {
  }

  /** Without a selection, moving is a change exactly when the cursor was not already at the limit. */
  lemma MoveReportsChange(c: nat, len: nat)
    requires c <= len
    ensures MoveRight(Sel(c, c), len, false).1 <==> c < len
    ensures MoveLeft(Sel(c, c), len, false).1 <==> c > 0
  {
  }

  /**
   * `select_all` as written: with the cursor in an editable section, a
   * selection other than that section selects the section, and only the
   * section itself selected selects everything. Selecting a section leaves the
   * cursor at its end.
   */
  function SelectAllAsWritten(ms: seq<Mask>, s: Sel): (r: Sel)
    requires Terminated(ms) && SelIn(s, |ms| - 1)
    ensures SelIn(r, |ms| - 1)
    ensures SectionRange(ms, SelCursor(s)).None? ==> r.All?
  {
    match SectionRange(ms, SelCursor(s))
    case None => All
    case Some(sec) => if SelRange(s, |ms| - 1) == sec then All else Sel(sec.0, sec.1)
  }

  /**
   * On the mask "99ll" a second select-all from the start selects the letters
   * instead of the whole text: the first leaves the cursor at 2, which is in
   * the next section.
   */
  lemma SelectAllWalksOn(ms: seq<Mask>)
    requires ms == [Digit(Rtol), Digit(Rtol), Letter, Letter, NoMask]
    ensures SelectAllAsWritten(ms, Sel(0, 0)) == Sel(0, 2)
    ensures SelectAllAsWritten(ms, SelectAllAsWritten(ms, Sel(0, 0))) == Sel(2, 4)
  {
    assert IsBoundary(ms, false, 2) && !IsBoundary(ms, false, 1);
    assert IsBoundary(ms, false, 4) && !IsBoundary(ms, false, 3);
    assert SecEnd(ms, 0) == 2;
    assert SecStart(ms, 2) == 2 && SecEnd(ms, 2) == 4;
  }

  /**
   * `select_all` looking up the section at the selection's start when there is
   * a selection, so that a selected section is recognised as selected.
   */
  function SelectAll(ms: seq<Mask>, s: Sel): (r: Sel)
    requires Terminated(ms) && SelIn(s, |ms| - 1)
    ensures SelIn(r, |ms| - 1)
    ensures !HasSelection(s) ==> r == SelectAllAsWritten(ms, s)
  {
    var c := if HasSelection(s) then SelRange(s, |ms| - 1).0 else SelCursor(s);
    match SectionRange(ms, c)
    case None => All
    case Some(sec) => if SelRange(s, |ms| - 1) == sec then All else Sel(sec.0, sec.1)
  }

  /** The first select-all in an editable section selects that section, the second everything. */
  lemma SelectAllTwice(ms: seq<Mask>, c: nat)
    requires Terminated(ms) && c < |ms| && Editable(ms[c])
    ensures SelectAll(ms, Sel(c, c)) == Sel(SecStart(ms, c), SecEnd(ms, c))
    ensures SelectAll(ms, SelectAll(ms, Sel(c, c))) == All
  {
    var a := SecStart(ms, c);
    GroupContains(ms, false, c);
    if a < c {
      GroupShared(ms, false, a, c, |ms| - 1);
    }
    assert SelRange(Sel(a, SecEnd(ms, c)), |ms| - 1).0 == a;
  }

  // -------------------------------------------------------------------
  // Default cursor, text and clear
  // -------------------------------------------------------------------

  /**
   * `set_default_cursor`: the default cursor of the section at 0 if it is
   * editable, else that of the next editable section, else 0.
   */
  function DefaultCursor(ms: seq<Mask>): (r: nat)
    requires Terminated(ms)
    ensures r <= |ms| - 1
  {
    match SectionCursor(ms, 0)
    case Some(p) =>
      GroupContains(ms, false, 0);
      p
    case None =>
      match NextSectionCursor(ms, 0)
      case Some(p) =>
        var i := NextSectionStart(ms, 0).value;
        GroupContains(ms, false, i);
        p
      case None => 0
  }

  /** The default cursor lies in the first editable section, or is 0 when there is none. */
  lemma DefaultCursorFirstEditable(ms: seq<Mask>)
    requires Terminated(ms)
    ensures var k := SkipSeparators(ms, 0);
      (ms[k].NoMask? ==> DefaultCursor(ms) == 0)
      && (!ms[k].NoMask? ==> SecStart(ms, k) <= DefaultCursor(ms) <= SecEnd(ms, k))
  {
    var k := SkipSeparators(ms, 0);
    if ms[0].Separator? {
      SeparatorAlone(ms, false, 0);
      NextSectionSkipsSeparators(ms, 0);
      assert SkipSeparators(ms, 0) == SkipSeparators(ms, 1);
      if !ms[k].NoMask? {
        GroupContains(ms, false, k);
      }
    } else if !ms[0].NoMask? {
      GroupContains(ms, false, 0);
    }
  }

  /**
   * `set_text` of the widget: the text is cut or padded to the mask, the offset
   * goes to 0 and the cursor to its default.
   */
  function SetValue(ms: seq<Mask>, t: seq<string>): (r: (seq<string>, nat, nat))
    requires Terminated(ms)
    ensures Fits(ms, r.0) && r.1 <= |r.0| && r.2 == 0
    ensures |t| == |ms| - 1 ==> r.0 == t
  {
    SetTextIdempotent(ms, t);
    (SetText(ms, t), DefaultCursor(ms), 0)
  }

  /**
   * `clear`: an empty input reports false and stays; otherwise the text goes
   * back to the default value, the offset to 0 and the cursor to its default.
   */
  function Clear(ms: seq<Mask>, t: seq<string>, offset: nat, c: nat): (r: (seq<string>, nat, nat, bool))
    requires Fits(ms, t)
    ensures Fits(ms, r.0) && IsEmpty(ms, r.0)
    ensures r.3 <==> !IsEmpty(ms, t)
    ensures !r.3 ==> r == (t, offset, c, false)
    ensures r.3 ==> r.1 == 0 && r.2 <= |t|
  {
    if IsEmpty(ms, t) then (t, offset, c, false)
    else
      DefaultIsEmpty(ms);
      (DefaultText(ms), 0, DefaultCursor(ms), true)
  }

  /** Clearing twice: the second clear finds the input empty and reports no change. */
  lemma ClearTwice(ms: seq<Mask>, t: seq<string>, offset: nat, c: nat)
    requires Fits(ms, t)
    ensures var r := Clear(ms, t, offset, c);
      !Clear(ms, r.0, r.1, r.2).3 && Clear(ms, r.0, r.1, r.2).0 == r.0
  {
  }

  // -------------------------------------------------------------------
  // Deleting characters
  // -------------------------------------------------------------------

  /**
   * `try_delete_range`: the range is removed as the mask core removes it, and
   * the cursor goes to the default cursor of the section at the range's start
   * when that is editable.
   */
  function DeleteRange(ms: seq<Mask>, t: seq<string>, c: nat, a: nat, b: nat): (r: Result<(seq<string>, nat, bool), ()>)
    requires Fits(ms, t) && a <= b && c <= |t|
    ensures r.Err? <==> b > |t|
    ensures r.Ok? ==> Fits(ms, r.value.0) && r.value.1 <= |t| && (r.value.2 <==> a < b)
    ensures r.Ok? && a == b ==> r.value.0 == t
  {
    match RemoveRange(ms, t, a, b)
    case Err(_) => Err(())
    case Ok(res) =>
      match SectionCursor(ms, a)
      case Some(p) =>
        GroupContains(ms, false, a);
        Ok((res.0, p, res.1))
      case None => Ok((res.0, c, res.1))
  }

  /**
   * `delete_prev_char`: a selection is deleted as a range; without one, nothing
   * happens at 0 and otherwise the grapheme left of the cursor is removed.
   */
  function DeletePrevChar(ms: seq<Mask>, t: seq<string>, s: Sel): (r: (seq<string>, nat, bool))
    requires Fits(ms, t) && SelIn(s, |t|)
    ensures Fits(ms, r.0) && r.1 <= |t|
    ensures !HasSelection(s) && s.cursor == 0 ==> r == (t, 0, false)
    ensures !HasSelection(s) && s.cursor > 0 ==> r.2
    ensures HasSelection(s) ==> (r.2 <==> SelRange(s, |t|).0 < SelRange(s, |t|).1)
  {
    if HasSelection(s) then
      var rg := SelRange(s, |t|);
      DeleteRange(ms, t, SelCursor(s), rg.0, rg.1).value
    else if s.cursor == 0 then (t, 0, false)
    else
      var res := RemovePrev(ms, t, s.cursor);
      SubWithin(ms, s.cursor - 1);
      (res.0, res.1, true)
  }

  /**
   * `delete_next_char`: a selection is deleted as a range; without one, nothing
   * happens at the end and otherwise the grapheme right of the cursor is removed.
   */
  function DeleteNextChar(ms: seq<Mask>, t: seq<string>, s: Sel): (r: (seq<string>, nat, bool))
    requires Fits(ms, t) && SelIn(s, |t|)
    ensures Fits(ms, r.0) && r.1 <= |t|
    ensures !HasSelection(s) && s.cursor == |t| ==> r == (t, |t|, false)
    ensures !HasSelection(s) && s.cursor < |t| ==> r.2
    ensures HasSelection(s) ==> (r.2 <==> SelRange(s, |t|).0 < SelRange(s, |t|).1)
  {
    if HasSelection(s) then
      var rg := SelRange(s, |t|);
      DeleteRange(ms, t, SelCursor(s), rg.0, rg.1).value
    else if s.cursor == |t| then (t, |t|, false)
    else
      var res := RemoveNext(ms, t, s.cursor);
      SubWithin(ms, s.cursor);
      (res.0, res.1, true)
  }

  /** Deleting left of the cursor touches nothing before its sub-section and nothing after it. */
  lemma DeletePrevCharLocal(ms: seq<Mask>, t: seq<string>, c: nat)
    requires Fits(ms, t) && 0 < c <= |t|
    ensures var r := DeletePrevChar(ms, t, Sel(c, c)).0;
      var s := SubStart(ms, c - 1);
      var e := SubEnd(ms, c - 1);
      s < c <= e && r[..s] == t[..s] && r[e..] == t[e..]
  {
  }

  // -------------------------------------------------------------------
  // Focus navigation
  // -------------------------------------------------------------------

  /** The modes in which `Focus::next` leaves a widget. */
  predicate LeavesForward(n: Focus.Navigation)
  {
    n == Focus.Leave || n == Focus.ReachLeaveBack || n == Focus.Regular
  }

  /** The modes in which `Focus::prev` leaves a widget. */
  predicate LeavesBackward(n: Focus.Navigation)
  {
    n == Focus.Leave || n == Focus.ReachLeaveFront || n == Focus.Regular
  }

  /**
   * `navigable`: the input keeps the focus forward while another editable
   * section follows the selection and backward while one precedes it.
   */
  function Navigable(ms: seq<Mask>, a: nat, b: nat): (r: Focus.Navigation)
    requires Terminated(ms)
    ensures r == Focus.Reach || r == Focus.ReachLeaveFront || r == Focus.ReachLeaveBack || r == Focus.Regular
  {
    var hasNext := NextSectionRange(ms, b).Some?;
    var hasPrev := PrevSectionRange(ms, SatSub(a, 1)).Some?;
    if hasNext then (if hasPrev then Focus.Reach else Focus.ReachLeaveFront)
    else (if hasPrev then Focus.ReachLeaveBack else Focus.Regular)
  }

  /**
   * The input lets the focus go forward exactly when every token after the
   * section of the selection's end is a separator or the terminator.
   */
  lemma NavigableLeavesForward(ms: seq<Mask>, a: nat, b: nat)
    requires Terminated(ms) && a <= b <= |ms| - 1
    ensures LeavesForward(Navigable(ms, a, b)) <==>
      (b == |ms| - 1 || ms[SkipSeparators(ms, SecEnd(ms, b))].NoMask?)
  {
    if b < |ms| - 1 {
      GroupContains(ms, false, b);
      NextSectionSkipsSeparators(ms, b);
    }
  }

  /**
   * The input lets the focus go backward exactly when only separators precede
   * the section that holds the column left of the selection's start.
   */
  lemma NavigableLeavesBackward(ms: seq<Mask>, a: nat, b: nat)
    requires Terminated(ms) && a <= b <= |ms| - 1
    ensures LeavesBackward(Navigable(ms, a, b)) <==> LastKept(ms, SecStart(ms, SatSub(a, 1))).None?
  {
    PrevSectionIsLastKept(ms, SecStart(ms, SatSub(a, 1)));
  }
}

=== FILE: maskedinput_core.dfy ===
// The masked-input core of the middle generation (src/text/maskedinput_core.rs):
// a value of one grapheme per mask token with a cursor and an anchor. Its
// tables are those of MaskKind; its `section` grouping differs from the other
// engines' fine grouping only in putting the four letter kinds into one
// group, which the model obtains by grouping the mask with those kinds merged.
// The number re-rendering `remap_number` is a parameter that keeps the length
// of the section it renders.

module MaskedInputCore {
  import opened Util
  import opened MaskKind
  import opened MaskParse
  import opened RatMask
  import opened RatMaskEdit
  import opened OldMaskCore

  // -------------------------------------------------------------------
  // State, cursor and selection
  // -------------------------------------------------------------------

  /** The value and the selection; the length is the value's grapheme count. */
  datatype Core = Core(value: seq<string>, cursor: nat, anchor: nat)

  predicate Valid(ms: seq<Mask>, c: Core)
  {
    Fits(ms, c.value) && c.cursor <= |c.value| && c.anchor <= |c.value|
  }

  /**
   * `set_cursor`: the cursor moves to pos clamped to the length, the anchor
   * follows unless the selection is extended; the flag tells whether cursor
   * or anchor changed.
   */
  function SetCursor(c: Core, pos: nat, extend: bool): (r: (Core, bool))
    ensures r.0.value == c.value
    ensures r.0.cursor <= |c.value|
    ensures pos <= |c.value| ==> r.0.cursor == pos
    ensures pos > |c.value| ==> r.0.cursor == |c.value|
    ensures extend ==> r.0.anchor == c.anchor
    ensures !extend ==> r.0.anchor == r.0.cursor
    ensures r.1 <==> r.0 != c
  {
    var p := Min(pos, |c.value|);
    var n := Core(c.value, p, if extend then c.anchor else p);
    (n, n != c)
  }

  /** Setting the cursor to where it already is changes nothing and says so. */
  lemma SetCursorTwice(c: Core, pos: nat, extend: bool)
    ensures var r := SetCursor(c, pos, extend).0;
      SetCursor(r, pos, extend) == (r, false)
  {
  }

  /** `has_selection`. */
  predicate HasSelection(c: Core)
  {
    c.anchor != c.cursor
  }

  /** `selection`: the range between cursor and anchor, in order. */
  function Selection(c: Core): (r: (nat, nat))
    ensures r.0 <= r.1
    ensures (r.0 == c.cursor && r.1 == c.anchor) || (r.0 == c.anchor && r.1 == c.cursor)
    ensures r.0 < r.1 <==> HasSelection(c)
  {
    if c.cursor < c.anchor then (c.cursor, c.anchor) else (c.anchor, c.cursor)
  }

  /**
   * `select_all`: anchor at 0 and cursor at the end; the flag tells whether the
   * selected range changed.
   */
  function SelectAll(c: Core): (r: (Core, bool))
    ensures Selection(r.0) == (0, |c.value|) && r.0.value == c.value
    ensures r.1 <==> Selection(c) != (0, |c.value|)
  {
    var (c1, _) := SetCursor(c, 0, false);
    var (c2, _) := SetCursor(c1, |c.value|, true);
    (c2, Selection(c) != Selection(c2))
  }

  /** A second select-all reports no change. */
  lemma SelectAllTwice(c: Core)
    ensures !SelectAll(SelectAll(c).0).1
  {
  }

  /** `set_default_cursor`: at the first decimal separator, or 0. */
  function DefaultCursor(ms: seq<Mask>): (r: nat)
    requires Terminated(ms)
    ensures r < |ms|
    ensures HasDecimalSep(ms) ==> ms[r].DecimalSep? && forall k :: 0 <= k < r ==> !ms[k].DecimalSep?
    ensures !HasDecimalSep(ms) ==> r == 0
  {
    match FirstDecimalSep(ms, 0)
    case Some(i) => i
    case None => 0
  }

  // -------------------------------------------------------------------
  // Value
  // -------------------------------------------------------------------

  /** The grapheme list padded with spaces up to n. */
  function PadSpaces(v: seq<string>, n: nat): (r: seq<string>)
    requires |v| <= n
    ensures |r| == n && r[..|v|] == v
    ensures forall k :: |v| <= k < n ==> r[k] == " "
  {
    Fit(v, n)
  }

  /**
   * `set_value` as written: a shorter value is padded with spaces, but the
   * loop meant to shorten a longer one runs over the empty range
   * `len..mask.len()-1`, so the length assertion fails (Err). The cursor, and
   * only the cursor, is clamped to the new length.
   */
  function SetValueAsWritten(ms: seq<Mask>, c: Core, v: seq<string>): (r: Result<Core, ()>)
    requires Terminated(ms)
    ensures r.Err? <==> |v| > |ms| - 1
    ensures r.Ok? ==> Fits(ms, r.value.value) && r.value.value[..|v|] == v
    ensures r.Ok? ==> r.value.cursor == Min(c.cursor, |ms| - 1) && r.value.anchor == c.anchor
  {
    var n := |ms| - 1;
    if |v| > n then Err(())
    else Ok(Core(PadSpaces(v, n), Min(c.cursor, n), c.anchor))
  }

  /** `set_value` with the evident intent: a longer value is cut to the mask's length. */
  function SetValue(ms: seq<Mask>, c: Core, v: seq<string>): (r: Core)
    requires Terminated(ms)
    ensures Fits(ms, r.value) && r.value == SetText(ms, v)
    ensures r.cursor == Min(c.cursor, |ms| - 1) && r.anchor == c.anchor
    ensures |v| <= |ms| - 1 ==> SetValueAsWritten(ms, c, v) == Ok(r)
    ensures Valid(ms, c) ==> Valid(ms, r)
  {
    Core(Fit(v, |ms| - 1), Min(c.cursor, |ms| - 1), c.anchor)
  }

  /** The mask "9" takes one grapheme; the value "12" makes `set_value` fail instead of cutting it to "1". */
  lemma SetValueTooLongPanics(ms: seq<Mask>, c: Core)
    requires ms == [Digit(Rtol), NoMask]
    ensures SetValueAsWritten(ms, c, ["1", "2"]).Err?
    ensures SetValue(ms, c, ["1", "2"]).value == ["1"]
  {
  }

  /** `is_empty`: each grapheme equals the edit value of its token, over the zipped pairs. */
  predicate IsEmptyZip(ms: seq<Mask>, t: seq<string>)
  {
    forall i :: 0 <= i < |t| && i < |ms| ==> t[i] == EditValue(ms[i])
  }

  /** For a value that fits, the zip test is equality with the default value, and implies the string test. */
  lemma IsEmptyZipIsDefault(ms: seq<Mask>, t: seq<string>)
    requires Fits(ms, t)
    ensures IsEmptyZip(ms, t) <==> t == DefaultText(ms)
    ensures IsEmptyZip(ms, t) ==> IsEmpty(ms, t)
  {
    var d := DefaultText(ms);
    if IsEmptyZip(ms, t) {
      assert forall i :: 0 <= i < |t| ==> t[i] == d[i];
    }
  }

  /** `clear`: the default value, with cursor and anchor at the default cursor. */
  function Clear(ms: seq<Mask>, c: Core): (r: Core)
    requires Terminated(ms)
    ensures Valid(ms, r) && IsEmptyZip(ms, r.value)
    ensures r.cursor == r.anchor == DefaultCursor(ms)
    ensures SetValueAsWritten(ms, c, DefaultText(ms)).Ok?
  {
    var v := SetValue(ms, c, DefaultText(ms));
    var d := DefaultCursor(ms);
    assert DefaultCursor(ms) <= |ms| - 1 by {
      if HasDecimalSep(ms) {
        assert ms[d] != NoMask;
      }
    }
    Core(v.value, d, d)
  }

  // -------------------------------------------------------------------
  // Compact value
  // -------------------------------------------------------------------

  /** A grapheme the compact value leaves out. */
  function CanSkip(m: Mask, g: string): (b: bool)
    ensures m.NoMask? || m.GroupingSep? ==> b
    ensures (m.Digit0? || m.Hex0? || m.Oct0? || m.Dec0? || m.DecimalSep? || m.Sign? || m.Plus?
             || m.AnyChar? || m.Separator?) ==> !b
  {
    match m
    case Digit0(_) => false
    case DecimalSep => false
    case Sign => false
    case Plus => false
    case GroupingSep => true
    case Hex0 => false
    case Oct0 => false
    case Dec0 => false
    case AnyChar => false
    case Separator(_) => false
    case NoMask => true
    case _ => g == " "
  }

  /** What can be skipped is a blank in a field that shows blank when empty, or a grouping separator. */
  lemma CanSkipIsBlankEdit(m: Mask, g: string)
    ensures CanSkip(m, g) && !m.GroupingSep? && !m.NoMask? ==> g == EditValue(m) == " "
  {
  }

  /** `compact_value`: the value without the graphemes its tokens can skip. */
  function CompactValue(ms: seq<Mask>, t: seq<string>): (r: seq<string>)
    ensures |r| <= |t|
    ensures forall g :: g in r ==> g in t
    decreases |t|
  {
    if |t| == 0 || |ms| == 0 then []
    else (if CanSkip(ms[0], t[0]) then [] else [t[0]]) + CompactValue(ms[1..], t[1..])
  }

  /** Compacting works token by token: it distributes over concatenation. */
  lemma {:induction false} CompactAppend(ms1: seq<Mask>, t1: seq<string>, ms2: seq<Mask>, t2: seq<string>)
    requires |ms1| == |t1|
    ensures CompactValue(ms1 + ms2, t1 + t2) == CompactValue(ms1, t1) + CompactValue(ms2, t2)
    decreases |t1|
  {
    if |t1| > 0 {
      assert (ms1 + ms2)[1..] == ms1[1..] + ms2;
      assert (t1 + t2)[1..] == t1[1..] + t2;
      CompactAppend(ms1[1..], t1[1..], ms2, t2);
    } else {
      assert ms1 + ms2 == ms2 && t1 + t2 == t2;
    }
  }

  /** One grapheme is kept exactly when its token cannot skip it. */
  lemma CompactOne(m: Mask, g: string)
    ensures CompactValue([m], [g]) == if CanSkip(m, g) then [] else [g]
  {
  }

  /** A value with no skippable grapheme compacts to itself. */
  lemma {:induction false} CompactKeepsAll(ms: seq<Mask>, t: seq<string>)
    requires |t| <= |ms|
    requires forall i :: 0 <= i < |t| ==> !CanSkip(ms[i], t[i])
    ensures CompactValue(ms, t) == t
    decreases |t|
  {
    if |t| > 0 {
      assert forall i :: 0 <= i < |t[1..]| ==> !CanSkip(ms[1..][i], t[1..][i]) by {
        forall i | 0 <= i < |t[1..]|
          ensures !CanSkip(ms[1..][i], t[1..][i])
        {
          assert ms[1..][i] == ms[i + 1] && t[1..][i] == t[i + 1];
        }
      }
      CompactKeepsAll(ms[1..], t[1..]);
    }
  }

  // -------------------------------------------------------------------
  // Sections
  // -------------------------------------------------------------------

  /** The `section` table of this engine: the four letter kinds share one group. */
  function SectionKey(m: Mask): nat
  {
    match m
    case Digit0(_) => 0
    case Digit(_) => 0
    case Numeric(_) => 0
    case GroupingSep => 0
    case Sign => 1
    case Plus => 2
    case DecimalSep => 3
    case Hex0 => 4
    case Hex => 4
    case Oct0 => 5
    case Oct => 5
    case Dec0 => 6
    case Dec => 6
    case Letter => 7
    case LetterOrDigit => 7
    case LetterDigitSpace => 7
    case AnyChar => 7
    case Separator(_) => 8
    case NoMask => 9
  }

  /** The letter kinds read as Letter. */
  function MergeLetters(m: Mask): (r: Mask)
    ensures Section(r) == Section(m) && IsLtor(r) == IsLtor(m) && IsRtol(r) == IsRtol(m)
    ensures r.Separator? == m.Separator? && r.NoMask? == m.NoMask?
  {
    if m.LetterOrDigit? || m.LetterDigitSpace? || m.AnyChar? then Letter else m
  }

  /** Grouping the merged kinds by the fine table groups the kinds by this engine's table. */
  lemma SectionKeyMerged(a: Mask, b: Mask)
    ensures SectionKey(a) == SectionKey(b) <==> SubSection(MergeLetters(a)) == SubSection(MergeLetters(b))
  {
  }

  function Merged(ms: seq<Mask>): (r: seq<Mask>)
    ensures |r| == |ms|
    ensures forall j :: 0 <= j < |ms| ==> r[j] == MergeLetters(ms[j])
    ensures Terminated(ms) ==> Terminated(r)
  {
    seq(|ms|, j requires 0 <= j < |ms| => MergeLetters(ms[j]))
  }

  /** `sec_start` of token j. */
  function MStart(ms: seq<Mask>, j: nat): nat
    requires j < |ms|
  {
    GroupStart(Merged(ms), true, j)
  }

  /** `sec_end` of token j. */
  function MEnd(ms: seq<Mask>, j: nat): nat
    requires j < |ms|
  {
    GroupEnd(Merged(ms), true, j, |ms| - 1)
  }

  /** A token before the terminator lies inside its section, which ends before the terminator. */
  lemma MWithin(ms: seq<Mask>, j: nat)
    requires Terminated(ms) && j < |ms|
    ensures MStart(ms, j) <= j && MStart(ms, j) <= MEnd(ms, j) <= |ms| - 1
    ensures j < |ms| - 1 ==> j < MEnd(ms, j)
  {
    var mm := Merged(ms);
    if j < |ms| - 1 {
      GroupContains(mm, true, j);
    } else {
      TerminatorGroup(mm, true);
    }
  }

  // -------------------------------------------------------------------
  // Input characters
  // -------------------------------------------------------------------

  /** The number symbols in use: negative, positive and decimal separator. */
  datatype Syms = Syms(neg: char, pos: char, dec: char)

  /** What `char::is_alphabetic` and `char::is_alphanumeric` say about the input character. */
  datatype CharClass = CharClass(alphabetic: bool, alphanumeric: bool)

  predicate IsHexDigit(c: char)
  {
    IsDigit(c) || ('a' <= c <= 'f') || ('A' <= c <= 'F')
  }

  /** `is_valid_c`: the characters a token accepts. */
  predicate IsValidC(m: Mask, c: char, sy: Syms, cl: CharClass)
  {
    match m
    case Digit0(_) => IsDigit(c)
    case Digit(_) => IsDigit(c) || c == ' '
    case Numeric(_) => IsDigit(c) || c == ' ' || c == sy.neg || c == sy.pos || c == '-' || c == '+'
    case DecimalSep => c == sy.dec
    case GroupingSep => false
    case Sign => c == sy.neg || c == sy.pos || c == '-' || c == '+'
    case Plus => c == sy.neg || c == sy.pos || c == '-' || c == '+'
    case Hex0 => IsHexDigit(c)
    case Hex => IsHexDigit(c) || c == ' '
    case Oct0 => '0' <= c <= '7'
    case Oct => ('0' <= c <= '7') || c == ' '
    case Dec0 => IsDigit(c)
    case Dec => IsDigit(c) || c == ' '
    case Letter => cl.alphabetic
    case LetterOrDigit => cl.alphanumeric
    case LetterDigitSpace => cl.alphanumeric || c == ' '
    case AnyChar => true
    case Separator(s) => |s| > 0 && s[0] == c
    case NoMask => false
  }

  /** `map_input_c`: the symbols of the locale are stored as the internal ones. */
  function MapInputC(m: Mask, c: char, sy: Syms): (r: char)
    ensures !(m.Numeric? || m.DecimalSep? || m.Sign? || m.Plus?) ==> r == c
    ensures (m.Numeric? || m.Sign? || m.Plus?) && c == sy.neg ==> r == '-'
  {
    match m
    case Numeric(_) => if c == sy.neg then '-' else if c == sy.pos then ' ' else c
    case DecimalSep => if c == sy.dec then '.' else c
    case Sign => if c == sy.neg then '-' else if c == sy.pos || c == '+' then ' ' else c
    case Plus => if c == sy.neg then '-' else if c == sy.pos then '+' else c
    case _ => c
  }

  // -------------------------------------------------------------------
  // Inserting
  // -------------------------------------------------------------------

  /** `remap_number` keeps the grapheme count of the section it renders. */
  ghost predicate KeepsLength(remap: (seq<Mask>, seq<string>) -> seq<string>)
  {
    forall sm: seq<Mask>, v: seq<string> :: |v| == |sm| ==> |remap(sm, v)| == |sm|
  }

  /** Text outside [s, e) is kept. */
  predicate Outside(t: seq<string>, r: seq<string>, s: nat, e: nat)
    requires s <= e <= |t| == |r|
  {
    r[..s] == t[..s] && r[e..] == t[e..]
  }

  /**
   * `insert_ltor`: in a left-to-right section the character overwrites the
   * grapheme under the cursor when that token takes it so; otherwise it is
   * inserted at the cursor if the section's last grapheme can be dropped.
   * On success the cursor moves right by one. The result is the value, the
   * cursor and whether the character went in.
   */
  function InsertLtor(ms: seq<Mask>, t: seq<string>, cur: nat, c: char, sy: Syms, cl: CharClass): (r: (seq<string>, nat, bool))
    requires Fits(ms, t) && cur < |ms|
    ensures |r.0| == |t|
    ensures !r.2 ==> r.0 == t && r.1 == cur
    ensures r.2 ==> IsValidC(ms[cur], c, sy, cl) && cur < |t| && r.1 == cur + 1
    ensures r.2 ==> r.0[cur] == [MapInputC(ms[cur], c, sy)]
    ensures r.2 ==> MStart(ms, cur) <= cur < MEnd(ms, cur) && Outside(t, r.0, cur, MEnd(ms, cur))
  {
    MWithin(ms, cur);
    var e := MEnd(ms, cur);
    var x: string := [MapInputC(ms[cur], c, sy)];
    if cur < e && CanOverwrite(ms[cur], t[cur]) && IsValidC(ms[cur], c, sy, cl) then
      UpdateOutside(t, cur, x, cur, e);
      (t[cur := x], cur + 1, true)
    else if cur < e && CanDrop(ms[e - 1], t[e - 1]) && IsValidC(ms[cur], c, sy, cl) then
      (Splice(t, cur, e, [x] + t[cur..e - 1]), cur + 1, true)
    else
      (t, cur, false)
  }

  /** Changing one grapheme inside [s, e) keeps the text outside. */
  lemma UpdateOutside(t: seq<string>, i: nat, g: string, s: nat, e: nat)
    requires s <= i < e <= |t|
    ensures Outside(t, t[i := g], s, e)
  {
    assert t[i := g][..s] == t[..s];
    assert t[i := g][e..] == t[e..];
  }

  /** When inserting shifts the section, the graphemes from the cursor move right by one and the last is dropped. */
  lemma InsertLtorShifts(ms: seq<Mask>, t: seq<string>, cur: nat, c: char, sy: Syms, cl: CharClass)
    requires Fits(ms, t) && cur < |ms|
    requires InsertLtor(ms, t, cur, c, sy, cl).2 && !CanOverwrite(ms[cur], t[cur])
    ensures var e := MEnd(ms, cur);
      var r := InsertLtor(ms, t, cur, c, sy, cl).0;
      CanDrop(ms[e - 1], t[e - 1]) && r[cur + 1..e] == t[cur..e - 1]
  {
    MWithin(ms, cur);
    var e := MEnd(ms, cur);
    var x: string := [MapInputC(ms[cur], c, sy)];
    var r := Splice(t, cur, e, [x] + t[cur..e - 1]);
    assert r[cur + 1..e] == r[cur..e][1..];
  }

  /** The token whose section takes right-to-left input: at a gap right of such a section, the one on the left. */
  function RtolTokenAt(ms: seq<Mask>, cur: nat): (j: nat)
    requires cur < |ms|
    ensures j == cur || j + 1 == cur
    ensures j + 1 == cur <==> cur > 0 && IsRtol(ms[cur - 1]) && (IsLtor(ms[cur]) || ms[cur].NoMask?)
  {
    if cur > 0 && IsRtol(ms[cur - 1]) && (IsLtor(ms[cur]) || ms[cur].NoMask?) then cur - 1 else cur
  }

  /**
   * `insert_rtol`: if the section's first grapheme can be dropped, the part
   * left of the cursor moves left by one and the character goes in right
   * before the cursor; the section is then re-rendered. The cursor stays.
   */
  function InsertRtol(ms: seq<Mask>, t: seq<string>, cur: nat, c: char, sy: Syms, cl: CharClass,
                      remap: (seq<Mask>, seq<string>) -> seq<string>): (r: (seq<string>, bool))
    requires Fits(ms, t) && cur < |ms| && KeepsLength(remap)
    ensures |r.0| == |t|
    ensures !r.1 ==> r.0 == t
    ensures r.1 ==> var j := RtolTokenAt(ms, cur);
      IsValidC(ms[j], c, sy, cl) && MStart(ms, j) < cur <= MEnd(ms, j)
      && CanDrop(ms[MStart(ms, j)], t[MStart(ms, j)])
      && Outside(t, r.0, MStart(ms, j), MEnd(ms, j))
      && r.0[MStart(ms, j)..MEnd(ms, j)]
         == remap(ms[MStart(ms, j)..MEnd(ms, j)], ShiftInLeft(t, MStart(ms, j), cur, MEnd(ms, j), [MapInputC(ms[j], c, sy)]))
  {
    var j := RtolTokenAt(ms, cur);
    MWithin(ms, j);
    var s := MStart(ms, j);
    var e := MEnd(ms, j);
    if s < cur && cur <= e && CanDrop(ms[s], t[s]) && IsValidC(ms[j], c, sy, cl) then
      var mid := ShiftInLeft(t, s, cur, e, [MapInputC(ms[j], c, sy)]);
      (Splice(t, s, e, remap(ms[s..e], mid)), true)
    else
      (t, false)
  }

  /** The section [s, e) with its first grapheme dropped and g put in right before position p. */
  function ShiftInLeft(t: seq<string>, s: nat, p: nat, e: nat, g: string): (mid: seq<string>)
    requires s < p <= e <= |t|
    ensures |mid| == e - s
    ensures mid[p - 1 - s] == g
    ensures mid[..p - 1 - s] == t[s + 1..p] && mid[p - s..] == t[p..e]
  {
    t[s + 1..p] + [g] + t[p..e]
  }

  // -------------------------------------------------------------------
  // Sign
  // -------------------------------------------------------------------

  /** The first "-" in the text's range [s, e). */
  function FirstMinus(t: seq<string>, s: nat, e: nat): (r: Option<nat>)
    requires s <= e <= |t|
    ensures r.Some? ==> s <= r.value < e && t[r.value] == "-"
    ensures forall k :: s <= k < (if r.Some? then r.value else e) ==> t[k] != "-"
    decreases e - s
  {
    if s == e then None
    else if t[s] == "-" then Some(s)
    else FirstMinus(t, s + 1, e)
  }

  /** The first right-to-left numeric token in [s, e). */
  function FirstNumeric(ms: seq<Mask>, s: nat, e: nat): (r: Option<nat>)
    requires s <= e <= |ms|
    ensures r.Some? ==> s <= r.value < e && ms[r.value] == Numeric(Rtol)
    ensures forall k :: s <= k < (if r.Some? then r.value else e) ==> ms[k] != Numeric(Rtol)
    decreases e - s
  {
    if s == e then None
    else if ms[s] == Numeric(Rtol) then Some(s)
    else FirstNumeric(ms, s + 1, e)
  }

  /** The new content of an explicit sign cell, or None for the unreachable!() case. */
  function SignCellInput(m: Mask, g: string, c: char, sy: Syms): (r: Option<string>)
    requires m.Sign? || m.Plus?
    ensures r.Some? && m.Sign? ==> r.value == "-" || r.value == " "
    ensures r.Some? && m.Plus? ==> r.value == "-" || r.value == "+"
  {
    var cc := MapInputC(m, c, sy);
    if m.Sign? then
      if cc == ' ' then Some(" ")
      else if cc == '-' then Some(if g == "-" then " " else "-")
      else None
    else
      if cc == '+' then Some("+")
      else if cc == '-' then Some(if g == "-" then "+" else "-")
      else None
  }

  /**
   * `insert_sign` of this engine, in the number section of the cursor: an
   * explicit Sign or Plus token takes the input; else a "-" anywhere in the
   * number is cleared; else the negative symbol goes into the first
   * right-to-left numeric cell if that cell is blank. The flag says whether
   * the input was used; Err stands for unreachable!().
   */
  function InsertSignCore(ms: seq<Mask>, t: seq<string>, cur: nat, c: char, sy: Syms,
                          remap: (seq<Mask>, seq<string>) -> seq<string>): (r: Result<(seq<string>, bool), ()>)
    requires Fits(ms, t) && cur < |ms| && KeepsLength(remap)
    ensures r.Ok? ==> |r.value.0| == |t|
    ensures r.Ok? && !r.value.1 ==> r.value.0 == t
    ensures r.Ok? ==> var j := SignTokenAt(ms, cur);
      SecStart(ms, j) <= SecEnd(ms, j) <= |t| && Outside(t, r.value.0, SecStart(ms, j), SecEnd(ms, j))
  {
    var j := SignTokenAt(ms, cur);
    SectionWithin(ms, j);
    SignEdit(ms, t, SecStart(ms, j), SecEnd(ms, j), c, sy, remap)
  }

  /** The sign edit inside the number [s, e). */
  function SignEdit(ms: seq<Mask>, t: seq<string>, s: nat, e: nat, c: char, sy: Syms,
                    remap: (seq<Mask>, seq<string>) -> seq<string>): (r: Result<(seq<string>, bool), ()>)
    requires s <= e <= |t| < |ms| && KeepsLength(remap)
    ensures r.Ok? ==> |r.value.0| == |t| && Outside(t, r.value.0, s, e)
    ensures r.Ok? && !r.value.1 ==> r.value.0 == t
  {
    match FirstSignToken(ms, s, e)
    case Some(i) =>
      (match SignCellInput(ms[i], t[i], c, sy)
       case Some(g) => UpdateOutside(t, i, g, s, e); Ok((t[i := g], true))
       case None => Err(()))
    case None =>
      match FirstMinus(t, s, e)
      case Some(i) => UpdateOutside(t, i, " ", s, e); Ok((t[i := " "], true))
      case None =>
        if c != sy.neg then Ok((t, false))
        else
          match FirstNumeric(ms, s, e)
          case None => Ok((t, false))
          case Some(i) =>
            if CanDrop(ms[i], t[i]) then
              Ok((Splice(t, s, e, remap(ms[s..e], t[s..i] + ["-"] + t[i + 1..e])), true))
            else Ok((t, true))
  }

  /** The input characters `can_edit_sign` lets through never reach unreachable!(). */
  lemma InsertSignCoreNoPanic(ms: seq<Mask>, t: seq<string>, cur: nat, c: char, sy: Syms,
                              remap: (seq<Mask>, seq<string>) -> seq<string>)
    requires Fits(ms, t) && cur < |ms| && KeepsLength(remap)
    requires c == sy.neg || c == sy.pos || c == '-' || c == '+'
    ensures InsertSignCore(ms, t, cur, c, sy, remap).Ok?
  {
  }

  /** The negative symbol on an explicit Sign cell toggles it; doing it twice restores the value. */
  lemma InsertSignCoreTwice(ms: seq<Mask>, t: seq<string>, cur: nat, sy: Syms,
                            remap: (seq<Mask>, seq<string>) -> seq<string>)
    requires Fits(ms, t) && cur < |ms| && KeepsLength(remap)
    requires var j := SignTokenAt(ms, cur);
      SecStart(ms, j) <= SecEnd(ms, j) <= |t|
      && FirstSignToken(ms, SecStart(ms, j), SecEnd(ms, j)).Some?
    requires var j := SignTokenAt(ms, cur);
      var i := FirstSignToken(ms, SecStart(ms, j), SecEnd(ms, j)).value;
      if ms[i].Sign? then t[i] == "-" || t[i] == " " else t[i] == "-" || t[i] == "+"
    ensures var r := InsertSignCore(ms, t, cur, sy.neg, sy, remap);
      r.Ok? && r.value.1 && InsertSignCore(ms, r.value.0, cur, sy.neg, sy, remap) == Ok((t, true))
  {
    var j := SignTokenAt(ms, cur);
    var s := SecStart(ms, j);
    var e := SecEnd(ms, j);
    var i := FirstSignToken(ms, s, e).value;
    var g := SignCellInput(ms[i], t[i], sy.neg, sy).value;
    assert SignCellInput(ms[i], g, sy.neg, sy) == Some(t[i]);
    assert t[i := g][i := t[i]] == t;
  }

  /**
   * `can_edit_sign`: a sign character, and the first slot of the number is an
   * explicit sign, or a numeric cell that is blank or shows "-".
   */
  predicate CanEditSign(ms: seq<Mask>, t: seq<string>, j: nat, c: char, sy: Syms)
    requires Fits(ms, t) && j < |ms|
  {
    SectionWithin(ms, j);
    (c == sy.neg || c == sy.pos || c == '-' || c == '+')
    && match FirstSignSlot(ms, SecStart(ms, j), SecEnd(ms, j))
       case None => false
       case Some(k) => ms[k].Sign? || ms[k].Plus? || CanDrop(ms[k], t[k]) || t[k] == "-"
  }

  /** Behind its guard, with the negative symbol, `insert_sign` uses the input. */
  lemma GuardedInsertSignCore(ms: seq<Mask>, t: seq<string>, cur: nat, sy: Syms,
                              remap: (seq<Mask>, seq<string>) -> seq<string>)
    requires Fits(ms, t) && cur < |ms| && KeepsLength(remap)
    requires CanEditSign(ms, t, SignTokenAt(ms, cur), sy.neg, sy)
    ensures InsertSignCore(ms, t, cur, sy.neg, sy, remap) == Ok(InsertSignCore(ms, t, cur, sy.neg, sy, remap).value)
    ensures InsertSignCore(ms, t, cur, sy.neg, sy, remap).value.1
  {
    var j := SignTokenAt(ms, cur);
    SectionWithin(ms, j);
    var s := SecStart(ms, j);
    var e := SecEnd(ms, j);
    var k := FirstSignSlot(ms, s, e).value;
    if FirstSignToken(ms, s, e).None? && FirstMinus(t, s, e).None? {
      assert ms[k] == Numeric(Rtol);
      assert FirstNumeric(ms, s, e) == Some(k);
    }
  }
}

=== FILE: maskedinput_remove.dfy ===
// The removals of src/text/maskedinput_core.rs: `remove_prev`, `remove_next`
// and `remove_range`. Each rewrites whole sections so that the value keeps one
// grapheme per token: a right-to-left section refills at its start and is
// re-rendered, a left-to-right one refills at its end. The splitting helpers
// `split_remove_mask` and `split3` are not part of this model; they are read
// as cutting the value at the section's bounds and at the removed range
// clipped to the section.

module MaskedInputRemove {
  import opened Util
  import opened MaskKind
  import opened MaskParse
  import opened RatMask
  import opened RatMaskEdit
  import opened MaskedInputCore

  /** The section [s, e) without the grapheme at d, refilled at its start and re-rendered. */
  function RefillRtol(ms: seq<Mask>, t: seq<string>, s: nat, d: nat, e: nat,
                      remap: (seq<Mask>, seq<string>) -> seq<string>): (r: seq<string>)
    requires s <= d < e <= |t| < |ms| && KeepsLength(remap)
    ensures |r| == |t| && Outside(t, r, s, e)
    ensures r[s..e] == remap(ms[s..e], ShiftInRtol(ms, t, s, d, e))
  {
    Splice(t, s, e, remap(ms[s..e], ShiftInRtol(ms, t, s, d, e)))
  }

  /**
   * The section [s, e) without the grapheme at d, refilled at its end: what
   * stood left of d stays, what stood right of it moves one cell left, and
   * the last cell shows its edit value.
   */
  function RefillLtor(ms: seq<Mask>, t: seq<string>, s: nat, d: nat, e: nat): (r: seq<string>)
    requires s <= d < e <= |t| < |ms|
    ensures |r| == |t| && Outside(t, r, s, e)
    ensures forall k :: s <= k < d ==> r[k] == t[k]
    ensures forall k :: d < k < e ==> r[k - 1] == t[k]
    ensures r[e - 1] == EditValue(ms[e - 1])
  {
    var mid := ShiftInLtor(ms, t, s, d, e);
    var r := Splice(t, s, e, mid);
    assert forall k :: s <= k < e ==> r[k] == r[s..e][k - s];
    r
  }

  /**
   * `remove_prev`: nothing at 0. Otherwise the grapheme left of the cursor
   * leaves its section. Right to left, the section refills at its start and
   * the cursor stays until the section is empty, then goes to its start; left
   * to right, it refills at its end and the cursor steps left.
   */
  function RemovePrevCore(ms: seq<Mask>, t: seq<string>, cur: nat,
                          remap: (seq<Mask>, seq<string>) -> seq<string>): (r: (seq<string>, nat))
    requires Fits(ms, t) && cur <= |t| && KeepsLength(remap)
    ensures |r.0| == |t| && r.1 <= |t|
    ensures cur == 0 ==> r == (t, 0)
    ensures cur > 0 ==>
      (MStart(ms, cur - 1) < cur <= MEnd(ms, cur - 1) <= |t|
       && Outside(t, r.0, MStart(ms, cur - 1), MEnd(ms, cur - 1)))
  {
    if cur == 0 then (t, 0)
    else
      var d := cur - 1;
      MWithin(ms, d);
      var s := MStart(ms, d);
      var e := MEnd(ms, d);
      if IsRtol(ms[d]) then
        var v := RefillRtol(ms, t, s, d, e, remap);
        (v, if IsEmpty(ms[s..e], v[s..e]) then s else cur)
      else
        (RefillLtor(ms, t, s, d, e), d)
  }

  /**
   * Left to right, `remove_prev` steps the cursor left; the section keeps what
   * stands left of the removed grapheme, moves what stands right of it one
   * cell left, and shows the edit value in its last cell.
   */
  lemma RemovePrevLtor(ms: seq<Mask>, t: seq<string>, cur: nat, remap: (seq<Mask>, seq<string>) -> seq<string>)
    requires Fits(ms, t) && 0 < cur <= |t| && KeepsLength(remap)
    requires IsLtor(ms[cur - 1])
    ensures var r := RemovePrevCore(ms, t, cur, remap);
      var s := MStart(ms, cur - 1);
      var e := MEnd(ms, cur - 1);
      r.1 == cur - 1 && s < cur <= e <= |t|
      && (forall k :: s <= k < cur - 1 ==> r.0[k] == t[k])
      && (forall k :: cur <= k < e ==> r.0[k - 1] == t[k])
      && r.0[e - 1] == EditValue(ms[e - 1])
  {
    MWithin(ms, cur - 1);
  }

  /** Right to left, `remove_prev` keeps the cursor unless the section became empty, when it goes to the section's start. */
  lemma RemovePrevRtol(ms: seq<Mask>, t: seq<string>, cur: nat, remap: (seq<Mask>, seq<string>) -> seq<string>)
    requires Fits(ms, t) && 0 < cur <= |t| && KeepsLength(remap)
    requires IsRtol(ms[cur - 1])
    ensures var r := RemovePrevCore(ms, t, cur, remap);
      var s := MStart(ms, cur - 1);
      var e := MEnd(ms, cur - 1);
      s < cur <= e <= |t|
      && r.0[s..e] == remap(ms[s..e], ShiftInRtol(ms, t, s, cur - 1, e))
      && (r.1 == s <==> IsEmpty(ms[s..e], r.0[s..e]))
      && (r.1 != s ==> r.1 == cur)
  {
    MWithin(ms, cur - 1);
  }

  /**
   * `remove_next`: nothing at the end. Otherwise the grapheme right of the
   * cursor leaves its section. Right to left, the section refills at its
   * start and the cursor steps right; left to right, it refills at its end
   * and the cursor stays until the section is empty, then goes to its end.
   */
  function RemoveNextCore(ms: seq<Mask>, t: seq<string>, cur: nat,
                          remap: (seq<Mask>, seq<string>) -> seq<string>): (r: (seq<string>, nat))
    requires Fits(ms, t) && cur <= |t| && KeepsLength(remap)
    ensures |r.0| == |t| && r.1 <= |t|
    ensures cur == |t| ==> r == (t, cur)
    ensures cur < |t| ==>
      (MStart(ms, cur) <= cur < MEnd(ms, cur) <= |t|
       && Outside(t, r.0, MStart(ms, cur), MEnd(ms, cur)))
  {
    if cur == |ms| - 1 then (t, cur)
    else
      MWithin(ms, cur);
      var s := MStart(ms, cur);
      var e := MEnd(ms, cur);
      if IsRtol(ms[cur]) then
        (RefillRtol(ms, t, s, cur, e, remap), cur + 1)
      else
        var v := RefillLtor(ms, t, s, cur, e);
        (v, if IsEmpty(ms[s..e], v[s..e]) then e else cur)
  }

  /** Right to left, `remove_next` steps the cursor right; left to right, the cursor stays unless the section became empty. */
  lemma RemoveNextCursor(ms: seq<Mask>, t: seq<string>, cur: nat, remap: (seq<Mask>, seq<string>) -> seq<string>)
    requires Fits(ms, t) && cur < |t| && KeepsLength(remap)
    ensures var r := RemoveNextCore(ms, t, cur, remap);
      var s := MStart(ms, cur);
      var e := MEnd(ms, cur);
      cur < e <= |t|
      && (IsRtol(ms[cur]) ==> r.1 == cur + 1)
      && (!IsRtol(ms[cur]) ==> (r.1 == e <==> IsEmpty(ms[s..e], r.0[s..e])) && (r.1 != e ==> r.1 == cur))
  {
    MWithin(ms, cur);
  }

  /**
   * A character inserted left to right by shifting the section, then removed
   * with `remove_prev`, leaves the value and cursor as they were, provided
   * the dropped last grapheme was the edit value.
   */
  lemma InsertLtorRemovePrev(ms: seq<Mask>, t: seq<string>, cur: nat, c: char, sy: Syms, cl: CharClass,
                             remap: (seq<Mask>, seq<string>) -> seq<string>)
    requires Fits(ms, t) && cur < |ms| && KeepsLength(remap)
    requires IsLtor(ms[cur])
    requires InsertLtor(ms, t, cur, c, sy, cl).2 && !CanOverwrite(ms[cur], t[cur])
    requires t[MEnd(ms, cur) - 1] == EditValue(ms[MEnd(ms, cur) - 1])
    ensures var r := InsertLtor(ms, t, cur, c, sy, cl);
      RemovePrevCore(ms, r.0, r.1, remap) == (t, cur)
  {
    MWithin(ms, cur);
    var s := MStart(ms, cur);
    var e := MEnd(ms, cur);
    var r := InsertLtor(ms, t, cur, c, sy, cl);
    InsertLtorShifts(ms, t, cur, c, sy, cl);
    RefillLtorUndoesShift(ms, t, r.0, s, cur, e);
  }

  /** Refilling at the end after a shift right by one from d, whose dropped grapheme was the edit value, gives back the value. */
  lemma RefillLtorUndoesShift(ms: seq<Mask>, t: seq<string>, u: seq<string>, s: nat, d: nat, e: nat)
    requires s <= d < e <= |t| < |ms| && |u| == |t|
    requires Outside(t, u, d, e) && u[d + 1..e] == t[d..e - 1]
    requires t[e - 1] == EditValue(ms[e - 1])
    ensures RefillLtor(ms, u, s, d, e) == t
  {
    var v := RefillLtor(ms, u, s, d, e);
    forall k | 0 <= k < |t|
      ensures v[k] == t[k]
    {
      if k < s {
        assert v[k] == v[..s][k] == u[..s][k];
        assert u[k] == u[..d][k] == t[..d][k];
      } else if k < d {
        assert u[k] == u[..d][k] == t[..d][k];
      } else if k < e - 1 {
        assert v[k] == u[k + 1] == u[d + 1..e][k - d];
      } else if k >= e {
        assert v[k] == v[e..][k - e] == u[e..][k - e] == t[e..][k - e];
      }
    }
  }

  // -------------------------------------------------------------------
  // Removing a range
  // -------------------------------------------------------------------

  /**
   * The new content of the section [s, e), of token j, once [p, q) leaves it:
   * right to left, what is left moves to the section's end behind edit values
   * and is re-rendered; left to right, it moves to the start and edit values
   * fill the end; the terminator has no content.
   */
  function SectionPiece(ms: seq<Mask>, t: seq<string>, s: nat, p: nat, q: nat, e: nat, j: nat,
                        remap: (seq<Mask>, seq<string>) -> seq<string>): (r: seq<string>)
    requires s <= p <= q <= e <= |t| && j < |ms| && e <= |ms| && KeepsLength(remap)
    requires ms[j].NoMask? ==> s == e
    ensures |r| == e - s
  {
    if IsRtol(ms[j]) then remap(ms[s..e], Edits(ms[s..s + (q - p)]) + t[s..p] + t[q..e])
    else if IsLtor(ms[j]) then LtorPiece(ms, t, s, p, q, e)
    else []
  }

  /** The left-to-right piece: the section without [p, q), closed up, then edit values. */
  function LtorPiece(ms: seq<Mask>, t: seq<string>, s: nat, p: nat, q: nat, e: nat): (r: seq<string>)
    requires s <= p <= q <= e <= |t| && e <= |ms|
    ensures |r| == e - s
  {
    t[s..p] + t[q..e] + Edits(ms[p + (e - q)..e])
  }

  /**
   * Left to right, a section rewritten with its piece keeps what stands
   * before the range, moves what stands after it left by the range's length,
   * and ends in edit values; stated at one position k.
   */
  lemma SpliceLtorPiece(ms: seq<Mask>, t: seq<string>, s: nat, p: nat, q: nat, e: nat, k: nat)
    requires s <= p <= q <= e <= |t| && e <= |ms|
    ensures s <= k < p ==> Splice(t, s, e, LtorPiece(ms, t, s, p, q, e))[k] == t[k]
    ensures q <= k < e ==> Splice(t, s, e, LtorPiece(ms, t, s, p, q, e))[k - (q - p)] == t[k]
    ensures e - (q - p) <= k < e ==> Splice(t, s, e, LtorPiece(ms, t, s, p, q, e))[k] == EditValue(ms[k])
  {
    var tail := Edits(ms[p + (e - q)..e]);
    var r := t[s..p] + t[q..e] + tail;
    assert LtorPiece(ms, t, s, p, q, e) == r;
    if s <= k < p {
      SpliceAt(t, s, e, r, k);
    }
    if q <= k < e {
      SpliceAt(t, s, e, r, k - (q - p));
    }
    if e - (q - p) <= k < e {
      SpliceAt(t, s, e, r, k);
      assert r[k - s] == tail[k - (e - (q - p))];
    }
  }

  /** Inside [s, e) a spliced value shows the middle part. */
  lemma SpliceAt(t: seq<string>, s: nat, e: nat, mid: seq<string>, k: nat)
    requires s <= k < e <= |t| && |mid| == e - s
    ensures Splice(t, s, e, mid)[k] == mid[k - s]
  {
    assert Splice(t, s, e, mid)[k] == Splice(t, s, e, mid)[s..e][k - s];
  }

  /** The piece of the section of token j for the range [a, b). */
  function RangePiece(ms: seq<Mask>, t: seq<string>, a: nat, b: nat, j: nat,
                      remap: (seq<Mask>, seq<string>) -> seq<string>): (r: seq<string>)
    requires Fits(ms, t) && a <= j <= b <= |t| && KeepsLength(remap)
    ensures MStart(ms, j) <= j <= MEnd(ms, j) <= |t|
    ensures |r| == MEnd(ms, j) - MStart(ms, j)
  {
    MWithin(ms, j);
    var s := MStart(ms, j);
    var e := MEnd(ms, j);
    SectionPiece(ms, t, s, Max(a, s), Min(b, e), e, j, remap)
  }

  /**
   * The loop of `remove_range` from the section of token j on: section by
   * section until one reaches the range's end, then the rest of the value.
   */
  function RangeWalk(ms: seq<Mask>, t: seq<string>, a: nat, b: nat, j: nat,
                     remap: (seq<Mask>, seq<string>) -> seq<string>): (r: seq<string>)
    requires Fits(ms, t) && a <= j <= b <= |t| && KeepsLength(remap)
    ensures MStart(ms, j) <= |t| && |r| == |t| - MStart(ms, j)
    decreases |ms| - j
  {
    var piece := RangePiece(ms, t, a, b, j, remap);
    var e := MEnd(ms, j);
    if e >= b then piece + t[e..]
    else
      MWithin(ms, j);
      StartOfNext(ms, j);
      piece + RangeWalk(ms, t, a, b, e, remap)
  }

  /** Past the end of the last section the loop rewrites, the walk copies the value. */
  lemma {:induction false} RangeWalkKeepsTail(ms: seq<Mask>, t: seq<string>, a: nat, b: nat, j: nat,
                                              remap: (seq<Mask>, seq<string>) -> seq<string>)
    requires Fits(ms, t) && a <= j <= b <= |t| && KeepsLength(remap)
    ensures MStart(ms, j) <= RangeEnd(ms, t, a, b, j) <= |t|
    ensures RangeWalk(ms, t, a, b, j, remap)[RangeEnd(ms, t, a, b, j) - MStart(ms, j)..] == t[RangeEnd(ms, t, a, b, j)..]
    decreases |ms| - j
  {
    MWithin(ms, j);
    var piece := RangePiece(ms, t, a, b, j, remap);
    var e := MEnd(ms, j);
    var s := MStart(ms, j);
    if e >= b {
      assert RangeEnd(ms, t, a, b, j) == e;
      assert RangeWalk(ms, t, a, b, j, remap) == piece + t[e..];
      assert |piece| == e - s;
      assert (piece + t[e..])[e - s..] == t[e..];
    } else {
      StartOfNext(ms, j);
      var rest := RangeWalk(ms, t, a, b, e, remap);
      RangeWalkKeepsTail(ms, t, a, b, e, remap);
      var f := RangeEnd(ms, t, a, b, e);
      assert RangeEnd(ms, t, a, b, j) == f;
      assert RangeWalk(ms, t, a, b, j, remap) == piece + rest;
      assert (piece + rest)[f - s..] == rest[f - e..];
    }
  }

  /** The end of the last section the loop rewrites. */
  function RangeEnd(ms: seq<Mask>, t: seq<string>, a: nat, b: nat, j: nat): (f: nat)
    requires Fits(ms, t) && a <= j <= b <= |t|
    ensures b <= f <= |t| && j <= f
    decreases |ms| - j
  {
    MWithin(ms, j);
    var e := MEnd(ms, j);
    if e >= b then e else RangeEnd(ms, t, a, b, e)
  }

  /** The section after j's starts where j's ends. */
  lemma StartOfNext(ms: seq<Mask>, j: nat)
    requires Terminated(ms) && j < |ms| - 1
    ensures MEnd(ms, j) < |ms| && MStart(ms, MEnd(ms, j)) == MEnd(ms, j)
  {
    var mm := Merged(ms);
    GroupContains(mm, true, j);
    var e := MEnd(ms, j);
    if e < |ms| - 1 {
    } else {
      assert e == |ms| - 1;
      TerminatorGroup(mm, true);
    }
  }

  /**
   * `remove_range`: the value before the section of a, then the rewritten
   * sections up to the one reaching b, then the rest. Cursor and anchor go to
   * the range's start.
   */
  function RemoveRangeCore(ms: seq<Mask>, t: seq<string>, a: nat, b: nat,
                           remap: (seq<Mask>, seq<string>) -> seq<string>): (r: (seq<string>, nat, nat))
    requires Fits(ms, t) && a <= b <= |t| && KeepsLength(remap)
    ensures |r.0| == |t|
    ensures r.1 == a && r.2 == a
    ensures MStart(ms, a) <= a && r.0[..MStart(ms, a)] == t[..MStart(ms, a)]
    ensures b <= RangeEnd(ms, t, a, b, a) <= |t|
      && r.0[RangeEnd(ms, t, a, b, a)..] == t[RangeEnd(ms, t, a, b, a)..]
  {
    MWithin(ms, a);
    var s := MStart(ms, a);
    var w := RangeWalk(ms, t, a, b, a, remap);
    var v := t[..s] + w;
    var f := RangeEnd(ms, t, a, b, a);
    RangeWalkKeepsTail(ms, t, a, b, a, remap);
    assert v[f..] == w[f - s..];
    (v, a, a)
  }

  /** An empty range in a left-to-right section changes nothing. */
  lemma RemoveEmptyRangeLtor(ms: seq<Mask>, t: seq<string>, a: nat, remap: (seq<Mask>, seq<string>) -> seq<string>)
    requires Fits(ms, t) && a <= |t| && KeepsLength(remap)
    requires IsLtor(ms[a])
    ensures RemoveRangeCore(ms, t, a, a, remap) == (t, a, a)
  {
    MWithin(ms, a);
    var s := MStart(ms, a);
    var e := MEnd(ms, a);
    assert RangePiece(ms, t, a, a, a, remap) == t[s..a] + t[a..e] + [];
    assert t[..s] + (t[s..a] + t[a..e] + [] + t[e..]) == t;
  }

  /**
   * A range inside one left-to-right section: the graphemes before a stay,
   * those from b move left to a, and edit values fill the section's end.
   */
  lemma RemoveRangeInSectionLtor(ms: seq<Mask>, t: seq<string>, a: nat, b: nat,
                                 remap: (seq<Mask>, seq<string>) -> seq<string>)
    requires Fits(ms, t) && a <= b <= |t| && KeepsLength(remap)
    requires IsLtor(ms[a]) && b <= MEnd(ms, a)
    ensures MStart(ms, a) <= a && MEnd(ms, a) <= |t|
    ensures Outside(t, RemoveRangeCore(ms, t, a, b, remap).0, MStart(ms, a), MEnd(ms, a))
    ensures var v := RemoveRangeCore(ms, t, a, b, remap).0;
      forall k :: MStart(ms, a) <= k < a ==> v[k] == t[k]
    ensures var v := RemoveRangeCore(ms, t, a, b, remap).0;
      forall k :: b <= k < MEnd(ms, a) ==> v[k - (b - a)] == t[k]
    ensures var v := RemoveRangeCore(ms, t, a, b, remap).0;
      forall k :: MEnd(ms, a) - (b - a) <= k < MEnd(ms, a) ==> v[k] == EditValue(ms[k])
  {
    RangeInOneSection(ms, t, a, b, remap);
    var s := MStart(ms, a);
    var e := MEnd(ms, a);
    assert SectionPiece(ms, t, s, a, b, e, a, remap) == LtorPiece(ms, t, s, a, b, e);
    var v := RemoveRangeCore(ms, t, a, b, remap).0;
    forall k | s <= k < a
      ensures v[k] == t[k]
    {
      SpliceLtorPiece(ms, t, s, a, b, e, k);
    }
    forall k | b <= k < e
      ensures v[k - (b - a)] == t[k]
    {
      SpliceLtorPiece(ms, t, s, a, b, e, k);
    }
    forall k | e - (b - a) <= k < e
      ensures v[k] == EditValue(ms[k])
    {
      SpliceLtorPiece(ms, t, s, a, b, e, k);
    }
  }

  /**
   * A range inside one right-to-left section: what is left of the section
   * moves behind edit values for the removed cells and is re-rendered.
   */
  lemma RemoveRangeInSectionRtol(ms: seq<Mask>, t: seq<string>, a: nat, b: nat,
                                 remap: (seq<Mask>, seq<string>) -> seq<string>)
    requires Fits(ms, t) && a <= b <= |t| && KeepsLength(remap)
    requires IsRtol(ms[a]) && b <= MEnd(ms, a)
    ensures MStart(ms, a) <= a && MEnd(ms, a) <= |t|
    ensures Outside(t, RemoveRangeCore(ms, t, a, b, remap).0, MStart(ms, a), MEnd(ms, a))
    ensures var s := MStart(ms, a);
      var e := MEnd(ms, a);
      RemoveRangeCore(ms, t, a, b, remap).0[s..e]
        == remap(ms[s..e], Edits(ms[s..s + (b - a)]) + t[s..a] + t[b..e])
  {
    RangeInOneSection(ms, t, a, b, remap);
  }

  /** A range that ends inside the section of its start rewrites that section only. */
  lemma RangeInOneSection(ms: seq<Mask>, t: seq<string>, a: nat, b: nat,
                          remap: (seq<Mask>, seq<string>) -> seq<string>)
    requires Fits(ms, t) && a <= b <= |t| && KeepsLength(remap)
    requires b <= MEnd(ms, a)
    ensures MStart(ms, a) <= a <= MEnd(ms, a) <= |t|
    ensures RemoveRangeCore(ms, t, a, b, remap).0
      == Splice(t, MStart(ms, a), MEnd(ms, a), SectionPiece(ms, t, MStart(ms, a), a, b, MEnd(ms, a), a, remap))
  {
    MWithin(ms, a);
    var s := MStart(ms, a);
    var e := MEnd(ms, a);
    var piece := RangePiece(ms, t, a, b, a, remap);
    assert RangeWalk(ms, t, a, b, a, remap) == piece + t[e..];
    assert t[..s] + (piece + t[e..]) == t[..s] + piece + t[e..];
  }
}

=== FILE: md_format.dfy ===
/**
 * The blank line the reformatter of the markdown editor example
 * (`examples/mdedit_parts/markdown.rs`) puts between two blocks.
 */
module MarkdownFormat {
  /** The kind of block the reformatter wrote last; `NoFormat` is `MDFormat::None`. */
  datatype MDFormat =
    | NoFormat | Heading | Paragraph | Footnote | DefinitionList
    | ReferenceDefs | Table | BlockQuote | CodeBlock

  /** The parts of the reformatter's state that `insert_empty` touches. */
  datatype Reformat = Reformat(prefix: seq<string>, follow: seq<string>, newline: string)

  function Concat(parts: seq<string>): string
  {
    if |parts| == 0 then "" else Concat(parts[..|parts| - 1]) + parts[|parts| - 1]
  }

  /** Whether a separator line goes between a block of kind `last` and one of kind `current`. */
  function SeparatorNeeded(last: MDFormat, current: MDFormat): (b: bool)
    ensures b <==>
      last != NoFormat && current != NoFormat &&
      !(last == current && (last == Footnote || last == ReferenceDefs))
  {
    match last
    case NoFormat => false
    case BlockQuote | Heading | Paragraph | DefinitionList | Table | CodeBlock => current != NoFormat
    case Footnote => current != NoFormat && current != Footnote
    case ReferenceDefs => current != NoFormat && current != ReferenceDefs
  }

  /**
   * `insert_empty`: when a separator is needed, write the line prefix and a
   * line break, and continue with the follow-up prefix; otherwise change
   * nothing.
   */
  function InsertEmpty(arg: Reformat, last: MDFormat, current: MDFormat, out: string): (r: (Reformat, string))
    ensures r.0.follow == arg.follow && r.0.newline == arg.newline
    ensures out <= r.1
    ensures !SeparatorNeeded(last, current) ==> r == (arg, out)
    ensures SeparatorNeeded(last, current) ==>
      r.1[|out|..] == Concat(arg.prefix) + arg.newline && r.0.prefix == arg.follow
  {
    if SeparatorNeeded(last, current) then
      (arg.(prefix := arg.follow), out + Concat(arg.prefix) + arg.newline)
    else (arg, out)
  }

  /** After a separator the next separator is written with the follow-up prefix. */
  lemma InsertEmptyTwice(arg: Reformat, last: MDFormat, current: MDFormat, out: string)
    requires SeparatorNeeded(last, current)
    ensures var (a1, o1) := InsertEmpty(arg, last, current, out);
      InsertEmpty(a1, last, current, o1).1 ==
        out + Concat(arg.prefix) + arg.newline + Concat(arg.follow) + arg.newline
  {
  }
}

=== FILE: md_item.dfy ===
/**
 * The list-item parser of the markdown editor example (`examples/mdedit_parts/markdown.rs`).
 * The line is scanned byte by byte in the source and is modelled as a
 * string with one character per byte.
 */
module MarkdownItem {
  import opened Util


  predicate IsBullet(c: char) { c == '+' || c == '-' || c == '*' }

  /** Where the item scan is: before the mark, inside a number, or before the text. */
  datatype ItemState = ItemLeading | ItemOrderedMark | ItemTextLeading

  /** The variables of the scan in `parse_md_item`. */
  datatype ItemScan = ItemScan(
    state: ItemState, markStart: nat, markEnd: nat,
    bullet: Option<string>, ordered: Option<string>, suffix: Option<string>, nr: Option<nat>,
    textStart: nat, textEnd: nat, text: Option<string>)

  const ITEM_START := ItemScan(ItemLeading, 0, 0, None, None, None, None, 0, 0, None)

  /**
   * What the scan keeps consistent: a bullet is one character and goes
   * without a suffix; an ordered mark is digits with its value and a
   * one-character suffix; the text is a tail of the line.
   */
  predicate ItemScanCoherent(txt: string, s: ItemScan)
  {
    (s.bullet.Some? ==> |s.bullet.value| == 1 && IsBullet(s.bullet.value[0]) && s.ordered.None? && s.suffix.None?) &&
    (s.ordered.Some? <==> s.suffix.Some?) && (s.nr.Some? <==> s.suffix.Some?) &&
    (s.ordered.Some? ==>
      |s.ordered.value| > 0 && AllDigits(s.ordered.value) && s.nr == Some(DigitsValue(s.ordered.value)) &&
      DigitsValue(s.ordered.value) < USIZE_LIMIT && |s.suffix.value| == 1) &&
    (s.text.Some? ==> s.textStart <= |txt| && s.text.value == txt[s.textStart..])
  }

  /** The scan may stand at `idx` in state `s`. */
  predicate ItemScanAt(txt: string, idx: nat, s: ItemScan)
  {
    idx <= |txt| && s.markStart <= idx && ItemScanCoherent(txt, s) && s.text.None? &&
    (s.state != ItemTextLeading ==> s.bullet.None? && s.ordered.None? && s.suffix.None? && s.nr.None?) &&
    (s.state == ItemOrderedMark ==> s.markStart < idx && AllDigits(txt[s.markStart..idx]))
  }

  /**
   * The loop of `parse_md_item` from byte `idx` on. `None` is the panic of
   * the number parse, which fails only for a number past the `usize` range.
   */
  function ScanItem(txt: string, idx: nat, s: ItemScan): (r: Option<ItemScan>)
    requires ItemScanAt(txt, idx, s)
    ensures r.Some? ==> ItemScanCoherent(txt, r.value)
    decreases |txt| - idx
  {
    if idx == |txt| then Some(s)
    else
      var c := txt[idx];
      match s.state
      case ItemLeading =>
        if IsBullet(c) then
          ScanItem(txt, idx + 1, s.(state := ItemTextLeading, markStart := idx, markEnd := idx + 1, bullet := Some([c])))
        else if IsDigit(c) then
          ScanItem(txt, idx + 1, s.(state := ItemOrderedMark, markStart := idx))
        else if IsBlank(c) then ScanItem(txt, idx + 1, s)
        else ScanItem(txt, idx + 1, s.(state := ItemTextLeading, textStart := idx))
      case ItemOrderedMark =>
        if IsDigit(c) then
          assert txt[s.markStart..idx + 1] == txt[s.markStart..idx] + [c];
          ScanItem(txt, idx + 1, s)
        else if c == '.' || c == ')' then
          var digits := txt[s.markStart..idx];
          match ParseUsize(digits)
          case None => None
          case Some(n) =>
            ScanItem(txt, idx + 1, s.(state := ItemTextLeading, markEnd := idx + 1,
                                     ordered := Some(digits), nr := Some(n), suffix := Some([c])))
        else ScanItem(txt, idx + 1, s.(state := ItemTextLeading, textStart := idx))
      case ItemTextLeading =>
        if IsBlank(c) then ScanItem(txt, idx + 1, s)
        else Some(s.(textStart := idx, textEnd := |txt|, text := Some(txt[idx..])))
  }

  /** A parsed list item; byte ranges are shifted by the start of the line. */
  datatype MDItem = MDItem(
    markBytes: (nat, nat), mark: string, markSuffix: string, markNr: Option<nat>,
    textBytes: (nat, nat), text: string)

  /**
   * `parse_md_item`: the bullet or the number of a list item and the text
   * after it. `None` stands for the panic on a number too large for `usize`.
   */
  function ParseMdItem(start: nat, txt: string): (r: Option<MDItem>)
    ensures r.Some? ==> (r.value.markNr.Some? <==> r.value.markSuffix != "")
    ensures r.Some? && r.value.markNr.Some? ==>
      |r.value.mark| > 0 && AllDigits(r.value.mark) && r.value.markNr.value == DigitsValue(r.value.mark) &&
      r.value.markNr.value < USIZE_LIMIT && |r.value.markSuffix| == 1
    ensures r.Some? && r.value.markNr.None? && r.value.mark != "" ==> |r.value.mark| == 1 && IsBullet(r.value.mark[0])
    ensures r.Some? ==> r.value.markBytes.0 >= start && r.value.textBytes.0 >= start
    ensures r.Some? ==> |r.value.text| <= |txt| && r.value.text == txt[|txt| - |r.value.text|..]
  {
    match ScanItem(txt, 0, ITEM_START)
    case None => None
    case Some(s) =>
      Some(MDItem(
        (start + s.markStart, start + s.markEnd),
        if s.bullet.Some? then s.bullet.value else if s.ordered.Some? then s.ordered.value else "",
        if s.suffix.Some? then s.suffix.value else "",
        s.nr,
        (start + s.textStart, start + s.textEnd),
        if s.text.Some? then s.text.value else ""))
  }

  /** A list item line as written: indent, mark, suffix, blanks, text. */
  datatype ItemLine = ItemLine(lead: string, mark: string, suffix: string, gap: string, text: string)

  /** A bullet, or a `usize` number followed by '.' or ')'; the text starts at a non-blank. */
  predicate WellFormedItem(it: ItemLine)
  {
    AllBlank(it.lead) && AllBlank(it.gap) && (it.text == "" || !IsBlank(it.text[0])) &&
    ((|it.mark| == 1 && IsBullet(it.mark[0]) && it.suffix == "") ||
     (|it.mark| > 0 && AllDigits(it.mark) && DigitsValue(it.mark) < USIZE_LIMIT &&
      (it.suffix == "." || it.suffix == ")")))
  }

  function RenderItem(it: ItemLine): string
  {
    it.lead + (it.mark + (it.suffix + (it.gap + it.text)))
  }

  /** Blanks before the mark or before the text change nothing. */
  lemma {:induction false} ItemSkipBlanks(txt: string, idx: nat, j: nat, s: ItemScan)
    requires ItemScanAt(txt, idx, s) && idx <= j <= |txt|
    requires s.state == ItemLeading || s.state == ItemTextLeading
    requires forall i :: idx <= i < j ==> IsBlank(txt[i])
    ensures ItemScanAt(txt, j, s) && ScanItem(txt, idx, s) == ScanItem(txt, j, s)
    decreases j - idx
  {
    if idx < j {
      assert !IsBullet(txt[idx]) && !IsDigit(txt[idx]);
      ItemSkipBlanks(txt, idx + 1, j, s);
    }
  }

  /** Further digits of a number change nothing. */
  lemma {:induction false} ItemSkipDigits(txt: string, idx: nat, j: nat, s: ItemScan)
    requires ItemScanAt(txt, idx, s) && idx <= j <= |txt| && s.state == ItemOrderedMark
    requires forall i :: idx <= i < j ==> IsDigit(txt[i])
    ensures ItemScanAt(txt, j, s) && ScanItem(txt, idx, s) == ScanItem(txt, j, s)
    decreases j - idx
  {
    if idx < j {
      assert txt[s.markStart..idx + 1] == txt[s.markStart..idx] + [txt[idx]];
      ItemSkipDigits(txt, idx + 1, j, s);
    }
  }

  /** The text part: skip the blanks, then take the rest of the line. */
  lemma ItemTextPart(txt: string, idx: nat, it: ItemLine, s: ItemScan)
    requires WellFormedItem(it) && ItemScanAt(txt, idx, s) && s.state == ItemTextLeading
    requires txt[idx..] == it.gap + it.text
    ensures var t := idx + |it.gap|;
      ScanItem(txt, idx, s) ==
        if it.text == "" then Some(s) else Some(s.(textStart := t, textEnd := |txt|, text := Some(it.text)))
  {
    var t := idx + |it.gap|;
    forall i | idx <= i < t ensures IsBlank(txt[i]) {
      assert txt[i] == txt[idx..][i - idx] == it.gap[i - idx];
    }
    ItemSkipBlanks(txt, idx, t, s);
    assert txt[t..] == it.text;
    if it.text != "" {
      assert txt[t] == it.text[0];
    }
  }

  /** The scan after the indent of an item line: still before the mark. */
  lemma ItemLeadPart(it: ItemLine)
    requires WellFormedItem(it)
    ensures ItemScanAt(RenderItem(it), |it.lead|, ITEM_START)
    ensures ScanItem(RenderItem(it), 0, ITEM_START) == ScanItem(RenderItem(it), |it.lead|, ITEM_START)
  {
    var txt := RenderItem(it);
    forall i | 0 <= i < |it.lead| ensures IsBlank(txt[i]) {
      assert txt[i] == it.lead[i];
    }
    ItemSkipBlanks(txt, 0, |it.lead|, ITEM_START);
  }

  /** The scan of a bulleted item line. */
  lemma ScanBulletItem(it: ItemLine)
    requires WellFormedItem(it) && it.suffix == ""
    ensures var txt := RenderItem(it);
      var m := |it.lead|;
      var s1 := ITEM_START.(state := ItemTextLeading, markStart := m, markEnd := m + 1, bullet := Some(it.mark));
      ScanItem(txt, 0, ITEM_START) ==
        if it.text == "" then Some(s1)
        else Some(s1.(textStart := |txt| - |it.text|, textEnd := |txt|, text := Some(it.text)))
  {
    var txt := RenderItem(it);
    var m := |it.lead|;
    ItemLeadPart(it);
    var c := it.mark[0];
    assert txt[m] == c && [c] == it.mark;
    var s1 := ITEM_START.(state := ItemTextLeading, markStart := m, markEnd := m + 1, bullet := Some(it.mark));
    assert ScanItem(txt, m, ITEM_START) == ScanItem(txt, m + 1, s1);
    assert txt[m + 1..] == it.gap + it.text;
    ItemTextPart(txt, m + 1, it, s1);
  }

  /** The pieces of a rendered item line. */
  lemma ItemPieces(it: ItemLine)
    ensures var txt := RenderItem(it);
      var m := |it.lead|; var e := m + |it.mark|; var f := e + |it.suffix|;
      f <= |txt| && txt[m..e] == it.mark && txt[e..f] == it.suffix && txt[f..] == it.gap + it.text
  {
    var txt := RenderItem(it);
    var m := |it.lead|;
    var e := m + |it.mark|;
    assert txt[0..] == txt;
    SplitTail(txt, 0, it.lead, it.mark + (it.suffix + (it.gap + it.text)));
    SplitTail(txt, m, it.mark, it.suffix + (it.gap + it.text));
    SplitTail(txt, e, it.suffix, it.gap + it.text);
  }

  /** A digit before the mark starts a number. */
  lemma ItemDigitStart(txt: string, m: nat, s: ItemScan)
    requires ItemScanAt(txt, m, s) && s.state == ItemLeading && m < |txt| && IsDigit(txt[m])
    ensures var s' := s.(state := ItemOrderedMark, markStart := m);
      ItemScanAt(txt, m + 1, s') && ScanItem(txt, m, s) == ScanItem(txt, m + 1, s')
  {
    assert txt[m..m + 1] == [txt[m]];
  }

  /** The digits of a number: the scan moves to the suffix, inside the number. */
  lemma ItemDigitsPart(it: ItemLine)
    requires WellFormedItem(it) && it.suffix != ""
    ensures var txt := RenderItem(it);
      var m := |it.lead|;
      var s1 := ITEM_START.(state := ItemOrderedMark, markStart := m);
      ItemScanAt(txt, m, ITEM_START) && ItemScanAt(txt, m + |it.mark|, s1) &&
      ScanItem(txt, m, ITEM_START) == ScanItem(txt, m + |it.mark|, s1)
  {
    var txt := RenderItem(it);
    var m := |it.lead|;
    var e := m + |it.mark|;
    ItemLeadPart(it);
    ItemPieces(it);
    assert txt[m] == txt[m..e][0] == it.mark[0] && IsDigit(it.mark[0]);
    var s1 := ITEM_START.(state := ItemOrderedMark, markStart := m);
    ItemDigitStart(txt, m, ITEM_START);
    forall i | m + 1 <= i < e ensures IsDigit(txt[i]) {
      assert txt[i] == txt[m..e][i - m] == it.mark[i - m];
    }
    ItemSkipDigits(txt, m + 1, e, s1);
  }

  /** A '.' or ')' after digits that parse ends the number. */
  lemma ItemSuffixStep(txt: string, e: nat, s: ItemScan, n: nat)
    requires ItemScanAt(txt, e, s) && s.state == ItemOrderedMark && e < |txt| && (txt[e] == '.' || txt[e] == ')')
    requires ParseUsize(txt[s.markStart..e]) == Some(n)
    ensures var s' := s.(state := ItemTextLeading, markEnd := e + 1, ordered := Some(txt[s.markStart..e]),
                         nr := Some(n), suffix := Some([txt[e]]));
      ItemScanAt(txt, e + 1, s') && ScanItem(txt, e, s) == ScanItem(txt, e + 1, s')
  {
    var d := txt[s.markStart..e];
    assert IsDigit(d[0]) && d[0] != '+';
    assert n == DigitsValue(d);
  }

  /** The number and its suffix: the scan moves past them, recording both. */
  lemma ItemNumberPart(it: ItemLine)
    requires WellFormedItem(it) && it.suffix != ""
    ensures var txt := RenderItem(it);
      var m := |it.lead|;
      var e := m + |it.mark|;
      var s2 := ITEM_START.(state := ItemTextLeading, markStart := m, markEnd := e + 1,
                            ordered := Some(it.mark), nr := Some(DigitsValue(it.mark)), suffix := Some(it.suffix));
      ItemScanAt(txt, m, ITEM_START) && ItemScanAt(txt, e + 1, s2) &&
      ScanItem(txt, m, ITEM_START) == ScanItem(txt, e + 1, s2)
  {
    var txt := RenderItem(it);
    var m := |it.lead|;
    var e := m + |it.mark|;
    ItemDigitsPart(it);
    ItemPieces(it);
    var s1 := ITEM_START.(state := ItemOrderedMark, markStart := m);
    assert txt[e] == txt[e..e + 1][0] == it.suffix[0] && [txt[e]] == it.suffix;
    assert it.mark[0] != '+';
    assert ParseUsize(it.mark) == Some(DigitsValue(it.mark));
    ItemSuffixStep(txt, e, s1, DigitsValue(it.mark));
  }

  /** The scan of a numbered item line. */
  lemma ScanOrderedItem(it: ItemLine)
    requires WellFormedItem(it) && it.suffix != ""
    ensures var txt := RenderItem(it);
      var m := |it.lead|;
      var s2 := ITEM_START.(state := ItemTextLeading, markStart := m, markEnd := m + |it.mark| + 1,
                            ordered := Some(it.mark), nr := Some(DigitsValue(it.mark)), suffix := Some(it.suffix));
      ScanItem(txt, 0, ITEM_START) ==
        if it.text == "" then Some(s2)
        else Some(s2.(textStart := |txt| - |it.text|, textEnd := |txt|, text := Some(it.text)))
  {
    var txt := RenderItem(it);
    var m := |it.lead|;
    var e := m + |it.mark|;
    ItemLeadPart(it);
    ItemNumberPart(it);
    var s2 := ITEM_START.(state := ItemTextLeading, markStart := m, markEnd := e + 1,
                          ordered := Some(it.mark), nr := Some(DigitsValue(it.mark)), suffix := Some(it.suffix));
    ItemPieces(it);
    ItemTextPart(txt, e + 1, it, s2);
  }

  /** Parsing a well-formed item line gives back its parts. */
  lemma ParseRenderedItem(start: nat, it: ItemLine)
    requires WellFormedItem(it)
    ensures var txt := RenderItem(it);
      var m := |it.lead|;
      ParseMdItem(start, txt) == Some(MDItem(
        (start + m, start + m + |it.mark| + |it.suffix|), it.mark, it.suffix,
        if it.suffix == "" then None else Some(DigitsValue(it.mark)),
        if it.text == "" then (start, start) else (start + |txt| - |it.text|, start + |txt|),
        it.text))
  {
    if it.suffix == "" {
      ScanBulletItem(it);
    } else {
      ScanOrderedItem(it);
    }
  }
}

=== FILE: md_line.dfy ===
/**
 * Lines of the markdown editor example (`examples/mdedit_parts/markdown.rs`) as graphemes. A
 * grapheme is a string; how a text is cut into graphemes is not part of
 * this model.
 */
module MarkdownLine {
  type Grapheme = string

  predicate IsLineBreak(g: Grapheme) { g == "\n" || g == "\r\n" }

  /** `str_line_len`: the number of graphemes that are not a line break. */
  function StrLineLen(g: seq<Grapheme>): (r: nat)
    ensures r <= |g|
    ensures r == |g| <==> forall i :: 0 <= i < |g| ==> !IsLineBreak(g[i])
  {
    if |g| == 0 then 0
    else StrLineLen(g[..|g| - 1]) + (if IsLineBreak(g[|g| - 1]) then 0 else 1)
  }

  /** The length of two pieces of a line is the sum of their lengths. */
  lemma {:induction false} StrLineLenAppend(a: seq<Grapheme>, b: seq<Grapheme>)
    ensures StrLineLen(a + b) == StrLineLen(a) + StrLineLen(b)
    decreases |b|
  {
    if |b| > 0 {
      var b' := b[..|b| - 1];
      assert (a + b)[..|a + b| - 1] == a + b';
      StrLineLenAppend(a, b');
    } else {
      assert a + b == a;
    }
  }
}

=== FILE: md_quote.dfy ===
/**
 * The block-quote parser of the markdown editor example (`examples/mdedit_parts/markdown.rs`),
 * which joins the lines of a quote into one line of text. The quote is
 * scanned byte by byte in the source and is modelled as a string with one
 * character per byte.
 */
module MarkdownQuote {
  import opened Util


  predicate IsBreak(c: char) { c == '\n' || c == '\r' }

  predicate NoBreaks(s: string) { forall i :: 0 <= i < |s| ==> !IsBreak(s[i]) }

  /** Where the quote scan is within a line. */
  datatype QuoteState = QuoteLeading | QuoteTextLeading | QuoteText | QuoteNewLine

  /** The variables of the scan in `parse_md_block_quote`. */
  datatype QuoteScan = QuoteScan(state: QuoteState, textStartByte: nat, textLineByte: nat, text: string)

  const QUOTE_START := QuoteScan(QuoteLeading, 0, 0, "")

  /**
   * One byte of the quote scan. With `fixed` false this is the loop body as
   * written; with `fixed` true a line break met before any text on its line
   * ends the line instead of being copied into the text.
   */
  function QuoteStep(s: QuoteScan, idx: nat, c: char, fixed: bool): QuoteScan
  {
    var startText := s.(textLineByte := idx, text := s.text + [c], state := QuoteText);
    match s.state
    case QuoteLeading =>
      if c == '>' then s.(state := QuoteTextLeading)
      else if IsBlank(c) then s
      else if fixed && IsBreak(c) then s.(state := QuoteNewLine)
      else startText
    case QuoteTextLeading =>
      if IsBlank(c) then s
      else if fixed && IsBreak(c) then s.(state := QuoteNewLine)
      else startText
    case QuoteText =>
      if IsBreak(c) then
        s.(textStartByte := if s.textStartByte == 0 then s.textLineByte else s.textStartByte,
           text := s.text + [' '], state := QuoteNewLine)
      else s.(text := s.text + [c])
    case QuoteNewLine =>
      if IsBreak(c) then s
      else if IsBlank(c) then s.(state := QuoteLeading)
      else if c == '>' then s.(state := QuoteTextLeading)
      else startText
  }

  /**
   * The quote scan over `txt`, whose first byte is byte `idx` of the
   * quote.
   */
  function ScanQuote(txt: string, idx: nat, s: QuoteScan, fixed: bool): QuoteScan
    decreases |txt|
  {
    if |txt| == 0 then s
    else ScanQuote(txt[1..], idx + 1, QuoteStep(s, idx, txt[0], fixed), fixed)
  }

  /** Scanning two texts one after the other is scanning their concatenation. */
  lemma {:induction false} ScanQuoteAppend(a: string, b: string, idx: nat, s: QuoteScan, fixed: bool)
    ensures ScanQuote(a + b, idx, s, fixed) == ScanQuote(b, idx + |a|, ScanQuote(a, idx, s, fixed), fixed)
    decreases |a|
  {
    if |a| == 0 {
      assert a + b == b;
    } else {
      assert (a + b)[0] == a[0] && (a + b)[1..] == a[1..] + b;
      ScanQuoteAppend(a[1..], b, idx + 1, QuoteStep(s, idx, a[0], fixed), fixed);
    }
  }

  /**
   * Each byte adds at most one character to the text, and the corrected
   * scan never adds a line break.
   */
  lemma {:induction false} ScanQuoteText(txt: string, idx: nat, s: QuoteScan, fixed: bool)
    ensures |ScanQuote(txt, idx, s, fixed).text| <= |s.text| + |txt|
    ensures fixed && NoBreaks(s.text) ==> NoBreaks(ScanQuote(txt, idx, s, fixed).text)
    decreases |txt|
  {
    if |txt| > 0 {
      ScanQuoteText(txt[1..], idx + 1, QuoteStep(s, idx, txt[0], fixed), fixed);
    }
  }

  /** A parsed block quote: where its text starts and the text on one line. */
  datatype MDBlockQuote = MDBlockQuote(textStartByte: nat, text: string)

  /**
   * `parse_md_block_quote` as written: the quote's text with the markers
   * and indents dropped and every run of line breaks after text turned
   * into one space. The start is recorded at the first line break after
   * text; without one it stays at `start`.
   */
  function ParseMdBlockQuote(start: nat, txt: string): (r: MDBlockQuote)
    ensures |r.text| <= |txt|
    ensures r.textStartByte >= start
  {
    var s := ScanQuote(txt, 0, QUOTE_START, false);
    ScanQuoteText(txt, 0, QUOTE_START, false);
    MDBlockQuote(start + s.textStartByte, s.text)
  }

  /** `parse_md_block_quote` with a line holding only markers and blanks skipped. */
  function ParseMdBlockQuoteFixed(start: nat, txt: string): (r: MDBlockQuote)
    ensures |r.text| <= |txt|
    ensures NoBreaks(r.text)
    ensures r.textStartByte >= start
  {
    var s := ScanQuote(txt, 0, QUOTE_START, true);
    ScanQuoteText(txt, 0, QUOTE_START, true);
    MDBlockQuote(start + s.textStartByte, s.text)
  }

  /**
   * An empty quoted line between two quoted lines: as written its line break
   * and the next line's marker end up in the reflowed text.
   */
  lemma EmptyQuoteLineKeepsBreak(txt: string)
    requires txt == "> a\n>\n> b\n"
    ensures ParseMdBlockQuote(0, txt) == MDBlockQuote(2, "a \n> b ")
  {
    var a := QuoteLine("", " ", "a", "\n");
    var s4 := AfterQuoteLine(0, a, QUOTE_START);
    var s6 := QuoteScan(QuoteText, 2, 5, "a \n");
    assert txt == RenderQuoteLine(a) + (">\n" + ("> b" + "\n"));
    ScanQuoteAppend(RenderQuoteLine(a), ">\n" + ("> b" + "\n"), 0, QUOTE_START, false);
    QuoteLinePart(a, 0, QUOTE_START, false);
    ScanQuoteAppend(">\n", "> b" + "\n", 4, s4, false);
    assert ScanQuote(">\n", 4, s4, false) == s6;
    ScanQuoteAppend("> b", "\n", 6, s6, false);
    QuoteSkipText("> b", 6, s6, false);
    assert ScanQuote("\n", 9, s6.(text := "a \n> b"), false) == QuoteScan(QuoteNewLine, 2, 5, "a \n> b ");
  }

  /** The corrected scan skips the empty quoted line. */
  lemma EmptyQuoteLineSkipped(txt: string)
    requires txt == "> a\n>\n> b\n"
    ensures ParseMdBlockQuoteFixed(0, txt) == MDBlockQuote(2, "a b ")
  {
    var a := QuoteLine("", " ", "a", "\n");
    var b := QuoteLine("", " ", "b", "\n");
    var s4 := AfterQuoteLine(0, a, QUOTE_START);
    assert txt == RenderQuoteLine(a) + (">\n" + RenderQuoteLine(b));
    ScanQuoteAppend(RenderQuoteLine(a), ">\n" + RenderQuoteLine(b), 0, QUOTE_START, true);
    QuoteLinePart(a, 0, QUOTE_START, true);
    ScanQuoteAppend(">\n", RenderQuoteLine(b), 4, s4, true);
    assert ScanQuote(">\n", 4, s4, true) == s4;
    QuoteLinePart(b, 6, s4, true);
  }

  /** A quoted line: indent, marker, blanks, text, line breaks. */
  datatype QuoteLine = QuoteLine(lead: string, gap: string, text: string, brk: string)

  predicate WellFormedQuoteLine(l: QuoteLine)
  {
    AllBlank(l.lead) && AllBlank(l.gap) && |l.text| > 0 && !IsBlank(l.text[0]) && NoBreaks(l.text) &&
    |l.brk| > 0 && forall i :: 0 <= i < |l.brk| ==> IsBreak(l.brk[i])
  }

  function RenderQuoteLine(l: QuoteLine): string
  {
    (l.lead + ">") + l.gap + (l.text + l.brk)
  }

  function RenderQuote(lines: seq<QuoteLine>): string
  {
    if |lines| == 0 then "" else RenderQuoteLine(lines[0]) + RenderQuote(lines[1..])
  }

  /** The lines' texts, each followed by one space. */
  function QuotedText(lines: seq<QuoteLine>): string
  {
    if |lines| == 0 then "" else lines[0].text + " " + QuotedText(lines[1..])
  }

  /**
   * The scan after one quoted line read from `idx`: the line's text and a
   * space added, and the text start recorded at the first such line.
   */
  function AfterQuoteLine(idx: nat, l: QuoteLine, s: QuoteScan): QuoteScan
  {
    var p := idx + |l.lead| + 1 + |l.gap|;
    QuoteScan(QuoteNewLine, if s.textStartByte == 0 then p else s.textStartByte, p, s.text + l.text + " ")
  }

  /** Blanks before the marker or before the text change nothing. */
  lemma {:induction false} QuoteSkipBlanks(txt: string, idx: nat, s: QuoteScan, fixed: bool)
    requires AllBlank(txt) && (s.state == QuoteLeading || s.state == QuoteTextLeading)
    ensures ScanQuote(txt, idx, s, fixed) == s
    decreases |txt|
  {
    if |txt| > 0 {
      assert IsBlank(txt[0]);
      assert AllBlank(txt[1..]) by {
        forall i | 0 <= i < |txt[1..]| ensures IsBlank(txt[1..][i]) {
          assert txt[1..][i] == txt[i + 1];
        }
      }
      QuoteSkipBlanks(txt[1..], idx + 1, s, fixed);
    }
  }

  /** Text without line breaks is copied. */
  lemma {:induction false} QuoteSkipText(txt: string, idx: nat, s: QuoteScan, fixed: bool)
    requires NoBreaks(txt) && s.state == QuoteText
    ensures ScanQuote(txt, idx, s, fixed) == s.(text := s.text + txt)
    decreases |txt|
  {
    if |txt| > 0 {
      assert !IsBreak(txt[0]);
      assert NoBreaks(txt[1..]) by {
        forall i | 0 <= i < |txt[1..]| ensures !IsBreak(txt[1..][i]) {
          assert txt[1..][i] == txt[i + 1];
        }
      }
      var s' := s.(text := s.text + [txt[0]]);
      QuoteSkipText(txt[1..], idx + 1, s', fixed);
      assert s'.text + txt[1..] == s.text + txt;
    } else {
      assert s.text + txt == s.text;
    }
  }

  /** Further line breaks change nothing. */
  lemma {:induction false} QuoteSkipBreaks(txt: string, idx: nat, s: QuoteScan, fixed: bool)
    requires (forall i :: 0 <= i < |txt| ==> IsBreak(txt[i])) && s.state == QuoteNewLine
    ensures ScanQuote(txt, idx, s, fixed) == s
    decreases |txt|
  {
    if |txt| > 0 {
      assert IsBreak(txt[0]);
      forall i | 0 <= i < |txt[1..]| ensures IsBreak(txt[1..][i]) {
        assert txt[1..][i] == txt[i + 1];
      }
      QuoteSkipBreaks(txt[1..], idx + 1, s, fixed);
    }
  }

  /** The indent and the marker: afterwards the scan waits for the text. */
  lemma QuoteMarkerPart(l: QuoteLine, idx: nat, s: QuoteScan, fixed: bool)
    requires WellFormedQuoteLine(l)
    requires s.state == QuoteLeading || s.state == QuoteNewLine
    ensures ScanQuote(l.lead + ">", idx, s, fixed) == s.(state := QuoteTextLeading)
  {
    var m := idx + |l.lead|;
    ScanQuoteAppend(l.lead, ">", idx, s, fixed);
    if s.state == QuoteLeading {
      QuoteSkipBlanks(l.lead, idx, s, fixed);
    } else if |l.lead| > 0 {
      var s1 := s.(state := QuoteLeading);
      assert IsBlank(l.lead[0]);
      assert ScanQuote(l.lead, idx, s, fixed) == ScanQuote(l.lead[1..], idx + 1, s1, fixed);
      forall i | 0 <= i < |l.lead[1..]| ensures IsBlank(l.lead[1..][i]) {
        assert l.lead[1..][i] == l.lead[i + 1];
      }
      QuoteSkipBlanks(l.lead[1..], idx + 1, s1, fixed);
    }
  }

  /** The text and the line breaks of a line: the text and one space are added. */
  lemma QuoteTextPart(l: QuoteLine, p: nat, s: QuoteScan, fixed: bool)
    requires WellFormedQuoteLine(l)
    requires s.state == QuoteTextLeading
    ensures ScanQuote(l.text + l.brk, p, s, fixed) ==
      QuoteScan(QuoteNewLine, if s.textStartByte == 0 then p else s.textStartByte, p, s.text + l.text + " ")
  {
    ScanQuoteAppend(l.text, l.brk, p, s, fixed);
    var s1 := s.(textLineByte := p, text := s.text + [l.text[0]], state := QuoteText);
    assert ScanQuote(l.text, p, s, fixed) == ScanQuote(l.text[1..], p + 1, s1, fixed);
    forall i | 0 <= i < |l.text[1..]| ensures !IsBreak(l.text[1..][i]) {
      assert l.text[1..][i] == l.text[i + 1];
    }
    QuoteSkipText(l.text[1..], p + 1, s1, fixed);
    assert s1.text + l.text[1..] == s.text + l.text;
    var s2 := s1.(text := s.text + l.text);
    var s3 := QuoteScan(QuoteNewLine, if s.textStartByte == 0 then p else s.textStartByte, p, s.text + l.text + " ");
    assert IsBreak(l.brk[0]);
    assert ScanQuote(l.brk, p + |l.text|, s2, fixed) == ScanQuote(l.brk[1..], p + |l.text| + 1, s3, fixed);
    forall i | 0 <= i < |l.brk[1..]| ensures IsBreak(l.brk[1..][i]) {
      assert l.brk[1..][i] == l.brk[i + 1];
    }
    QuoteSkipBreaks(l.brk[1..], p + |l.text| + 1, s3, fixed);
  }

  /** One whole quoted line. */
  lemma QuoteLinePart(l: QuoteLine, idx: nat, s: QuoteScan, fixed: bool)
    requires WellFormedQuoteLine(l)
    requires s.state == QuoteLeading || s.state == QuoteNewLine
    ensures ScanQuote(RenderQuoteLine(l), idx, s, fixed) == AfterQuoteLine(idx, l, s)
  {
    var m := l.lead + ">";
    var p := idx + |m| + |l.gap|;
    ScanQuoteAppend(m + l.gap, l.text + l.brk, idx, s, fixed);
    ScanQuoteAppend(m, l.gap, idx, s, fixed);
    QuoteMarkerPart(l, idx, s, fixed);
    var s1 := s.(state := QuoteTextLeading);
    QuoteSkipBlanks(l.gap, idx + |m|, s1, fixed);
    QuoteTextPart(l, p, s1, fixed);
  }

  /** Line `i` of `lines` is a well-formed quoted line. */
  predicate QuoteLineAt(lines: seq<QuoteLine>, i: nat)
    requires i < |lines|
  {
    WellFormedQuoteLine(lines[i])
  }

  /** The scan after the quoted lines `lines` read from byte `idx`. */
  function AfterQuoteLines(idx: nat, lines: seq<QuoteLine>, s: QuoteScan): QuoteScan
    decreases |lines|
  {
    if |lines| == 0 then s
    else AfterQuoteLines(idx + |RenderQuoteLine(lines[0])|, lines[1..], AfterQuoteLine(idx, lines[0], s))
  }

  /** What the quoted lines leave behind: their texts, and the start of the first. */
  lemma {:induction false} AfterQuoteLinesText(idx: nat, lines: seq<QuoteLine>, s: QuoteScan)
    ensures var r := AfterQuoteLines(idx, lines, s);
      r.text == s.text + QuotedText(lines) &&
      r.textStartByte ==
        if s.textStartByte != 0 || |lines| == 0 then s.textStartByte
        else idx + |lines[0].lead| + 1 + |lines[0].gap|
    decreases |lines|
  {
    if |lines| > 0 {
      var s1 := AfterQuoteLine(idx, lines[0], s);
      AfterQuoteLinesText(idx + |RenderQuoteLine(lines[0])|, lines[1..], s1);
      assert s1.text + QuotedText(lines[1..]) == s.text + QuotedText(lines);
    }
  }

  /** All quoted lines from byte `idx` on, one after the other. */
  lemma {:induction false} QuoteLinesPart(lines: seq<QuoteLine>, idx: nat, s: QuoteScan, fixed: bool)
    requires forall i :: 0 <= i < |lines| ==> QuoteLineAt(lines, i)
    requires s.state == QuoteLeading || s.state == QuoteNewLine
    ensures ScanQuote(RenderQuote(lines), idx, s, fixed) == AfterQuoteLines(idx, lines, s)
    decreases |lines|
  {
    if |lines| > 0 {
      var l := lines[0];
      assert QuoteLineAt(lines, 0);
      ScanQuoteAppend(RenderQuoteLine(l), RenderQuote(lines[1..]), idx, s, fixed);
      QuoteLinePart(l, idx, s, fixed);
      forall i | 0 <= i < |lines[1..]| ensures QuoteLineAt(lines[1..], i) {
        assert QuoteLineAt(lines, i + 1);
      }
      QuoteLinesPart(lines[1..], idx + |RenderQuoteLine(l)|, AfterQuoteLine(idx, l, s), fixed);
    }
  }

  /**
   * A block quote of well-formed lines parses, as written and corrected
   * alike, to the lines' texts joined by spaces, with the text starting
   * after the first line's marker and blanks.
   */
  lemma ParseRenderedQuote(start: nat, lines: seq<QuoteLine>)
    requires forall i :: 0 <= i < |lines| ==> QuoteLineAt(lines, i)
    ensures var expected := MDBlockQuote(
        if |lines| == 0 then start else start + |lines[0].lead| + 1 + |lines[0].gap|, QuotedText(lines));
      ParseMdBlockQuote(start, RenderQuote(lines)) == expected &&
      ParseMdBlockQuoteFixed(start, RenderQuote(lines)) == expected
  {
    QuoteLinesPart(lines, 0, QUOTE_START, false);
    QuoteLinesPart(lines, 0, QUOTE_START, true);
    AfterQuoteLinesText(0, lines, QUOTE_START);
  }
}

=== FILE: md_style.dfy ===
/**
 * The markdown styles of the editor example (`examples/mdedit_parts/markdown.rs`): the styles the
 * parser attaches to ranges of text and their numbering, which is how
 * they are stored in the text area.
 */
module MarkdownStyle {
  import opened Util


  /** The styles the markdown parser attaches to ranges of text. */
  datatype MDStyle =
    | Heading1 | Heading2 | Heading3 | Heading4 | Heading5 | Heading6
    | Paragraph | BlockQuote | CodeBlock | MathDisplay | Rule | Html
    | Link | LinkDef | Image | FootnoteDefinition | FootnoteReference
    | List | Item | TaskListMarker | ItemTag | DefinitionList | DefinitionListTitle | DefinitionListDefinition
    | Table | TableHead | TableRow | TableCell
    | Emphasis | Strong | Strikethrough | CodeInline | MathInline
    | MetadataBlock

  const STYLE_COUNT: nat := 34

  /** `usize::from(style)`: the discriminant, counted in declaration order from 0. */
  function StyleIndex(s: MDStyle): (r: nat)
    ensures r < STYLE_COUNT
  {
    match s
    case Heading1 => 0 case Heading2 => 1 case Heading3 => 2
    case Heading4 => 3 case Heading5 => 4 case Heading6 => 5
    case Paragraph => 6 case BlockQuote => 7 case CodeBlock => 8
    case MathDisplay => 9 case Rule => 10 case Html => 11
    case Link => 12 case LinkDef => 13 case Image => 14
    case FootnoteDefinition => 15 case FootnoteReference => 16
    case List => 17 case Item => 18 case TaskListMarker => 19 case ItemTag => 20
    case DefinitionList => 21 case DefinitionListTitle => 22 case DefinitionListDefinition => 23
    case Table => 24 case TableHead => 25 case TableRow => 26 case TableCell => 27
    case Emphasis => 28 case Strong => 29 case Strikethrough => 30
    case CodeInline => 31 case MathInline => 32
    case MetadataBlock => 33
  }

  /** The style with discriminant `i`. */
  function StyleAt(i: nat): MDStyle
    requires i < STYLE_COUNT
  {
    match i
    case 0 => Heading1 case 1 => Heading2 case 2 => Heading3
    case 3 => Heading4 case 4 => Heading5 case 5 => Heading6
    case 6 => Paragraph case 7 => BlockQuote case 8 => CodeBlock
    case 9 => MathDisplay case 10 => Rule case 11 => Html
    case 12 => Link case 13 => LinkDef case 14 => Image
    case 15 => FootnoteDefinition case 16 => FootnoteReference
    case 17 => List case 18 => Item case 19 => TaskListMarker case 20 => ItemTag
    case 21 => DefinitionList case 22 => DefinitionListTitle case 23 => DefinitionListDefinition
    case 24 => Table case 25 => TableHead case 26 => TableRow case 27 => TableCell
    case 28 => Emphasis case 29 => Strong case 30 => Strikethrough
    case 31 => CodeInline case 32 => MathInline
    case 33 => MetadataBlock
  }

  /** `MDStyle::try_from(usize)`: the style with that discriminant, an error past the last one. */
  function StyleOfIndex(i: nat): (r: Result<MDStyle, string>)
    ensures r.Ok? <==> i < STYLE_COUNT
  {
    if i < STYLE_COUNT then Ok(StyleAt(i)) else Err("invalid style " + NatToDecimal(i))
  }

  /** Every style survives the trip through its number. */
  lemma StyleRoundTrip(s: MDStyle)
    ensures StyleOfIndex(StyleIndex(s)) == Ok(s)
  {
    match s
    case Heading1 => case Heading2 => case Heading3 =>
    case Heading4 => case Heading5 => case Heading6 =>
    case Paragraph => case BlockQuote => case CodeBlock =>
    case MathDisplay => case Rule => case Html =>
    case Link => case LinkDef => case Image =>
    case FootnoteDefinition => case FootnoteReference =>
    case List => case Item => case TaskListMarker => case ItemTag =>
    case DefinitionList => case DefinitionListTitle => case DefinitionListDefinition =>
    case Table => case TableHead => case TableRow => case TableCell =>
    case Emphasis => case Strong => case Strikethrough =>
    case CodeInline => case MathInline =>
    case MetadataBlock =>
  }

  lemma IndexRoundTrip(i: nat)
    requires i < STYLE_COUNT
    ensures StyleOfIndex(i).Ok? && StyleIndex(StyleOfIndex(i).value) == i
  {
  }

  /** Two styles with the same number are the same style. */
  lemma StyleIndexInjective(s: MDStyle, t: MDStyle)
    requires StyleIndex(s) == StyleIndex(t)
    ensures s == t
  {
    StyleRoundTrip(s);
    StyleRoundTrip(t);
  }
}

=== FILE: md_table.dfy ===
/**
 * The table-row parser of the markdown editor example (`examples/mdedit_parts/markdown.rs`) and the
 * tab movement between cells built on it. A row is a sequence of
 * graphemes; byte ranges of the cells are not modelled.
 */
module MarkdownTable {
  import opened Util
  import opened MarkdownLine


  /** Grapheme `i` is a cell separator: a '|' not directly after a backslash. */
  predicate IsBar(g: seq<Grapheme>, i: nat)
    requires i < |g|
  {
    g[i] == "|" && !(i > 0 && g[i - 1] == "\\")
  }

  /** The number of separators among the first `n` graphemes. */
  function CountBars(g: seq<Grapheme>, n: nat): nat
    requires n <= |g|
  {
    if n == 0 then 0 else CountBars(g, n - 1) + (if IsBar(g, n - 1) then 1 else 0)
  }

  /**
   * A cell: its text, the grapheme index it starts at, and where it ends
   * (the index of its closing separator; for the last cell the index of
   * the last grapheme of the row). Byte ranges are not modelled.
   */
  datatype MDCell = MDCell(txt: seq<Grapheme>, start: nat, end: nat)

  /** A parsed row, with the cell the cursor is in and the cursor's offset into it. */
  datatype MDRow = MDRow(row: seq<MDCell>, cursorCell: nat, cursorOffset: nat)

  /** The cells' texts, each followed by a separator. */
  function Closed(cells: seq<MDCell>): seq<Grapheme>
  {
    if |cells| == 0 then [] else Closed(cells[..|cells| - 1]) + cells[|cells| - 1].txt + ["|"]
  }

  /** The cells' texts joined by separators. */
  function JoinCells(cells: seq<MDCell>): seq<Grapheme>
    requires |cells| > 0
  {
    Closed(cells[..|cells| - 1]) + cells[|cells| - 1].txt
  }

  /** `c` is a run of the row starting at `c.start` that holds no separator. */
  predicate CellText(g: seq<Grapheme>, c: MDCell)
  {
    c.start + |c.txt| <= |g| && c.txt == g[c.start..c.start + |c.txt|] &&
    forall i :: c.start <= i < c.start + |c.txt| ==> !IsBar(g, i)
  }

  /** `c` is a cell closed by the separator at `c.end`. */
  predicate ClosedCell(g: seq<Grapheme>, c: MDCell)
  {
    CellText(g, c) && c.end == c.start + |c.txt| && c.end < |g| && IsBar(g, c.end)
  }

  /** Cell `k` of `cells` is closed by a separator, the `k`-th of the row. */
  predicate ClosedCellAt(g: seq<Grapheme>, cells: seq<MDCell>, k: nat)
    requires k < |cells|
  {
    ClosedCell(g, cells[k]) && CountBars(g, cells[k].start) == k
  }

  /** Cell `k + 1` starts just past the end of cell `k`. */
  predicate LinkedAt(cells: seq<MDCell>, k: nat)
    requires k + 1 < |cells|
  {
    cells[k + 1].start == cells[k].end + 1
  }

  /** Cell `k` is a run without separators that follows `k` separators. */
  predicate CellAt(g: seq<Grapheme>, cells: seq<MDCell>, k: nat)
    requires k < |cells|
  {
    CellText(g, cells[k]) && CountBars(g, cells[k].start) == k
  }

  /** Cell `k` is closed by a separator and cell `k + 1` starts right after it. */
  predicate BoundaryAt(g: seq<Grapheme>, cells: seq<MDCell>, k: nat)
    requires k + 1 < |cells|
  {
    ClosedCell(g, cells[k]) && LinkedAt(cells, k)
  }

  /**
   * What the scan of a row knows after `idx` graphemes: the cells closed so
   * far, each ended by a separator, the next cell open at `gStart`, and no
   * separator since then.
   */
  predicate RowScanned(g: seq<Grapheme>, row: seq<MDCell>, gStart: nat, idx: nat)
  {
    gStart <= idx <= |g| &&
    |row| == CountBars(g, idx) && CountBars(g, gStart) == |row| &&
    Closed(row) == g[..gStart] &&
    (forall i :: gStart <= i < idx ==> !IsBar(g, i)) &&
    (forall k :: 0 <= k < |row| ==> ClosedCellAt(g, row, k)) &&
    (forall k :: 0 <= k < |row| - 1 ==> LinkedAt(row, k)) &&
    (|row| == 0 ==> gStart == 0) &&
    (|row| > 0 ==> row[0].start == 0 && gStart == row[|row| - 1].end + 1)
  }

  /** A separator at `idx` closes the open cell. */
  lemma CloseCell(g: seq<Grapheme>, row: seq<MDCell>, gStart: nat, idx: nat)
    requires RowScanned(g, row, gStart, idx) && idx < |g| && IsBar(g, idx)
    ensures RowScanned(g, row + [MDCell(g[gStart..idx], gStart, idx)], idx + 1, idx + 1)
  {
    var cell := MDCell(g[gStart..idx], gStart, idx);
    var row' := row + [cell];
    assert row'[..|row|] == row;
    assert g[..idx + 1] == g[..gStart] + g[gStart..idx] + ["|"];
    assert ClosedCell(g, cell);
    forall k | 0 <= k < |row'|
      ensures ClosedCellAt(g, row', k)
    {
      if k < |row| { assert row'[k] == row[k] && ClosedCellAt(g, row, k); }
    }
    forall k | 0 <= k < |row'| - 1
      ensures LinkedAt(row', k)
    {
      if k + 1 < |row| { assert LinkedAt(row, k); }
    }
  }

  /** Any other grapheme extends the open cell. */
  lemma ExtendCell(g: seq<Grapheme>, row: seq<MDCell>, gStart: nat, idx: nat)
    requires RowScanned(g, row, gStart, idx) && idx < |g| && !IsBar(g, idx)
    ensures RowScanned(g, row, gStart, idx + 1)
  {
  }

  /**
   * `cells` is `g` cut at every separator: one more cell than separators,
   * joined by separators they give back the row, and each cell but the last
   * ends at a separator with the next cell starting right after it.
   */
  predicate WellSplit(g: seq<Grapheme>, cells: seq<MDCell>)
  {
    |cells| == CountBars(g, |g|) + 1 && JoinCells(cells) == g && cells[0].start == 0 &&
    (forall k :: 0 <= k < |cells| ==> CellAt(g, cells, k)) &&
    (forall k :: 0 <= k < |cells| - 1 ==> BoundaryAt(g, cells, k)) &&
    cells[|cells| - 1].start + |cells[|cells| - 1].txt| == |g|
  }

  /**
   * The cursor at grapheme `x` lies in cell `cell` (after as many separators
   * as lie before `x`), `offset` graphemes from its start; a cursor at or
   * past the end of the row is reported in cell 0 at offset 0.
   */
  predicate CursorPlaced(g: seq<Grapheme>, cells: seq<MDCell>, x: nat, cell: nat, offset: nat)
  {
    (x < |g| ==>
      cell < |cells| && cell == CountBars(g, x) &&
      cells[cell].start <= x <= cells[cell].start + |cells[cell].txt| &&
      offset == x - cells[cell].start) &&
    (x >= |g| ==> cell == 0 && offset == 0)
  }

  /** Where the cursor stands after `idx` graphemes of the scan. */
  predicate CursorScanned(row: seq<MDCell>, gStart: nat, idx: nat, x: nat, cell: nat, offset: nat)
  {
    (idx <= x ==> cell == 0 && offset == 0) &&
    (x < idx && cell < |row| ==> row[cell].start <= x <= row[cell].end && offset == x - row[cell].start) &&
    (x < idx && cell == |row| ==> gStart <= x && offset == x - gStart) &&
    (x < idx ==> cell <= |row|)
  }

  /** The text after the last separator is the last cell. */
  lemma LastCell(g: seq<Grapheme>, row: seq<MDCell>, gStart: nat, gLast: nat)
    requires RowScanned(g, row, gStart, |g|)
    ensures WellSplit(g, row + [MDCell(g[gStart..], gStart, gLast)])
  {
    var last := MDCell(g[gStart..], gStart, gLast);
    var row' := row + [last];
    assert row'[..|row|] == row;
    assert g[..gStart] + g[gStart..] == g;
    assert CellText(g, last);
    forall k | 0 <= k < |row'|
      ensures CellAt(g, row', k)
    {
      if k < |row| { assert row'[k] == row[k] && ClosedCellAt(g, row, k); }
    }
    forall k | 0 <= k < |row'| - 1
      ensures BoundaryAt(g, row', k)
    {
      assert row'[k] == row[k] && ClosedCellAt(g, row, k);
      if k + 1 < |row| { assert LinkedAt(row, k); }
    }
  }

  /** At the end of the scan the cursor lies in a cell of the finished row. */
  lemma LastCursor(g: seq<Grapheme>, row: seq<MDCell>, gStart: nat, gLast: nat, x: nat, cell: nat, offset: nat)
    requires RowScanned(g, row, gStart, |g|)
    requires CursorScanned(row, gStart, |g|, x, cell, offset) && (x < |g| ==> cell == CountBars(g, x))
    ensures CursorPlaced(g, row + [MDCell(g[gStart..], gStart, gLast)], x, cell, offset)
  {
    var row' := row + [MDCell(g[gStart..], gStart, gLast)];
    if x < |g| && cell < |row| {
      assert row'[cell] == row[cell] && ClosedCellAt(g, row, cell);
    }
  }

  /** The cursor after looking at grapheme `idx`: recorded there when it is `x`. */
  function CursorAt(row: seq<MDCell>, gStart: nat, idx: nat, x: nat, cell: nat, offset: nat): (nat, nat)
    requires gStart <= idx
  {
    if idx == x then (|row|, idx - gStart) else (cell, offset)
  }

  /** The cursor bookkeeping when a separator closes the open cell. */
  lemma CursorClose(g: seq<Grapheme>, row: seq<MDCell>, gStart: nat, idx: nat, x: nat, cell: nat, offset: nat)
    requires RowScanned(g, row, gStart, idx) && idx < |g| && IsBar(g, idx)
    requires CursorScanned(row, gStart, idx, x, cell, offset) && (x < idx ==> cell == CountBars(g, x))
    ensures var (c, o) := CursorAt(row, gStart, idx, x, cell, offset);
      CursorScanned(row + [MDCell(g[gStart..idx], gStart, idx)], idx + 1, idx + 1, x, c, o) &&
      (x < idx + 1 ==> c == CountBars(g, x))
  {
    var row' := row + [MDCell(g[gStart..idx], gStart, idx)];
    var (c, o) := CursorAt(row, gStart, idx, x, cell, offset);
    if x < idx + 1 && c < |row| {
      assert row'[c] == row[c];
    }
  }

  /** The cursor bookkeeping when the open cell grows by one grapheme. */
  lemma CursorExtend(g: seq<Grapheme>, row: seq<MDCell>, gStart: nat, idx: nat, x: nat, cell: nat, offset: nat)
    requires RowScanned(g, row, gStart, idx) && idx < |g| && !IsBar(g, idx)
    requires CursorScanned(row, gStart, idx, x, cell, offset) && (x < idx ==> cell == CountBars(g, x))
    ensures var (c, o) := CursorAt(row, gStart, idx, x, cell, offset);
      CursorScanned(row, gStart, idx + 1, x, c, o) && (x < idx + 1 ==> c == CountBars(g, x))
  {
  }

  /** The variables of the scan in `parse_md_row`. */
  datatype RowScan = RowScan(
    row: seq<MDCell>, gStart: nat, gLast: nat, esc: bool, cellOffset: nat,
    cursorCell: nat, cursorOffset: nat)

  /** One pass of the scan's loop body, over grapheme `idx`. */
  function RowStep(g: seq<Grapheme>, x: nat, idx: nat, s: RowScan): (r: RowScan)
    requires idx < |g| && s.gStart <= idx
    ensures r.gStart <= idx + 1
  {
    var (cell, offset) := if idx == x then (|s.row|, s.cellOffset) else (s.cursorCell, s.cursorOffset);
    var s := s.(gLast := idx, cursorCell := cell, cursorOffset := offset);
    if g[idx] == "\\" then s.(cellOffset := s.cellOffset + 1, esc := true)
    else if g[idx] == "|" && !s.esc then
      s.(cellOffset := 0, row := s.row + [MDCell(g[s.gStart..idx], s.gStart, idx)], gStart := idx + 1)
    else s.(cellOffset := s.cellOffset + 1, esc := false)
  }

  /** What the scan's variables hold after `idx` graphemes. */
  predicate Scanned(g: seq<Grapheme>, x: nat, idx: nat, s: RowScan)
  {
    RowScanned(g, s.row, s.gStart, idx) &&
    s.esc == (idx > 0 && g[idx - 1] == "\\") &&
    s.cellOffset == idx - s.gStart &&
    s.gLast == SatSub(idx, 1) &&
    CursorScanned(s.row, s.gStart, idx, x, s.cursorCell, s.cursorOffset) &&
    (x < idx ==> s.cursorCell == CountBars(g, x))
  }

  /** Each pass of the loop body keeps what the scan knows. */
  lemma RowStepKeeps(g: seq<Grapheme>, x: nat, idx: nat, s: RowScan)
    requires idx < |g| && Scanned(g, x, idx, s)
    ensures Scanned(g, x, idx + 1, RowStep(g, x, idx, s))
  {
    if IsBar(g, idx) {
      RowStepBar(g, x, idx, s);
    } else {
      RowStepOther(g, x, idx, s);
    }
  }

  /** The step over a separator. */
  lemma RowStepBar(g: seq<Grapheme>, x: nat, idx: nat, s: RowScan)
    requires idx < |g| && Scanned(g, x, idx, s) && IsBar(g, idx)
    ensures Scanned(g, x, idx + 1, RowStep(g, x, idx, s))
  {
    var s' := RowStep(g, x, idx, s);
    var (cell, offset) := CursorAt(s.row, s.gStart, idx, x, s.cursorCell, s.cursorOffset);
    assert s' == s.(gLast := idx, cursorCell := cell, cursorOffset := offset, cellOffset := 0,
                    row := s.row + [MDCell(g[s.gStart..idx], s.gStart, idx)], gStart := idx + 1);
    CursorClose(g, s.row, s.gStart, idx, x, s.cursorCell, s.cursorOffset);
    CloseCell(g, s.row, s.gStart, idx);
  }

  /** The step over any other grapheme. */
  lemma RowStepOther(g: seq<Grapheme>, x: nat, idx: nat, s: RowScan)
    requires idx < |g| && Scanned(g, x, idx, s) && !IsBar(g, idx)
    ensures Scanned(g, x, idx + 1, RowStep(g, x, idx, s))
  {
    var s' := RowStep(g, x, idx, s);
    var (cell, offset) := CursorAt(s.row, s.gStart, idx, x, s.cursorCell, s.cursorOffset);
    assert s' == s.(gLast := idx, cursorCell := cell, cursorOffset := offset,
                    cellOffset := s.cellOffset + 1, esc := g[idx] == "\\");
    CursorExtend(g, s.row, s.gStart, idx, x, s.cursorCell, s.cursorOffset);
    ExtendCell(g, s.row, s.gStart, idx);
  }

  /** The row once the scan has passed the last grapheme: the open cell becomes the last. */
  function FinishRow(g: seq<Grapheme>, s: RowScan): MDRow
    requires s.gStart <= |g|
  {
    MDRow(s.row + [MDCell(g[s.gStart..], s.gStart, s.gLast)], s.cursorCell, s.cursorOffset)
  }

  /** The finished row is the row cut at its separators, with the cursor placed. */
  lemma FinishRowParsed(g: seq<Grapheme>, x: nat, s: RowScan)
    requires Scanned(g, x, |g|, s)
    ensures WellSplit(g, FinishRow(g, s).row)
    ensures FinishRow(g, s).row[|FinishRow(g, s).row| - 1].end == SatSub(|g|, 1)
    ensures CursorPlaced(g, FinishRow(g, s).row, x, FinishRow(g, s).cursorCell, FinishRow(g, s).cursorOffset)
  {
    LastCell(g, s.row, s.gStart, s.gLast);
    LastCursor(g, s.row, s.gStart, s.gLast, x, s.cursorCell, s.cursorOffset);
  }

  /**
   * `parse_md_row`: cut the row at every separator, keeping the text before
   * the first and after the last one, and place the cursor at grapheme `x`.
   */
  method ParseMdRow(g: seq<Grapheme>, x: nat) returns (r: MDRow)
    ensures WellSplit(g, r.row)
    ensures r.row[|r.row| - 1].end == SatSub(|g|, 1)
    ensures CursorPlaced(g, r.row, x, r.cursorCell, r.cursorOffset)
  {
    var s := RowScan([], 0, 0, false, 0, 0, 0);
    var idx := 0;
    while idx < |g|
      invariant idx <= |g|
      invariant Scanned(g, x, idx, s)
    {
      RowStepKeeps(g, x, idx, s);
      s := RowStep(g, x, idx, s);
      idx := idx + 1;
    }
    FinishRowParsed(g, x, s);
    r := FinishRow(g, s);
  }

  /** No separator from grapheme `from` to the end of the row. */
  predicate NoBarFrom(g: seq<Grapheme>, from: nat)
  {
    forall i :: from <= i < |g| ==> !IsBar(g, i)
  }

  /**
   * From a position in a cell other than the last, the next cell starts
   * just past the first separator.
   */
  lemma NextCellStart(g: seq<Grapheme>, cells: seq<MDCell>, k: nat, from: nat)
    requires WellSplit(g, cells) && k + 1 < |cells|
    requires cells[k].start <= from <= cells[k].start + |cells[k].txt|
    ensures var r := cells[k + 1].start;
      from < r <= |g| && IsBar(g, r - 1) && forall i :: from <= i < r - 1 ==> !IsBar(g, i)
  {
    assert CellAt(g, cells, k) && BoundaryAt(g, cells, k);
  }

  /** From a position in the last cell on there is no separator. */
  lemma InLastCell(g: seq<Grapheme>, cells: seq<MDCell>, from: nat)
    requires WellSplit(g, cells) && cells[|cells| - 1].start <= from
    ensures NoBarFrom(g, from)
  {
    var c := cells[|cells| - 1];
    assert CellAt(g, cells, |cells| - 1);
    forall i | from <= i < |g| ensures !IsBar(g, i) {
      assert c.start <= i < c.start + |c.txt|;
    }
  }

  /**
   * `next_tab_md_row`: the start of the cell after the cursor's, found just
   * past the first separator from the cursor on; the cursor itself when
   * there is none. A cursor past the end of the row counts as being in the
   * first cell.
   */
  method NextTabMdRow(g: seq<Grapheme>, pos: nat) returns (r: nat)
    ensures var from := if pos < |g| then pos else 0;
      NoBarFrom(g, from) ==> r == pos
    ensures var from := if pos < |g| then pos else 0;
      !NoBarFrom(g, from) ==>
        (from < r <= |g| && IsBar(g, r - 1) && forall i :: from <= i < r - 1 ==> !IsBar(g, i))
  {
    var row := ParseMdRow(g, pos);
    var from := if pos < |g| then pos else 0;
    var k := row.cursorCell;
    if k + 1 < |row.row| {
      NextCellStart(g, row.row, k, from);
      r := row.row[k + 1].start;
    } else {
      InLastCell(g, row.row, from);
      r := pos;
    }
  }

  /**
   * From a position in cell `k + 1` the start of cell `k` lies one
   * separator back, just past the separator before it if there is one.
   */
  lemma PrevCellStart(g: seq<Grapheme>, cells: seq<MDCell>, k: nat, x: nat)
    requires WellSplit(g, cells) && k + 1 < |cells| && x <= |g|
    requires cells[k + 1].start <= x && CountBars(g, x) == k + 1
    ensures var r := cells[k].start;
      r < x && CountBars(g, r) + 1 == CountBars(g, x) && (r == 0 || IsBar(g, r - 1))
  {
    assert CellAt(g, cells, k) && BoundaryAt(g, cells, k);
    if k > 0 {
      assert BoundaryAt(g, cells, k - 1);
    }
  }

  /**
   * `prev_tab_md_row`: the start of the cell before the cursor's, one
   * separator back; the cursor itself in the first cell or past the end.
   */
  method PrevTabMdRow(g: seq<Grapheme>, pos: nat) returns (r: nat)
    ensures pos >= |g| ==> r == pos
    ensures pos < |g| ==> (r == pos <==> CountBars(g, pos) == 0)
    ensures pos < |g| && r != pos ==>
      (r < pos && CountBars(g, r) + 1 == CountBars(g, pos) && (r == 0 || IsBar(g, r - 1)))
  {
    var row := ParseMdRow(g, pos);
    if row.cursorCell > 0 {
      var k := row.cursorCell - 1;
      PrevCellStart(g, row.row, k, pos);
      r := row.row[k].start;
    } else {
      r := pos;
    }
  }
}

=== FILE: old_mask_core.dfy ===
// The older masked-input core (src/text_mask_core.rs). Its parser, tables,
// `set_text` and removals are those of RatMask and RatMaskEdit with the two
// groupings named `number` (coarse) and `section` (fine); what differs is the
// default cursor and the index arithmetic of `insert_sign`.

module OldMaskCore {
  import opened Util
  import opened MaskKind
  import opened MaskParse
  import opened RatMask
  import opened RatMaskEdit

  // -------------------------------------------------------------------
  // Default cursor
  // -------------------------------------------------------------------

  /** The first decimal separator at or after i. */
  function FirstDecimalSep(ms: seq<Mask>, i: nat): (r: Option<nat>)
    requires i <= |ms|
    ensures r.Some? ==> i <= r.value < |ms| && ms[r.value].DecimalSep?
    ensures forall k :: i <= k < (if r.Some? then r.value else |ms|) ==> !ms[k].DecimalSep?
    decreases |ms| - i
  {
    if i == |ms| then None
    else if ms[i].DecimalSep? then Some(i)
    else FirstDecimalSep(ms, i + 1)
  }

  /** The first hex, octal, decimal, letter or any-character field at or after i. */
  function FirstField(ms: seq<Mask>, i: nat): (r: Option<nat>)
    requires i <= |ms|
    ensures r.Some? ==> i <= r.value < |ms| && IsFieldKind(ms[r.value])
    ensures forall k :: i <= k < (if r.Some? then r.value else |ms|) ==> !IsFieldKind(ms[k])
    decreases |ms| - i
  {
    if i == |ms| then None
    else if IsFieldKind(ms[i]) then Some(i)
    else FirstField(ms, i + 1)
  }

  /**
   * `set_default_cursor` of the older core: the first decimal separator; else
   * the position after the last right-to-left digit; else the first
   * non-number field; else 0.
   */
  function OldDefaultCursor(ms: seq<Mask>): (r: nat)
    requires Terminated(ms)
    ensures r < |ms|
  {
    match FirstDecimalSep(ms, 0)
    case Some(i) => i
    case None =>
      var n := NumberCursor(ms, 0, |ms|);
      if n > 0 then n
      else
        match FirstField(ms, 0)
        case Some(i) => i
        case None => 0
  }

  predicate HasDecimalSep(ms: seq<Mask>)
  {
    exists k :: 0 <= k < |ms| && ms[k].DecimalSep?
  }

  predicate HasRtolDigit(ms: seq<Mask>)
  {
    exists k :: 0 <= k < |ms| && IsRtolDigit(ms[k])
  }

  predicate HasField(ms: seq<Mask>)
  {
    exists k :: 0 <= k < |ms| && IsFieldKind(ms[k])
  }

  /** The order of preference of the default cursor, stated by what the mask contains. */
  lemma OldDefaultCursorPriority(ms: seq<Mask>)
    requires Terminated(ms)
    ensures var r := OldDefaultCursor(ms);
      (HasDecimalSep(ms) ==>
        ms[r].DecimalSep? && forall k :: 0 <= k < r ==> !ms[k].DecimalSep?)
      && (!HasDecimalSep(ms) && HasRtolDigit(ms) ==>
        0 < r && IsRtolDigit(ms[r - 1]) && forall k :: r <= k < |ms| ==> !IsRtolDigit(ms[k]))
      && (!HasDecimalSep(ms) && !HasRtolDigit(ms) && HasField(ms) ==>
        IsFieldKind(ms[r]) && forall k :: 0 <= k < r ==> !IsFieldKind(ms[k]))
      && (!HasDecimalSep(ms) && !HasRtolDigit(ms) && !HasField(ms) ==> r == 0)
  {
    var r := OldDefaultCursor(ms);
    if FirstDecimalSep(ms, 0).None? {
      var n := NumberCursor(ms, 0, |ms|);
      if HasRtolDigit(ms) {
        var k :| 0 <= k < |ms| && IsRtolDigit(ms[k]);
        assert n > 0;
      }
    }
  }

  // -------------------------------------------------------------------
  // Sign
  // -------------------------------------------------------------------

  /**
   * The sign cell as the older `insert_sign` finds it: the explicit Sign/Plus
   * token and the cell already showing a sign are found by enumerating the
   * section's slice, so their index counts from the section's start; the
   * downward scan for a free numeric cell uses absolute positions.
   */
  function OldSignCell(ms: seq<Mask>, t: seq<string>, s: nat, e: nat): (r: SignSearch)
    requires s <= e <= |t| && |t| <= |ms|
    ensures r.Found? ==> r.i < e
    ensures s == 0 ==> r == SignCell(ms, t, s, e)
  {
    match FirstSignToken(ms, s, e)
    case Some(i) => Found(i - s)
    case None =>
      match FirstSignGrapheme(t, s, e)
      case Some(i) => Found(i - s)
      case None =>
        match LastFreeNumeric(ms, t, s, e)
        case Some(i) => Found(i)
        case None => if s == 0 then Underflow else NotFound
  }

  /**
   * `insert_sign` of the older core as written: it toggles the cell at the
   * index the search returned, read as an absolute position; Err stands for
   * the unreachable!() on a cell that cannot hold a sign and for the
   * underflowing scan.
   */
  function InsertSignAsWritten(ms: seq<Mask>, t: seq<string>, cursor: nat, c: char, negSym: char): (r: Result<(seq<string>, bool), ()>)
    requires Fits(ms, t) && cursor < |ms|
    ensures r.Ok? ==> |r.value.0| == |t|
    ensures r.Ok? && r.value.1 ==> exists i :: 0 <= i < |t| && HoldsSign(ms[i]) && r.value.0 == t[i := SignToggle(ms[i], t[i])]
  {
    var j := SignTokenAt(ms, cursor);
    SectionWithin(ms, j);
    var s := SecStart(ms, j);
    var e := SecEnd(ms, j);
    match OldSignCell(ms, t, s, e)
    case Underflow => Err(())
    case NotFound => Ok((t, false))
    case Found(i) =>
      if c == negSym || c == '-' then
        if HoldsSign(ms[i]) then Ok((t[i := SignToggle(ms[i], t[i])], true))
        else Err(())
      else Ok((t, false))
  }

  /** For a number that starts the mask both readings of the index coincide. */
  lemma OldInsertSignAtStart(ms: seq<Mask>, t: seq<string>, cursor: nat, c: char, negSym: char)
    requires Fits(ms, t) && cursor < |ms|
    requires SecStart(ms, SignTokenAt(ms, cursor)) == 0
    ensures InsertSignAsWritten(ms, t, cursor, c, negSym) == InsertSign(ms, t, cursor, c, negSym)
  {
  }

  /**
   * In the mask "l -99" the sign token sits at 2 in the number section [2, 5);
   * the guard accepts '-', but the older `insert_sign` looks at token 0, a
   * letter, and reaches unreachable!(); reading the index from the section's
   * start toggles the sign cell.
   */
  lemma OldInsertSignPanics(ms: seq<Mask>, t: seq<string>)
    requires ms == [Letter, Separator(" "), Sign, Digit(Rtol), Digit(Rtol), NoMask]
    requires t == ["a", " ", " ", "9", "9"]
    ensures CanInsertSign(ms, t, 3, '-', '-')
    ensures InsertSignAsWritten(ms, t, 3, '-', '-').Err?
    ensures InsertSign(ms, t, 3, '-', '-') == Ok((t[2 := "-"], true))
  {
    assert IsBoundary(ms, false, 2) && !IsBoundary(ms, false, 3) && !IsBoundary(ms, false, 4);
    assert IsBoundary(ms, false, 5);
    assert SignTokenAt(ms, 3) == 3;
    assert SecStart(ms, 3) == 2;
    assert SecEnd(ms, 3) == 5;
    assert FirstSignToken(ms, 2, 5) == Some(2);
    assert FirstSignSlot(ms, 2, 5) == Some(2);
  }
}

=== FILE: palette.dfy ===
/**
 * The colour palette of the theme crate (rat-theme4 `palette.rs`): the
 * colour names and their text codec, colour indices `name:n`, 24-bit
 * colour packing, the integer shade interpolation, and the sorted alias
 * table with its binary search.
 */
module Palette {
  import opened Util

  /** An 8-bit colour channel. */
  type Byte = b: nat | b < 256

  /** A terminal colour: the default colour or a 24-bit RGB colour. */
  datatype Color = Reset | Rgb(r: Byte, g: Byte, b: Byte)

  /** The named colour rows of a palette; `NoColor` is the undefined colour. */
  datatype Colors =
    | TextLight | TextDark | Primary | Secondary | White | Black | Gray
    | Red | Orange | Yellow | LimeGreen | Green | BlueGreen | Cyan | Blue
    | DeepBlue | Purple | Magenta | RedPink | NoColor

  /** A colour of the palette: a row and a shade index. */
  datatype ColorIdx = ColorIdx(colors: Colors, idx: nat)

  /** Number of real colour rows (everything but `NoColor`). */
  const LEN: nat := 19

  /** Number of shades per row. */
  const SHADES: nat := 8

  /** The discriminant of a colour row. */
  function Ordinal(c: Colors): (n: nat)
    ensures c == NoColor <==> n == LEN
    ensures n <= LEN
  {
    match c
    case TextLight => 0 case TextDark => 1 case Primary => 2 case Secondary => 3
    case White => 4 case Black => 5 case Gray => 6 case Red => 7 case Orange => 8
    case Yellow => 9 case LimeGreen => 10 case Green => 11 case BlueGreen => 12
    case Cyan => 13 case Blue => 14 case DeepBlue => 15 case Purple => 16
    case Magenta => 17 case RedPink => 18 case NoColor => 19
  }

  /** `Colors::array()`: every row except `NoColor`, in declaration order. */
  function AllColors(): (a: seq<Colors>)
    ensures |a| == LEN
    ensures forall i :: 0 <= i < |a| ==> Ordinal(a[i]) == i
    ensures NoColor !in a
  {
    [TextLight, TextDark, Primary, Secondary, White, Black, Gray, Red, Orange, Yellow,
     LimeGreen, Green, BlueGreen, Cyan, Blue, DeepBlue, Purple, Magenta, RedPink]
  }

  /** `Colors::str`: the kebab-case name of a row. */
  function Name(c: Colors): (s: string)
    ensures ':' !in s && |s| > 0
  {
    match c
    case TextLight => "text-light" case TextDark => "text-dark"
    case Primary => "primary" case Secondary => "secondary"
    case White => "white" case Black => "black" case Gray => "gray"
    case Red => "red" case Orange => "orange" case Yellow => "yellow"
    case LimeGreen => "lime-green" case Green => "green"
    case BlueGreen => "blue-green" case Cyan => "cyan" case Blue => "blue"
    case DeepBlue => "deep-blue" case Purple => "purple"
    case Magenta => "magenta" case RedPink => "red-pink" case NoColor => "none"
  }

  /** `Colors::from_str`: the row with the given name, if there is one. */
  function ParseColors(s: string): (r: Option<Colors>)
    ensures r.Some? ==> Name(r.value) == s
  {
    match s
    case "text-light" => Some(TextLight) case "text-dark" => Some(TextDark)
    case "primary" => Some(Primary) case "secondary" => Some(Secondary)
    case "white" => Some(White) case "black" => Some(Black) case "gray" => Some(Gray)
    case "red" => Some(Red) case "orange" => Some(Orange) case "yellow" => Some(Yellow)
    case "lime-green" => Some(LimeGreen) case "green" => Some(Green)
    case "blue-green" => Some(BlueGreen) case "cyan" => Some(Cyan) case "blue" => Some(Blue)
    case "deep-blue" => Some(DeepBlue) case "purple" => Some(Purple)
    case "magenta" => Some(Magenta) case "red-pink" => Some(RedPink)
    case "none" => Some(NoColor)
    case _ => None
  }

  /** Every name parses back to its row, `none` included. */
  lemma ParseName(c: Colors)
    ensures ParseColors(Name(c)) == Some(c)
  {
  }

  /** `ColorIdx` as text: `name:idx`. */
  function ColorIdxToString(ci: ColorIdx): string
  {
    Name(ci.colors) + ":" + NatToDecimal(ci.idx)
  }

  /**
   * `ColorIdx::from_str`: split on ':'; the first piece must be a row name
   * and the second a `usize`. Pieces after the second are ignored.
   */
  function ParseColorIdx(s: string): (r: Result<ColorIdx, ()>)
    ensures r.Ok? ==> r.value.idx < USIZE_LIMIT
    ensures ':' !in s ==> r.Err?
    ensures r.Ok? ==> |s| > |Name(r.value.colors)| && s[..|Name(r.value.colors)| + 1] == Name(r.value.colors) + ":"
  {
    var parts := Split(s, ':');
    match ParseColors(parts[0])
    case None => Err(())
    case Some(c) =>
      if |parts| < 2 then Err(())
      else
        match ParseUsize(parts[1])
        case None => Err(())
        case Some(idx) =>
          JoinSplit(s, ':');
          assert s == parts[0] + [':'] + Join(parts[1..], ':');
          Ok(ColorIdx(c, idx))
  }

  /** Displaying a colour index and parsing the text gives the index back. */
  lemma ColorIdxRoundTrip(ci: ColorIdx)
    requires ci.idx < USIZE_LIMIT
    ensures ParseColorIdx(ColorIdxToString(ci)) == Ok(ci)
  {
    var name := Name(ci.colors);
    var digits := NatToDecimal(ci.idx);
    assert ':' !in digits by {
      forall i | 0 <= i < |digits| ensures digits[i] != ':' {
        assert IsDigit(digits[i]);
      }
    }
    assert ColorIdxToString(ci) == name + [':'] + digits;
    SplitAfterPiece(name, ':', digits);
    SplitNoSep(digits, ':');
    ParseName(ci.colors);
    ParseUsizeOfDecimal(ci.idx);
  }

  // ---------------------------------------------------------------------
  // 24-bit colours
  // ---------------------------------------------------------------------

  /** `color_from_u32`: the low 24 bits as red, green and blue bytes. */
  function ColorFromU32(c: nat): (r: Color)
    requires c < 0x1_0000_0000
    ensures r.Rgb?
  {
    Rgb((c / 0x1_0000) % 256, (c / 0x100) % 256, c % 256)
  }

  /** `color_to_rgb` for the colours modelled here: `Reset` is black. */
  function ColorToRgb(color: Color): (Byte, Byte, Byte)
  {
    match color
    case Reset => (0, 0, 0)
    case Rgb(r, g, b) => (r, g, b)
  }

  /** `color_to_u32`: packs the channels as 0xRRGGBB. */
  function ColorToU32(color: Color): (u: nat)
    ensures u < 0x100_0000
    ensures color.Rgb? ==> ColorFromU32(u) == color
  {
    var (r, g, b) := ColorToRgb(color);
    Unpack(r, g, b);
    r * 0x1_0000 + g * 0x100 + b
  }

  lemma Unpack(r: Byte, g: Byte, b: Byte)
    ensures r * 0x1_0000 + g * 0x100 + b < 0x100_0000
    ensures (r * 0x1_0000 + g * 0x100 + b) / 0x1_0000 % 256 == r
    ensures (r * 0x1_0000 + g * 0x100 + b) / 0x100 % 256 == g
    ensures (r * 0x1_0000 + g * 0x100 + b) % 256 == b
  {
    var u := r * 0x1_0000 + g * 0x100 + b;
    var hi := r * 0x100 + g;
    assert u == hi * 0x100 + b;
    DivModOf(hi, b, 0x100);
    DivModOf(r, g, 0x100);
    DivModOf(r, g * 0x100 + b, 0x1_0000);
    DivModOf(0, r, 0x100);
  }

  /** Division and remainder by a channel size recover quotient and remainder of `q * d + m`. */
  lemma DivModOf(q: nat, m: nat, d: nat)
    requires d == 0x100 || d == 0x1_0000
    requires m < d
    ensures (q * d + m) / d == q && (q * d + m) % d == m
  {
    if d == 0x100 {
      assert (q * 0x100 + m) / 0x100 == q;
    } else {
      assert (q * 0x1_0000 + m) / 0x1_0000 == q;
    }
  }

  /** Unpacking and packing again keeps exactly the low 24 bits. */
  lemma ColorU32RoundTrip(c: nat)
    requires c < 0x1_0000_0000
    ensures ColorToU32(ColorFromU32(c)) == c % 0x100_0000
  {
    var lo := c % 0x100_0000;
    var top := c / 0x100_0000;
    assert c == top * 0x100_0000 + lo;
    var r, g, b := lo / 0x1_0000, (lo / 0x100) % 256, lo % 256;
    assert lo == r * 0x1_0000 + (lo % 0x1_0000) by {
      assert lo == (lo / 0x1_0000) * 0x1_0000 + lo % 0x1_0000;
    }
    assert c == (top * 0x100 + r) * 0x1_0000 + lo % 0x1_0000;
    DivModOf(top * 0x100 + r, lo % 0x1_0000, 0x1_0000);
    DivModOf(top, r, 0x100);
    assert (c / 0x1_0000) % 256 == r;
    assert c == (top * 0x1_0000 + lo / 0x100) * 0x100 + lo % 0x100 by {
      assert lo == (lo / 0x100) * 0x100 + lo % 0x100;
    }
    DivModOf(top * 0x1_0000 + lo / 0x100, lo % 0x100, 0x100);
    assert c / 0x100 == top * 0x1_0000 + lo / 0x100;
    assert top * 0x1_0000 + lo / 0x100 == (top * 0x100) * 0x100 + lo / 0x100;
    DivModOf(top * 0x100, lo / 0x100 % 0x100, 0x100);
    assert (c / 0x100) % 256 == g by {
      var x := lo / 0x100;
      assert x == (x / 0x100) * 0x100 + x % 0x100;
      assert (top * 0x100) * 0x100 + x == (top * 0x100 + x / 0x100) * 0x100 + x % 0x100;
      DivModOf(top * 0x100 + x / 0x100, x % 0x100, 0x100);
    }
    assert c % 256 == b by {
      assert c == (top * 0x1_0000 + lo / 0x100) * 0x100 + lo % 0x100;
    }
    assert lo == r * 0x1_0000 + g * 0x100 + b by {
      var m := lo % 0x1_0000;
      assert m == (m / 0x100) * 0x100 + m % 0x100;
      assert lo / 0x100 == r * 0x100 + m / 0x100 by {
        assert lo == (r * 0x100 + m / 0x100) * 0x100 + m % 0x100;
        DivModOf(r * 0x100 + m / 0x100, m % 0x100, 0x100);
      }
      DivModOf(r, m / 0x100, 0x100);
      assert lo % 0x100 == m % 0x100 by {
        DivModOf(r * 0x100 + m / 0x100, m % 0x100, 0x100);
      }
    }
  }

  // ---------------------------------------------------------------------
  // Shade interpolation
  // ---------------------------------------------------------------------

  /** `scale_to`: `v * s / 255` computed in 16 bits. */
  function ScaleTo(v: Byte, s: Byte): (r: Byte)
    ensures r <= v && r <= s
    ensures s == 255 ==> r == v
    ensures v == 0 || s == 0 ==> r == 0
  {
    v * s / 255
  }

  /** One third of the way from `a` towards `b`, rounded towards `a`. */
  function Third1(a: Byte, b: Byte): (r: Byte)
    ensures a <= b ==> a <= r <= b
    ensures b <= a ==> b <= r <= a
  {
    if a < b then a + (b - a) / 3 else a - (a - b) / 3
  }

  /** Two thirds of the way from `a` towards `b`, rounded towards `b`. */
  function Third2(a: Byte, b: Byte): (r: Byte)
    ensures a <= b ==> Third1(a, b) <= r <= b
    ensures b <= a ==> b <= r <= Third1(a, b)
  {
    if a < b then b - (b - a) / 3 else b + (a - b) / 3
  }

  /** Per channel, `x` lies between `a` and `b` on the path from `a` to `b`, after `y`. */
  predicate Between(a: Byte, y: Byte, x: Byte, b: Byte)
  {
    (a <= b && a <= y <= x <= b) || (b <= a && b <= x <= y <= a)
  }

  /** The one-third and two-thirds shades on the way from `x` to `y`. */
  function Thirds(x: Color, y: Color): (t: (Color, Color))
    requires x.Rgb? && y.Rgb?
    ensures t.0.Rgb? && t.1.Rgb?
    ensures Between(x.r, t.0.r, t.1.r, y.r)
    ensures Between(x.g, t.0.g, t.1.g, y.g)
    ensures Between(x.b, t.0.b, t.1.b, y.b)
  {
    (Rgb(Third1(x.r, y.r), Third1(x.g, y.g), Third1(x.b, y.b)),
     Rgb(Third2(x.r, y.r), Third2(x.g, y.g), Third2(x.b, y.b)))
  }

  /** Shades `i` and `j` of a row lie, in that order, on the straight path from shade `lo` to `hi`. */
  predicate OnPath(row: seq<Color>, lo: nat, i: nat, j: nat, hi: nat)
    requires lo < |row| && i < |row| && j < |row| && hi < |row|
  {
    row[lo].Rgb? && row[i].Rgb? && row[j].Rgb? && row[hi].Rgb? &&
    Between(row[lo].r, row[i].r, row[j].r, row[hi].r) &&
    Between(row[lo].g, row[i].g, row[j].g, row[hi].g) &&
    Between(row[lo].b, row[i].b, row[j].b, row[hi].b)
  }

  /**
   * `interpolate2`: eight shades; 0 and 3 are the bright endpoints, 4 and
   * 7 the dark ones, and 1, 2 (5, 6) are the thirds between them.
   */
  function Interpolate2(c0: nat, c3: nat, c4: nat, c7: nat): (row: seq<Color>)
    requires c0 < 0x1_0000_0000 && c3 < 0x1_0000_0000
    requires c4 < 0x1_0000_0000 && c7 < 0x1_0000_0000
    ensures |row| == SHADES
    ensures row[0] == ColorFromU32(c0) && row[3] == ColorFromU32(c3)
    ensures row[4] == ColorFromU32(c4) && row[7] == ColorFromU32(c7)
    ensures OnPath(row, 0, 1, 2, 3) && OnPath(row, 4, 5, 6, 7)
  {
    var bright0, bright3 := ColorFromU32(c0), ColorFromU32(c3);
    var dark4, dark7 := ColorFromU32(c4), ColorFromU32(c7);
    var b := Thirds(bright0, bright3);
    var d := Thirds(dark4, dark7);
    [bright0, b.0, b.1, bright3, dark4, d.0, d.1, dark7]
  }

  // ---------------------------------------------------------------------
  // The palette, colour lookup and styles
  // ---------------------------------------------------------------------

  /** A palette: `LEN` rows of `SHADES` colours, and the alias table. */
  datatype PaletteData = PaletteData(color: seq<seq<Color>>, aliased: seq<(string, ColorIdx)>)

  predicate ValidPalette(p: PaletteData)
  {
    |p.color| == LEN && (forall i :: 0 <= i < |p.color| ==> |p.color[i]| == SHADES) &&
    SortedNames(p.aliased)
  }

  /** `Palette::color`: `Reset` for `NoColor`, else the stored shade (out-of-range shades panic). */
  function ColorOf(p: PaletteData, id: Colors, n: nat): (r: Color)
    requires ValidPalette(p)
    requires id != NoColor ==> n < SHADES
    ensures id == NoColor ==> r == Reset
    ensures id != NoColor ==> r == p.color[Ordinal(id)][n]
  {
    if id == NoColor then Reset else p.color[Ordinal(id)][n]
  }

  /** A style with optional foreground and background colours. */
  datatype Style = Style(fg: Option<Color>, bg: Option<Color>)

  /** `fg_style`: only a foreground, and none at all for a `Reset` colour. */
  function FgStyle(p: PaletteData, id: Colors, n: nat): (s: Style)
    requires ValidPalette(p)
    requires id != NoColor ==> n < SHADES
    ensures s.bg == None
    ensures s.fg.Some? <==> ColorOf(p, id, n) != Reset
    ensures s.fg.Some? ==> s.fg.value == ColorOf(p, id, n)
    ensures id == NoColor ==> s == Style(None, None)
  {
    var c := ColorOf(p, id, n);
    Style(if c != Reset then Some(c) else None, None)
  }

  /** `bg_style`: only a background, and none at all for a `Reset` colour. */
  function BgStyle(p: PaletteData, id: Colors, n: nat): (s: Style)
    requires ValidPalette(p)
    requires id != NoColor ==> n < SHADES
    ensures s.fg == None
    ensures s.bg.Some? <==> ColorOf(p, id, n) != Reset
    ensures s.bg.Some? ==> s.bg.value == ColorOf(p, id, n)
    ensures id == NoColor ==> s == Style(None, None)
  {
    var c := ColorOf(p, id, n);
    Style(None, if c != Reset then Some(c) else None)
  }

  // ---------------------------------------------------------------------
  // Aliases: a table sorted by name, searched by bisection
  // ---------------------------------------------------------------------

  /** Rust's `str` ordering: lexicographic by code point, a proper prefix first. */
  predicate StrLess(a: string, b: string)
    decreases |a|
  {
    if |a| == 0 then |b| > 0
    else if |b| == 0 then false
    else if a[0] != b[0] then a[0] < b[0]
    else StrLess(a[1..], b[1..])
  }

  lemma {:induction false} StrLessIrreflexive(a: string)
    ensures !StrLess(a, a)
    decreases |a|
  {
    if |a| > 0 { StrLessIrreflexive(a[1..]); }
  }

  lemma {:induction false} StrLessTransitive(a: string, b: string, c: string)
    requires StrLess(a, b) && StrLess(b, c)
    ensures StrLess(a, c)
    decreases |a|
  {
    if |a| > 0 && a[0] == b[0] && b[0] == c[0] {
      StrLessTransitive(a[1..], b[1..], c[1..]);
    }
  }

  lemma {:induction false} StrLessTotal(a: string, b: string)
    ensures a == b || StrLess(a, b) || StrLess(b, a)
    decreases |a|
  {
    if |a| > 0 && |b| > 0 && a[0] == b[0] {
      StrLessTotal(a[1..], b[1..]);
      if a[1..] == b[1..] {
        assert a == [a[0]] + a[1..] && b == [b[0]] + b[1..];
      }
    }
  }

  lemma StrLessAsymmetric(a: string, b: string)
    requires StrLess(a, b)
    ensures !StrLess(b, a) && a != b
  {
    if StrLess(b, a) { StrLessTransitive(a, b, a); StrLessIrreflexive(a); }
    if a == b { StrLessIrreflexive(a); }
  }

  /** Alias names strictly increase along the table (so they are unique). */
  predicate SortedNames(al: seq<(string, ColorIdx)>)
  {
    forall i, j :: 0 <= i < j < |al| ==> StrLess(al[i].0, al[j].0)
  }

  /** The reference meaning of a lookup: the entry stored under that name, if any. */
  function Lookup(al: seq<(string, ColorIdx)>, id: string): Option<ColorIdx>
  {
    if |al| == 0 then None
    else if al[0].0 == id then Some(al[0].1)
    else Lookup(al[1..], id)
  }

  lemma {:induction false} LookupFound(al: seq<(string, ColorIdx)>, id: string, n: nat)
    requires SortedNames(al) && n < |al| && al[n].0 == id
    ensures Lookup(al, id) == Some(al[n].1)
    decreases |al|
  {
    if n > 0 {
      StrLessAsymmetric(al[0].0, al[n].0);
      LookupFound(al[1..], id, n - 1);
    }
  }

  lemma {:induction false} LookupAbsent(al: seq<(string, ColorIdx)>, id: string)
    requires forall i :: 0 <= i < |al| ==> al[i].0 != id
    ensures Lookup(al, id) == None
    decreases |al|
  {
    if |al| > 0 { LookupAbsent(al[1..], id); }
  }

  /**
   * `binary_search_by_key` over the names: `found` with the index of `id`,
   * or not found with the position where `id` would be inserted.
   */
  method SearchAlias(al: seq<(string, ColorIdx)>, id: string) returns (found: bool, n: nat)
    requires SortedNames(al)
    ensures n <= |al|
    ensures found ==> n < |al| && al[n].0 == id
    ensures !found ==> (forall i :: 0 <= i < n ==> StrLess(al[i].0, id))
    ensures !found ==> (forall i :: n <= i < |al| ==> StrLess(id, al[i].0))
  {
    var lo, hi := 0, |al|;
    while lo < hi
      invariant 0 <= lo <= hi <= |al|
      invariant forall i :: 0 <= i < lo ==> StrLess(al[i].0, id)
      invariant forall i :: hi <= i < |al| ==> StrLess(id, al[i].0)
      decreases hi - lo
    {
      var mid := lo + (hi - lo) / 2;
      var key := al[mid].0;
      if StrLess(key, id) {
        forall i | 0 <= i <= mid ensures StrLess(al[i].0, id) {
          if i < mid { StrLessTransitive(al[i].0, key, id); }
        }
        lo := mid + 1;
      } else if key == id {
        return true, mid;
      } else {
        StrLessTotal(key, id);
        forall i | mid <= i < |al| ensures StrLess(id, al[i].0) {
          if i > mid { StrLessTransitive(id, key, al[i].0); }
        }
        hi := mid;
      }
    }
    return false, lo;
  }

  /** `try_aliased`: the colour stored under a name. */
  method TryAliased(p: PaletteData, id: string) returns (r: Option<ColorIdx>)
    requires ValidPalette(p)
    ensures r == Lookup(p.aliased, id)
  {
    var found, n := SearchAlias(p.aliased, id);
    if found {
      LookupFound(p.aliased, id, n);
      r := Some(p.aliased[n].1);
    } else {
      forall i | 0 <= i < |p.aliased| ensures p.aliased[i].0 != id {
        if i < n { StrLessAsymmetric(p.aliased[i].0, id); }
        else { StrLessAsymmetric(id, p.aliased[i].0); }
      }
      LookupAbsent(p.aliased, id);
      r := None;
    }
  }

  /**
   * `add_aliased`: overwrite the entry of that name, or insert a new one
   * at its sorted position. The table stays sorted, the name now maps to
   * the new colour and every other name keeps its colour.
   */
  method AddAliased(p: PaletteData, id: string, ci: ColorIdx) returns (q: PaletteData)
    requires ValidPalette(p)
    ensures ValidPalette(q) && q.color == p.color
    ensures Lookup(q.aliased, id) == Some(ci)
    ensures forall k :: k != id ==> Lookup(q.aliased, k) == Lookup(p.aliased, k)
  {
    var al := p.aliased;
    var found, n := SearchAlias(al, id);
    var nal: seq<(string, ColorIdx)>;
    if found {
      nal := al[n := (id, ci)];
      OverwriteKeeps(al, n, id, ci);
    } else {
      nal := al[..n] + [(id, ci)] + al[n..];
      InsertKeeps(al, n, id, ci);
    }
    q := p.(aliased := nal);
    LookupFound(nal, id, n);
    forall k | k != id ensures Lookup(nal, k) == Lookup(al, k) {
      LookupKeep(al, nal, k, id);
    }
  }

  /** Overwriting the entry of `id` in place keeps the table sorted and every other entry. */
  lemma OverwriteKeeps(al: seq<(string, ColorIdx)>, n: nat, id: string, ci: ColorIdx)
    requires SortedNames(al) && n < |al| && al[n].0 == id
    ensures var nal := al[n := (id, ci)];
      SortedNames(nal) && nal[n] == (id, ci) &&
      (forall i :: 0 <= i < |al| && al[i].0 != id ==> al[i] in nal) &&
      (forall i :: 0 <= i < |nal| && nal[i].0 != id ==> nal[i] in al)
  {
    var nal := al[n := (id, ci)];
    forall i | 0 <= i < |al| && al[i].0 != id ensures al[i] in nal {
      assert nal[i] == al[i];
    }
    forall i | 0 <= i < |nal| && nal[i].0 != id ensures nal[i] in al {
      assert nal[i] == al[i];
    }
  }

  /**
   * Inserting `id` at the position the search found keeps the table
   * sorted and every old entry.
   */
  lemma InsertKeeps(al: seq<(string, ColorIdx)>, n: nat, id: string, ci: ColorIdx)
    requires SortedNames(al) && n <= |al|
    requires forall i :: 0 <= i < n ==> StrLess(al[i].0, id)
    requires forall i :: n <= i < |al| ==> StrLess(id, al[i].0)
    ensures var nal := al[..n] + [(id, ci)] + al[n..];
      SortedNames(nal) && nal[n] == (id, ci) &&
      (forall i :: 0 <= i < |al| && al[i].0 != id ==> al[i] in nal) &&
      (forall i :: 0 <= i < |nal| && nal[i].0 != id ==> nal[i] in al)
  {
    var nal := al[..n] + [(id, ci)] + al[n..];
    forall i, j | 0 <= i < j < |nal| ensures StrLess(nal[i].0, nal[j].0) {
      if i < n && j > n {
        assert nal[j] == al[j - 1];
        StrLessTransitive(al[i].0, id, al[j - 1].0);
      } else if i < n {
        assert nal[i] == al[i];
      } else if i > n {
        assert nal[i] == al[i - 1] && nal[j] == al[j - 1];
      }
    }
    forall i | 0 <= i < |al| && al[i].0 != id ensures al[i] in nal {
      if i < n { assert nal[i] == al[i]; } else { assert nal[i + 1] == al[i]; }
    }
    forall i | 0 <= i < |nal| && nal[i].0 != id ensures nal[i] in al {
      if i < n { assert nal[i] == al[i]; } else if i > n { assert nal[i] == al[i - 1]; }
    }
  }

  /** Two tables holding the same names apart from `id`, with the same colours, agree off `id`. */
  lemma LookupKeep(al: seq<(string, ColorIdx)>, nal: seq<(string, ColorIdx)>, k: string, id: string)
    requires SortedNames(al) && SortedNames(nal) && k != id
    requires forall i :: 0 <= i < |al| && al[i].0 != id ==> al[i] in nal
    requires forall i :: 0 <= i < |nal| && nal[i].0 != id ==> nal[i] in al
    ensures Lookup(nal, k) == Lookup(al, k)
  {
    if i :| 0 <= i < |al| && al[i].0 == k {
      LookupFound(al, k, i);
      var j :| 0 <= j < |nal| && nal[j] == al[i];
      LookupFound(nal, k, j);
    } else {
      LookupAbsent(al, k);
      forall j | 0 <= j < |nal| ensures nal[j].0 != k {
        assert nal[j].0 != id ==> nal[j] in al;
      }
      LookupAbsent(nal, k);
    }
  }
}

=== FILE: palette_edit.dfy ===
/**
 * The helpers of the palette editor example
 * (`rat-salsa/examples/palette_edit5.rs`): the `configparser_ext` text
 * codec that stores multi-line strings in an INI file, the array and value
 * readers on top of it, the file-name sanitising, and the list of colour
 * choices.
 *
 * The INI document is a map from (section, key) to the stored string; the
 * `FromStr` and `ToString` of the stored element type are parameters.
 */
module PaletteEdit {
  import opened Util
  import Palette

  /** The in-memory INI document: one string per (section, key). */
  type Ini = map<(string, string), string>

  /** `Ini::get`: the stored string, if any. */
  function Get(ini: Ini, sec: string, key: string): (r: Option<string>)
    ensures r.Some? <==> (sec, key) in ini
    ensures r.Some? ==> r.value == ini[(sec, key)]
  {
    if (sec, key) in ini then Some(ini[(sec, key)]) else None
  }

  // ---------------------------------------------------------------------
  // The escape codec
  // ---------------------------------------------------------------------

  /**
   * The decoding loop of `get_text` from a state where `esc` says whether a
   * backslash is pending: a doubled backslash is one backslash, `\n` and
   * `\r` are line feed and carriage return, any other escaped character is
   * kept with its backslash, and a backslash at the very end is dropped.
   */
  function Decode(s: string, esc: bool): (r: string)
    ensures !esc && '\\' !in s ==> r == s
    ensures |r| <= |s| + (if esc then 1 else 0)
    decreases |s|
  {
    if |s| == 0 then "" else Piece(s[0], esc) + Decode(s[1..], NextEsc(s[0], esc))
  }

  /** What one character appends to the decoded text. */
  function Piece(c: char, esc: bool): string
  {
    if c == '\\' then
      if esc then "\\" else ""
    else if esc then
      if c == 'r' then "\r" else if c == 'n' then "\n" else ['\\', c]
    else [c]
  }

  /** Whether a backslash is pending after one character. */
  function NextEsc(c: char, esc: bool): bool
  {
    c == '\\' && !esc
  }

  /** What `get_text` makes of a stored string. */
  function Unescape(s: string): (r: string)
    ensures '\\' !in s ==> r == s
    ensures |r| <= |s|
  {
    Decode(s, false)
  }

  lemma DecodeStep(s: string, i: nat, esc: bool)
    requires i < |s|
    ensures Decode(s[i..], esc) == Piece(s[i], esc) + Decode(s[i + 1..], NextEsc(s[i], esc))
  {
    assert s[i..][1..] == s[i + 1..];
  }

  lemma Assoc(a: string, b: string, c: string)
    ensures a + (b + c) == (a + b) + c
  {
  }

  /** One character of `get_text`'s loop: what it appends and whether a backslash is then pending. */
  method UnescapeChar(c: char, esc: bool) returns (add: string, esc2: bool)
    ensures add == Piece(c, esc) && esc2 == NextEsc(c, esc)
  {
    if c == '\\' {
      if esc {
        add, esc2 := "\\", false;
      } else {
        add, esc2 := "", true;
      }
    } else if esc {
      if c == 'r' {
        add := "\r";
      } else if c == 'n' {
        add := "\n";
      } else {
        add := ['\\', c];
      }
      esc2 := false;
    } else {
      add, esc2 := [c], false;
    }
  }

  /** The character loop of `get_text`, with the pending-escape flag. */
  method UnescapeLoop(s: string) returns (buf: string)
    ensures buf == Unescape(s)
  {
    buf := "";
    var esc := false;
    var i := 0;
    while i < |s|
      invariant 0 <= i <= |s|
      invariant buf + Decode(s[i..], esc) == Decode(s, false)
    {
      DecodeStep(s, i, esc);
      var add, esc2 := UnescapeChar(s[i], esc);
      Assoc(buf, add, Decode(s[i + 1..], esc2));
      buf, esc := buf + add, esc2;
      i := i + 1;
    }
    assert s[i..] == "";
  }

  /** `get_text`: the stored string decoded, or the default when the key is missing. */
  function GetText(ini: Ini, sec: string, key: string, default: string): (r: string)
    ensures (sec, key) !in ini ==> r == default
    ensures (sec, key) in ini ==> r == Unescape(ini[(sec, key)])
  {
    match Get(ini, sec, key)
    case None => default
    case Some(s) => Unescape(s)
  }

  /** The encoding loop of `set_text`: carriage returns dropped, line feeds written as `\n`. */
  function Escape(s: string): (r: string)
    ensures '\r' !in r && '\n' !in r
    ensures '\n' !in s && '\r' !in s ==> r == s
    decreases |s|
  {
    if |s| == 0 then "" else EscapeChar(s[0]) + Escape(s[1..])
  }

  /** What `set_text` writes for one character. */
  function EscapeChar(c: char): (r: string)
    ensures '\r' !in r && '\n' !in r
  {
    if c == '\r' then "" else if c == '\n' then "\\n" else [c]
  }

  /** `set_text` as written: store the encoded string. */
  function SetText(ini: Ini, sec: string, key: string, val: string): (r: Ini)
    ensures (sec, key) in r && r[(sec, key)] == Escape(val)
    ensures forall k :: k in ini && k != (sec, key) ==> k in r && r[k] == ini[k]
    ensures r.Keys == ini.Keys + {(sec, key)}
  {
    ini[(sec, key) := Escape(val)]
  }

  /** `s` with its carriage returns removed. */
  function DropCr(s: string): (r: string)
    ensures '\r' !in r
    ensures '\r' !in s ==> r == s
    decreases |s|
  {
    if |s| == 0 then "" else (if s[0] == '\r' then "" else [s[0]]) + DropCr(s[1..])
  }

  /** Decoding one encoded character and then the rest, outside an escape. */
  lemma DecodeConcat(p: string, rest: string, d: string)
    requires (p == "" && d == "") || (|p| == 1 && p[0] != '\\' && d == p) ||
             (p == "\\n" && d == "\n") || (p == "\\\\" && d == "\\")
    ensures Decode(p + rest, false) == d + Decode(rest, false)
  {
    if |p| == 1 {
      assert (p + rest)[1..] == rest;
    } else if |p| == 2 {
      assert (p + rest)[1..] == [p[1]] + rest;
      assert (p + rest)[1..][1..] == rest;
    } else {
      assert p + rest == rest;
    }
  }

  /**
   * For a string without backslashes or carriage returns, decoding what
   * `set_text` stored gives the string back.
   */
  lemma {:induction false} UnescapeEscape(s: string)
    requires '\\' !in s && '\r' !in s
    ensures Unescape(Escape(s)) == s
    decreases |s|
  {
    if |s| > 0 {
      UnescapeEscape(s[1..]);
      DecodeConcat(EscapeChar(s[0]), Escape(s[1..]), [s[0]]);
      assert [s[0]] + s[1..] == s;
    }
  }

  /** For a string without backslashes, decoding what `set_text` stored gives it back less its carriage returns. */
  lemma {:induction false} UnescapeEscapeNoBackslash(s: string)
    requires '\\' !in s
    ensures Unescape(Escape(s)) == DropCr(s)
    decreases |s|
  {
    if |s| > 0 {
      assert '\\' !in s[1..];
      UnescapeEscapeNoBackslash(s[1..]);
      DecodeConcat(EscapeChar(s[0]), Escape(s[1..]), if s[0] == '\r' then "" else [s[0]]);
    }
  }

  /**
   * As written, a stored backslash followed by `n` comes back as a line
   * feed: `set_text` does not escape backslashes although `get_text`
   * decodes them.
   */
  lemma BackslashNotPreserved(s: string)
    requires s == "\\n"
    ensures Unescape(Escape(s)) == "\n" && Unescape(Escape(s)) != s
  {
    assert Escape(s) == "\\n" by {
      assert s[1..] == "n";
      assert s[1..][1..] == "";
    }
    DecodeConcat("\\n", "", "\n");
    assert "\\n" + "" == "\\n";
  }

  /** The corrected encoding: a backslash is written doubled, as `get_text` expects. */
  function EscapeFixed(s: string): (r: string)
    ensures '\r' !in r && '\n' !in r
    ensures '\n' !in s && '\r' !in s && '\\' !in s ==> r == s
    decreases |s|
  {
    if |s| == 0 then "" else EscapeCharFixed(s[0]) + EscapeFixed(s[1..])
  }

  /** The corrected encoding of one character. */
  function EscapeCharFixed(c: char): (r: string)
    ensures '\r' !in r && '\n' !in r
  {
    if c == '\\' then "\\\\" else EscapeChar(c)
  }

  /** With the corrected encoding every string comes back, less its carriage returns. */
  lemma {:induction false} UnescapeEscapeFixed(s: string)
    ensures Unescape(EscapeFixed(s)) == DropCr(s)
    decreases |s|
  {
    if |s| > 0 {
      UnescapeEscapeFixed(s[1..]);
      DecodeConcat(EscapeCharFixed(s[0]), EscapeFixed(s[1..]), if s[0] == '\r' then "" else [s[0]]);
    }
  }

  /** `set_text` with the corrected encoding. */
  function SetTextFixed(ini: Ini, sec: string, key: string, val: string): (r: Ini)
    ensures GetText(r, sec, key, "") == DropCr(val)
    ensures forall k :: k in ini && k != (sec, key) ==> k in r && r[k] == ini[k]
    ensures r.Keys == ini.Keys + {(sec, key)}
  {
    UnescapeEscapeFixed(val);
    ini[(sec, key) := EscapeFixed(val)]
  }

  /** Writing a key and reading it back returns the text for strings `set_text` can carry. */
  lemma SetThenGetText(ini: Ini, sec: string, key: string, val: string, default: string)
    requires '\\' !in val && '\r' !in val
    ensures GetText(SetText(ini, sec, key, val), sec, key, default) == val
  {
    UnescapeEscape(val);
  }

  /** Writing one key leaves what every other key reads unchanged. */
  lemma SetTextKeepsOthers(ini: Ini, sec: string, key: string, val: string, sec2: string, key2: string, default: string)
    requires (sec2, key2) != (sec, key)
    ensures GetText(SetText(ini, sec, key, val), sec2, key2, default) == GetText(ini, sec2, key2, default)
  {
  }

  // ---------------------------------------------------------------------
  // Values and arrays
  // ---------------------------------------------------------------------

  /** `parse_val`: the raw stored string parsed, or the default when it is missing or does not parse. */
  function ParseVal<T>(ini: Ini, sec: string, key: string, default: T, parse: string -> Option<T>): (r: T)
    ensures (sec, key) !in ini ==> r == default
    ensures (sec, key) in ini && parse(ini[(sec, key)]).Some? ==> r == parse(ini[(sec, key)]).value
    ensures (sec, key) in ini && parse(ini[(sec, key)]).None? ==> r == default
  {
    match Get(ini, sec, key)
    case None => default
    case Some(v) => match parse(v) case Some(x) => x case None => default
  }

  /** `set_val`: the value's text stored as it is, without escaping. */
  function SetVal<T>(ini: Ini, sec: string, key: string, val: T, show: T -> string): (r: Ini)
    ensures (sec, key) in r && r[(sec, key)] == show(val)
    ensures forall k :: k in ini && k != (sec, key) ==> k in r && r[k] == ini[k]
  {
    ini[(sec, key) := show(val)]
  }

  /** A value stored with `set_val` reads back with `parse_val` when its text parses back to it. */
  lemma SetValThenParse<T>(ini: Ini, sec: string, key: string, val: T, default: T,
                           show: T -> string, parse: string -> Option<T>)
    requires parse(show(val)) == Some(val)
    ensures ParseVal(SetVal(ini, sec, key, val, show), sec, key, default, parse) == val
  {
  }

  /** The key of element `i` in the older array layout: `key.i`. */
  function ElemKey(key: string, i: nat): (r: string)
    ensures |r| > |key| + 1 && r[..|key| + 1] == key + "." && AllDigits(r[|key| + 1..]) && DigitsValue(r[|key| + 1..]) == i
  {
    var r := key + "." + NatToDecimal(i);
    assert r[|key| + 1..] == NatToDecimal(i);
    r
  }

  /** `parse_array_v4`: element `i` is `parse_val` of the key `key.i`. */
  function ParseArrayV4<T>(ini: Ini, sec: string, key: string, n: nat, default: T, parse: string -> Option<T>): (r: seq<T>)
    ensures |r| == n
    ensures forall i :: 0 <= i < n && (sec, ElemKey(key, i)) !in ini ==> r[i] == default
    ensures forall i :: 0 <= i < n && (sec, ElemKey(key, i)) in ini && parse(ini[(sec, ElemKey(key, i))]).Some? ==>
      r[i] == parse(ini[(sec, ElemKey(key, i))]).value
    ensures forall i :: 0 <= i < n && (sec, ElemKey(key, i)) in ini && parse(ini[(sec, ElemKey(key, i))]).None? ==>
      r[i] == default
  {
    seq(n, i requires 0 <= i < n => ParseVal(ini, sec, ElemKey(key, i), default, parse))
  }

  /** Different elements of the older layout never share a key. */
  lemma ElemKeysDistinct(key: string, i: nat, j: nat)
    requires i != j
    ensures ElemKey(key, i) != ElemKey(key, j)
  {
    var a := ElemKey(key, i);
    var b := ElemKey(key, j);
    if a == b {
      assert false;
    }
  }

  /** The key of the next element differs from the keys of all earlier ones. */
  lemma ElemKeyFresh(key: string, n: nat)
    ensures forall i :: 0 <= i < n ==> ElemKey(key, i) != ElemKey(key, n)
  {
    forall i | 0 <= i < n
      ensures ElemKey(key, i) != ElemKey(key, n)
    {
      ElemKeysDistinct(key, i, n);
    }
  }

  /** The older array layout written value by value with `set_val`, element `i` under `key.i`. */
  function SetValsV4<T>(ini: Ini, sec: string, key: string, vals: seq<T>, show: T -> string): (r: Ini)
    ensures forall i :: 0 <= i < |vals| ==> (sec, ElemKey(key, i)) in r && r[(sec, ElemKey(key, i))] == show(vals[i])
    decreases |vals|
  {
    if |vals| == 0 then ini
    else
      var n := |vals| - 1;
      var before := SetValsV4(ini, sec, key, vals[..n], show);
      ElemKeyFresh(key, n);
      SetVal(before, sec, ElemKey(key, n), vals[n], show)
  }

  /** Values written one by one with `set_val` read back with `parse_array_v4` when each text parses back. */
  lemma SetValsThenParseArrayV4<T>(ini: Ini, sec: string, key: string, vals: seq<T>, default: T,
                                   show: T -> string, parse: string -> Option<T>)
    requires forall i :: 0 <= i < |vals| ==> parse(show(vals[i])) == Some(vals[i])
    ensures ParseArrayV4(SetValsV4(ini, sec, key, vals, show), sec, key, |vals|, default, parse) == vals
  {
    var r := ParseArrayV4(SetValsV4(ini, sec, key, vals, show), sec, key, |vals|, default, parse);
    forall i | 0 <= i < |vals|
      ensures r[i] == vals[i]
    {
    }
  }

  /** Element `i` of `parse_array`: the trimmed `i`-th piece parsed, or the default. */
  function Item<T>(pieces: seq<string>, i: nat, default: T, parse: string -> Option<T>): T
  {
    if i < |pieces| then
      match parse(Trim(pieces[i])) case Some(x) => x case None => default
    else default
  }

  /**
   * `parse_array`: the decoded text split on ',', each of the first `n`
   * pieces trimmed and parsed; a missing or unparsable piece gives the
   * default. The result always has `n` elements.
   */
  function ParseArray<T>(ini: Ini, sec: string, key: string, n: nat, default: T, parse: string -> Option<T>): (r: seq<T>)
    ensures |r| == n
    ensures forall i :: 0 <= i < n ==> ItemFrom(Pieces(ini, sec, key), i, default, parse, r[i])
    ensures (sec, key) !in ini && parse("").None? ==> forall i :: 0 <= i < n ==> r[i] == default
  {
    var pieces := Pieces(ini, sec, key);
    assert (sec, key) !in ini ==> pieces == [""];
    seq(n, i requires 0 <= i < n => Item(pieces, i, default, parse))
  }

  /** The comma-separated pieces of the decoded text of a key (one empty piece when it is missing). */
  function Pieces(ini: Ini, sec: string, key: string): (r: seq<string>)
    ensures |r| > 0
  {
    Split(GetText(ini, sec, key, ""), ',')
  }

  /**
   * `x` is what the trimmed `i`-th piece parses to when it parses, and the
   * default when the piece does not parse or is past the last piece.
   */
  ghost predicate ItemFrom<T>(pieces: seq<string>, i: nat, default: T, parse: string -> Option<T>, x: T)
  {
    (i < |pieces| && parse(Trim(pieces[i])).Some? ==> x == parse(Trim(pieces[i])).value) &&
    (i < |pieces| && parse(Trim(pieces[i])).None? ==> x == default) &&
    (i >= |pieces| ==> x == default)
  }

  /** The pieces `set_array` writes: the first value, then each further value after a space. */
  function Cells<T>(vals: seq<T>, show: T -> string): (r: seq<string>)
    ensures |r| == |vals|
    ensures forall i :: 0 <= i < |r| ==> r[i] == (if i == 0 then "" else " ") + show(vals[i])
  {
    seq(|vals|, i requires 0 <= i < |vals| => (if i == 0 then "" else " ") + show(vals[i]))
  }

  /** The text `set_array` builds: the values joined by ", ". */
  function ArrayText<T>(vals: seq<T>, show: T -> string): (r: string)
  {
    if |vals| == 0 then "" else Join(Cells(vals, show), ',')
  }

  /**
   * `set_array`: the values joined by ", " and stored with `set_text`, whose
   * encoding leaves backslashes alone; the text reads back whole, less its
   * carriage returns, when no value's text holds a backslash.
   */
  function SetArray<T>(ini: Ini, sec: string, key: string, vals: seq<T>, show: T -> string): (r: Ini)
    ensures (forall i :: 0 <= i < |vals| ==> '\\' !in show(vals[i])) ==>
      GetText(r, sec, key, "") == DropCr(ArrayText(vals, show))
    ensures (sec, key) in r && '\r' !in r[(sec, key)] && '\n' !in r[(sec, key)]
    ensures forall k :: k in ini && k != (sec, key) ==> k in r && r[k] == ini[k]
  {
    ArrayTextReadsBack(vals, show);
    SetText(ini, sec, key, ArrayText(vals, show))
  }

  /** The encoded array text decodes to itself, less carriage returns, when no value's text holds a backslash. */
  lemma ArrayTextReadsBack<T>(vals: seq<T>, show: T -> string)
    ensures (forall i :: 0 <= i < |vals| ==> '\\' !in show(vals[i])) ==>
      Unescape(Escape(ArrayText(vals, show))) == DropCr(ArrayText(vals, show))
  {
    if forall i :: 0 <= i < |vals| ==> '\\' !in show(vals[i]) {
      ArrayTextLacks(vals, show, '\\');
      UnescapeEscapeNoBackslash(ArrayText(vals, show));
    }
  }

  /** The joined text holds a character other than ',' and ' ' only when some value's text does. */
  lemma ArrayTextLacks<T>(vals: seq<T>, show: T -> string, c: char)
    requires c != ',' && c != ' '
    requires forall i :: 0 <= i < |vals| ==> c !in show(vals[i])
    ensures c !in ArrayText(vals, show)
  {
    if |vals| > 0 {
      var cells := Cells(vals, show);
      forall i | 0 <= i < |cells|
        ensures c !in cells[i]
      {
        assert cells[i] == (if i == 0 then "" else " ") + show(vals[i]);
      }
      JoinLacks(cells, ',', c);
    }
  }

  /** A joined text lacks a character that neither the pieces nor the separator hold. */
  lemma {:induction false} JoinLacks(parts: seq<string>, sep: char, c: char)
    requires |parts| > 0 && sep != c
    requires forall i :: 0 <= i < |parts| ==> c !in parts[i]
    ensures c !in Join(parts, sep)
    decreases |parts|
  {
    if |parts| > 1 {
      JoinLacks(parts[1..], sep, c);
    }
  }

  /**
   * Reading back an array written by `set_array` gives the same values,
   * when each value is written without commas, carriage returns and
   * backslashes and parses back from its trimmed text.
   */
  lemma SetArrayThenParse<T>(ini: Ini, sec: string, key: string, vals: seq<T>, default: T,
                             show: T -> string, parse: string -> Option<T>)
    requires |vals| > 0
    requires forall i :: 0 <= i < |vals| ==> ',' !in show(vals[i]) && '\r' !in show(vals[i])
    requires forall i :: 0 <= i < |vals| ==> '\\' !in show(vals[i])
    requires forall i :: 0 <= i < |vals| ==> parse(Trim(show(vals[i]))) == Some(vals[i])
    ensures ParseArray(SetArray(ini, sec, key, vals, show), sec, key, |vals|, default, parse) == vals
  {
    var cells := Cells(vals, show);
    PiecesOfSetArray(ini, sec, key, vals, show);
    var r := ParseArray(SetArray(ini, sec, key, vals, show), sec, key, |vals|, default, parse);
    forall i | 0 <= i < |vals| ensures r[i] == vals[i] {
      CellParses(vals, show, parse, i);
      assert r[i] == Item(cells, i, default, parse);
    }
  }

  /** A cell written by `set_array` parses back, after trimming, to its value. */
  lemma CellParses<T>(vals: seq<T>, show: T -> string, parse: string -> Option<T>, i: nat)
    requires i < |vals| && parse(Trim(show(vals[i]))) == Some(vals[i])
    ensures parse(Trim(Cells(vals, show)[i])) == Some(vals[i])
  {
    var x := show(vals[i]);
    var c := Cells(vals, show)[i];
    if i > 0 {
      assert c == " " + x;
      TrimSpace(x);
    } else {
      assert c == "" + x == x;
    }
    assert Trim(c) == Trim(x);
  }

  /** The pieces read back from `set_array` are the cells it joined. */
  lemma PiecesOfSetArray<T>(ini: Ini, sec: string, key: string, vals: seq<T>, show: T -> string)
    requires |vals| > 0
    requires forall i :: 0 <= i < |vals| ==> ',' !in show(vals[i]) && '\r' !in show(vals[i])
    requires forall i :: 0 <= i < |vals| ==> '\\' !in show(vals[i])
    ensures Pieces(SetArray(ini, sec, key, vals, show), sec, key) == Cells(vals, show)
  {
    var cells := Cells(vals, show);
    assert forall i :: 0 <= i < |cells| ==> ',' !in cells[i] && '\r' !in cells[i];
    JoinLacks(cells, ',', '\r');
    SplitJoin(cells, ',');
  }

  // ---------------------------------------------------------------------
  // Names and colour choices
  // ---------------------------------------------------------------------

  /**
   * The file and constant name built from the palette name: every
   * character that is not alphanumeric becomes '_'. `isAlnum` is
   * `char::is_alphanumeric`.
   */
  function Sanitize(s: string, isAlnum: char -> bool): (r: string)
    ensures |r| == |s|
    ensures forall i :: 0 <= i < |s| && isAlnum(s[i]) ==> r[i] == s[i]
    ensures forall i :: 0 <= i < |s| && !isAlnum(s[i]) ==> r[i] == '_'
  {
    seq(|s|, i requires 0 <= i < |s| => if isAlnum(s[i]) then s[i] else '_')
  }

  /** A sanitised name holds only alphanumerics and '_', and sanitising it again changes nothing. */
  lemma SanitizeIdempotent(s: string, isAlnum: char -> bool)
    ensures forall i :: 0 <= i < |s| ==> isAlnum(Sanitize(s, isAlnum)[i]) || Sanitize(s, isAlnum)[i] == '_'
    ensures Sanitize(Sanitize(s, isAlnum), isAlnum) == Sanitize(s, isAlnum)
  {
  }

  /** Entry `n` of `pal_choice`: row `n / 8`, shade `n % 8`, labelled "name-shade". */
  function ChoiceEntry(n: nat): (r: (Palette.ColorIdx, string))
    requires n < Palette.LEN * 8
    ensures r.0.colors != Palette.NoColor && Palette.Ordinal(r.0.colors) * 8 + r.0.idx == n && r.0.idx < 8
    ensures r.1 == Palette.Name(r.0.colors) + "-" + NatToDecimal(r.0.idx)
  {
    var c := Palette.AllColors()[n / 8];
    (Palette.ColorIdx(c, n % 8), Palette.Name(c) + "-" + NatToDecimal(n % 8))
  }

  /** `pal_choice`: every shade of every row, row by row. */
  function PalChoice(): (r: seq<(Palette.ColorIdx, string)>)
    ensures |r| == Palette.LEN * 8
    ensures forall n :: 0 <= n < |r| ==> r[n] == ChoiceEntry(n)
  {
    seq(Palette.LEN * 8, n requires 0 <= n < Palette.LEN * 8 => ChoiceEntry(n))
  }

  /** Every shade of every real row is offered, at index row * 8 + shade. */
  lemma PalChoiceHas(c: Palette.Colors, k: nat)
    requires c != Palette.NoColor && k < 8
    ensures Palette.Ordinal(c) * 8 + k < |PalChoice()|
    ensures PalChoice()[Palette.Ordinal(c) * 8 + k].0 == Palette.ColorIdx(c, k)
  {
    var n := Palette.Ordinal(c) * 8 + k;
    var e := ChoiceEntry(n);
    assert Palette.Ordinal(e.0.colors) == Palette.Ordinal(c);
    OrdinalInjective(e.0.colors, c);
  }

  lemma OrdinalInjective(a: Palette.Colors, b: Palette.Colors)
    requires Palette.Ordinal(a) == Palette.Ordinal(b)
    ensures a == b
  {
  }

  /** No two choices share a label. */
  lemma PalChoiceLabelsDistinct(i: nat, j: nat)
    requires i < j < Palette.LEN * 8
    ensures PalChoice()[i].1 != PalChoice()[j].1
  {
    var a := ChoiceEntry(i);
    var b := ChoiceEntry(j);
    if a.1 == b.1 {
      LabelInjective(a.0, b.0);
      assert false;
    }
  }

  /** The label `name-shade` of a choice determines its row and shade. */
  lemma LabelInjective(a: Palette.ColorIdx, b: Palette.ColorIdx)
    requires a.idx < 8 && b.idx < 8
    requires Palette.Name(a.colors) + "-" + NatToDecimal(a.idx) == Palette.Name(b.colors) + "-" + NatToDecimal(b.idx)
    ensures a == b
  {
    var la := Palette.Name(a.colors) + "-" + NatToDecimal(a.idx);
    var na := Palette.Name(a.colors);
    var nb := Palette.Name(b.colors);
    assert NatToDecimal(a.idx) == [DigitChar(a.idx)];
    assert NatToDecimal(b.idx) == [DigitChar(b.idx)];
    assert DigitValue(la[|la| - 1]) == a.idx && DigitValue(la[|la| - 1]) == b.idx;
    assert na == la[..|na|] && nb == la[..|nb|];
    Palette.ParseName(a.colors);
    Palette.ParseName(b.colors);
  }
}

=== FILE: rat_mask.dfy ===
// The masked-input core of rat-text (rat-text/src/text_mask_core.rs): the text
// holds one grapheme per mask token before the terminator; the default value,
// `set_text`, the cursors and ranges of sections, the sign toggle and the
// removals that keep the text's length. Tokens are the list MaskParse.Lex
// builds; a token's section and sub-section are its coarse and fine groups.

module RatMask {
  import opened Util
  import opened MaskKind
  import opened MaskParse

  // -------------------------------------------------------------------
  // Text and default value
  // -------------------------------------------------------------------

  /** A text fits a parsed mask: one grapheme per token before the terminator. */
  predicate Fits(ms: seq<Mask>, t: seq<string>)
  {
    Terminated(ms) && |t| == |ms| - 1
  }

  /** The graphemes concatenated into one string. */
  function Cat(gs: seq<string>): string
    decreases |gs|
  {
    if |gs| == 0 then "" else gs[0] + Cat(gs[1..])
  }

  lemma {:induction false} CatAppend(a: seq<string>, b: seq<string>)
    ensures Cat(a + b) == Cat(a) + Cat(b)
    decreases |a|
  {
    if |a| == 0 {
      assert a + b == b;
    } else {
      assert (a + b)[1..] == a[1..] + b;
      CatAppend(a[1..], b);
      assert Cat(a + b) == a[0] + (Cat(a[1..]) + Cat(b));
    }
  }

  /** The edit value of every token. */
  function Edits(ms: seq<Mask>): (es: seq<string>)
    ensures |es| == |ms|
    ensures forall j :: 0 <= j < |ms| ==> es[j] == EditValue(ms[j])
  {
    seq(|ms|, j requires 0 <= j < |ms| => EditValue(ms[j]))
  }

  /** `empty_section`: the edit values concatenated. */
  function EmptySection(ms: seq<Mask>): string
  {
    Cat(Edits(ms))
  }

  /** `default_value`: the edit value of each token before the terminator. */
  function DefaultText(ms: seq<Mask>): (t: seq<string>)
    requires Terminated(ms)
    ensures Fits(ms, t)
    ensures Cat(t) == EmptySection(ms)
  {
    var t := Edits(ms[..|ms| - 1]);
    assert Edits(ms) == t + [""];
    CatAppend(t, [""]);
    assert Cat([""]) == "" + Cat([]);
    t
  }

  /** `is_empty`: the text reads as the default value. */
  predicate IsEmpty(ms: seq<Mask>, t: seq<string>)
  {
    Cat(t) == EmptySection(ms)
  }

  /** The default value reads as empty. */
  lemma DefaultIsEmpty(ms: seq<Mask>)
    requires Terminated(ms)
    ensures IsEmpty(ms, DefaultText(ms))
  {
  }

  /** A grapheme list cut to n, or padded with spaces up to n. */
  function Fit(t: seq<string>, n: nat): (r: seq<string>)
    ensures |r| == n
    ensures |t| >= n ==> r == t[..n]
    ensures |t| < n ==> r[..|t|] == t && forall k :: |t| <= k < n ==> r[k] == " "
    decreases n - |t|
  {
    if |t| >= n then t[..n] else Fit(t + [" "], n)
  }

  /** A list of the right length is kept, so fitting twice is fitting once. */
  lemma FitIdempotent(t: seq<string>, n: nat)
    ensures Fit(t, n) == t <==> |t| == n
    ensures Fit(Fit(t, n), n) == Fit(t, n)
  {
    var r := Fit(t, n);
    assert r[..|r|] == r;
    if |t| == n {
      assert t[..n] == t;
    }
  }

  /**
   * `set_text`: a longer text is cut to the mask's length, a shorter one padded
   * with spaces.
   */
  function SetText(ms: seq<Mask>, t: seq<string>): (r: seq<string>)
    ensures |r| == SatSub(|ms|, 1)
    ensures Terminated(ms) ==> Fits(ms, r)
  {
    Fit(t, SatSub(|ms|, 1))
  }

  /** A text that already fits is kept, so setting twice is setting once. */
  lemma SetTextIdempotent(ms: seq<Mask>, t: seq<string>)
    ensures SetText(ms, SetText(ms, t)) == SetText(ms, t)
    ensures Terminated(ms) ==> (SetText(ms, t) == t <==> Fits(ms, t))
  {
    FitIdempotent(t, SatSub(|ms|, 1));
  }

  // -------------------------------------------------------------------
  // Sections
  // -------------------------------------------------------------------

  function SecStart(ms: seq<Mask>, j: nat): nat
    requires j < |ms|
  {
    GroupStart(ms, false, j)
  }

  function SecEnd(ms: seq<Mask>, j: nat): nat
    requires j < |ms|
  {
    GroupEnd(ms, false, j, |ms| - 1)
  }

  function SubStart(ms: seq<Mask>, j: nat): nat
    requires j < |ms|
  {
    GroupStart(ms, true, j)
  }

  function SubEnd(ms: seq<Mask>, j: nat): nat
    requires j < |ms|
  {
    GroupEnd(ms, true, j, |ms| - 1)
  }

  function SecId(ms: seq<Mask>, j: nat): nat
    requires j < |ms|
  {
    CountBoundaries(ms, false, j + 1)
  }

  /** A token that takes input: neither a separator nor the terminator. */
  predicate Editable(m: Mask)
  {
    !m.Separator? && !m.NoMask?
  }

  predicate IsRtolDigit(m: Mask)
  {
    m == Digit(Rtol) || m == Digit0(Rtol) || m == Numeric(Rtol)
  }

  /**
   * `number_cursor`: the position after the last right-to-left digit of the
   * range, or the range's start when it has none.
   */
  function NumberCursor(ms: seq<Mask>, s: nat, e: nat): (r: nat)
    requires s <= e <= |ms|
    ensures s <= r <= e
    ensures r > s ==> IsRtolDigit(ms[r - 1])
    ensures forall k :: r <= k < e ==> !IsRtolDigit(ms[k])
    decreases e - s
  {
    if e == s then s
    else if IsRtolDigit(ms[e - 1]) then e
    else NumberCursor(ms, s, e - 1)
  }

  /** The default cursor inside the section of token i. */
  function CursorIn(ms: seq<Mask>, i: nat): (r: nat)
    requires Terminated(ms) && i < |ms|
    ensures SecStart(ms, i) <= r
    ensures i < |ms| - 1 ==> r <= SecEnd(ms, i)
  {
    if i < |ms| - 1 then
      GroupContains(ms, false, i);
      if IsNumber(ms[i]) then NumberCursor(ms, SecStart(ms, i), SecEnd(ms, i)) else SecStart(ms, i)
    else
      SecStart(ms, i)
  }

  /** `section_cursor`: the default cursor of the editable section at c. */
  function SectionCursor(ms: seq<Mask>, c: nat): (r: Option<nat>)
    requires Terminated(ms)
    ensures r.None? <==> c >= |ms| || !Editable(ms[c])
    ensures r.Some? ==> SecStart(ms, c) <= r.value <= SecEnd(ms, c)
  {
    if c >= |ms| || !Editable(ms[c]) then None
    else Some(CursorIn(ms, c))
  }

  /** `section_range`: the range of the editable section at c. */
  function SectionRange(ms: seq<Mask>, c: nat): (r: Option<(nat, nat)>)
    requires Terminated(ms)
    ensures r.None? <==> c >= |ms| || !Editable(ms[c])
    ensures r.Some? ==> r.value.0 <= c < r.value.1 <= |ms| - 1
  {
    if c >= |ms| || !Editable(ms[c]) then None
    else
      GroupContains(ms, false, c);
      Some((SecStart(ms, c), SecEnd(ms, c)))
  }

  /**
   * The first token of the next editable section after the section of j, as the
   * loop of `next_section_cursor` walks: section by section, over separators,
   * stopping at the terminator.
   */
  function NextSectionStart(ms: seq<Mask>, j: nat): (r: Option<nat>)
    requires Terminated(ms) && j < |ms|
    ensures r.Some? ==> j < r.value < |ms| - 1 && Editable(ms[r.value]) && SecStart(ms, r.value) == r.value
    decreases |ms| - j
  {
    if ms[j].NoMask? then None
    else
      GroupContains(ms, false, j);
      var n := SecEnd(ms, j);
      if ms[n].Separator? then NextSectionStart(ms, n)
      else if ms[n].NoMask? then None
      else Some(n)
  }

  /** The first token at or after k that is not a separator. */
  function SkipSeparators(ms: seq<Mask>, k: nat): (r: nat)
    requires Terminated(ms) && k < |ms|
    ensures k <= r < |ms| && !ms[r].Separator?
    ensures forall i :: k <= i < r ==> ms[i].Separator?
    decreases |ms| - k
  {
    if ms[k].Separator? then SkipSeparators(ms, k + 1) else k
  }

  /**
   * The next editable section starts at the first token after the current
   * section that is not a separator, unless that is the terminator.
   */
  lemma {:induction false} NextSectionSkipsSeparators(ms: seq<Mask>, j: nat)
    requires Terminated(ms) && j < |ms| - 1
    ensures var k := SkipSeparators(ms, SecEnd(ms, j));
      NextSectionStart(ms, j) == if ms[k].NoMask? then None else Some(k)
    decreases |ms| - j
  {
    GroupContains(ms, false, j);
    var n := SecEnd(ms, j);
    if ms[n].Separator? {
      SeparatorAlone(ms, false, n);
      NextSectionSkipsSeparators(ms, n);
    }
  }

  /**
   * The loop of `prev_section_cursor` from the section starting at p: step to
   * the section left of it, over separators, until the first token.
   */
  function PrevSectionFrom(ms: seq<Mask>, p: nat): (r: Option<nat>)
    requires Terminated(ms) && p < |ms|
    ensures r.Some? ==> r.value < p && Editable(ms[r.value]) && SecStart(ms, r.value) == r.value
    decreases p
  {
    if p == 0 then None
    else
      var q := SecStart(ms, p - 1);
      if ms[q].Separator? then PrevSectionFrom(ms, q)
      else
        assert q < |ms| - 1;
        Some(q)
  }

  /** The last token before p that is not a separator. */
  function LastKept(ms: seq<Mask>, p: nat): (r: Option<nat>)
    requires p <= |ms|
    ensures r.Some? ==> r.value < p && !ms[r.value].Separator?
    ensures forall i :: (if r.Some? then r.value + 1 else 0) <= i < p ==> ms[i].Separator?
    decreases p
  {
    if p == 0 then None
    else if !ms[p - 1].Separator? then Some(p - 1)
    else LastKept(ms, p - 1)
  }

  /**
   * From a section start, the previous editable section is the one holding the
   * last non-separator token before it.
   */
  lemma {:induction false} PrevSectionIsLastKept(ms: seq<Mask>, p: nat)
    requires Terminated(ms) && p < |ms|
    requires p == 0 || IsBoundary(ms, false, p)
    ensures PrevSectionFrom(ms, p) == match LastKept(ms, p)
      case None => None
      case Some(k) => Some(SecStart(ms, k))
    decreases p
  {
    if p > 0 {
      if ms[p - 1].Separator? {
        SeparatorAlone(ms, false, p - 1);
        PrevSectionIsLastKept(ms, p - 1);
        assert PrevSectionFrom(ms, p) == PrevSectionFrom(ms, p - 1);
        assert LastKept(ms, p) == LastKept(ms, p - 1);
      } else {
        var q := SecStart(ms, p - 1);
        if ms[q].Separator? {
          SeparatorAlone(ms, false, q);
        }
        assert LastKept(ms, p) == Some(p - 1);
      }
    }
  }

  /** `next_section_cursor`. */
  function NextSectionCursor(ms: seq<Mask>, c: nat): (r: Option<nat>)
    requires Terminated(ms)
    ensures c >= |ms| ==> r.None?
    ensures r.Some? ==> c < r.value
  {
    if c >= |ms| then None
    else match NextSectionStart(ms, c)
      case None => None
      case Some(i) => Some(CursorIn(ms, i))
  }

  /** `next_section_range`. */
  function NextSectionRange(ms: seq<Mask>, c: nat): (r: Option<(nat, nat)>)
    requires Terminated(ms)
    ensures c >= |ms| ==> r.None?
    ensures r.Some? ==> c < r.value.0 < r.value.1 <= |ms| - 1
    ensures r.Some? <==> NextSectionCursor(ms, c).Some?
  {
    if c >= |ms| then None
    else match NextSectionStart(ms, c)
      case None => None
      case Some(i) =>
        GroupContains(ms, false, i);
        Some((SecStart(ms, i), SecEnd(ms, i)))
  }

  /** `prev_section_cursor`. */
  function PrevSectionCursor(ms: seq<Mask>, c: nat): (r: Option<nat>)
    requires Terminated(ms)
    ensures c >= |ms| ==> r.None?
    ensures r.Some? ==> r.value <= SecStart(ms, c)
  {
    if c >= |ms| then None
    else match PrevSectionFrom(ms, SecStart(ms, c))
      case None => None
      case Some(i) =>
        GroupContains(ms, false, i);
        assert SecEnd(ms, i) <= SecStart(ms, c) by {
          SectionsOrdered(ms, i, SecStart(ms, c));
        }
        Some(CursorIn(ms, i))
  }

  /** `prev_section_range`. */
  function PrevSectionRange(ms: seq<Mask>, c: nat): (r: Option<(nat, nat)>)
    requires Terminated(ms)
    ensures c >= |ms| ==> r.None?
    ensures r.Some? ==> r.value.0 < r.value.1 <= SecStart(ms, c)
    ensures r.Some? <==> PrevSectionCursor(ms, c).Some?
  {
    if c >= |ms| then None
    else match PrevSectionFrom(ms, SecStart(ms, c))
      case None => None
      case Some(i) =>
        GroupContains(ms, false, i);
        SectionsOrdered(ms, i, SecStart(ms, c));
        Some((SecStart(ms, i), SecEnd(ms, i)))
  }

  /** A section that starts at or before a boundary b ends at or before it. */
  lemma SectionsOrdered(ms: seq<Mask>, i: nat, b: nat)
    requires Terminated(ms) && i < b < |ms| && IsBoundary(ms, false, b)
    ensures SecEnd(ms, i) <= b
  {
    var e := SecEnd(ms, i);
    assert e <= |ms| - 1;
  }

  /** `is_section_boundary`: not at 0 or past the text, else the ids of the neighbours differ. */
  function IsSectionBoundary(ms: seq<Mask>, pos: nat): (b: bool)
    ensures b <==> 0 < pos < |ms| && IsBoundary(ms, false, pos)
  {
    if pos == 0 || pos >= |ms| then false
    else
      IdStep(ms, false, pos, |ms| - 1);
      SecId(ms, pos - 1) != SecId(ms, pos)
  }
}

=== FILE: rat_mask_edit.dfy ===
// Editing the masked text of rat-text (rat-text/src/text_mask_core.rs): the sign
// toggle of `insert_sign` with the guard `can_insert_sign`, and the removals
// `remove_prev`, `remove_next` and `remove_range`. Every edit rewrites whole
// sub-sections and keeps one grapheme per token.

module RatMaskEdit {
  import opened Util
  import opened MaskKind
  import opened MaskParse
  import opened RatMask

  // -------------------------------------------------------------------
  // Sign
  // -------------------------------------------------------------------

  /** A token whose cell may hold the number's sign. */
  predicate HoldsSign(m: Mask)
  {
    m.Sign? || m.Plus? || m.Numeric?
  }

  predicate IsSignGrapheme(g: string)
  {
    g == "-" || g == "+"
  }

  /** The new content of a sign cell: "-" and blank swap, or "-" and "+" for a plus cell. */
  function SignToggle(m: Mask, g: string): (r: string)
    ensures r == "-" <==> g != "-"
    ensures m.Plus? ==> r == "-" || r == "+"
    ensures !m.Plus? ==> r == "-" || r == " "
  {
    if m.Plus? then (if g == "-" then "+" else "-")
    else (if g == "-" then " " else "-")
  }

  /** On a cell already showing a sign state, toggling twice restores it. */
  lemma SignToggleTwice(m: Mask, g: string)
    requires if m.Plus? then g == "-" || g == "+" else g == "-" || g == " "
    ensures SignToggle(m, SignToggle(m, g)) == g
  {
  }

  /** The first Sign or Plus token in [s, e). */
  function FirstSignToken(ms: seq<Mask>, s: nat, e: nat): (r: Option<nat>)
    requires s <= e <= |ms|
    ensures r.Some? ==> s <= r.value < e && (ms[r.value].Sign? || ms[r.value].Plus?)
    ensures forall k :: s <= k < (if r.Some? then r.value else e) ==> !(ms[k].Sign? || ms[k].Plus?)
    decreases e - s
  {
    if s == e then None
    else if ms[s].Sign? || ms[s].Plus? then Some(s)
    else FirstSignToken(ms, s + 1, e)
  }

  /** The first "-" or "+" in the text's range [s, e). */
  function FirstSignGrapheme(t: seq<string>, s: nat, e: nat): (r: Option<nat>)
    requires s <= e <= |t|
    ensures r.Some? ==> s <= r.value < e && IsSignGrapheme(t[r.value])
    ensures forall k :: s <= k < (if r.Some? then r.value else e) ==> !IsSignGrapheme(t[k])
    decreases e - s
  {
    if s == e then None
    else if IsSignGrapheme(t[s]) then Some(s)
    else FirstSignGrapheme(t, s + 1, e)
  }

  /** A right-to-left numeric cell that is blank and can take a sign. */
  predicate FreeNumeric(ms: seq<Mask>, t: seq<string>, k: nat)
    requires k < |t| && k < |ms|
  {
    ms[k] == Numeric(Rtol) && CanDrop(ms[k], t[k])
  }

  /** The last free numeric cell in [s, e). */
  function LastFreeNumeric(ms: seq<Mask>, t: seq<string>, s: nat, e: nat): (r: Option<nat>)
    requires s <= e <= |t| && |t| <= |ms|
    ensures r.Some? ==> s <= r.value < e && FreeNumeric(ms, t, r.value)
    ensures forall k :: (if r.Some? then r.value + 1 else s) <= k < e ==> !FreeNumeric(ms, t, k)
    decreases e - s
  {
    if s == e then None
    else if FreeNumeric(ms, t, e - 1) then Some(e - 1)
    else LastFreeNumeric(ms, t, s, e - 1)
  }

  /** Where `insert_sign` puts the sign, or that its downward scan runs below 0. */
  datatype SignSearch = Found(i: nat) | NotFound | Underflow

  /**
   * The sign cell of the section [s, e): an explicit Sign or Plus token, else a
   * cell already showing a sign, else the last free numeric cell. The scan
   * for the last one counts an unsigned index down past s; from s = 0 it
   * underflows.
   */
  function SignCell(ms: seq<Mask>, t: seq<string>, s: nat, e: nat): (r: SignSearch)
    requires s <= e <= |t| && |t| <= |ms|
    ensures r.Found? ==> s <= r.i < e
    ensures r.Found? && FirstSignToken(ms, s, e).None? && FirstSignGrapheme(t, s, e).None? ==>
      FreeNumeric(ms, t, r.i)
    ensures r.Underflow? <==>
      (s == 0 && FirstSignToken(ms, s, e).None?
       && FirstSignGrapheme(t, s, e).None? && LastFreeNumeric(ms, t, s, e).None?)
  {
    match FirstSignToken(ms, s, e)
    case Some(i) => Found(i)
    case None =>
      match FirstSignGrapheme(t, s, e)
      case Some(i) => Found(i)
      case None =>
        match LastFreeNumeric(ms, t, s, e)
        case Some(i) => Found(i)
        case None => if s == 0 then Underflow else NotFound
  }

  /**
   * The token whose section takes the sign: at a boundary right of a number,
   * the number on the left.
   */
  function SignTokenAt(ms: seq<Mask>, cursor: nat): (j: nat)
    requires cursor < |ms|
    ensures j < |ms| && (j == cursor || j + 1 == cursor)
    ensures j + 1 == cursor <==> IsNumber(PeekLeft(ms, cursor)) && (IsLtor(ms[cursor]) || ms[cursor].NoMask?)
  {
    if IsNumber(PeekLeft(ms, cursor)) && (IsLtor(ms[cursor]) || ms[cursor].NoMask?) then cursor - 1 else cursor
  }

  /**
   * `insert_sign`: with the negative symbol or '-', toggles the sign cell of
   * the section; another character changes nothing. Err stands for the
   * unreachable!() on a cell that cannot hold a sign and for the underflowing
   * scan.
   */
  function InsertSign(ms: seq<Mask>, t: seq<string>, cursor: nat, c: char, negSym: char): (r: Result<(seq<string>, bool), ()>)
    requires Fits(ms, t) && cursor < |ms|
    ensures r.Ok? ==> |r.value.0| == |t|
    ensures r.Ok? && !r.value.1 ==> r.value.0 == t
    ensures r.Ok? && r.value.1 ==> exists i :: 0 <= i < |t| && HoldsSign(ms[i]) && r.value.0 == t[i := SignToggle(ms[i], t[i])]
    ensures r.Ok? && r.value.1 ==> c == negSym || c == '-'
    ensures var j := SignTokenAt(ms, cursor); SecStart(ms, j) <= SecEnd(ms, j) <= |t|
    ensures var j := SignTokenAt(ms, cursor);
      var cell := SignCell(ms, t, SecStart(ms, j), SecEnd(ms, j));
      r.Ok? && r.value.1 ==>
        (cell.Found? && SecStart(ms, j) <= cell.i < SecEnd(ms, j)
         && r.value.0 == t[cell.i := SignToggle(ms[cell.i], t[cell.i])])
    ensures var j := SignTokenAt(ms, cursor);
      var cell := SignCell(ms, t, SecStart(ms, j), SecEnd(ms, j));
      r.Err? <==> cell.Underflow? || (cell.Found? && (c == negSym || c == '-') && !HoldsSign(ms[cell.i]))
  {
    var j := SignTokenAt(ms, cursor);
    SectionWithin(ms, j);
    var s := SecStart(ms, j);
    var e := SecEnd(ms, j);
    match SignCell(ms, t, s, e)
    case Underflow => Err(())
    case NotFound => Ok((t, false))
    case Found(i) =>
      if c == negSym || c == '-' then
        if HoldsSign(ms[i]) then Ok((t[i := SignToggle(ms[i], t[i])], true))
        else Err(())
      else Ok((t, false))
  }

  lemma SectionWithin(ms: seq<Mask>, j: nat)
    requires Terminated(ms) && j < |ms|
    ensures SecStart(ms, j) <= SecEnd(ms, j) <= |ms| - 1
  {
    if j < |ms| - 1 {
      GroupContains(ms, false, j);
    } else {
      TerminatorGroup(ms, false);
    }
  }

  /** The first token in [s, e) that can hold a sign or is an explicit sign. */
  function FirstSignSlot(ms: seq<Mask>, s: nat, e: nat): (r: Option<nat>)
    requires s <= e <= |ms|
    ensures r.Some? ==> s <= r.value < e && (ms[r.value].Sign? || ms[r.value].Plus? || ms[r.value] == Numeric(Rtol))
    ensures forall k :: s <= k < (if r.Some? then r.value else e) ==>
      !(ms[k].Sign? || ms[k].Plus? || ms[k] == Numeric(Rtol))
    decreases e - s
  {
    if s == e then None
    else if ms[s].Sign? || ms[s].Plus? || ms[s] == Numeric(Rtol) then Some(s)
    else FirstSignSlot(ms, s + 1, e)
  }

  /**
   * `can_insert_sign`: the character is a minus, the section is a number, and
   * its first sign slot is an explicit sign or a numeric cell that is blank or
   * already shows "-".
   */
  function CanInsertSign(ms: seq<Mask>, t: seq<string>, cursor: nat, c: char, negSym: char): (b: bool)
    requires Fits(ms, t) && cursor < |ms|
    ensures b ==> (c == negSym || c == '-') && IsNumber(ms[SignTokenAt(ms, cursor)])
  {
    if !(c == negSym || c == '-') then false
    else
      var j := SignTokenAt(ms, cursor);
      if !IsNumber(ms[j]) then false
      else
        GroupContains(ms, false, j);
        var s := SecStart(ms, j);
        var e := SecEnd(ms, j);
        match FirstSignSlot(ms, s, e)
        case None => false
        case Some(k) => ms[k].Sign? || ms[k].Plus? || CanDrop(ms[k], t[k]) || t[k] == "-"
  }

  /** Every "-" or "+" in the text stands in a cell that may hold a sign. */
  predicate SignsConform(ms: seq<Mask>, t: seq<string>)
    requires |t| <= |ms|
  {
    forall k :: 0 <= k < |t| && IsSignGrapheme(t[k]) ==> HoldsSign(ms[k])
  }

  /**
   * Behind its guard, and with signs only where the mask allows them,
   * `insert_sign` neither panics nor underflows: it toggles a sign cell.
   */
  lemma GuardedInsertSign(ms: seq<Mask>, t: seq<string>, cursor: nat, c: char, negSym: char)
    requires Fits(ms, t) && cursor < |ms|
    requires SignsConform(ms, t)
    requires CanInsertSign(ms, t, cursor, c, negSym)
    ensures InsertSign(ms, t, cursor, c, negSym).Ok?
    ensures InsertSign(ms, t, cursor, c, negSym).value.1
  {
    var j := SignTokenAt(ms, cursor);
    GroupContains(ms, false, j);
    var s := SecStart(ms, j);
    var e := SecEnd(ms, j);
    var k := FirstSignSlot(ms, s, e).value;
    if FirstSignToken(ms, s, e).None? && FirstSignGrapheme(t, s, e).None? {
      assert FreeNumeric(ms, t, k);
      assert LastFreeNumeric(ms, t, s, e).Some?;
    }
  }

  // -------------------------------------------------------------------
  // Reformatting a sub-section
  // -------------------------------------------------------------------

  /** Fields that show "0" when empty. */
  predicate IsZeroField(m: Mask)
  {
    m.Digit0? || m.Hex0? || m.Oct0? || m.Dec0?
  }

  /** a is b, or b was a blank that the zero fill turned into "0". */
  predicate FilledFrom(a: string, b: string)
  {
    a == b || (b == " " && a == "0")
  }

  /** The left-to-right `reformat`: a blank in a zero field of [s, e) becomes "0". */
  function ZeroFill(ms: seq<Mask>, t: seq<string>, s: nat, e: nat): (r: seq<string>)
    requires s <= e <= |t| <= |ms|
    ensures |r| == |t| && r[..s] == t[..s] && r[e..] == t[e..]
    ensures forall k :: s <= k < e ==> FilledFrom(r[k], t[k]) && (IsZeroField(ms[k]) ==> r[k] != " ")
    ensures forall k :: s <= k < e && !IsZeroField(ms[k]) ==> r[k] == t[k]
  {
    seq(|t|, k requires 0 <= k < |t| => if s <= k < e && IsZeroField(ms[k]) && t[k] == " " then "0" else t[k])
  }

  /** Filling twice is filling once. */
  lemma ZeroFillIdempotent(ms: seq<Mask>, t: seq<string>, s: nat, e: nat)
    requires s <= e <= |t| <= |ms|
    ensures ZeroFill(ms, ZeroFill(ms, t, s, e), s, e) == ZeroFill(ms, t, s, e)
  {
  }

  /**
   * `reformat` of the sub-section [s, e): the zero fill when its first token is
   * left to right; a right-to-left number is re-rendered by the number formatter,
   * which this model leaves as it is.
   */
  function Reformat(ms: seq<Mask>, t: seq<string>, s: nat, e: nat): (r: seq<string>)
    requires s <= e <= |t| <= |ms| && s < |ms|
    ensures |r| == |t| && r[..s] == t[..s] && r[e..] == t[e..]
    ensures forall k :: s <= k < e ==> FilledFrom(r[k], t[k])
  {
    if IsLtor(ms[s]) then ZeroFill(ms, t, s, e) else t
  }

  /** The default text of a range is already reformatted. */
  lemma ReformatDefault(ms: seq<Mask>, t: seq<string>, s: nat, e: nat)
    requires s <= e <= |t| <= |ms| && s < |ms|
    requires t[s..e] == Edits(ms[s..e])
    ensures Reformat(ms, t, s, e) == t
  {
    var r := Reformat(ms, t, s, e);
    forall k | 0 <= k < |t|
      ensures r[k] == t[k]
    {
      if s <= k < e {
        assert t[k] == t[s..e][k - s] == EditValue(ms[k]);
      }
    }
  }

  // -------------------------------------------------------------------
  // Removing
  // -------------------------------------------------------------------

  /** t with [s, e) replaced by mid. */
  function Splice(t: seq<string>, s: nat, e: nat, mid: seq<string>): (r: seq<string>)
    requires s <= e <= |t| && |mid| == e - s
    ensures |r| == |t| && r[..s] == t[..s] && r[s..e] == mid && r[e..] == t[e..]
  {
    t[..s] + mid + t[e..]
  }

  /** A sub-section rewritten to mid and reformatted holds mid up to the zero fill. */
  lemma SpliceReformat(ms: seq<Mask>, t: seq<string>, s: nat, e: nat, mid: seq<string>)
    requires s <= e <= |t| <= |ms| && s < |ms| && |mid| == e - s
    ensures var r := Reformat(ms, Splice(t, s, e, mid), s, e);
      forall k :: s <= k < e ==> FilledFrom(r[k], mid[k - s])
  {
    var t1 := Splice(t, s, e, mid);
    assert forall k :: s <= k < e ==> t1[k] == t1[s..e][k - s];
  }

  /** The sub-section [s, e) of token j, which lies before the terminator. */
  lemma SubWithin(ms: seq<Mask>, j: nat)
    requires Terminated(ms) && j < |ms| - 1
    ensures SubStart(ms, j) <= j < SubEnd(ms, j) <= |ms| - 1
  {
    GroupContains(ms, true, j);
  }

  /** Right to left, the grapheme at d leaves [s, e) and the fill enters at s. */
  function ShiftInRtol(ms: seq<Mask>, t: seq<string>, s: nat, d: nat, e: nat): (mid: seq<string>)
    requires s <= d < e <= |t| <= |ms|
    ensures |mid| == e - s && mid[0] == EditValue(ms[s])
    ensures forall k :: s <= k < d ==> mid[k + 1 - s] == t[k]
    ensures forall k :: d < k < e ==> mid[k - s] == t[k]
  {
    [EditValue(ms[s])] + t[s..d] + t[d + 1..e]
  }

  /** Left to right, the grapheme at d leaves [s, e) and the fill enters at e - 1. */
  function ShiftInLtor(ms: seq<Mask>, t: seq<string>, s: nat, d: nat, e: nat): (mid: seq<string>)
    requires s <= d < e <= |t| <= |ms|
    ensures |mid| == e - s && mid[e - 1 - s] == EditValue(ms[e - 1])
    ensures forall k :: s <= k < d ==> mid[k - s] == t[k]
    ensures forall k :: d < k < e ==> mid[k - 1 - s] == t[k]
  {
    t[s..d] + t[d + 1..e] + [EditValue(ms[e - 1])]
  }

  /**
   * `remove_prev`: nothing at 0. Otherwise the grapheme left of the cursor
   * leaves its sub-section, which refills at its start (right to left) or at
   * its end (left to right). A right-to-left cursor stays until the
   * sub-section was empty and then goes to its start; a left-to-right one
   * steps left.
   */
  function RemovePrev(ms: seq<Mask>, t: seq<string>, c: nat): (r: (seq<string>, nat))
    requires Fits(ms, t) && c <= |t|
    ensures |r.0| == |t|
    ensures c == 0 ==> r == (t, c)
    ensures c > 0 ==>
      (var s := SubStart(ms, c - 1);
       var e := SubEnd(ms, c - 1);
       s < c <= e
       && r.0[..s] == t[..s] && r.0[e..] == t[e..]
       && (IsRtol(ms[c - 1]) ==> (r.1 == s <==> IsEmpty(ms[s..e], t[s..e])) && (r.1 == s || r.1 == c))
       && (!IsRtol(ms[c - 1]) ==> r.1 == c - 1))
  {
    if c == 0 then (t, c)
    else
      var s := SubStart(ms, c - 1);
      var e := SubEnd(ms, c - 1);
      SubWithin(ms, c - 1);
      if IsRtol(ms[c - 1]) then
        var empty := IsEmpty(ms[s..e], t[s..e]);
        (Reformat(ms, Splice(t, s, e, ShiftInRtol(ms, t, s, c - 1, e)), s, e), if empty then s else c)
      else
        (Reformat(ms, Splice(t, s, e, ShiftInLtor(ms, t, s, c - 1, e)), s, e), c - 1)
  }

  /**
   * What `remove_prev` leaves in a right-to-left sub-section, up to the zero
   * fill: the fill at the start, the graphemes left of the removed one one step
   * right, the ones right of it in place.
   */
  lemma RemovePrevShiftsRtol(ms: seq<Mask>, t: seq<string>, c: nat)
    requires Fits(ms, t) && 0 < c <= |t| && IsRtol(ms[c - 1])
    ensures var s := SubStart(ms, c - 1);
      var e := SubEnd(ms, c - 1);
      var r := RemovePrev(ms, t, c).0;
      s < c <= e
      && FilledFrom(r[s], EditValue(ms[s]))
      && (forall k :: s <= k < c - 1 ==> FilledFrom(r[k + 1], t[k]))
      && (forall k :: c <= k < e ==> FilledFrom(r[k], t[k]))
  {
    var s := SubStart(ms, c - 1);
    var e := SubEnd(ms, c - 1);
    SubWithin(ms, c - 1);
    SpliceReformat(ms, t, s, e, ShiftInRtol(ms, t, s, c - 1, e));
  }

  /**
   * What `remove_prev` leaves in a left-to-right sub-section, up to the zero
   * fill: the graphemes left of the removed one in place, the ones right of it
   * one step left, the fill at the end.
   */
  lemma RemovePrevShiftsLtor(ms: seq<Mask>, t: seq<string>, c: nat)
    requires Fits(ms, t) && 0 < c <= |t| && !IsRtol(ms[c - 1])
    ensures var s := SubStart(ms, c - 1);
      var e := SubEnd(ms, c - 1);
      var r := RemovePrev(ms, t, c).0;
      s < c <= e
      && (forall k :: s <= k < c - 1 ==> FilledFrom(r[k], t[k]))
      && (forall k :: c <= k < e ==> FilledFrom(r[k - 1], t[k]))
      && FilledFrom(r[e - 1], EditValue(ms[e - 1]))
  {
    var s := SubStart(ms, c - 1);
    var e := SubEnd(ms, c - 1);
    SubWithin(ms, c - 1);
    SpliceReformat(ms, t, s, e, ShiftInLtor(ms, t, s, c - 1, e));
  }

  /**
   * `remove_next`: nothing at the end. Otherwise the grapheme right of the
   * cursor leaves its sub-section, which refills as for `remove_prev`. A
   * right-to-left cursor steps right; a left-to-right one stays until the
   * sub-section was empty and then goes to its end.
   */
  function RemoveNext(ms: seq<Mask>, t: seq<string>, c: nat): (r: (seq<string>, nat))
    requires Fits(ms, t) && c <= |t|
    ensures |r.0| == |t|
    ensures c == |t| ==> r == (t, c)
    ensures c < |t| ==>
      (var s := SubStart(ms, c);
       var e := SubEnd(ms, c);
       s <= c < e
       && r.0[..s] == t[..s] && r.0[e..] == t[e..]
       && (IsRtol(ms[c]) ==> r.1 == c + 1)
       && (!IsRtol(ms[c]) ==> (r.1 == e <==> IsEmpty(ms[s..e], t[s..e])) && (r.1 == e || r.1 == c)))
  {
    if c == |t| then (t, c)
    else
      var s := SubStart(ms, c);
      var e := SubEnd(ms, c);
      SubWithin(ms, c);
      if IsRtol(ms[c]) then
        (Reformat(ms, Splice(t, s, e, ShiftInRtol(ms, t, s, c, e)), s, e), c + 1)
      else
        var empty := IsEmpty(ms[s..e], t[s..e]);
        (Reformat(ms, Splice(t, s, e, ShiftInLtor(ms, t, s, c, e)), s, e), if empty then e else c)
  }

  /** The part of the sub-section [s, e) that survives a removal of [a, b), with the fill on the side the direction gives. */
  function Refill(ms: seq<Mask>, t: seq<string>, s: nat, e: nat, a: nat, b: nat, rtol: bool): (mid: seq<string>)
    requires s <= a <= b <= e <= |t| <= |ms|
    ensures |mid| == e - s
    ensures rtol ==> forall k :: s <= k < s + (b - a) ==> mid[k - s] == EditValue(ms[k])
    ensures rtol ==> forall k :: s <= k < a ==> mid[k + (b - a) - s] == t[k]
    ensures rtol ==> forall k :: b <= k < e ==> mid[k - s] == t[k]
    ensures !rtol ==> forall k :: s <= k < a ==> mid[k - s] == t[k]
    ensures !rtol ==> forall k :: b <= k < e ==> mid[k - (b - a) - s] == t[k]
    ensures !rtol ==> forall k :: e - (b - a) <= k < e ==> mid[k - s] == EditValue(ms[k])
  {
    if rtol then Edits(ms[s..s + (b - a)]) + t[s..a] + t[b..e]
    else t[s..a] + t[b..e] + Edits(ms[e - (b - a)..e])
  }

  /** One round of the `remove_range` loop: the sub-section [s, e) of pos, rewritten. */
  function WalkStep(ms: seq<Mask>, t: seq<string>, a: nat, b: nat, pos: nat): (r: seq<string>)
    requires Fits(ms, t) && a <= pos < b <= |t|
    ensures |r| == |t|
    ensures r[..SubStart(ms, pos)] == t[..SubStart(ms, pos)] && r[SubEnd(ms, pos)..] == t[SubEnd(ms, pos)..]
  {
    var s := SubStart(ms, pos);
    var e := SubEnd(ms, pos);
    SubWithin(ms, pos);
    if s < a then
      if IsRtol(ms[pos]) then Reformat(ms, Splice(t, s, e, Refill(ms, t, s, e, a, e, true)), s, e)
      else Reformat(ms, Splice(t, s, e, Refill(ms, t, s, e, a, e, false)), s, e)
    else if e > b then
      if IsRtol(ms[pos]) then Reformat(ms, Splice(t, s, e, Refill(ms, t, s, e, s, b, true)), s, e)
      else Splice(t, s, e, Refill(ms, t, s, e, s, b, false))
    else
      Splice(t, s, e, Edits(ms[s..e]))
  }

  /**
   * The loop of `remove_range` once the range spans several sub-sections,
   * from the sub-section holding pos: the first one loses its part from the
   * range's start, the last one its part up to the range's end, and the ones
   * in between are reset to their edit values.
   */
  function RemoveWalk(ms: seq<Mask>, t: seq<string>, a: nat, b: nat, pos: nat): (r: seq<string>)
    requires Fits(ms, t) && a <= pos < b <= |t|
    ensures |r| == |t|
    ensures r[..SubStart(ms, pos)] == t[..SubStart(ms, pos)]
    ensures r[SubEnd(ms, b - 1)..] == t[SubEnd(ms, b - 1)..]
    decreases |t| - pos
  {
    var t1 := WalkStep(ms, t, a, b, pos);
    var e := SubEnd(ms, pos);
    var f := SubEnd(ms, b - 1);
    SubWithin(ms, pos);
    SubEndMonotone(ms, pos, b - 1);
    WalkKeepsSuffix(t, t1, e, f);
    if e >= b then t1
    else
      var r := RemoveWalk(ms, t1, a, b, e);
      assert SubStart(ms, e) == e;
      WalkKeepsPrefix(t, t1, r, SubStart(ms, pos), e);
      r
  }

  /** The walk's later rounds start at a sub-section boundary and keep what lies before it. */
  lemma WalkKeepsPrefix(t: seq<string>, t1: seq<string>, r: seq<string>, s: nat, e: nat)
    requires s <= e <= |t| == |t1| == |r|
    requires t1[..s] == t[..s] && r[..e] == t1[..e]
    ensures r[..s] == t[..s]
  {
    assert r[..s] == r[..e][..s];
    assert t1[..s] == t1[..e][..s];
  }

  /** What the first round keeps after its sub-section, it keeps after any later point. */
  lemma WalkKeepsSuffix(t: seq<string>, t1: seq<string>, e: nat, f: nat)
    requires e <= f <= |t| == |t1| && t1[e..] == t[e..]
    ensures t1[f..] == t[f..]
  {
    assert t1[f..] == t1[e..][f - e..];
    assert t[f..] == t[e..][f - e..];
  }

  lemma SameSubSection(ms: seq<Mask>, a: nat, b: nat)
    requires Terminated(ms) && a < |ms| - 1 && a < b <= SubEnd(ms, a)
    ensures b - 1 < |ms| - 1 && SubEnd(ms, b - 1) == SubEnd(ms, a)
  {
    GroupContains(ms, true, a);
    if a < b - 1 {
      GroupShared(ms, true, a, b - 1, |ms| - 1);
    }
  }

  lemma SubEndMonotone(ms: seq<Mask>, i: nat, j: nat)
    requires Terminated(ms) && i <= j < |ms| - 1
    ensures SubEnd(ms, i) <= SubEnd(ms, j)
  {
    GroupContains(ms, true, i);
    GroupContains(ms, true, j);
  }

  /**
   * `remove_range`: a range past the text is an error and an empty range
   * reports false. A range inside one sub-section is cut out and the
   * sub-section refilled on the side its direction gives; a wider range is
   * removed sub-section by sub-section. Only the sub-sections it touches change.
   */
  function RemoveRange(ms: seq<Mask>, t: seq<string>, a: nat, b: nat): (r: Result<(seq<string>, bool), ()>)
    requires Fits(ms, t) && a <= b
    ensures r.Err? <==> b > |t|
    ensures r.Ok? ==> |r.value.0| == |t| && (r.value.1 <==> a < b)
    ensures r.Ok? && a == b ==> r.value.0 == t
    ensures r.Ok? && a < b ==>
      (r.value.0[..SubStart(ms, a)] == t[..SubStart(ms, a)]
       && r.value.0[SubEnd(ms, b - 1)..] == t[SubEnd(ms, b - 1)..])
  {
    if b > |t| then Err(())
    else if a == b then Ok((t, false))
    else
      var s := SubStart(ms, a);
      var e := SubEnd(ms, a);
      SubWithin(ms, a);
      if b <= e then
        SameSubSection(ms, a, b);
        Ok((Reformat(ms, Splice(t, s, e, Refill(ms, t, s, e, a, b, IsRtol(ms[a]))), s, e), true))
      else
        Ok((RemoveWalk(ms, t, a, b, a), true))
  }

  /**
   * A right-to-left removal inside one sub-section, up to the zero fill: the
   * fill enters at the start, the graphemes before the range move right by its
   * length, the ones after it stay.
   */
  lemma RemoveRangeInSubRtol(ms: seq<Mask>, t: seq<string>, a: nat, b: nat)
    requires Fits(ms, t) && a < b <= |t| && b <= SubEnd(ms, a) && IsRtol(ms[a])
    ensures var s := SubStart(ms, a);
      var e := SubEnd(ms, a);
      var r := RemoveRange(ms, t, a, b).value.0;
      s <= a && (forall k :: s <= k < s + (b - a) ==> FilledFrom(r[k], EditValue(ms[k])))
      && (forall k :: s <= k < a ==> FilledFrom(r[k + (b - a)], t[k]))
      && (forall k :: b <= k < e ==> FilledFrom(r[k], t[k]))
  {
    var s := SubStart(ms, a);
    var e := SubEnd(ms, a);
    SubWithin(ms, a);
    SameSubSection(ms, a, b);
    var mid := Refill(ms, t, s, e, a, b, true);
    assert RemoveRange(ms, t, a, b).value.0 == Reformat(ms, Splice(t, s, e, mid), s, e);
    SpliceReformat(ms, t, s, e, mid);
  }

  /**
   * A left-to-right removal inside one sub-section, up to the zero fill: the
   * graphemes before the range stay, the ones after it move left by its
   * length, the fill enters at the end.
   */
  lemma RemoveRangeInSubLtor(ms: seq<Mask>, t: seq<string>, a: nat, b: nat)
    requires Fits(ms, t) && a < b <= |t| && b <= SubEnd(ms, a) && !IsRtol(ms[a])
    ensures var s := SubStart(ms, a);
      var e := SubEnd(ms, a);
      var r := RemoveRange(ms, t, a, b).value.0;
      s <= a && (forall k :: s <= k < a ==> FilledFrom(r[k], t[k]))
      && (forall k :: b <= k < e ==> FilledFrom(r[k - (b - a)], t[k]))
      && (forall k :: e - (b - a) <= k < e ==> FilledFrom(r[k], EditValue(ms[k])))
  {
    var s := SubStart(ms, a);
    var e := SubEnd(ms, a);
    SubWithin(ms, a);
    SameSubSection(ms, a, b);
    var mid := Refill(ms, t, s, e, a, b, false);
    assert RemoveRange(ms, t, a, b).value.0 == Reformat(ms, Splice(t, s, e, mid), s, e);
    SpliceReformat(ms, t, s, e, mid);
  }

  /** Removing a whole sub-section resets it to its default text and leaves the rest alone. */
  lemma RemoveWholeSubSection(ms: seq<Mask>, t: seq<string>, j: nat)
    requires Fits(ms, t) && j < |t|
    ensures var s := SubStart(ms, j);
      var e := SubEnd(ms, j);
      var r := RemoveRange(ms, t, s, e);
      r.Ok? && r.value.0 == t[..s] + Edits(ms[s..e]) + t[e..] && r.value.1
  {
    var s := SubStart(ms, j);
    var e := SubEnd(ms, j);
    SubWithin(ms, j);
    if s < j {
      GroupShared(ms, true, s, j, |ms| - 1);
    }
    assert SubEnd(ms, s) == e && SubStart(ms, s) == s;
    var mid := Refill(ms, t, s, e, s, e, IsRtol(ms[s]));
    assert mid == Edits(ms[s..e]);
    var t1 := Splice(t, s, e, mid);
    ReformatDefault(ms, t1, s, e);
  }
}

=== FILE: rat_text_area.dfy ===
// The third-generation text area (rat-text/src/text_area.rs): wrap-mode margins,
// the cleaned scroll offset, the Shift-mode scroll-to-position rule, the scroll
// limits set at render time, and the editing entry points that decide between
// a no-op and a change. The text is the abstract line sequence of TextLines.

module RatTextArea {
  import opened Util
  import opened TextLines
  import TextCursor

  type Grapheme = string

  /** How long lines are shown: shifted horizontally, hard-wrapped, or word-wrapped with a margin. */
  datatype TextWrap = Shift | Hard | Word(margin: nat)

  /** The wrap mode handed to the glyph shaper. */
  datatype TextWrap2 = Shift2 | Hard2 | Word2

  /** Shaper parameters: mode, left margin, right margin, word margin. */
  datatype Margins = Margins(mode: TextWrap2, left: nat, right: nat, word: nat)

  /**
   * The shaper parameters for a rendered width w: Shift shows columns from the
   * shift on, the wrap modes start at 0, and word wrap looks for breaks from
   * margin columns before the right edge.
   */
  function TextWrapMargins(wrap: TextWrap, shiftLeft: nat, w: nat): (m: Margins)
    ensures m.left <= m.word <= m.right && m.right == m.left + w
    ensures wrap.Shift? <==> m.mode == Shift2
    ensures !wrap.Shift? ==> m.left == 0
    ensures wrap.Shift? || wrap.Hard? ==> m.word == m.right
    ensures wrap.Word? ==> m.word + Min(wrap.margin, w) == w
  {
    match wrap
    case Shift => Margins(Shift2, shiftLeft, shiftLeft + w, shiftLeft + w)
    case Hard => Margins(Hard2, 0, w, w)
    case Word(margin) => Margins(Word2, 0, w, SatSub(w, margin))
  }

  /** Scroll state of the area. */
  datatype AreaState = AreaState(
    text: seq<seq<Grapheme>>,
    wrap: TextWrap,
    hOffset: nat,
    vOffset: nat,
    subRowOffset: nat,
    moveCol: Option<nat>,
    scrollToCursor: bool)

  predicate ValidArea(s: AreaState)
  {
    IsText(s.text)
  }

  /** The cleaned offset (column, sub-row, row). */
  datatype CleanOff = CleanOff(ox: nat, subRow: nat, oy: nat)

  /**
   * The offset as rendering uses it: a row offset past the text resets to 0;
   * Shift mode has no sub-row, wrap modes have no column offset and a sub-row
   * no wider than the row's line.
   */
  function CleanOffset(s: AreaState): (r: CleanOff)
    requires ValidArea(s)
    ensures r.oy < |s.text|
    ensures r.oy == (if s.vOffset < |s.text| then s.vOffset else 0)
    ensures s.wrap.Shift? ==> r.ox == s.hOffset && r.subRow == 0
    ensures !s.wrap.Shift? ==> r.ox == 0 && r.subRow == Min(s.subRowOffset, |s.text[r.oy]|)
  {
    var oy := if s.vOffset >= |s.text| then 0 else s.vOffset;
    match s.wrap
    case Shift => CleanOff(s.hOffset, 0, oy)
    case _ => CleanOff(0, Min(s.subRowOffset, |s.text[oy]|), oy)
  }

  /** Storing a cleaned offset and cleaning it again changes nothing. */
  lemma CleanOffsetIdempotent(s: AreaState)
    requires ValidArea(s)
    ensures var c := CleanOffset(s);
      CleanOffset(s.(hOffset := c.ox, subRowOffset := c.subRow, vOffset := c.oy)) == c
  {
  }

  /** Setting the text resets both offsets, the sub-row offset and the remembered column. */
  function SetText(s: AreaState, t: seq<seq<Grapheme>>): (r: AreaState)
    requires IsText(t)
    ensures ValidArea(r) && r.text == t && r.wrap == s.wrap
    ensures r.hOffset == 0 && r.vOffset == 0 && r.subRowOffset == 0
    ensures r.moveCol.None? && !r.scrollToCursor
  {
    AreaState(t, s.wrap, 0, 0, 0, None, false)
  }

  /** After setting a text the cleaned offset is the origin. */
  lemma SetTextCleanOrigin(s: AreaState, t: seq<seq<Grapheme>>)
    requires IsText(t)
    ensures CleanOffset(SetText(s, t)) == CleanOff(0, 0, 0)
  {
  }

  /**
   * Shift-mode scroll to pos. Far above the view the row lands 40% down the
   * page, just above it at the top; far below it lands 60% down, just below at
   * the bottom. Columns scroll just enough, keeping the position inside the
   * width (one column less when control characters are shown or wrapped).
   * Returns the new (column, row) offset and whether the cleaned offset changed.
   */
  function ScrollToPosShift(pos: Pos, ox: nat, oy: nat, width: nat, height: nat, ctrl: bool): (r: (nat, nat, bool))
    ensures height >= 1 ==> r.1 <= pos.y < r.1 + height
    ensures var w := if ctrl then SatSub(width, 1) else width;
      w >= 1 ==> r.0 <= pos.x < r.0 + w
    ensures r.2 <==> (r.0, r.1) != (ox, oy)
  {
    var w := if ctrl then SatSub(width, 1) else width;
    var noy := if pos.y < SatSub(oy, height) then SatSub(pos.y, height * 4 / 10)
      else if pos.y < oy then pos.y
      else if pos.y >= oy + 2 * height then SatSub(pos.y, height * 6 / 10)
      else if pos.y >= oy + height then SatSub(pos.y, SatSub(height, 1))
      else oy;
    var nox := if pos.x < ox then pos.x
      else if pos.x >= ox + w then SatSub(pos.x, w) + 1
      else ox;
    (nox, noy, (nox, noy) != (ox, oy))
  }

  /** The offset changes exactly when the position was not already on screen. */
  lemma ScrollToPosShiftMinimal(pos: Pos, ox: nat, oy: nat, width: nat, height: nat, ctrl: bool)
    requires height >= 1
    requires ctrl ==> width >= 2
    requires width >= 1
    ensures var w := if ctrl then width - 1 else width;
      (ScrollToPosShift(pos, ox, oy, width, height, ctrl).2
       <==> !(oy <= pos.y < oy + height && ox <= pos.x < ox + w))
  {
    var h := height;
    assert h * 6 / 10 < 2 * h;
    assert h * 4 / 10 < h;
  }

  /** Scrolling to the same position twice changes nothing the second time. */
  lemma ScrollToPosShiftStable(pos: Pos, ox: nat, oy: nat, width: nat, height: nat, ctrl: bool)
    requires height >= 1 && width >= 1 && (ctrl ==> width >= 2)
    ensures var r := ScrollToPosShift(pos, ox, oy, width, height, ctrl);
      !ScrollToPosShift(pos, r.0, r.1, width, height, ctrl).2
  {
    var r := ScrollToPosShift(pos, ox, oy, width, height, ctrl);
    ScrollToPosShiftMinimal(pos, r.0, r.1, width, height, ctrl);
  }

  /** Scroll limits set at render: (horizontal maximum if set, vertical maximum). */
  function MaxOffsets(wrap: TextWrap, lines: nat, height: nat, hMax: Option<nat>): (r: (Option<nat>, nat))
    requires lines >= 1
    ensures height >= 1 || !wrap.Shift? ==> r.1 <= lines - 1
    ensures !wrap.Shift? ==> r == (Some(0), lines - 1)
    ensures wrap.Shift? ==> r.0 == hMax && r.1 + Min(height, lines) == lines
  {
    if !wrap.Shift? then (Some(0), lines - 1)
    else (hMax, SatSub(lines, height))
  }

  /** In Shift mode, a page scrolled to the vertical maximum shows the last line. */
  lemma ShiftMaxShowsLastLine(lines: nat, height: nat, hMax: Option<nat>)
    requires lines >= 1 && height >= 1
    ensures var m := MaxOffsets(Shift, lines, height, hMax).1;
      m <= lines - 1 < m + height
  {
  }

  /** In Shift mode the visual line containing p starts at column 0 of p's line. */
  function PosToLineStartShift(t: seq<seq<Grapheme>>, p: Pos): (r: Pos)
    requires ValidPos(t, p)
    ensures ValidPos(t, r) && PosLe(r, p) && r.y == p.y
    ensures forall q :: ValidPos(t, q) && q.y == p.y ==> PosLe(r, q)
  {
    Pos(0, p.y)
  }

  predicate IsEmptyText(t: seq<seq<Grapheme>>)
  {
    t == [[]]
  }

  /** Clears the text; reports false when it was already empty. */
  function Clear(t: seq<seq<Grapheme>>): (r: (seq<seq<Grapheme>>, bool))
    requires IsText(t)
    ensures IsEmptyText(r.0)
    ensures r.1 <==> r.0 != t
  {
    if !IsEmptyText(t) then ([[]], true) else (t, false)
  }

  /** The characters that, with auto-quote on, wrap a selection instead of replacing it. */
  predicate IsQuoteChar(c: char)
  {
    c == '\'' || c == '"' || c == '`' || c == '<' || c == '[' || c == '(' || c == '{'
  }

  /** What insert-char does. */
  datatype InsertPlan =
    | WrapSelection(sel: Range, c: char)
    | ReplaceSelection(sel: Range, c: char)

  /** Wraps the selection when there is one, auto-quote is on and c opens a pair. */
  function PlanInsertChar(sel: Range, autoQuote: bool, c: char): (p: InsertPlan)
    ensures p.sel == sel && p.c == c
    ensures p.WrapSelection? <==> !IsEmpty(sel) && autoQuote && IsQuoteChar(c)
  {
    if !IsEmpty(sel) && autoQuote && IsQuoteChar(c) then WrapSelection(sel, c)
    else ReplaceSelection(sel, c)
  }

  /**
   * The replacing branch for a character other than tab: the selection is
   * removed, then the character, or a line break for '\n', is inserted where it
   * started.
   */
  function ReplaceWithChar(t: seq<seq<Grapheme>>, sel: Range, c: char): (r: seq<seq<Grapheme>>)
    requires ValidRange(t, sel) && c != '\t'
    ensures IsText(r)
    ensures var k := Offset(t, sel.start);
      var m := Offset(t, sel.end);
      k <= m && Flat(r) == Flat(t)[..k] + [if c == '\n' then Break else Char([c])] + Flat(t)[m..]
  {
    var d := Delete(t, sel);
    DeleteKeepsStart(t, sel);
    var ins: seq<seq<Grapheme>> := if c == '\n' then [[], []] else [[[c]]];
    InsertFlat(d, sel.start, ins);
    DeleteFlat(t, sel);
    OffsetMono(t, sel.start, sel.end);
    DeletedStartOffset(t, sel);
    assert Flat(ins) == [if c == '\n' then Break else Char([c])];
    Insert(d, sel.start, ins)
  }

  /** After a deletion the range's start keeps its offset. */
  lemma DeletedStartOffset<G>(t: seq<seq<G>>, r: Range)
    requires ValidRange(t, r)
    ensures ValidPos(Delete(t, r), r.start)
    ensures Offset(Delete(t, r), r.start) == Offset(t, r.start)
  {
    DeleteKeepsStart(t, r);
    var d := Delete(t, r);
    assert Before(d, r.start) == Before(t, r.start);
  }
}

=== FILE: rat_text_input.dfy ===
// The single-line text input (rat-text/src/text_input.rs): the grapheme text,
// cursor moves, the render-time scroll to the cursor, screen-column conversion,
// selection with its select-all sentinel, and the editing operations that
// report whether anything changed.

module RatTextInput {
  import opened Util
  import Glyph

  type Grapheme = string

  /** Moves one grapheme right, stopping at the end. */
  function MoveRight(c: nat, len: nat): (r: nat)
    requires c <= len
    ensures r <= len && (c < len ==> r == c + 1) && (c == len ==> r == c)
  {
    Min(c + 1, len)
  }

  /** Moves one grapheme left, stopping at 0. */
  function MoveLeft(c: nat): (r: nat)
    ensures (c > 0 ==> r + 1 == c) && (c == 0 ==> r == 0)
  {
    SatSub(c, 1)
  }

  /** A step left undoes a step right, except at the end. */
  lemma MoveLeftUndoesRight(c: nat, len: nat)
    requires c < len
    ensures MoveLeft(MoveRight(c, len)) == c
  {
  }

  /** A step right undoes a step left, except at the start. */
  lemma MoveRightUndoesLeft(c: nat, len: nat)
    requires 0 < c <= len
    ensures MoveRight(MoveLeft(c), len) == c
  {
  }

  /**
   * The render-time scroll: for a rendered width w > 0 the offset moves just
   * enough to show the cursor, and one more column when the cursor would sit
   * on the right border.
   */
  function ScrollToCursor(c: nat, o: nat, w: nat): (no: nat)
    ensures w == 0 ==> no == o
    ensures w > 0 ==> no <= c < no + w
    ensures w > 0 ==> (no == o <==> o <= c < o + w)
  {
    if w > 0 then
      var no := if c < o then c else if c >= o + w then SatSub(c, w) else o;
      if c == no + w then no + 1 else no
    else
      o
  }

  /** Rendering again right after the scroll keeps the offset. */
  lemma ScrollToCursorStable(c: nat, o: nat, w: nat)
    ensures ScrollToCursor(c, ScrollToCursor(c, o, w), w) == ScrollToCursor(c, o, w)
  {
  }

  /**
   * `screen_to_col`'s walk over the glyphs of the line: the column after the
   * last glyph passed before the first one covering sx (a line break covers
   * every column right of it), or `col` when the first glyph covers it.
   */
  function ColAt(glyphs: seq<Glyph.Glyph>, sx: nat, col: nat): (r: nat)
    ensures r == col || exists i :: 0 <= i < |glyphs| && r == glyphs[i].pos.x + 1
    decreases |glyphs|
  {
    if |glyphs| == 0 || Glyph.ContainsScreenX(glyphs[0], sx) then col
    else
      var r := ColAt(glyphs[1..], sx, glyphs[0].pos.x + 1);
      assert r == glyphs[0].pos.x + 1 || exists i :: 0 <= i < |glyphs[1..]| && r == glyphs[1..][i].pos.x + 1;
      r
  }

  /** Each glyph starts on the screen where the one before it ends. */
  predicate Contiguous(glyphs: seq<Glyph.Glyph>)
  {
    forall k :: 0 < k < |glyphs| ==> glyphs[k].sx == glyphs[k - 1].sx + glyphs[k - 1].width
  }

  /**
   * The shape of the line `glyphs2()` hands out: contiguous from screen
   * column 0, every glyph of the text at a column below the length, and the
   * closing line break last.
   */
  predicate LineShape(glyphs: seq<Glyph.Glyph>, len: nat)
  {
    |glyphs| > 0 && glyphs[0].sx == 0 && Contiguous(glyphs) && glyphs[|glyphs| - 1].lineBreak
    && forall k :: 0 <= k < |glyphs| - 1 ==> !glyphs[k].lineBreak && glyphs[k].pos.x < len
  }

  /** The walk over a line of that shape never goes past the length. */
  lemma {:induction false} ColAtBound(glyphs: seq<Glyph.Glyph>, sx: nat, col: nat, len: nat)
    requires |glyphs| > 0 && sx >= glyphs[0].sx && Contiguous(glyphs) && glyphs[|glyphs| - 1].lineBreak
    requires forall k :: 0 <= k < |glyphs| - 1 ==> !glyphs[k].lineBreak && glyphs[k].pos.x < len
    requires col <= len
    ensures ColAt(glyphs, sx, col) <= len
    decreases |glyphs|
  {
    if !Glyph.ContainsScreenX(glyphs[0], sx) {
      assert |glyphs| > 1;
      ColAtBound(glyphs[1..], sx, glyphs[0].pos.x + 1, len);
    }
  }

  /** The same bound for a whole line, walked from an offset within the text. */
  lemma ColAtLineBound(glyphs: seq<Glyph.Glyph>, sx: nat, ox: nat, len: nat)
    ensures LineShape(glyphs, len) && ox <= len ==> ColAt(glyphs, sx, ox) <= len
  {
    if LineShape(glyphs, len) && ox <= len {
      ColAtBound(glyphs, sx, ox, len);
    }
  }

  /** Further right in a contiguous line means further right on the screen. */
  lemma {:induction false} ScreenXMonotone(glyphs: seq<Glyph.Glyph>, i: nat)
    requires Contiguous(glyphs) && 0 < i < |glyphs|
    ensures glyphs[i].sx >= glyphs[0].sx + glyphs[0].width
  {
    if i > 1 {
      ScreenXMonotone(glyphs, i - 1);
    }
  }

  /**
   * The first screen column of a glyph with width walks back to that glyph's
   * column, when the glyphs before the line break stand at consecutive
   * columns from `col`.
   */
  lemma {:induction false} ColAtOfGlyph(glyphs: seq<Glyph.Glyph>, col: nat, i: nat)
    requires Contiguous(glyphs) && i < |glyphs| - 1 && glyphs[i].width > 0
    requires forall k :: 0 <= k < |glyphs| - 1 ==> !glyphs[k].lineBreak && glyphs[k].pos.x == col + k
    ensures ColAt(glyphs, glyphs[i].sx, col) == col + i
    decreases i
  {
    if i > 0 {
      ScreenXMonotone(glyphs, i);
      assert !Glyph.ContainsScreenX(glyphs[0], glyphs[i].sx);
      var rest := glyphs[1..];
      assert rest[i - 1] == glyphs[i];
      ColAtOfGlyph(rest, col + 1, i - 1);
    }
  }

  /** `dark_offset.0 as i16`: a u16 read as a two's-complement i16. */
  function AsI16(d: nat): (r: int)
    requires d < 0x1_0000
    ensures -0x8000 <= r < 0x8000
    ensures r == d || r == d - 0x1_0000
  {
    if d < 0x8000 then d else d - 0x1_0000
  }

  /**
   * Converts a widget-relative screen column (an i16, shifted by the dark
   * offset) to a grapheme column. The i16 sum overflowing is the error
   * case. Left of the area it counts back from the offset; at or right of
   * the width it is capped at the text length; inside it is the column of
   * the glyph under the screen column.
   */
  function ScreenToCol(ox: nat, len: nat, width: nat, dark: nat, scx: int, glyphs: seq<Glyph.Glyph>): (r: Result<nat, ()>)
    requires -0x8000 <= scx < 0x8000 && dark < 0x1_0000
    ensures r.Err? <==> !(-0x8000 <= scx + AsI16(dark) < 0x8000)
    ensures r.Ok? && scx + AsI16(dark) < 0 ==> r.value + Min(-(scx + AsI16(dark)), ox) == ox
    ensures r.Ok? && scx + AsI16(dark) >= width ==> r.value == Min(ox + scx + AsI16(dark), len)
    ensures r.Ok? && ox <= len && (LineShape(glyphs, len) || forall i :: 0 <= i < |glyphs| ==> glyphs[i].pos.x < len) ==>
      r.value <= len
  {
    var s := scx + AsI16(dark);
    if !(-0x8000 <= s < 0x8000) then Err(())
    else if s < 0 then Ok(SatSub(ox, -s))
    else if s >= width then Ok(Min(ox + s, len))
    else
      ColAtLineBound(glyphs, s, ox, len);
      Ok(ColAt(glyphs, s, ox))
  }

  /**
   * Inside the area, the screen column of a glyph with width converts back
   * to that glyph's column, on a line whose glyphs stand at consecutive
   * columns from the offset.
   */
  lemma ScreenToColOfGlyph(ox: nat, len: nat, width: nat, dark: nat, glyphs: seq<Glyph.Glyph>, i: nat)
    requires dark < 0x8000 && LineShape(glyphs, len)
    requires forall k :: 0 <= k < |glyphs| - 1 ==> glyphs[k].pos.x == ox + k
    requires i < |glyphs| - 1 && glyphs[i].width > 0 && glyphs[i].sx < width && glyphs[i].sx < 0x8000
    ensures ScreenToCol(ox, len, width, dark, glyphs[i].sx - dark, glyphs) == Ok(ox + i)
  {
    ColAtOfGlyph(glyphs, ox, i);
  }

  /** Right of the last grapheme, the closing line break stops the walk: "ab" gives column 2 at screen column 5. */
  lemma ScreenToColPastText()
    ensures var glyphs := [Glyph.Glyph("a", 0, 1, 0, 0, 1, Glyph.Pos(0, 0), false, false, false, ""),
                           Glyph.Glyph("b", 1, 2, 1, 0, 1, Glyph.Pos(1, 0), false, false, false, ""),
                           Glyph.Glyph("", 2, 2, 2, 0, 0, Glyph.Pos(2, 0), true, false, false, "")];
      LineShape(glyphs, 2) && ScreenToCol(0, 2, 10, 0, 5, glyphs) == Ok(2)
  {
  }

  /** The select-all sentinel: position (0, 1), one line below the only line. */
  datatype TextPos = TextPos(x: nat, y: nat)

  function SentinelToWidth(p: TextPos, width: nat): (x: nat)
    ensures p == TextPos(0, 1) ==> x == width
    ensures p != TextPos(0, 1) ==> x == p.x
  {
    if p == TextPos(0, 1) then width else p.x
  }

  /** The selection as a column range; the sentinel stands for the line's end. */
  function Selection(start: TextPos, end: TextPos, width: nat): (r: (nat, nat))
    requires (start.y == 0 && start.x <= width) || start == TextPos(0, 1)
    requires (end.y == 0 && end.x <= width) || end == TextPos(0, 1)
    ensures r.0 <= width && r.1 <= width
    ensures end == TextPos(0, 1) ==> r.1 == width
    ensures start == TextPos(0, 1) ==> r.0 == width
  {
    (SentinelToWidth(start, width), SentinelToWidth(end, width))
  }

  /** Deletes a column range; an empty range reports false and changes nothing. */
  function TryDeleteRange(t: seq<Grapheme>, a: nat, b: nat): (r: (seq<Grapheme>, bool))
    requires a <= b <= |t|
    ensures r.1 <==> a < b
    ensures |r.0| + (b - a) == |t|
    ensures r.0[..a] == t[..a] && r.0[a..] == t[b..]
  {
    if a < b then (t[..a] + t[b..], true) else (t, false)
  }

  /** Clearing an empty input reports false; otherwise the text empties and the offset resets. */
  function Clear(t: seq<Grapheme>, offset: nat): (r: (seq<Grapheme>, nat, bool))
    ensures r.0 == [] && (r.1 == 0 || (|t| == 0 && r.1 == offset))
    ensures r.2 <==> |t| > 0
  {
    if |t| == 0 then (t, offset, false) else ([], 0, true)
  }

  /**
   * Insert-char as written: a selection (a, b) is removed first, then '\n' is
   * refused with false, any other character is inserted at a.
   */
  function InsertCharAsWritten(t: seq<Grapheme>, a: nat, b: nat, c: char): (r: (seq<Grapheme>, bool))
    requires a <= b <= |t|
    ensures c == '\n' ==> r == (t[..a] + t[b..], false)
    ensures c != '\n' ==> r == (t[..a] + [[c]] + t[b..], true)
  {
    var t1 := if a < b then t[..a] + t[b..] else t;
    assert a == b ==> t1 == t[..a] + t[b..];
    if c == '\n' then (t1, false)
    else (t1[..a] + [[c]] + t1[a..], true)
  }

  /** With a selection, '\n' removes the selected text yet reports no change. */
  lemma NewlineDeletesSelectionUnreported(t: seq<Grapheme>)
    requires t == ["a", "b"]
    ensures InsertCharAsWritten(t, 0, 2, '\n') == ([], false)
  {
    assert t[..0] + t[2..] == [];
  }

  /** Insert-char with '\n' refused before anything is touched. */
  function InsertChar(t: seq<Grapheme>, a: nat, b: nat, c: char): (r: (seq<Grapheme>, bool))
    requires a <= b <= |t|
    ensures !r.1 ==> r.0 == t
    ensures r.1 <==> c != '\n'
    ensures c != '\n' ==>
      (|r.0| == |t| - (b - a) + 1 && r.0[..a] == t[..a] && r.0[a] == [c] && r.0[a + 1..] == t[b..])
  {
    if c == '\n' then (t, false)
    else InsertCharAsWritten(t, a, b, c)
  }

  /** Outside the refused '\n', the corrected insert matches the one as written. */
  lemma InsertCharAgrees(t: seq<Grapheme>, a: nat, b: nat, c: char)
    requires a <= b <= |t|
    ensures c != '\n' || a == b ==> InsertChar(t, a, b, c).1 == InsertCharAsWritten(t, a, b, c).1
    ensures c != '\n' || a == b ==> InsertChar(t, a, b, c).0 == InsertCharAsWritten(t, a, b, c).0
  {
    if a == b {
      assert t[..a] + t[b..] == t;
    }
  }

  /** Clipboard access: none, or a store that accepts or refuses the text. */
  datatype Clipboard = NoClipboard | Clip(accepts: bool)

  /** Copy never reports a change; in password mode nothing reaches the clipboard. */
  function CopyToClip(t: seq<Grapheme>, a: nat, b: nat, clip: Clipboard, passwd: bool): (r: (Option<seq<Grapheme>>, bool))
    requires a <= b <= |t|
    ensures !r.1
    ensures r.0.Some? <==> clip.Clip? && !passwd
    ensures r.0.Some? ==> r.0.value == t[a..b]
  {
    if clip.NoClipboard? || passwd then (None, false)
    else (Some(t[a..b]), false)
  }

  /** Cut removes the selection only after the clipboard took it; never in password mode. */
  function CutToClip(t: seq<Grapheme>, a: nat, b: nat, clip: Clipboard, passwd: bool): (r: (seq<Grapheme>, bool))
    requires a <= b <= |t|
    ensures passwd || clip.NoClipboard? ==> r == (t, false)
    ensures r.1 <==> !passwd && clip == Clip(true) && a < b
    ensures r.0 == t || r.0 == t[..a] + t[b..]
  {
    if clip.NoClipboard? || passwd then (t, false)
    else if clip.accepts then TryDeleteRange(t, a, b)
    else (t, false)
  }
}

=== FILE: split_tab.dfy ===
/**
 * The split/tab bookkeeping of the markdown editor example
 * (`rat-salsa/examples/mdedit.rs`, module `split_tab`): a row of splits,
 * each holding a list of tabs with at most one selected, and the split
 * that last held the focus. Only the indices are modelled; the tabs
 * themselves are opaque values, and the focus is given as one flag per tab.
 */
module SplitTab {
  import opened Util

  /**
   * `tabs[i]` are the tabs of split `i`, `tabSel[i]` the tab its tab bar
   * has selected; `selSplit` and `selTab` remember where the focus was.
   */
  datatype SplitTabs<T> = SplitTabs(tabs: seq<seq<T>>, tabSel: seq<Option<nat>>, selSplit: Option<nat>, selTab: Option<nat>)

  /** Split `i` holds at least one tab and its selection, if any, is one of them. */
  predicate SplitOk<T>(st: SplitTabs<T>, i: nat)
    requires i < |st.tabs| && |st.tabSel| == |st.tabs|
  {
    |st.tabs[i]| > 0 && (st.tabSel[i].Some? ==> st.tabSel[i].value < |st.tabs[i]|)
  }

  /** One tab bar per split, no empty split, selections in range. */
  predicate Valid<T>(st: SplitTabs<T>)
  {
    |st.tabSel| == |st.tabs| &&
    (forall i :: 0 <= i < |st.tabs| ==> SplitOk(st, i)) &&
    (st.selSplit.Some? ==> st.selSplit.value < |st.tabs|)
  }

  /** The number of tabs over all splits. */
  function TabCount<T>(tabs: seq<seq<T>>): nat
  {
    if |tabs| == 0 then 0 else TabCount(tabs[..|tabs| - 1]) + |tabs[|tabs| - 1]|
  }

  lemma {:induction false} TabCountUpdate<T>(tabs: seq<seq<T>>, i: nat, t: seq<T>)
    requires i < |tabs|
    ensures TabCount(tabs[i := t]) + |tabs[i]| == TabCount(tabs) + |t|
    decreases |tabs|
  {
    var n := |tabs| - 1;
    if i < n {
      assert tabs[i := t][..n] == tabs[..n][i := t];
      TabCountUpdate(tabs[..n], i, t);
    } else {
      assert tabs[i := t][..n] == tabs[..n];
    }
  }

  lemma {:induction false} TabCountRemove<T>(tabs: seq<seq<T>>, i: nat)
    requires i < |tabs|
    ensures TabCount(tabs[..i] + tabs[i + 1..]) + |tabs[i]| == TabCount(tabs)
    decreases |tabs|
  {
    var n := |tabs| - 1;
    if i < n {
      assert (tabs[..i] + tabs[i + 1..])[..n - 1] == tabs[..n][..i] + tabs[..n][i + 1..];
      TabCountRemove(tabs[..n], i);
    } else {
      assert tabs[..i] + tabs[i + 1..] == tabs[..n];
    }
  }

  // ---------------------------------------------------------------------
  // Focus and selection
  // ---------------------------------------------------------------------

  /** One focus flag per tab. */
  predicate FocusShape<T>(st: SplitTabs<T>, focus: seq<seq<bool>>)
  {
    |focus| == |st.tabs| && forall i :: 0 <= i < |focus| ==> |focus[i]| == |st.tabs[i]|
  }

  /** The selected tab of split `i` has the focus. */
  predicate FocusedAt<T>(st: SplitTabs<T>, focus: seq<seq<bool>>, i: nat)
    requires Valid(st) && FocusShape(st, focus) && i < |st.tabs|
  {
    st.tabSel[i].Some? && st.tabSel[i].value < |focus[i]| && focus[i][st.tabSel[i].value]
  }

  /** The first split from `i` on whose selected tab has the focus. */
  function FirstFocused<T>(st: SplitTabs<T>, focus: seq<seq<bool>>, i: nat): (r: Option<nat>)
    requires Valid(st) && FocusShape(st, focus)
    ensures r.Some? ==> i <= r.value < |st.tabs| && FocusedAt(st, focus, r.value)
    ensures r.Some? ==> forall j :: i <= j < r.value ==> !FocusedAt(st, focus, j)
    ensures r.None? ==> forall j :: i <= j < |st.tabs| ==> !FocusedAt(st, focus, j)
    decreases |st.tabs| - i
  {
    if i >= |st.tabs| then None
    else if FocusedAt(st, focus, i) then Some(i)
    else FirstFocused(st, focus, i + 1)
  }

  /**
   * `set_active_split`: remember the first split whose selected tab has
   * the focus, and that tab; report whether either changed.
   */
  function SetActiveSplit<T>(st: SplitTabs<T>, focus: seq<seq<bool>>): (r: (SplitTabs<T>, bool))
    requires Valid(st) && FocusShape(st, focus)
    ensures Valid(r.0) && r.0.tabs == st.tabs && r.0.tabSel == st.tabSel
    ensures (forall i :: 0 <= i < |st.tabs| ==> !FocusedAt(st, focus, i)) ==> r.0 == st
    ensures (exists i :: 0 <= i < |st.tabs| && FocusedAt(st, focus, i)) ==>
      r.0.selSplit.Some? && r.0.selSplit.value < |st.tabs| && FocusedAt(st, focus, r.0.selSplit.value) &&
      r.0.selTab == st.tabSel[r.0.selSplit.value] &&
      forall j :: 0 <= j < r.0.selSplit.value ==> !FocusedAt(st, focus, j)
    ensures r.1 <==> r.0.selSplit != st.selSplit || r.0.selTab != st.selTab
  {
    match FirstFocused(st, focus, 0)
    case None => (st, false)
    case Some(k) =>
      var r := st.(selSplit := Some(k), selTab := st.tabSel[k]);
      assert forall i :: 0 <= i < |r.tabs| ==> SplitOk(st, i) ==> SplitOk(r, i);
      (r, r.selSplit != st.selSplit || r.selTab != st.selTab)
  }

  /** `selected_pos`: the remembered split and its selected tab. */
  function SelectedPos<T>(st: SplitTabs<T>): (r: Option<(nat, nat)>)
    requires Valid(st)
    ensures r.Some? <==> st.selSplit.Some? && st.tabSel[st.selSplit.value].Some?
    ensures r.Some? ==> r.value.0 == st.selSplit.value && r.value.1 < |st.tabs[r.value.0]|
  {
    if st.selSplit.Some? && st.tabSel[st.selSplit.value].Some? then
      assert SplitOk(st, st.selSplit.value);
      Some((st.selSplit.value, st.tabSel[st.selSplit.value].value))
    else None
  }

  /** `select`: a position that exists becomes the remembered split and its tab bar's selection. */
  function Select<T>(st: SplitTabs<T>, pos: (nat, nat)): (r: SplitTabs<T>)
    requires Valid(st)
    ensures Valid(r) && r.tabs == st.tabs && r.selTab == st.selTab
    ensures pos.0 < |st.tabs| && pos.1 < |st.tabs[pos.0]| ==>
      r.selSplit == Some(pos.0) && r.tabSel == st.tabSel[pos.0 := Some(pos.1)]
    ensures !(pos.0 < |st.tabs| && pos.1 < |st.tabs[pos.0]|) ==> r == st
  {
    if pos.0 < |st.tabs| && pos.1 < |st.tabs[pos.0]| then
      var r := st.(selSplit := Some(pos.0), tabSel := st.tabSel[pos.0 := Some(pos.1)]);
      assert forall i :: 0 <= i < |r.tabs| ==> SplitOk(st, i) ==> SplitOk(r, i);
      r
    else st
  }

  /** `select_next`: move to the next split's selected tab (or its first); false at the last split. */
  function SelectNext<T>(st: SplitTabs<T>): (r: (SplitTabs<T>, bool))
    requires Valid(st)
    ensures Valid(r.0)
    ensures r.1 <==> st.selSplit.Some? && st.selSplit.value + 1 < |st.tabs|
    ensures !r.1 ==> r.0 == st
    ensures r.1 ==>
      r.0.selSplit == Some(st.selSplit.value + 1) && r.0.tabs == st.tabs && r.0.tabSel[st.selSplit.value + 1].Some?
  {
    if st.selSplit.Some? && st.selSplit.value + 1 < |st.tabs| then
      var k := st.selSplit.value + 1;
      assert SplitOk(st, k);
      (Select(st, (k, if st.tabSel[k].Some? then st.tabSel[k].value else 0)), true)
    else (st, false)
  }

  /** `select_prev`: move to the previous split's selected tab (or its first); false at the first split. */
  function SelectPrev<T>(st: SplitTabs<T>): (r: (SplitTabs<T>, bool))
    requires Valid(st)
    ensures Valid(r.0)
    ensures r.1 <==> st.selSplit.Some? && st.selSplit.value > 0
    ensures !r.1 ==> r.0 == st
    ensures r.1 ==>
      r.0.selSplit == Some(st.selSplit.value - 1) && r.0.tabs == st.tabs && r.0.tabSel[st.selSplit.value - 1].Some?
  {
    if st.selSplit.Some? && st.selSplit.value > 0 then
      var k := st.selSplit.value - 1;
      assert SplitOk(st, k);
      (Select(st, (k, if st.tabSel[k].Some? then st.tabSel[k].value else 0)), true)
    else (st, false)
  }

  /** Moving to the next split and back returns to the same split, with its tab selected. */
  lemma SelectNextThenPrev<T>(st: SplitTabs<T>)
    requires Valid(st) && st.selSplit.Some? && st.selSplit.value + 1 < |st.tabs|
    ensures var n := SelectNext(st).0;
      var p := SelectPrev(n);
      p.1 && p.0.selSplit == st.selSplit && p.0.tabs == st.tabs &&
      p.0.tabSel[st.selSplit.value].Some?
  {
  }

  // ---------------------------------------------------------------------
  // Opening and closing tabs
  // ---------------------------------------------------------------------

  /** Insert `x` at `i`. */
  function InsertAt<T>(s: seq<T>, i: nat, x: T): (r: seq<T>)
    requires i <= |s|
    ensures |r| == |s| + 1 && r[i] == x
    ensures forall j :: 0 <= j < i ==> r[j] == s[j]
    ensures forall j :: i < j < |r| ==> r[j] == s[j - 1]
  {
    s[..i] + [x] + s[i..]
  }

  /**
   * `open`: insert a tab at `pos`; `pos.0` one past the last split opens a
   * new split. The tab bar's selection moves with the tab it pointed at,
   * and an empty selection becomes the first tab. `None` stands for the
   * panic on a position out of range.
   */
  function Open<T>(st: SplitTabs<T>, pos: (nat, nat), tab: T): (r: Option<SplitTabs<T>>)
    requires Valid(st)
    ensures r.Some? <==> (pos.0 < |st.tabs| && pos.1 <= |st.tabs[pos.0]|) || (pos.0 == |st.tabs| && pos.1 == 0)
    ensures r.Some? ==> Valid(r.value) && r.value.selSplit == st.selSplit && r.value.selTab == st.selTab
    ensures r.Some? && pos.0 == |st.tabs| ==>
      r.value.tabs == st.tabs + [[tab]] && r.value.tabSel == st.tabSel + [Some(0)]
    ensures r.Some? && pos.0 < |st.tabs| ==>
      r.value.tabs == st.tabs[pos.0 := InsertAt(st.tabs[pos.0], pos.1, tab)] &&
      r.value.tabSel == st.tabSel[pos.0 := Some(OpenShift(st.tabSel[pos.0], pos.1))]
    ensures r.Some? ==> TabCount(r.value.tabs) == TabCount(st.tabs) + 1
  {
    if pos.0 == |st.tabs| then
      if pos.1 == 0 then
        var r := SplitTabs(st.tabs + [[tab]], st.tabSel + [Some(0)], st.selSplit, st.selTab);
        assert (st.tabs + [[tab]])[..|st.tabs|] == st.tabs;
        assert forall i :: 0 <= i < |st.tabs| ==> SplitOk(st, i) ==> SplitOk(r, i);
        assert SplitOk(r, |st.tabs|);
        Some(r)
      else None
    else if pos.0 < |st.tabs| && pos.1 <= |st.tabs[pos.0]| then
      var k := pos.0;
      var r := st.(tabs := st.tabs[k := InsertAt(st.tabs[k], pos.1, tab)],
                   tabSel := st.tabSel[k := Some(OpenShift(st.tabSel[k], pos.1))]);
      assert SplitOk(st, k);
      assert forall i :: 0 <= i < |r.tabs| && i != k ==> SplitOk(st, i) ==> SplitOk(r, i);
      assert SplitOk(r, k);
      TabCountUpdate(st.tabs, k, InsertAt(st.tabs[k], pos.1, tab));
      Some(r)
    else None
  }

  /** The selection after inserting at `at`: shifted right from `at` on, the first tab when there was none. */
  function OpenShift(sel: Option<nat>, at: nat): (r: nat)
    ensures sel.None? ==> r == 0
    ensures sel.Some? && sel.value < at ==> r == sel.value
    ensures sel.Some? && sel.value >= at ==> r == sel.value + 1
  {
    match sel
    case None => 0
    case Some(s) => if s >= at then s + 1 else s
  }

  /** Opening a tab keeps the selected tab of its split selected (when there was one). */
  lemma OpenKeepsSelectedTab<T>(st: SplitTabs<T>, pos: (nat, nat), tab: T)
    requires Valid(st) && Open(st, pos, tab).Some? && pos.0 < |st.tabs| && st.tabSel[pos.0].Some?
    ensures var r := Open(st, pos, tab).value;
      SplitOk(r, pos.0) && r.tabSel[pos.0].Some? &&
      r.tabs[pos.0][r.tabSel[pos.0].value] == st.tabs[pos.0][st.tabSel[pos.0].value]
  {
    assert SplitOk(st, pos.0);
  }

  /**
   * The selection after removing index `at`, as `close` computes it for
   * tabs and for splits alike: from `at` on it moves back by one (none
   * below 0); before `at` it is kept, except that 0 becomes none.
   */
  function CloseShift(sel: nat, at: nat): (r: Option<nat>)
    ensures sel > at ==> r == Some(sel - 1)
    ensures sel == at ==> r == (if sel > 0 then Some(sel - 1) else None)
    ensures 0 < sel < at ==> r == Some(sel)
    ensures sel == 0 ==> r.None?
  {
    if sel >= at then
      if sel > 0 then Some(sel - 1) else None
    else if sel == 0 then None
    else Some(sel)
  }

  /** The corrected shift: a selection before the removed index is always kept. */
  function CloseShiftFixed(sel: nat, at: nat): (r: Option<nat>)
    ensures sel > at ==> r == Some(sel - 1)
    ensures sel == at ==> r == (if sel > 0 then Some(sel - 1) else None)
    ensures sel < at ==> r == Some(sel)
  {
    if sel >= at then
      if sel > 0 then Some(sel - 1) else None
    else Some(sel)
  }

  /** Remove index `i`. */
  function RemoveAt<T>(s: seq<T>, i: nat): (r: seq<T>)
    requires i < |s|
    ensures |r| + 1 == |s|
    ensures forall j :: 0 <= j < i ==> r[j] == s[j]
    ensures forall j :: i <= j < |r| ==> r[j] == s[j + 1]
  {
    s[..i] + s[i + 1..]
  }

  /** The shift of an optional selection. */
  function ShiftOpt(sel: Option<nat>, at: nat, fixed: bool): (r: Option<nat>)
    ensures sel.None? ==> r.None?
    ensures sel.Some? && !fixed ==> r == CloseShift(sel.value, at)
    ensures sel.Some? && fixed ==> r == CloseShiftFixed(sel.value, at)
  {
    match sel
    case None => None
    case Some(s) => if fixed then CloseShiftFixed(s, at) else CloseShift(s, at)
  }

  /**
   * `close`: remove the tab at `pos` after saving it, shift the tab bar's
   * selection, and drop the split when it has no tab left, shifting the
   * remembered split the same way. A position out of range changes nothing;
   * a failed save (`saved` false) is an error and changes nothing either.
   * `fixed` selects the corrected shift.
   */
  function CloseWith<T>(st: SplitTabs<T>, pos: (nat, nat), saved: bool, fixed: bool): (r: Result<SplitTabs<T>, ()>)
    requires Valid(st)
    ensures r.Err? <==> pos.0 < |st.tabs| && pos.1 < |st.tabs[pos.0]| && !saved
    ensures !(pos.0 < |st.tabs| && pos.1 < |st.tabs[pos.0]|) ==> r == Ok(st)
    ensures r.Ok? ==> Valid(r.value) && r.value.selTab == st.selTab
    ensures r.Ok? && pos.0 < |st.tabs| && pos.1 < |st.tabs[pos.0]| ==>
      TabCount(r.value.tabs) + 1 == TabCount(st.tabs)
    ensures r.Ok? && pos.0 < |st.tabs| && pos.1 < |st.tabs[pos.0]| && |st.tabs[pos.0]| > 1 ==>
      r.value == RemoveTab(st, pos, fixed)
    ensures r.Ok? && pos.0 < |st.tabs| && pos.1 < |st.tabs[pos.0]| && |st.tabs[pos.0]| == 1 ==>
      r.value == RemoveSplit(st, pos.0, fixed)
  {
    if !(pos.0 < |st.tabs| && pos.1 < |st.tabs[pos.0]|) then Ok(st)
    else if !saved then Err(())
    else
      assert SplitOk(st, pos.0);
      if |st.tabs[pos.0]| == 1 then Ok(RemoveSplit(st, pos.0, fixed)) else Ok(RemoveTab(st, pos, fixed))
  }

  /** Removing one tab of a split that keeps at least one. */
  function RemoveTab<T>(st: SplitTabs<T>, pos: (nat, nat), fixed: bool): (r: SplitTabs<T>)
    requires Valid(st) && pos.0 < |st.tabs| && pos.1 < |st.tabs[pos.0]| && |st.tabs[pos.0]| > 1
    ensures Valid(r) && r.selSplit == st.selSplit && r.selTab == st.selTab
    ensures r.tabs == st.tabs[pos.0 := RemoveAt(st.tabs[pos.0], pos.1)]
    ensures r.tabSel == st.tabSel[pos.0 := ShiftOpt(st.tabSel[pos.0], pos.1, fixed)]
    ensures TabCount(r.tabs) + 1 == TabCount(st.tabs)
  {
    var k := pos.0;
    assert SplitOk(st, k);
    var tabsK := RemoveAt(st.tabs[k], pos.1);
    TabCountUpdate(st.tabs, k, tabsK);
    var r := st.(tabs := st.tabs[k := tabsK], tabSel := st.tabSel[k := ShiftOpt(st.tabSel[k], pos.1, fixed)]);
    assert forall i :: 0 <= i < |r.tabs| && i != k ==> SplitOk(st, i) ==> SplitOk(r, i);
    assert SplitOk(r, k);
    r
  }

  /** Removing a split whose last tab is closed, with the remembered split shifted. */
  function RemoveSplit<T>(st: SplitTabs<T>, k: nat, fixed: bool): (r: SplitTabs<T>)
    requires Valid(st) && k < |st.tabs| && |st.tabs[k]| == 1
    ensures Valid(r) && r.selTab == st.selTab
    ensures r.tabs == RemoveAt(st.tabs, k) && r.tabSel == RemoveAt(st.tabSel, k)
    ensures r.selSplit == ShiftOpt(st.selSplit, k, fixed)
    ensures TabCount(r.tabs) + 1 == TabCount(st.tabs)
  {
    var r := SplitTabs(RemoveAt(st.tabs, k), RemoveAt(st.tabSel, k), ShiftOpt(st.selSplit, k, fixed), st.selTab);
    TabCountRemove(st.tabs, k);
    forall i | 0 <= i < |r.tabs| ensures SplitOk(r, i) {
      if i < k { assert SplitOk(st, i); } else { assert SplitOk(st, i + 1); }
    }
    r
  }

  /** `close` as written. */
  function Close<T>(st: SplitTabs<T>, pos: (nat, nat), saved: bool): (r: Result<SplitTabs<T>, ()>)
    requires Valid(st)
    ensures r == CloseWith(st, pos, saved, false)
    ensures r.Ok? ==> Valid(r.value)
  {
    CloseWith(st, pos, saved, false)
  }

  /** `close` with the corrected shift. */
  function CloseFixed<T>(st: SplitTabs<T>, pos: (nat, nat), saved: bool): (r: Result<SplitTabs<T>, ()>)
    requires Valid(st)
    ensures r == CloseWith(st, pos, saved, true)
    ensures r.Ok? ==> Valid(r.value)
  {
    CloseWith(st, pos, saved, true)
  }

  /**
   * As written, closing a tab after the selected first tab leaves the split
   * with no selected tab: tabs a, b, c with a selected, closing c.
   */
  lemma CloseLaterTabDeselectsFirst()
    ensures var st := SplitTabs([["a", "b", "c"]], [Some(0)], Some(0), Some(0));
      Valid(st) && Close(st, (0, 2), true) == Ok(st.(tabs := [["a", "b"]], tabSel := [None]))
  {
    var st := SplitTabs([["a", "b", "c"]], [Some(0)], Some(0), Some(0));
    assert SplitOk(st, 0);
    assert RemoveAt(["a", "b", "c"], 2) == ["a", "b"];
    assert RemoveTab(st, (0, 2), false) == st.(tabs := [["a", "b"]], tabSel := [None]);
  }

  /**
   * With the corrected shift, closing any tab other than the selected one
   * keeps the same tab selected.
   */
  lemma CloseFixedKeepsSelectedTab<T>(st: SplitTabs<T>, pos: (nat, nat))
    requires Valid(st) && pos.0 < |st.tabs| && pos.1 < |st.tabs[pos.0]|
    requires st.tabSel[pos.0].Some? && st.tabSel[pos.0].value != pos.1
    ensures var r := CloseFixed(st, pos, true).value;
      SplitOk(st, pos.0) && pos.0 < |r.tabs| && SplitOk(r, pos.0) && r.tabSel[pos.0].Some? &&
      r.tabs[pos.0][r.tabSel[pos.0].value] == st.tabs[pos.0][st.tabSel[pos.0].value]
  {
    assert SplitOk(st, pos.0);
  }

  /** Opening a tab and closing it again gives back the same tabs. */
  lemma OpenThenClose<T>(st: SplitTabs<T>, pos: (nat, nat), tab: T, fixed: bool)
    requires Valid(st) && Open(st, pos, tab).Some?
    ensures var o := Open(st, pos, tab).value;
      var c := CloseWith(o, pos, true, fixed);
      c.Ok? && c.value.tabs == st.tabs
  {
    var o := Open(st, pos, tab).value;
    if pos.0 == |st.tabs| {
      assert RemoveAt(o.tabs, pos.0) == st.tabs;
    } else {
      assert SplitOk(st, pos.0);
      assert RemoveAt(InsertAt(st.tabs[pos.0], pos.1, tab), pos.1) == st.tabs[pos.0];
      assert o.tabs[pos.0 := st.tabs[pos.0]] == st.tabs;
    }
  }
}

=== FILE: splitter.dfy ===
/**
 * The length bookkeeping of rat-widget's `SplitState` (`splitter.rs`): a
 * vector of area lengths, one per split area, with the splits between
 * them; hidden areas park their length in a parallel vector. Moving a
 * split works on the "dual", the prefix sums of the lengths.
 *
 * Lengths are `u16` in the source. Sums are assumed to fit; the
 * subtractions that can underflow (and so panic) are modelled by `None`.
 */
module Splitter {
  import opened Util

  /** Width of the splitter line between two areas. */
  const SPLIT_WIDTH: nat := 1

  datatype SplitResize = Neighbours | Full

  // ---------------------------------------------------------------------
  // The dual of prefix positions
  // ---------------------------------------------------------------------

  /** `split_pos(n)`: the position of split `n`, the sum of the lengths of areas `0..=n`. */
  function SplitPos(a: seq<nat>, n: nat): (p: nat)
    requires n < |a|
    ensures p == Sum(a[..n + 1])
    ensures p >= a[n]
  {
    assert a[..n + 1][..n] == a[..n];
    Sum(a[..n + 1])
  }

  /** The dual: the running sums of the lengths, as the "create dual" loops build it. */
  function Positions(a: seq<nat>): (p: seq<nat>)
    ensures |p| == |a|
  {
    if |a| == 0 then [] else Positions(a[..|a| - 1]) + [Sum(a)]
  }

  /** Each entry of the dual is the position of its split. */
  lemma {:induction false} PositionAt(a: seq<nat>, i: nat)
    requires i < |a|
    ensures Positions(a)[i] == SplitPos(a, i)
    decreases |a|
  {
    if i == |a| - 1 {
      assert a[..i + 1] == a;
    } else {
      PositionAt(a[..|a| - 1], i);
      assert a[..|a| - 1][..i + 1] == a[..i + 1];
    }
  }

  /**
   * "Revert dual": lengths back from positions, each the difference to
   * its predecessor. A position below its predecessor underflows: `None`.
   */
  function Areas(p: seq<nat>): (r: Option<seq<nat>>)
    ensures r.Some? <==> forall i :: 0 < i < |p| ==> p[i - 1] <= p[i]
    ensures r.Some? ==> |r.value| == |p| && Positions(r.value) == p
  {
    if |p| == 0 then Some([])
    else if |p| == 1 then
      assert Sum([p[0]]) == p[0] by { assert [p[0]][..0] == []; }
      Some([p[0]])
    else if p[|p| - 2] > p[|p| - 1] then None
    else
      match Areas(p[..|p| - 1])
      case None => None
      case Some(r) =>
        var s := r + [p[|p| - 1] - p[|p| - 2]];
        RevertStep(p, r, s);
        Some(s)
  }

  /** One step of reverting the dual: appending the last difference appends the last position. */
  lemma RevertStep(p: seq<nat>, r: seq<nat>, s: seq<nat>)
    requires |p| >= 2 && p[|p| - 2] <= p[|p| - 1]
    requires |r| == |p| - 1 && Positions(r) == p[..|p| - 1]
    requires s == r + [p[|p| - 1] - p[|p| - 2]]
    ensures Positions(s) == p
  {
    assert s[..|s| - 1] == r;
    assert Positions(r)[|r| - 1] == Sum(r);
    assert Sum(s) == p[|p| - 1];
  }

  /** Lengths are determined by their positions: the dual round-trips. */
  lemma AreasOfPositions(a: seq<nat>)
    ensures Areas(Positions(a)) == Some(a)
  {
    var p := Positions(a);
    forall i | 0 < i < |p| ensures p[i - 1] <= p[i] {
      AreaIsDifference(a, i);
    }
    var r := Areas(p).value;
    PositionsInjective(r, a);
  }

  lemma {:induction false} PositionsInjective(a: seq<nat>, b: seq<nat>)
    requires Positions(a) == Positions(b)
    ensures a == b
    decreases |a|
  {
    if |a| > 0 {
      var n := |a| - 1;
      assert Positions(a)[..n] == Positions(a[..n]);
      assert Positions(b)[..n] == Positions(b[..n]);
      PositionsInjective(a[..n], b[..n]);
      assert Positions(a)[n] == Sum(a) && Positions(b)[n] == Sum(b);
      assert a == a[..n] + [a[n]] && b == b[..n] + [b[n]];
    }
  }

  /** The last position is the total. */
  lemma LastPositionIsSum(a: seq<nat>)
    requires |a| > 0
    ensures Positions(a)[|a| - 1] == Sum(a)
  {
  }

  // ---------------------------------------------------------------------
  // Moving a split
  // ---------------------------------------------------------------------

  /**
   * The bounds `set_split_pos_neighbour` allows for split `n`: past the
   * split before it, and short of the one after it by the splitter width
   * unless that is the last area. `None` where the source underflows.
   */
  function NeighbourBounds(p: seq<nat>, n: nat): (b: Option<(nat, nat)>)
    requires n + 1 < |p|
  {
    if n == 0 then
      if n + 2 >= |p| then Some((SPLIT_WIDTH, p[n + 1]))
      else if p[n + 1] < SPLIT_WIDTH then None
      else Some((SPLIT_WIDTH, p[n + 1] - SPLIT_WIDTH))
    else if n + 2 < |p| then
      if p[n + 1] < SPLIT_WIDTH then None
      else Some((p[n - 1] + 1, p[n + 1] - SPLIT_WIDTH))
    else Some((p[n - 1] + 1, p[n + 1]))
  }

  /**
   * `set_split_pos_neighbour`: move split `n` to `pos`, clamped to the
   * neighbour bounds. Only areas `n` and `n + 1` change and the total
   * stays; an underflow (a panic in the source) is `None`.
   */
  function SetSplitPosNeighbour(a: seq<nat>, n: nat, pos: nat): (r: Option<seq<nat>>)
    requires n + 1 < |a|
    ensures r.Some? ==> |r.value| == |a| && Sum(r.value) == Sum(a)
    ensures r.Some? ==> forall i :: 0 <= i < |a| && i != n && i != n + 1 ==> r.value[i] == a[i]
    ensures r.Some? ==> NeighbourBounds(Positions(a), n).Some?
    ensures r.Some? ==> var b := NeighbourBounds(Positions(a), n).value;
      SplitPos(r.value, n) == Min(Max(b.0, pos), b.1)
  {
    var p := Positions(a);
    match NeighbourBounds(p, n)
    case None => None
    case Some(b) =>
      var q := p[n := Min(Max(b.0, pos), b.1)];
      match Areas(q)
      case None => None
      case Some(r) =>
        MovedSplitFacts(a, n, q, r);
        Some(r)
  }

  /**
   * Reverting a dual in which only split `n` moved: the total stays, only
   * the two areas beside the split change, and the split sits where it
   * was put.
   */
  lemma MovedSplitFacts(a: seq<nat>, n: nat, q: seq<nat>, r: seq<nat>)
    requires n + 1 < |a| && |q| == |a| && |r| == |a| && Positions(r) == q
    requires forall i :: 0 <= i < |a| && i != n ==> q[i] == Positions(a)[i]
    ensures Sum(r) == Sum(a)
    ensures forall i :: 0 <= i < |a| && i != n && i != n + 1 ==> r[i] == a[i]
    ensures SplitPos(r, n) == q[n]
  {
    LastPositionIsSum(a);
    LastPositionIsSum(r);
    PositionAt(r, n);
    forall i | 0 <= i < |a| && i != n && i != n + 1 ensures r[i] == a[i] {
      AreaIsDifference(r, i);
      AreaIsDifference(a, i);
    }
  }

  /**
   * When the two areas beside split `n` hold at least two cells between
   * them, the neighbour bounds exist and the clamped split keeps the
   * positions in order, so moving the split always succeeds.
   */
  lemma {:induction false} NeighbourMoveSucceeds(a: seq<nat>, n: nat, pos: nat)
    requires n + 1 < |a| && a[n] + a[n + 1] >= 2
    ensures SetSplitPosNeighbour(a, n, pos).Some?
  {
    var p := Positions(a);
    forall i | 0 < i < |a| ensures p[i - 1] + a[i] == p[i] {
      AreaIsDifference(a, i);
    }
    AreaIsDifference(a, 0);
    assert p[n] >= a[n] by {
      if n > 0 { assert p[n] == p[n - 1] + a[n]; }
    }
    assert p[n + 1] >= 2;
    var b := NeighbourBounds(p, n);
    var q := p[n := Min(Max(b.value.0, pos), b.value.1)];
    forall i | 0 < i < |q| ensures q[i - 1] <= q[i] {
      if i != n && i != n + 1 {
        assert q[i - 1] == p[i - 1] && q[i] == p[i];
      }
    }
    assert Areas(q).Some?;
  }

  /** Each length is its position minus the previous position. */
  lemma AreaIsDifference(a: seq<nat>, i: nat)
    requires i < |a|
    ensures i == 0 ==> a[i] == Positions(a)[i]
    ensures i > 0 ==> a[i] + Positions(a)[i - 1] == Positions(a)[i]
  {
    PositionAt(a, i);
    SumPrefixStep(a, i);
    if i == 0 {
      assert a[..0] == [];
    } else {
      PositionAt(a, i - 1);
    }
  }

  /**
   * One step of the `set_split_pos_full` loop at split `i`, carrying the
   * least position the next split may take. Splits before `n` at or past
   * `pos` are pushed left, splits after `n` at or before `pos` are pushed
   * right, zero-length and hidden areas are packed.
   */
  function FullFrom(a: seq<nat>, hidden: seq<nat>, n: nat, pos: nat, total: nat,
                    p: seq<nat>, i: nat, minPos: nat): (r: Option<seq<nat>>)
    requires |hidden| == |a| && |p| + 1 == |a| && n < |p| && i <= |p|
    ensures r.Some? ==> |r.value| == |p|
    ensures r.Some? ==> forall j :: 0 <= j < i ==> r.value[j] == p[j]
    decreases |p| - i
  {
    if i == |p| then Some(p)
    else if i < n then
      if a[i] == 0 then FullFrom(a, hidden, n, pos, total, p[i := minPos], i + 1, minPos)
      else if hidden[i] != 0 then FullFrom(a, hidden, n, pos, total, p[i := minPos], i + 1, minPos + SPLIT_WIDTH)
      else if p[i] >= pos then
        var restWidth := (n - (i + 1)) * SPLIT_WIDTH;
        var v := Max(minPos, SatSub(SatSub(pos, SPLIT_WIDTH), restWidth));
        FullFrom(a, hidden, n, pos, total, p[i := v], i + 1, minPos + SPLIT_WIDTH)
      else FullFrom(a, hidden, n, pos, total, p, i + 1, minPos)
    else if i == n then
      var restWidth := (|p| - (i + 1)) * SPLIT_WIDTH;
      if total < minPos + 1 || total - (minPos + 1) < restWidth then None
      else
        var restLen := total - (minPos + 1) - restWidth + SPLIT_WIDTH;
        var v := Min(Max(minPos, pos), minPos + restLen);
        FullFrom(a, hidden, n, pos, total, p[i := v], i + 1, v + SPLIT_WIDTH)
    else
      if a[i] == 0 then FullFrom(a, hidden, n, pos, total, p[i := minPos], i + 1, minPos)
      else if hidden[i] != 0 then FullFrom(a, hidden, n, pos, total, p[i := minPos], i + 1, minPos + SPLIT_WIDTH)
      else if p[i] <= pos then FullFrom(a, hidden, n, pos, total, p[i := minPos], i + 1, minPos + SPLIT_WIDTH)
      else FullFrom(a, hidden, n, pos, total, p, i + 1, minPos)
  }

  /**
   * `set_split_pos_full`: move split `n` towards `pos`, pushing other
   * splits out of the way. The total length stays, and the last area
   * takes whatever the last split leaves; an underflow is `None`.
   */
  function SetSplitPosFull(a: seq<nat>, hidden: seq<nat>, n: nat, pos: nat): (r: Option<seq<nat>>)
    requires |hidden| == |a| && n + 1 < |a|
    ensures r.Some? ==> |r.value| == |a| && Sum(r.value) == Sum(a)
    ensures r.Some? ==> r.value[|a| - 1] == Sum(a) - SplitPos(r.value, |a| - 2)
  {
    var total := Sum(a);
    var p := Positions(a)[..|a| - 1];
    match FullFrom(a, hidden, n, pos, total, p, 0, SPLIT_WIDTH)
    case None => None
    case Some(q) =>
      match Areas(q + [total])
      case None => None
      case Some(r) =>
        LastPositionIsSum(r);
        AreaIsDifference(r, |r| - 1);
        PositionAt(r, |r| - 2);
        Some(r)
  }

  /** `set_split_pos`: out-of-range splits are ignored; otherwise the resize strategy decides. */
  function SetSplitPos(resize: SplitResize, a: seq<nat>, hidden: seq<nat>, n: nat, pos: nat): (r: Option<seq<nat>>)
    requires |hidden| == |a|
    ensures n + 1 >= |a| ==> r == Some(a)
    ensures r.Some? ==> |r.value| == |a| && Sum(r.value) == Sum(a)
  {
    if n + 1 >= |a| then Some(a)
    else match resize
      case Neighbours => SetSplitPosNeighbour(a, n, pos)
      case Full => SetSplitPosFull(a, hidden, n, pos)
  }

  // ---------------------------------------------------------------------
  // Hiding and showing areas
  // ---------------------------------------------------------------------

  /** The first visible area at or after `i`. */
  function FirstVisible(hidden: seq<nat>, i: nat): (r: Option<nat>)
    ensures r.Some? ==> i <= r.value < |hidden| && hidden[r.value] == 0
    ensures r.None? ==> forall j :: i <= j < |hidden| ==> hidden[j] != 0
    decreases |hidden| - i
  {
    if i >= |hidden| then None
    else if hidden[i] == 0 then Some(i)
    else FirstVisible(hidden, i + 1)
  }

  /** The last visible area before `i`. */
  function LastVisible(hidden: seq<nat>, i: nat): (r: Option<nat>)
    requires i <= |hidden|
    ensures r.Some? ==> r.value < i && hidden[r.value] == 0
    ensures r.None? ==> forall j :: 0 <= j < i ==> hidden[j] != 0
  {
    if i == 0 then None
    else if hidden[i - 1] == 0 then Some(i - 1)
    else LastVisible(hidden, i - 1)
  }

  /** The area that receives the length of hidden area `n`: the next visible one, else the previous. */
  function HideTarget(hidden: seq<nat>, n: nat): Option<nat>
    requires n < |hidden|
  {
    match FirstVisible(hidden, n + 1)
    case Some(k) => Some(k)
    case None => LastVisible(hidden, n)
  }

  datatype Lengths = Lengths(area: seq<nat>, hidden: seq<nat>)

  predicate ValidLengths(l: Lengths) { |l.area| == |l.hidden| }

  /** How much of area `n` hiding gives away: all of the last area, else all but the splitter. */
  function HideAmount(l: Lengths, n: nat): nat
    requires ValidLengths(l) && n < |l.area|
  {
    if n + 1 == |l.area| then l.area[n] else SatSub(l.area[n], SPLIT_WIDTH)
  }

  /** Area `i` grows by `v`; so does the total. */
  function Grow(a: seq<nat>, i: nat, v: nat): (r: seq<nat>)
    requires i < |a|
    ensures r == a[i := a[i] + v]
    ensures Sum(r) == Sum(a) + v
  {
    SumUpdate(a, i, a[i] + v);
    a[i := a[i] + v]
  }

  /**
   * `hide_split` as written: give the area's length (minus the splitter,
   * except for the last area) to the next visible area, else the previous
   * one, and park it in `hidden`. A visible area that is not the last is
   * left one cell wide.
   */
  function HideSplit(l: Lengths, n: nat): (res: (Lengths, bool))
    requires ValidLengths(l) && n < |l.area|
    ensures ValidLengths(res.0) && |res.0.area| == |l.area|
    ensures !res.1 <==> l.hidden[n] != 0 || (HideAmount(l, n) > 0 && HideTarget(l.hidden, n).None?)
    ensures !res.1 ==> res.0 == l
    ensures res.1 ==> res.0.hidden == l.hidden[n := HideAmount(l, n)]
    ensures res.1 && HideAmount(l, n) > 0 ==>
      var k := HideTarget(l.hidden, n).value;
      k != n && res.0.area[k] == l.area[k] + HideAmount(l, n) &&
      forall j :: 0 <= j < |l.area| && j != n && j != k ==> res.0.area[j] == l.area[j]
    ensures res.1 && (n + 1 == |l.area| || l.area[n] >= SPLIT_WIDTH) ==> Sum(res.0.area) == Sum(l.area)
  {
    if l.hidden[n] != 0 then (l, false)
    else
      var amount := HideAmount(l, n);
      var left := if n + 1 == |l.area| then 0 else 1;
      if amount == 0 then
        var a1 := l.area[n := left];
        SumUpdate(l.area, n, left);
        (Lengths(a1, l.hidden[n := amount]), true)
      else
        match HideTarget(l.hidden, n)
        case None => (l, false)
        case Some(k) =>
          var a1 := Grow(l.area, k, amount);
          SumUpdate(a1, n, left);
          (Lengths(a1[n := left], l.hidden[n := amount]), true)
  }

  /**
   * Hiding a zero-length area that is not the last one, as written: it
   * reports success, stays visible (nothing is parked) and grows to one
   * cell, so the total length grows by one.
   */
  lemma HideZeroGrowsTotal()
    ensures var l := Lengths([0, 5], [0, 0]);
      var res := HideSplit(l, 0);
      res.1 && res.0.hidden[0] == 0 && Sum(res.0.area) == Sum(l.area) + 1
  {
    var l := Lengths([0, 5], [0, 0]);
    assert HideSplit(l, 0).0.area == [1, 5];
    assert Sum([1, 5]) == 6 by { assert [1, 5][..1] == [1]; assert [1][..0] == []; }
    assert Sum([0, 5]) == 5 by { assert [0, 5][..1] == [0]; assert [0][..0] == []; }
  }

  /**
   * Hiding with the area keeping what it does not give away (one cell for
   * a visible area, none for a zero-length one): the total always stays.
   */
  function HideSplitFixed(l: Lengths, n: nat): (res: (Lengths, bool))
    requires ValidLengths(l) && n < |l.area|
    ensures ValidLengths(res.0) && |res.0.area| == |l.area|
    ensures !res.1 <==> l.hidden[n] != 0 || (HideAmount(l, n) > 0 && HideTarget(l.hidden, n).None?)
    ensures !res.1 ==> res.0 == l
    ensures res.1 ==> res.0.hidden == l.hidden[n := HideAmount(l, n)] && res.0.area[n] == l.area[n] - HideAmount(l, n)
    ensures Sum(res.0.area) == Sum(l.area)
  {
    if l.hidden[n] != 0 then (l, false)
    else
      var amount := HideAmount(l, n);
      if amount == 0 then (Lengths(l.area, l.hidden[n := 0]), true)
      else
        match HideTarget(l.hidden, n)
        case None => (l, false)
        case Some(k) =>
          var a1 := Grow(l.area, k, amount);
          SumUpdate(a1, n, l.area[n] - amount);
          (Lengths(a1[n := l.area[n] - amount], l.hidden[n := amount]), true)
  }

  /**
   * Take up to `show` from one visible area, never leaving it below the
   * splitter width. Returns the new lengths and what is still missing.
   */
  function StealFrom(a: seq<nat>, idx: nat, show: nat): (r: (seq<nat>, nat))
    requires idx < |a|
    ensures |r.0| == |a| && r.1 <= show
    ensures r.0 == a[idx := r.0[idx]]
    ensures r.0[idx] + (show - r.1) == a[idx]
    ensures r.0[idx] == a[idx] || r.0[idx] >= SPLIT_WIDTH
  {
    if a[idx] > show + SPLIT_WIDTH then (a[idx := a[idx] - show], 0)
    else if a[idx] > SPLIT_WIDTH then (a[idx := SPLIT_WIDTH], show - (a[idx] - SPLIT_WIDTH))
    else (a, show)
  }

  /** Stealing only moves length: the total drops by what was taken. */
  lemma StealSum(a: seq<nat>, idx: nat, show: nat)
    requires idx < |a|
    ensures Sum(StealFrom(a, idx, show).0) + (show - StealFrom(a, idx, show).1) == Sum(a)
  {
    var r := StealFrom(a, idx, show);
    SumUpdate(a, idx, r.0[idx]);
  }

  /** The right-hand pass of `show_split`, over visible areas `idx..`. */
  function StealRight(a: seq<nat>, hidden: seq<nat>, idx: nat, show: nat): (r: (seq<nat>, nat))
    requires |hidden| == |a|
    ensures |r.0| == |a| && r.1 <= show
    ensures Sum(r.0) + (show - r.1) == Sum(a)
    ensures forall j :: 0 <= j < |a| && (j < idx || hidden[j] != 0) ==> r.0[j] == a[j]
    ensures forall j :: 0 <= j < |a| ==> r.0[j] == a[j] || SPLIT_WIDTH <= r.0[j] < a[j]
    decreases |a| - idx
  {
    if idx >= |a| || show == 0 then (a, show)
    else if hidden[idx] != 0 then StealRight(a, hidden, idx + 1, show)
    else
      var t := StealFrom(a, idx, show);
      StealSum(a, idx, show);
      if t.1 == 0 then (t.0, 0) else StealRight(t.0, hidden, idx + 1, t.1)
  }

  /** The left-hand pass of `show_split`, over visible areas below `idx`, nearest first. */
  function StealLeft(a: seq<nat>, hidden: seq<nat>, idx: nat, show: nat): (r: (seq<nat>, nat))
    requires |hidden| == |a| && idx <= |a|
    ensures |r.0| == |a| && r.1 <= show
    ensures Sum(r.0) + (show - r.1) == Sum(a)
    ensures forall j :: 0 <= j < |a| && (j >= idx || hidden[j] != 0) ==> r.0[j] == a[j]
    ensures forall j :: 0 <= j < |a| ==> r.0[j] == a[j] || SPLIT_WIDTH <= r.0[j] < a[j]
    decreases idx
  {
    if idx == 0 || show == 0 then (a, show)
    else if hidden[idx - 1] != 0 then StealLeft(a, hidden, idx - 1, show)
    else
      var t := StealFrom(a, idx - 1, show);
      StealSum(a, idx - 1, show);
      if t.1 == 0 then (t.0, 0) else StealLeft(t.0, hidden, idx - 1, t.1)
  }

  /**
   * Both passes of `show_split` around area `n`: first the right-hand
   * areas, then, if something is still missing, the left-hand ones. Area
   * `n` itself is untouched.
   */
  function StealAround(a: seq<nat>, hidden: seq<nat>, n: nat, show: nat): (r: (seq<nat>, nat))
    requires |hidden| == |a| && n < |a|
    ensures |r.0| == |a| && r.1 <= show
    ensures Sum(r.0) + (show - r.1) == Sum(a)
    ensures r.0[n] == a[n]
    ensures forall j :: 0 <= j < |a| && hidden[j] != 0 ==> r.0[j] == a[j]
    ensures forall j :: 0 <= j < |a| ==> r.0[j] == a[j] || SPLIT_WIDTH <= r.0[j] < a[j]
  {
    var right := StealRight(a, hidden, n + 1, show);
    if right.1 > 0 then StealLeft(right.0, hidden, n, right.1) else right
  }

  /**
   * `show_split`: give a hidden area its length back, taken from the
   * visible areas to the right and then to the left, never shrinking one
   * below the splitter width. Whatever cannot be found is dropped.
   */
  function ShowSplit(l: Lengths, n: nat): (res: (Lengths, bool))
    requires ValidLengths(l) && n < |l.area|
    ensures ValidLengths(res.0) && |res.0.area| == |l.area|
    ensures !res.1 <==> l.hidden[n] == 0
    ensures !res.1 ==> res.0 == l
    ensures res.1 ==> res.0.hidden == l.hidden[n := 0]
    ensures Sum(res.0.area) == Sum(l.area)
    ensures res.1 ==> l.area[n] <= res.0.area[n] <= l.area[n] + l.hidden[n]
    ensures forall j :: 0 <= j < |l.area| && j != n ==>
      res.0.area[j] == l.area[j] || SPLIT_WIDTH <= res.0.area[j] < l.area[j]
    ensures forall j :: 0 <= j < |l.area| && j != n && l.hidden[j] != 0 ==> res.0.area[j] == l.area[j]
  {
    var show := l.hidden[n];
    if show == 0 then (l, false)
    else
      var both := StealAround(l.area, l.hidden, n, show);
      (Lengths(Grow(both.0, n, show - both.1), l.hidden[n := 0]), true)
  }

  /** Showing an area right after hiding it restores the total, and the area is visible again. */
  lemma HideThenShow(l: Lengths, n: nat)
    requires ValidLengths(l) && n < |l.area|
    requires HideSplitFixed(l, n).1
    ensures var h := HideSplitFixed(l, n).0;
      var s := ShowSplit(h, n).0;
      s.hidden == l.hidden && Sum(s.area) == Sum(l.area)
  {
    var h := HideSplitFixed(l, n).0;
    assert l.hidden[n] == 0;
    if h.hidden[n] != 0 {
      assert ShowSplit(h, n).0.hidden == h.hidden[n := 0];
      assert h.hidden[n := 0] == l.hidden;
    }
  }

  /** `set_area_lengths`: take the new lengths and truncate or zero-pad the hidden lengths to match. */
  function SetAreaLengths(l: Lengths, lengths: seq<nat>): (r: Lengths)
    ensures ValidLengths(r) && r.area == lengths
    ensures forall i :: 0 <= i < |lengths| && i < |l.hidden| ==> r.hidden[i] == l.hidden[i]
    ensures forall i :: |l.hidden| <= i < |lengths| ==> r.hidden[i] == 0
  {
    if |l.hidden| >= |lengths| then Lengths(lengths, l.hidden[..|lengths|])
    else Lengths(lengths, l.hidden + seq(|lengths| - |l.hidden|, _ => 0))
  }

  // ---------------------------------------------------------------------
  // Keyboard selection of a split
  // ---------------------------------------------------------------------

  /** `select_next_split`: cycle forward over the `len - 1` splits; only when focused. */
  function SelectNextSplit(focused: bool, marker: Option<nat>, len: nat): (r: (Option<nat>, bool))
    ensures r.1 <==> focused
    ensures !focused ==> r.0 == marker
    ensures focused ==> r.0.Some? && r.0.value < Max(SatSub(len, 1), 1)
    ensures focused && marker.Some? && marker.value + 1 < SatSub(len, 1) ==> r.0 == Some(marker.value + 1)
  {
    if !focused then (marker, false)
    else
      var n := if marker.Some? then marker.value else 0;
      if n + 1 >= SatSub(len, 1) then (Some(0), true) else (Some(n + 1), true)
  }

  /** `select_prev_split`: cycle backward over the `len - 1` splits; only when focused. */
  function SelectPrevSplit(focused: bool, marker: Option<nat>, len: nat): (r: (Option<nat>, bool))
    ensures r.1 <==> focused
    ensures !focused ==> r.0 == marker
    ensures focused && (marker.None? || marker.value < Max(SatSub(len, 1), 1)) ==>
      r.0.Some? && r.0.value < Max(SatSub(len, 1), 1)
    ensures focused && marker.Some? && 0 < marker.value ==> r.0 == Some(marker.value - 1)
  {
    if !focused then (marker, false)
    else
      var n := if marker.Some? then marker.value else 0;
      if n == 0 then (Some(SatSub(SatSub(len, 1), 1)), true) else (Some(n - 1), true)
  }

  /** Selecting the next split and then the previous one comes back to any valid split. */
  lemma SelectNextPrev(n: nat, len: nat)
    requires n + 1 < len
    ensures SelectPrevSplit(true, SelectNextSplit(true, Some(n), len).0, len).0 == Some(n)
    ensures SelectNextSplit(true, SelectPrevSplit(true, Some(n), len).0, len).0 == Some(n)
  {
  }
}

=== FILE: tablestate.dfy ===
/**
 * Row and column paging of rat-ftable's `TableState` (`rat-ftable/src/table.rs`):
 * the row cursor of the data iterator, the last-page computation, the
 * column width sum, scrolling a row or column into view, and clamping of
 * selections.
 *
 * Widths and heights are `u16` in the source; their sums are assumed to
 * fit. Offsets are `usize`; the saturating additions are written out
 * against `USIZE_LIMIT`. The scroll offsets live in a scroll state that is
 * not part of this model: setting one is taken to store it and report
 * whether it changed.
 */
module TableState {
  import opened Util

  // ---------------------------------------------------------------------
  // The data iterator's row cursor
  // ---------------------------------------------------------------------

  /** `usize::saturating_add`. */
  function SatAdd(a: nat, b: nat): (r: nat)
    requires a < USIZE_LIMIT && b < USIZE_LIMIT
    ensures r < USIZE_LIMIT
    ensures a + b < USIZE_LIMIT ==> r == a + b
    ensures a + b >= USIZE_LIMIT ==> r == USIZE_LIMIT - 1
  {
    if a + b < USIZE_LIMIT then a + b else USIZE_LIMIT - 1
  }

  /**
   * `nth(n)` on an iterator over `rows` rows: the first call goes to row
   * `n`, later calls skip `n` rows past the current one. The flag says
   * whether the row exists.
   */
  function Nth(row: Option<nat>, n: nat, rows: nat): (r: (Option<nat>, bool))
    requires n < USIZE_LIMIT && (row.Some? ==> row.value < USIZE_LIMIT)
    ensures r.0.Some? && r.0.value < USIZE_LIMIT
    ensures r.1 <==> r.0.value < rows
    ensures row.None? ==> r.0.value == n
    ensures row.Some? && row.value + n + 1 < USIZE_LIMIT ==> r.0.value == row.value + n + 1
    ensures row.Some? ==> r.0.value >= row.value
  {
    match row
    case None => (Some(n), n < rows)
    case Some(w) =>
      var next := SatAdd(SatAdd(w, n), 1);
      (Some(next), next < rows)
  }

  /**
   * Stepping with `nth(0)` from the start visits rows 0, 1, 2, ...: after
   * `k + 1` steps the cursor is on row `k`, and the flag is true exactly
   * while rows remain.
   */
  function Steps(k: nat, rows: nat): (r: (Option<nat>, bool))
    requires k < USIZE_LIMIT - 1
  {
    if k == 0 then Nth(None, 0, rows) else Nth(Steps(k - 1, rows).0, 0, rows)
  }

  lemma {:induction false} StepsVisitRows(k: nat, rows: nat)
    requires k < USIZE_LIMIT - 1
    ensures Steps(k, rows).0 == Some(k)
    ensures Steps(k, rows).1 <==> k < rows
  {
    if k > 0 {
      StepsVisitRows(k - 1, rows);
    }
  }

  // ---------------------------------------------------------------------
  // The last page
  // ---------------------------------------------------------------------

  /** The last `m` row heights. */
  function Last(heights: seq<nat>, m: nat): seq<nat>
    requires m <= |heights|
  {
    heights[|heights| - m..]
  }

  lemma LastStep(heights: seq<nat>, m: nat)
    requires m < |heights|
    ensures Sum(Last(heights, m + 1)) == heights[|heights| - m - 1] + Sum(Last(heights, m))
  {
    var k := |heights| - m - 1;
    assert Last(heights, m + 1) == [heights[k]] + Last(heights, m);
    SumAppend([heights[k]], Last(heights, m));
    assert Sum([heights[k]]) == heights[k] by { assert [heights[k]][..0] == []; }
  }

  lemma LastAtMostAll(heights: seq<nat>, m: nat)
    requires m <= |heights|
    ensures Sum(Last(heights, m)) <= Sum(heights)
  {
    assert heights == heights[..|heights| - m] + Last(heights, m);
    SumAppend(heights[..|heights| - m], Last(heights, m));
  }

  /**
   * `calc_last_page`: how many rows, counted from the end, it takes to
   * fill a table of height `height`; `None` when all rows together do
   * not fill it. At least one row is taken when there is one.
   */
  method CalcLastPage(heights: seq<nat>, height: nat) returns (r: Option<nat>)
    ensures r.None? <==> Sum(heights) < height
    ensures r.Some? ==> r.value <= |heights| && Sum(Last(heights, r.value)) >= height
    ensures r.Some? ==> forall m :: 1 <= m < r.value ==> Sum(Last(heights, m)) < height
    ensures r.Some? && |heights| > 0 ==> r.value >= 1
  {
    var sum := 0;
    var n := 0;
    assert Last(heights, 0) == [];
    while n < |heights|
      invariant n <= |heights|
      invariant sum == Sum(Last(heights, n))
      invariant forall m :: 1 <= m <= n ==> Sum(Last(heights, m)) < height
    {
      LastStep(heights, n);
      sum := sum + heights[|heights| - n - 1];
      n := n + 1;
      if sum >= height {
        break;
      }
    }
    assert Last(heights, |heights|) == heights;
    LastAtMostAll(heights, n);
    if sum < height {
      return None;
    }
    return Some(n);
  }

  // ---------------------------------------------------------------------
  // Column widths
  // ---------------------------------------------------------------------

  /** ratatui's layout constraints, as far as a column width uses them. */
  datatype Constraint = Min(v: nat) | Max(v: nat) | Length(v: nat) | Percentage(p: nat) | Ratio(num: nat, den: nat) | Fill(f: nat)

  predicate Fixed(c: Constraint) { c.Min? || c.Max? || c.Length? }

  function Width(c: Constraint): nat
    requires Fixed(c)
  {
    match c
    case Min(v) => v
    case Max(v) => v
    case Length(v) => v
  }

  /** The widths the fixed constraints name, in order. */
  function FixedWidths(ws: seq<Constraint>): (r: seq<nat>)
    requires forall i :: 0 <= i < |ws| ==> Fixed(ws[i])
    ensures |r| == |ws| && forall i :: 0 <= i < |ws| ==> r[i] == Width(ws[i])
  {
    if |ws| == 0 then [] else FixedWidths(ws[..|ws| - 1]) + [Width(ws[|ws| - 1])]
  }

  /** The automatic layout width: each column's width plus the spacing; any other constraint is a panic, `None`. */
  function AutoWidth(ws: seq<Constraint>, spacing: nat): (r: Option<nat>)
    ensures r.Some? <==> forall i :: 0 <= i < |ws| ==> Fixed(ws[i])
    ensures r.Some? ==> r.value == Sum(FixedWidths(ws)) + |ws| * spacing
  {
    if |ws| == 0 then Some(0)
    else
      var init := ws[..|ws| - 1];
      var last := ws[|ws| - 1];
      assert forall i :: 0 <= i < |init| ==> init[i] == ws[i];
      if !Fixed(last) then None
      else match AutoWidth(init, spacing)
        case None => None
        case Some(w) =>
          AutoWidthStep(ws, spacing);
          Some(w + Width(last) + spacing)
  }

  /** One more fixed column adds its width and one spacing to the automatic width. */
  lemma AutoWidthStep(ws: seq<Constraint>, spacing: nat)
    requires |ws| > 0 && forall i :: 0 <= i < |ws| ==> Fixed(ws[i])
    ensures Sum(FixedWidths(ws)) + |ws| * spacing ==
      Sum(FixedWidths(ws[..|ws| - 1])) + (|ws| - 1) * spacing + Width(ws[|ws| - 1]) + spacing
  {
    var init := ws[..|ws| - 1];
    var last := Width(ws[|ws| - 1]);
    assert Sum(FixedWidths(ws)) == Sum(FixedWidths(init)) + last by {
      assert FixedWidths(ws) == FixedWidths(init) + [last];
      SumAppend(FixedWidths(init), [last]);
      assert Sum([last]) == last by { assert [last][..0] == []; }
    }
    MulStep(|ws| - 1, spacing);
  }

  lemma MulStep(n: nat, k: nat)
    ensures (n + 1) * k == n * k + k
  {
  }

  /** `total_width`: an explicit layout width wins, then the automatic width, then the area's width. */
  function TotalWidth(layoutWidth: Option<nat>, autoLayout: bool, ws: seq<Constraint>, spacing: nat, areaWidth: nat): (r: Option<nat>)
    ensures layoutWidth.Some? ==> r == layoutWidth
    ensures layoutWidth.None? && !autoLayout ==> r == Some(areaWidth)
    ensures layoutWidth.None? && autoLayout ==>
      (r.Some? <==> forall i :: 0 <= i < |ws| ==> Fixed(ws[i]))
    ensures layoutWidth.None? && autoLayout && r.Some? ==> r.value == Sum(FixedWidths(ws)) + |ws| * spacing
  {
    if layoutWidth.Some? then layoutWidth
    else if autoLayout then AutoWidth(ws, spacing)
    else Some(areaWidth)
  }

  // ---------------------------------------------------------------------
  // Scrolling into view
  // ---------------------------------------------------------------------

  /**
   * `scroll_to_row`: make row `pos` visible on a page of `page` rows
   * starting at `offset`. A row past the end is ignored. A row just below
   * a page that does not fill the table (`filled` false) is left alone.
   * Returns the new offset and whether it changed.
   */
  function ScrollToRow(rows: nat, offset: nat, page: nat, filled: bool, pos: nat): (r: (nat, bool))
    requires offset + page < USIZE_LIMIT && pos < USIZE_LIMIT
    ensures r.1 <==> r.0 != offset
    ensures pos >= rows ==> r.0 == offset
    ensures offset <= pos < offset + page ==> r.0 == offset
    ensures pos < rows && pos < offset ==> r.0 == pos
    ensures pos < rows && page > 0 && (pos > offset + page || (pos == offset + page && filled)) ==>
      r.0 <= pos < r.0 + page && r.0 + page == pos + 1
  {
    var o := if pos >= rows then offset
      else if pos == offset + page then
        if !filled then offset else SatSub(pos, page) + 1
      else if pos >= offset + page then SatSub(pos, page) + 1
      else if pos < offset then pos
      else offset;
    (o, o != offset)
  }

  /**
   * Scrolling a row into view moves the offset no further than any other
   * offset that shows the row.
   */
  lemma ScrollToRowMinimal(rows: nat, offset: nat, page: nat, filled: bool, pos: nat, other: nat)
    requires offset + page < USIZE_LIMIT && pos < USIZE_LIMIT
    requires pos < rows && (pos != offset + page || filled)
    requires other <= pos < other + page
    ensures var o := ScrollToRow(rows, offset, page, filled, pos).0;
      o <= pos < o + page &&
      (if o >= offset then o - offset else offset - o) <= (if other >= offset then other - offset else offset - other)
  {
  }

  /** `scroll_to_x`: the same for a horizontal position on a page `page` columns wide. */
  function ScrollToX(offset: nat, page: nat, pos: nat): (r: (nat, bool))
    requires offset + page < USIZE_LIMIT
    ensures r.1 <==> r.0 != offset
    ensures offset <= pos < offset + page ==> r.0 == offset
    ensures page > 0 ==> r.0 <= pos < r.0 + page
    ensures pos < offset ==> r.0 == pos
    ensures pos >= offset + page ==> r.0 + page == pos + 1
  {
    var o := if pos >= offset + page then SatSub(pos, page) + 1
      else if pos < offset then pos
      else offset;
    (o, o != offset)
  }

  // ---------------------------------------------------------------------
  // Selections
  // ---------------------------------------------------------------------

  /** `selected_checked`: the selected row, only when it exists. */
  function SelectedChecked(selected: Option<nat>, rows: nat): (r: Option<nat>)
    ensures r.Some? <==> selected.Some? && selected.value < rows
    ensures r.Some? ==> r == selected
  {
    if selected.Some? && selected.value < rows then selected else None
  }

  /** The cell selection's `select_row` / `select_column`: a row or column clamped to the last one there is. */
  function ClampIndex(i: Option<nat>, count: nat): (r: Option<nat>)
    ensures r.Some? <==> i.Some?
    ensures r.Some? && count > 0 ==> r.value < count && (i.value < count ==> r.value == i.value)
    ensures r.Some? && count > 0 && i.value >= count ==> r.value == count - 1
  {
    match i
    case None => None
    case Some(v) => Some(Util.Min(v, SatSub(count, 1)))
  }

  /**
   * `remap_offset_selection`: a scroll offset in `0..=maxOffset` mapped
   * proportionally onto the rows; 0 when there is nothing to scroll.
   */
  function RemapOffsetSelection(rows: nat, maxOffset: nat, offset: nat): (r: nat)
    ensures maxOffset == 0 ==> r == 0
    ensures maxOffset > 0 && offset <= maxOffset ==> r <= rows
    ensures maxOffset > 0 ==> r * maxOffset <= rows * offset < (r + 1) * maxOffset
  {
    if maxOffset > 0 then (rows * offset) / maxOffset else 0
  }

  /** Multiplying by the same factor keeps the order. */
  lemma MulLeq(a: nat, b: nat, k: nat)
    requires a <= b
    ensures a * k <= b * k
  {
    assert b * k == a * k + (b - a) * k;
  }

  lemma DivMonotone(x: nat, y: nat, d: nat)
    requires d > 0 && x <= y
    ensures x / d <= y / d
  {
    var qx, qy := x / d, y / d;
    if qx > qy {
      MulLeq(qy + 1, qx, d);
      assert false;
    }
  }

  /** The remapping keeps the order of offsets and sends the largest offset to the row count. */
  lemma RemapMonotone(rows: nat, maxOffset: nat, a: nat, b: nat)
    requires maxOffset > 0 && a <= b
    ensures RemapOffsetSelection(rows, maxOffset, a) <= RemapOffsetSelection(rows, maxOffset, b)
    ensures RemapOffsetSelection(rows, maxOffset, maxOffset) == rows
  {
    MulLeq(a, b, rows);
    assert rows * a == a * rows && rows * b == b * rows;
    DivMonotone(rows * a, rows * b, maxOffset);
    var r := RemapOffsetSelection(rows, maxOffset, maxOffset);
    if r < rows {
      MulLeq(r + 1, rows, maxOffset);
      assert false;
    }
  }
}

=== FILE: text_area_edit.dfy ===
// Line editing of the second-generation text area (src/text_area.rs): deleting a
// line, inserting a line break that copies the indentation, and duplicating the
// selection or the current line. Graphemes are their strings; the text store is
// the abstract line sequence of TextLines, and a position (0, line count) names
// the end of the text, as the store documents.

module TextAreaEdit {
  import opened Util
  import opened TextLines
  import TextCursor

  type Grapheme = string

  /** Deletes the cursor's line with its break; the last line is only emptied. */
  function DeleteLine(t: seq<seq<Grapheme>>, c: Pos): (res: (seq<seq<Grapheme>>, bool))
    requires ValidPos(t, c)
    ensures c.y + 1 < |t| ==> res.0 == t[..c.y] + t[c.y + 1..] && res.1
    ensures c.y + 1 == |t| ==> res.0 == t[..c.y] + [[]] && (res.1 <==> |t[c.y]| > 0)
  {
    if c.y + 1 < |t| then
      DeleteWholeLine(t, c.y);
      TextCursor.DeleteRange(t, Range(Pos(0, c.y), Pos(0, c.y + 1)))
    else
      DeleteLineContent(t, c.y);
      assert t[c.y + 1..] == [];
      TextCursor.DeleteRange(t, Range(Pos(0, c.y), Pos(|t[c.y]|, c.y)))
  }

  predicate IsIndent(g: Grapheme)
  {
    g == " " || g == "\t"
  }

  /** The leading spaces and tabs of a line. */
  function LeadingBlanks(l: seq<Grapheme>): (b: seq<Grapheme>)
    ensures |b| <= |l| && b == l[..|b|]
    ensures forall i :: 0 <= i < |b| ==> IsIndent(b[i])
    ensures |b| == |l| || !IsIndent(l[|b|])
  {
    if |l| == 0 || !IsIndent(l[0]) then [] else [l[0]] + LeadingBlanks(l[1..])
  }

  /**
   * Inserts a line break at the cursor, after removing the selection if there is
   * one (the cursor is then at its start). The new line starts with the leading
   * spaces and tabs of the line before it, and the cursor ends behind them.
   */
  function InsertNewline(t: seq<seq<Grapheme>>, c: Pos, sel: Option<Range>): (res: (seq<seq<Grapheme>>, Pos))
    requires ValidPos(t, c)
    requires sel.Some? ==> ValidRange(t, sel.value)
    ensures var t1 := if sel.Some? then Delete(t, sel.value) else t;
      var p := if sel.Some? then sel.value.start else c;
      ValidPos(t1, p)
      && res.0 == t1[..p.y] + [t1[p.y][..p.x], LeadingBlanks(t1[p.y][..p.x]) + t1[p.y][p.x..]] + t1[p.y + 1..]
      && res.1 == Pos(|LeadingBlanks(t1[p.y][..p.x])|, p.y + 1)
  {
    var t1 := if sel.Some? then Delete(t, sel.value) else t;
    var p := if sel.Some? then sel.value.start else c;
    SelectionRemoved(t, c, sel);
    var t2 := Insert(t1, p, [[], []]);
    InsertBreak(t1, p);
    assert t2[p.y] == t1[p.y][..p.x];
    var blanks := LeadingBlanks(t2[p.y]);
    var t3 := Insert(t2, Pos(0, p.y + 1), [blanks]);
    IndentedBreak(t1, p, blanks);
    (t3, Pos(|blanks|, p.y + 1))
  }

  /**
   * Duplicates a non-empty selection by inserting its copy at its end; without
   * a selection, inserts a copy of the cursor's line (with its break) before it.
   * For the last line the copied range ends at the end of the text, so the copy
   * carries no break and lands on the same line.
   */
  function DuplicateText(t: seq<seq<Grapheme>>, c: Pos, sel: Option<Range>): (res: (seq<seq<Grapheme>>, bool))
    requires ValidPos(t, c)
    requires sel.Some? ==> ValidRange(t, sel.value)
    ensures sel.Some? && !IsEmpty(sel.value) ==>
      (res.1 && IsText(res.0) && Offset(t, sel.value.start) <= Offset(t, sel.value.end)
       && Flat(res.0) == Flat(t)[..Offset(t, sel.value.end)]
            + Flat(t)[Offset(t, sel.value.start)..Offset(t, sel.value.end)]
            + Flat(t)[Offset(t, sel.value.end)..])
    ensures sel.Some? && IsEmpty(sel.value) ==> res == (t, false)
    ensures sel.None? && c.y + 1 < |t| ==> res == (t[..c.y] + [t[c.y], t[c.y]] + t[c.y + 1..], true)
    ensures sel.None? && c.y + 1 == |t| ==> res == (t[..c.y] + [t[c.y] + t[c.y]], true)
  {
    if sel.Some? then
      var r := sel.value;
      if !IsEmpty(r) then
        var v := Slice(t, r);
        InsertFlat(t, r.end, v);
        (Insert(t, r.end, v), true)
      else
        (t, false)
    else if c.y + 1 < |t| then
      InsertLineBefore(t, c.y, t[c.y]);
      assert t[c.y..] == [t[c.y]] + t[c.y + 1..];
      assert t[..c.y] + [t[c.y]] + t[c.y..] == t[..c.y] + [t[c.y], t[c.y]] + t[c.y + 1..];
      (Insert(t, Pos(0, c.y), [t[c.y], []]), true)
    else
      InsertInLine(t, Pos(0, c.y), t[c.y]);
      assert t[c.y][..0] + t[c.y] + t[c.y][0..] == t[c.y] + t[c.y];
      assert t[c.y + 1..] == [];
      assert t[..c.y] + [t[c.y] + t[c.y]] + [] == t[..c.y] + [t[c.y] + t[c.y]];
      (Insert(t, Pos(0, c.y), [t[c.y]]), true)
  }

  /** A break at p followed by b at the start of the new line. */
  lemma IndentedBreak<G>(t: seq<seq<G>>, p: Pos, b: seq<G>)
    requires ValidPos(t, p)
    ensures ValidPos(Insert(t, p, [[], []]), Pos(0, p.y + 1))
    ensures Insert(Insert(t, p, [[], []]), Pos(0, p.y + 1), [b])
      == t[..p.y] + [t[p.y][..p.x], b + t[p.y][p.x..]] + t[p.y + 1..]
  {
    var t2 := Insert(t, p, [[], []]);
    InsertBreak(t, p);
    InsertInLine(t2, Pos(0, p.y + 1), b);
    assert t2[..p.y + 1] == t[..p.y] + [t[p.y][..p.x]];
    assert t2[p.y + 2..] == t[p.y + 1..];
    assert t2[p.y + 1][..0] + b + t2[p.y + 1][0..] == b + t[p.y][p.x..];
  }

  /** Removing the selection leaves its start a valid cursor. */
  lemma SelectionRemoved<G>(t: seq<seq<G>>, c: Pos, sel: Option<Range>)
    requires ValidPos(t, c)
    requires sel.Some? ==> ValidRange(t, sel.value)
    ensures ValidPos(if sel.Some? then Delete(t, sel.value) else t, if sel.Some? then sel.value.start else c)
  {
    if sel.Some? {
      DeleteKeepsStart(t, sel.value);
    }
  }
}

=== FILE: text_cursor.dfy ===
// Cursor, scroll and delete-range arithmetic of the line-based text areas
// (src/textarea.rs and its successor src/text_area.rs share these rules).
// The cursor is a position in a text of lines; the scroll offset is a
// (column, row) pair; the visible area is width columns by height rows.

module TextCursor {
  import opened Util
  import opened TextLines

  /** Moves left by n graphemes; at column 0 it wraps to the end of the previous line. */
  function MoveLeft<G>(t: seq<seq<G>>, c: Pos, n: nat): (r: Pos)
    requires ValidPos(t, c)
    ensures ValidPos(t, r) && PosLe(r, c)
    ensures c.x == 0 && c.y > 0 ==> r == Pos(|t[c.y - 1]|, c.y - 1)
    ensures c.x > 0 ==> r.y == c.y && r.x + Min(n, c.x) == c.x
  {
    if c.x == 0 then
      if c.y > 0 then Pos(|t[c.y - 1]|, c.y - 1) else c
    else
      Pos(SatSub(c.x, n), c.y)
  }

  /** Moves right by n graphemes, stopping at the line end; at a line end it wraps to the next line. */
  function MoveRight<G>(t: seq<seq<G>>, c: Pos, n: nat): (r: Pos)
    requires ValidPos(t, c)
    ensures ValidPos(t, r) && PosLe(c, r)
    ensures c.x == |t[c.y]| && c.y + 1 < |t| ==> r == Pos(0, c.y + 1)
    ensures c.x < |t[c.y]| ==> r.y == c.y && r.x == Min(c.x + n, |t[c.y]|)
  {
    if c.x == |t[c.y]| then
      if c.y + 1 < |t| then Pos(0, c.y + 1) else c
    else
      Pos(Min(c.x + n, |t[c.y]|), c.y)
  }

  /** The column a vertical move aims for: the remembered column, or the cursor's. */
  function TargetCol(c: Pos, moveCol: Option<nat>): nat
  {
    if moveCol.Some? then moveCol.value else c.x
  }

  /** Moves up n lines (saturating at line 0), to the target column clipped to that line. */
  function MoveUp<G>(t: seq<seq<G>>, c: Pos, n: nat, moveCol: Option<nat>): (r: Pos)
    requires ValidPos(t, c)
    ensures ValidPos(t, r)
    ensures r.y + Min(n, c.y) == c.y
    ensures r.x == Min(TargetCol(c, moveCol), |t[r.y]|)
  {
    var y := SatSub(c.y, n);
    Pos(Min(TargetCol(c, moveCol), |t[y]|), y)
  }

  /** Moves down n lines (stopping at the last line), to the target column clipped to that line. */
  function MoveDown<G>(t: seq<seq<G>>, c: Pos, n: nat, moveCol: Option<nat>): (r: Pos)
    requires ValidPos(t, c)
    ensures ValidPos(t, r)
    ensures r.y == Min(c.y + n, |t| - 1)
    ensures r.x == Min(TargetCol(c, moveCol), |t[r.y]|)
  {
    var y := Min(c.y + n, |t| - 1);
    Pos(Min(TargetCol(c, moveCol), |t[y]|), y)
  }

  /**
   * Move-up as the first text area writes it: the column is clipped to the
   * width of the line the cursor leaves, not of the line it moves to.
   */
  function MoveUpAsWritten<G>(t: seq<seq<G>>, c: Pos, n: nat, moveCol: Option<nat>): (r: Pos)
    requires ValidPos(t, c)
    ensures r.y < |t| && r.y + Min(n, c.y) == c.y
    ensures r.x == Min(TargetCol(c, moveCol), |t[c.y]|)
  {
    Pos(Min(TargetCol(c, moveCol), |t[c.y]|), SatSub(c.y, n))
  }

  /** Move-down as the first text area writes it, with the same clipping. */
  function MoveDownAsWritten<G>(t: seq<seq<G>>, c: Pos, n: nat, moveCol: Option<nat>): (r: Pos)
    requires ValidPos(t, c)
    ensures r.y == Min(c.y + n, |t| - 1)
    ensures r.x == Min(TargetCol(c, moveCol), |t[c.y]|)
  {
    Pos(Min(TargetCol(c, moveCol), |t[c.y]|), Min(c.y + n, |t| - 1))
  }

  /** From the end of a long line, the first text area's move-up lands past the end of a shorter line. */
  lemma MoveUpAsWrittenLeavesLine(t: seq<seq<char>>)
    requires t == ["", "abc"]
    ensures ValidPos(t, Pos(3, 1))
    ensures MoveUpAsWritten(t, Pos(3, 1), 1, None) == Pos(3, 0)
    ensures !ValidPos(t, MoveUpAsWritten(t, Pos(3, 1), 1, None))
    ensures ValidPos(t, MoveUp(t, Pos(3, 1), 1, None))
  {
  }

  /** The same for move-down. */
  lemma MoveDownAsWrittenLeavesLine(t: seq<seq<char>>)
    requires t == ["abc", ""]
    ensures ValidPos(t, Pos(3, 0))
    ensures MoveDownAsWritten(t, Pos(3, 0), 1, None) == Pos(3, 1)
    ensures !ValidPos(t, MoveDownAsWritten(t, Pos(3, 0), 1, None))
    ensures ValidPos(t, MoveDown(t, Pos(3, 0), 1, None))
  {
  }

  /** Where the target line is at least as wide as the line left, both clippings agree. */
  lemma MoveUpAgrees<G>(t: seq<seq<G>>, c: Pos, n: nat, moveCol: Option<nat>)
    requires ValidPos(t, c) && |t[c.y]| <= |t[SatSub(c.y, n)]|
    requires TargetCol(c, moveCol) <= |t[c.y]|
    ensures MoveUpAsWritten(t, c, n, moveCol) == MoveUp(t, c, n, moveCol)
  {
  }

  /** Moving right by one crosses exactly one unit of the flat text, except at the end. */
  lemma MoveRightOneUnit<G>(t: seq<seq<G>>, c: Pos)
    requires ValidPos(t, c) && c != EndPos(t)
    ensures Offset(t, MoveRight(t, c, 1)) == Offset(t, c) + 1
  {
    if c.x < |t[c.y]| {
      StepChar(t, c);
    } else {
      StepBreak(t, c);
    }
  }

  /** Moving left by one crosses exactly one unit of the flat text, except at the start. */
  lemma MoveLeftOneUnit<G>(t: seq<seq<G>>, c: Pos)
    requires ValidPos(t, c) && c != Pos(0, 0)
    ensures Offset(t, MoveLeft(t, c, 1)) + 1 == Offset(t, c)
  {
    var r := MoveLeft(t, c, 1);
    if c.x > 0 {
      StepChar(t, r);
    } else {
      StepBreak(t, r);
    }
  }

  /** One step left undoes one step right, everywhere but at the end of the text. */
  lemma MoveLeftUndoesRight<G>(t: seq<seq<G>>, c: Pos)
    requires ValidPos(t, c) && c != EndPos(t)
    ensures MoveLeft(t, MoveRight(t, c, 1), 1) == c
  {
  }

  /** One step right undoes one step left, everywhere but at the start of the text. */
  lemma MoveRightUndoesLeft<G>(t: seq<seq<G>>, c: Pos)
    requires ValidPos(t, c) && c != Pos(0, 0)
    ensures MoveRight(t, MoveLeft(t, c, 1), 1) == c
  {
  }

  /** Moving down and back up with the column remembered returns to the start. */
  lemma MoveDownThenUp<G>(t: seq<seq<G>>, c: Pos, n: nat)
    requires ValidPos(t, c) && c.y + n < |t|
    ensures MoveUp(t, MoveDown(t, c, n, Some(c.x)), n, Some(c.x)) == c
  {
  }

  /** The range delete-next-char removes: from the cursor one step to the right. */
  function DeleteNextRange<G>(t: seq<seq<G>>, c: Pos): (r: Range)
    requires ValidPos(t, c)
    ensures ValidRange(t, r) && r.start == c
    ensures r.end == MoveRight(t, c, 1)
    ensures IsEmpty(r) <==> c == EndPos(t)
  {
    if c.y == |t| - 1 && c.x == |t[c.y]| then Range(c, Pos(|t[c.y]|, |t| - 1))
    else if c.y != |t| - 1 && c.x == |t[c.y]| then Range(c, Pos(0, c.y + 1))
    else Range(c, Pos(c.x + 1, c.y))
  }

  /** The range delete-prev-char removes: from one step to the left up to the cursor. */
  function DeletePrevRange<G>(t: seq<seq<G>>, c: Pos): (r: Range)
    requires ValidPos(t, c)
    ensures ValidRange(t, r) && r.end == c
    ensures r.start == MoveLeft(t, c, 1)
    ensures IsEmpty(r) <==> c == Pos(0, 0)
  {
    if c.y == 0 && c.x == 0 then Range(Pos(0, 0), c)
    else if c.y != 0 && c.x == 0 then Range(Pos(|t[c.y - 1]|, c.y - 1), c)
    else Range(Pos(c.x - 1, c.y), c)
  }

  /** Deletes a range; an empty range changes nothing and reports false. */
  function DeleteRange<G>(t: seq<seq<G>>, r: Range): (res: (seq<seq<G>>, bool))
    requires ValidRange(t, r)
    ensures res.1 <==> !IsEmpty(r)
    ensures IsText(res.0) && Flat(res.0) == Flat(t)[..Offset(t, r.start)] + Flat(t)[Offset(t, r.end)..]
    ensures !res.1 ==> res.0 == t
  {
    if !IsEmpty(r) then
      DeleteFlat(t, r);
      (Delete(t, r), true)
    else
      (t, false)
  }

  /** Delete-next-char: the selection if there is one, otherwise the next unit. */
  function DeleteNextChar<G>(t: seq<seq<G>>, c: Pos, sel: Option<Range>): (res: (seq<seq<G>>, bool))
    requires ValidPos(t, c)
    requires sel.Some? ==> ValidRange(t, sel.value)
    ensures IsText(res.0)
    ensures sel.None? ==> (res.1 <==> c != EndPos(t))
  {
    DeleteRange(t, if sel.Some? then sel.value else DeleteNextRange(t, c))
  }

  /** Delete-prev-char: the selection if there is one, otherwise the previous unit. */
  function DeletePrevChar<G>(t: seq<seq<G>>, c: Pos, sel: Option<Range>): (res: (seq<seq<G>>, bool))
    requires ValidPos(t, c)
    requires sel.Some? ==> ValidRange(t, sel.value)
    ensures IsText(res.0)
    ensures sel.None? ==> (res.1 <==> c != Pos(0, 0))
  {
    DeleteRange(t, if sel.Some? then sel.value else DeletePrevRange(t, c))
  }

  /** Without a selection, delete-next-char removes exactly the unit after the cursor. */
  lemma DeleteNextRemovesOne<G>(t: seq<seq<G>>, c: Pos)
    requires ValidPos(t, c) && c != EndPos(t)
    ensures var k := Offset(t, c);
      k < |Flat(t)| && Flat(DeleteNextChar(t, c, None).0) == Flat(t)[..k] + Flat(t)[k + 1..]
  {
    MoveRightOneUnit(t, c);
  }

  /** Without a selection, delete-prev-char removes exactly the unit before the cursor. */
  lemma DeletePrevRemovesOne<G>(t: seq<seq<G>>, c: Pos)
    requires ValidPos(t, c) && c != Pos(0, 0)
    ensures var k := Offset(t, c);
      0 < k && Flat(DeletePrevChar(t, c, None).0) == Flat(t)[..k - 1] + Flat(t)[k..]
  {
    MoveLeftOneUnit(t, c);
  }

  /**
   * Converts a widget-relative screen row to a text row (i16 screen coordinate).
   * Rows above the area count back from the offset; rows at or below the area's
   * bottom and rows past the text are clipped to the last line.
   */
  function ScreenToRow(oy: nat, height: nat, lines: nat, scy: int): (r: nat)
    requires lines >= 1 && -0x8000 <= scy < 0x8000
    ensures scy >= 0 || oy < lines ==> r < lines
    ensures scy < 0 ==> r + Min(-scy, oy) == oy
    ensures scy >= 0 ==> r <= oy + scy
  {
    if scy < 0 then SatSub(oy, -scy)
    else if scy >= height then Min(oy + scy, lines - 1)
    else if oy + scy < lines then oy + scy
    else lines - 1
  }

  /** A row shown on screen converts back to itself. */
  lemma ScreenToRowOfVisible(oy: nat, height: nat, lines: nat, y: nat)
    requires lines >= 1 && oy <= y < oy + height && y < lines && y - oy < 0x8000
    ensures ScreenToRow(oy, height, lines, y - oy) == y
  {
  }

  /** The cursor is inside the area at offset o: rows [o.y, o.y+h), columns [o.x, o.x+w]. */
  predicate Visible(c: Pos, o: Pos, w: nat, h: nat)
  {
    o.y <= c.y < o.y + h && o.x <= c.x <= o.x + w
  }

  /** Scrolls so that the cursor is visible; reports whether the offset changed. */
  function ScrollToVisible(c: Pos, off: Pos, w: nat, h: nat): (r: (Pos, bool))
    requires h >= 1
    ensures Visible(c, r.0, w, h)
    ensures r.0 == off <==> Visible(c, off, w, h)
    ensures r.1 <==> r.0 != off
  {
    var noy := if c.y < off.y then c.y
      else if c.y >= off.y + h then SatSub(c.y, h - 1)
      else off.y;
    var nox := if c.x < off.x then c.x
      else if c.x >= off.x + w then SatSub(c.x, w)
      else off.x;
    (Pos(nox, noy), Pos(nox, noy) != off)
  }

  function Dist(a: nat, b: nat): nat
  {
    if a <= b then b - a else a - b
  }

  /** No offset that shows the cursor is closer to the old offset, on either axis. */
  lemma ScrollMinimal(c: Pos, off: Pos, w: nat, h: nat, o: Pos)
    requires h >= 1 && Visible(c, o, w, h)
    ensures Dist(ScrollToVisible(c, off, w, h).0.y, off.y) <= Dist(o.y, off.y)
    ensures Dist(ScrollToVisible(c, off, w, h).0.x, off.x) <= Dist(o.x, off.x)
  {
  }
}

=== FILE: text_lines.dfy ===
// A text as a sequence of lines of abstract grapheme units, the shape every text
// widget of the toolkit edits through its store. Positions are (column, line)
// pairs; ranges run from a start position to an end position. Deleting and
// inserting are defined on lines and characterised on the flat view, in which
// the lines are laid out one after another with a break unit between them.

module TextLines {

  /** One unit of the flat text: a grapheme or the break between two lines. */
  datatype Unit<G> = Char(g: G) | Break

  /** A position: column x (in graphemes) of line y. */
  datatype Pos = Pos(x: nat, y: nat)

  /** A range of text from start to end. */
  datatype Range = Range(start: Pos, end: Pos)

  /** A text has at least one line; lines do not contain their break. */
  predicate IsText<G>(t: seq<seq<G>>)
  {
    |t| > 0
  }

  predicate ValidPos<G>(t: seq<seq<G>>, p: Pos)
  {
    p.y < |t| && p.x <= |t[p.y]|
  }

  /** Position order: by line, then by column. */
  predicate PosLe(a: Pos, b: Pos)
  {
    a.y < b.y || (a.y == b.y && a.x <= b.x)
  }

  predicate ValidRange<G>(t: seq<seq<G>>, r: Range)
  {
    ValidPos(t, r.start) && ValidPos(t, r.end) && PosLe(r.start, r.end)
  }

  predicate IsEmpty(r: Range)
  {
    r.start == r.end
  }

  /** The position after the last grapheme of the last line. */
  function EndPos<G>(t: seq<seq<G>>): (p: Pos)
    requires IsText(t)
    ensures ValidPos(t, p)
  {
    Pos(|t[|t| - 1]|, |t| - 1)
  }

  function Units<G>(l: seq<G>): (r: seq<Unit<G>>)
    ensures |r| == |l|
    ensures forall i :: 0 <= i < |l| ==> r[i] == Char(l[i])
  {
    seq(|l|, i requires 0 <= i < |l| => Char(l[i]))
  }

  /** The flat view: every line's graphemes, with a break between consecutive lines. */
  function Flat<G>(t: seq<seq<G>>): seq<Unit<G>>
    requires IsText(t)
    decreases |t|
  {
    if |t| == 1 then Units(t[0]) else Units(t[0]) + [Break] + Flat(t[1..])
  }

  /** Appends b to a, joining the last line of a with the first line of b. */
  function Glue<G>(a: seq<seq<G>>, b: seq<seq<G>>): (r: seq<seq<G>>)
    requires IsText(a) && IsText(b)
    ensures IsText(r) && |r| == |a| + |b| - 1
  {
    a[..|a| - 1] + [a[|a| - 1] + b[0]] + b[1..]
  }

  /** The text before p, itself a text of p.y + 1 lines. */
  function Before<G>(t: seq<seq<G>>, p: Pos): (r: seq<seq<G>>)
    requires ValidPos(t, p)
    ensures IsText(r) && |r| == p.y + 1 && |r[p.y]| == p.x
  {
    t[..p.y] + [t[p.y][..p.x]]
  }

  /** The text from p on. */
  function After<G>(t: seq<seq<G>>, p: Pos): (r: seq<seq<G>>)
    requires ValidPos(t, p)
    ensures IsText(r) && |r| == |t| - p.y
  {
    [t[p.y][p.x..]] + t[p.y + 1..]
  }

  /** Index of a position in the flat view. */
  function Offset<G>(t: seq<seq<G>>, p: Pos): (k: nat)
    requires ValidPos(t, p)
    ensures k <= |Flat(t)|
    ensures Flat(t)[..k] == Flat(Before(t, p)) && Flat(t)[k..] == Flat(After(t, p))
  {
    FlatSplit(t, p);
    |Flat(Before(t, p))|
  }

  /** Removes the range: the text before its start glued to the text after its end. */
  function Delete<G>(t: seq<seq<G>>, r: Range): (u: seq<seq<G>>)
    requires ValidRange(t, r)
    ensures IsText(u) && |u| == |t| - (r.end.y - r.start.y)
  {
    Glue(Before(t, r.start), After(t, r.end))
  }

  /** Inserts the text s at p. */
  function Insert<G>(t: seq<seq<G>>, p: Pos, s: seq<seq<G>>): (u: seq<seq<G>>)
    requires ValidPos(t, p) && IsText(s)
    ensures IsText(u) && |u| == |t| + |s| - 1
  {
    Glue(Glue(Before(t, p), s), After(t, p))
  }

  lemma UnitsAppend<G>(a: seq<G>, b: seq<G>)
    ensures Units(a + b) == Units(a) + Units(b)
  {
  }

  /** The flat view of a text starts with its first line. */
  lemma FlatFirst<G>(t: seq<seq<G>>)
    requires IsText(t)
    ensures Flat(t) == Units(t[0]) + (if |t| == 1 then [] else [Break] + Flat(t[1..]))
  {
  }

  /** Gluing two texts concatenates their flat views. */
  lemma {:induction false} FlatGlue<G>(a: seq<seq<G>>, b: seq<seq<G>>)
    requires IsText(a) && IsText(b)
    ensures Flat(Glue(a, b)) == Flat(a) + Flat(b)
    decreases |a|
  {
    var g := Glue(a, b);
    if |a| == 1 {
      assert g == [a[0] + b[0]] + b[1..];
      UnitsAppend(a[0], b[0]);
      FlatFirst(b);
      if |b| == 1 {
        assert g == [a[0] + b[0]];
      } else {
        assert g[1..] == b[1..];
      }
    } else {
      var a' := a[1..];
      assert g == [a[0]] + Glue(a', b);
      assert g[1..] == Glue(a', b);
      FlatGlue(a', b);
    }
  }

  /** A text is the text before any position glued to the text after it. */
  lemma GlueSplit<G>(t: seq<seq<G>>, p: Pos)
    requires ValidPos(t, p)
    ensures Glue(Before(t, p), After(t, p)) == t
  {
    var b := Before(t, p);
    assert b[..|b| - 1] == t[..p.y];
    assert b[|b| - 1] + After(t, p)[0] == t[p.y];
    assert After(t, p)[1..] == t[p.y + 1..];
    assert t == t[..p.y] + [t[p.y]] + t[p.y + 1..];
  }

  /** The flat view splits at every position into the parts before and after it. */
  lemma FlatSplit<G>(t: seq<seq<G>>, p: Pos)
    requires ValidPos(t, p)
    ensures Flat(t) == Flat(Before(t, p)) + Flat(After(t, p))
  {
    GlueSplit(t, p);
    FlatGlue(Before(t, p), After(t, p));
  }

  /** Deleting a range removes exactly its slice from the flat view. */
  lemma DeleteFlat<G>(t: seq<seq<G>>, r: Range)
    requires ValidRange(t, r)
    ensures Flat(Delete(t, r)) == Flat(t)[..Offset(t, r.start)] + Flat(t)[Offset(t, r.end)..]
  {
    FlatSplit(t, r.start);
    FlatSplit(t, r.end);
    FlatGlue(Before(t, r.start), After(t, r.end));
  }

  /** Inserting s at p puts the flat view of s at p's offset. */
  lemma InsertFlat<G>(t: seq<seq<G>>, p: Pos, s: seq<seq<G>>)
    requires ValidPos(t, p) && IsText(s)
    ensures Flat(Insert(t, p, s)) == Flat(t)[..Offset(t, p)] + Flat(s) + Flat(t)[Offset(t, p)..]
  {
    FlatSplit(t, p);
    FlatGlue(Before(t, p), s);
    FlatGlue(Glue(Before(t, p), s), After(t, p));
  }

  /** Deleting an empty range leaves the text as it is. */
  lemma DeleteEmpty<G>(t: seq<seq<G>>, r: Range)
    requires ValidRange(t, r) && IsEmpty(r)
    ensures Delete(t, r) == t
  {
    GlueSplit(t, r.start);
  }

  /** Inside a line, the next position is one grapheme further in the flat view. */
  lemma {:induction false} StepChar<G>(t: seq<seq<G>>, p: Pos)
    requires ValidPos(t, p) && p.x < |t[p.y]|
    ensures ValidPos(t, Pos(p.x + 1, p.y))
    ensures Offset(t, Pos(p.x + 1, p.y)) == Offset(t, p) + 1
    ensures Offset(t, p) < |Flat(t)| && Flat(t)[Offset(t, p)] == Char(t[p.y][p.x])
  {
    var q := Pos(p.x + 1, p.y);
    var one: seq<seq<G>> := [[t[p.y][p.x]]];
    assert t[p.y][..p.x + 1] == t[p.y][..p.x] + [t[p.y][p.x]];
    assert Before(t, q) == Glue(Before(t, p), one);
    FlatGlue(Before(t, p), one);
    FlatSplit(t, p);
    FlatFirst(After(t, p));
  }

  /** At the end of a line that is not the last, the next position is one break further. */
  lemma {:induction false} StepBreak<G>(t: seq<seq<G>>, p: Pos)
    requires ValidPos(t, p) && p.x == |t[p.y]| && p.y + 1 < |t|
    ensures ValidPos(t, Pos(0, p.y + 1))
    ensures Offset(t, Pos(0, p.y + 1)) == Offset(t, p) + 1
    ensures Offset(t, p) < |Flat(t)| && Flat(t)[Offset(t, p)] == Break
  {
    var q := Pos(0, p.y + 1);
    var two: seq<seq<G>> := [[], []];
    assert t[p.y][..p.x] == t[p.y];
    assert t[..p.y + 1] == t[..p.y] + [t[p.y]];
    assert t[p.y + 1][..0] == [];
    assert Before(t, p)[p.y] + [] == t[p.y];
    assert Before(t, q) == Glue(Before(t, p), two);
    FlatGlue(Before(t, p), two);
    assert Flat(two) == [Break];
    FlatSplit(t, p);
    FlatFirst(After(t, p));
    assert Units(After(t, p)[0]) == [];
  }

  /** The end position of a text is the end of its flat view. */
  lemma EndOffset<G>(t: seq<seq<G>>)
    requires IsText(t)
    ensures Offset(t, EndPos(t)) == |Flat(t)|
  {
    var p := EndPos(t);
    FlatSplit(t, p);
    assert After(t, p) == [[]];
  }

  /** Position b measured from a, in the text after a. */
  function Rel(a: Pos, b: Pos): Pos
    requires PosLe(a, b)
  {
    if b.y == a.y then Pos(b.x - a.x, 0) else Pos(b.x, b.y - a.y)
  }

  /** The text before b is the text before a followed by the text between them. */
  lemma BeforeGlue<G>(t: seq<seq<G>>, a: Pos, b: Pos)
    requires ValidPos(t, a) && ValidPos(t, b) && PosLe(a, b)
    ensures ValidPos(After(t, a), Rel(a, b))
    ensures Before(t, b) == Glue(Before(t, a), Before(After(t, a), Rel(a, b)))
  {
    var A := After(t, a);
    var e := Rel(a, b);
    if b.y == a.y {
      assert t[a.y][a.x..][..b.x - a.x] == t[a.y][a.x..b.x];
      assert t[a.y][..a.x] + t[a.y][a.x..b.x] == t[a.y][..b.x];
    } else {
      assert A[e.y] == t[b.y];
      assert A[..e.y] == [t[a.y][a.x..]] + t[a.y + 1..b.y];
      assert t[a.y][..a.x] + t[a.y][a.x..] == t[a.y];
      assert t[..b.y] == t[..a.y] + [t[a.y]] + t[a.y + 1..b.y];
    }
  }

  /** Offsets follow the position order. */
  lemma OffsetMono<G>(t: seq<seq<G>>, a: Pos, b: Pos)
    requires ValidPos(t, a) && ValidPos(t, b) && PosLe(a, b)
    ensures Offset(t, a) <= Offset(t, b)
  {
    BeforeGlue(t, a, b);
    FlatGlue(Before(t, a), Before(After(t, a), Rel(a, b)));
  }

  /** The text of a range; its flat view is the range's slice of the flat view. */
  function Slice<G>(t: seq<seq<G>>, r: Range): (v: seq<seq<G>>)
    requires ValidRange(t, r)
    ensures IsText(v)
    ensures Offset(t, r.start) <= Offset(t, r.end)
    ensures Flat(v) == Flat(t)[Offset(t, r.start)..Offset(t, r.end)]
  {
    BeforeGlue(t, r.start, r.end);
    var v := Before(After(t, r.start), Rel(r.start, r.end));
    FlatGlue(Before(t, r.start), v);
    v
  }

  /** Deleting from the start of a line to the start of the next removes that line. */
  lemma DeleteWholeLine<G>(t: seq<seq<G>>, y: nat)
    requires y + 1 < |t|
    ensures ValidRange(t, Range(Pos(0, y), Pos(0, y + 1)))
    ensures Delete(t, Range(Pos(0, y), Pos(0, y + 1))) == t[..y] + t[y + 1..]
  {
    assert Before(t, Pos(0, y)) == t[..y] + [[]];
    assert After(t, Pos(0, y + 1)) == [t[y + 1]] + t[y + 2..];
    assert [] + t[y + 1] == t[y + 1];
    assert t[y + 1..] == [t[y + 1]] + t[y + 2..];
  }

  /** Deleting a line's whole content leaves it empty. */
  lemma DeleteLineContent<G>(t: seq<seq<G>>, y: nat)
    requires y < |t|
    ensures ValidRange(t, Range(Pos(0, y), Pos(|t[y]|, y)))
    ensures Delete(t, Range(Pos(0, y), Pos(|t[y]|, y))) == t[..y] + [[]] + t[y + 1..]
  {
    var b := Before(t, Pos(0, y));
    var a := After(t, Pos(|t[y]|, y));
    assert t[y][..0] == [] && t[y][|t[y]|..] == [];
    assert b == t[..y] + [[]] && b[..y] == t[..y];
    assert a == [[]] + t[y + 1..] && a[1..] == t[y + 1..];
    assert Glue(b, a) == b[..y] + [b[y] + a[0]] + a[1..];
    assert b[y] + a[0] == [];
  }

  /** Inserting a single-line text puts it inside the line. */
  lemma InsertInLine<G>(t: seq<seq<G>>, p: Pos, l: seq<G>)
    requires ValidPos(t, p)
    ensures Insert(t, p, [l]) == t[..p.y] + [t[p.y][..p.x] + l + t[p.y][p.x..]] + t[p.y + 1..]
  {
  }

  /** Inserting a break splits the line. */
  lemma InsertBreak<G>(t: seq<seq<G>>, p: Pos)
    requires ValidPos(t, p)
    ensures Insert(t, p, [[], []]) == t[..p.y] + [t[p.y][..p.x], t[p.y][p.x..]] + t[p.y + 1..]
  {
    var b := Before(t, p);
    var two: seq<seq<G>> := [[], []];
    assert b[..p.y] == t[..p.y] && b[p.y] == t[p.y][..p.x];
    var g := Glue(b, two);
    assert g == b[..p.y] + [b[p.y] + []] + [[]];
    assert b[p.y] + [] == t[p.y][..p.x];
    assert [b[p.y] + []] + [[]] == [t[p.y][..p.x], []];
    assert g == t[..p.y] + [t[p.y][..p.x], []];
    var a := After(t, p);
    assert a[0] == t[p.y][p.x..] && a[1..] == t[p.y + 1..];
    assert g[..|g| - 1] == t[..p.y] + [t[p.y][..p.x]];
    assert Glue(g, a) == g[..|g| - 1] + [[] + a[0]] + a[1..];
    assert [] + a[0] == t[p.y][p.x..];
    assert Insert(t, p, two) == Glue(g, a);
  }

  /** Inserting a line and a break at a line start puts a new line before it. */
  lemma InsertLineBefore<G>(t: seq<seq<G>>, y: nat, l: seq<G>)
    requires y < |t|
    ensures ValidPos(t, Pos(0, y))
    ensures Insert(t, Pos(0, y), [l, []]) == t[..y] + [l] + t[y..]
  {
    var b := Before(t, Pos(0, y));
    assert t[y][..0] == [] && t[y][0..] == t[y];
    assert b == t[..y] + [[]] && b[..y] == t[..y];
    var s: seq<seq<G>> := [l, []];
    var g := Glue(b, s);
    assert g == b[..y] + [b[y] + l] + [[]];
    assert b[y] + l == l;
    assert g[..|g| - 1] == t[..y] + [l];
    var a := After(t, Pos(0, y));
    assert a == [t[y]] + t[y + 1..];
    assert Glue(g, a) == g[..|g| - 1] + [g[|g| - 1] + a[0]] + a[1..];
    assert g[|g| - 1] + a[0] == t[y];
    assert a[1..] == t[y + 1..];
    assert t[y..] == [t[y]] + t[y + 1..];
    assert Insert(t, Pos(0, y), s) == Glue(g, a);
  }

  /** After a deletion the range's start is still a position of the text. */
  lemma DeleteKeepsStart<G>(t: seq<seq<G>>, r: Range)
    requires ValidRange(t, r)
    ensures ValidPos(Delete(t, r), r.start)
  {
    assert Delete(t, r)[r.start.y] == t[r.start.y][..r.start.x] + t[r.end.y][r.end.x..];
  }
}

=== FILE: text_words.dfy ===
// Word navigation of the line-based text area (src/textarea.rs) over the text's
// characters. A word is a maximal run of non-whitespace characters; positions are
// character indexes 0..|s|. The reference functions SkipFwd/SkipBack name the run
// boundaries; each navigation method walks the characters as the widget does and
// is proved to land on the boundary the reference names.

module TextWords {
  import opened Util

  /** First index at or after p whose character's whitespace-ness is not `white`, or |s|. */
  function SkipFwd(s: string, p: nat, white: bool): (q: nat)
    requires p <= |s|
    ensures p <= q <= |s|
    ensures forall i :: p <= i < q ==> IsWhiteSpace(s[i]) == white
    ensures q == |s| || IsWhiteSpace(s[q]) != white
    decreases |s| - p
  {
    if p == |s| || IsWhiteSpace(s[p]) != white then p else SkipFwd(s, p + 1, white)
  }

  /** Last index at or before p whose left neighbour's whitespace-ness is not `white`, or 0. */
  function SkipBack(s: string, p: nat, white: bool): (q: nat)
    requires p <= |s|
    ensures q <= p
    ensures forall i :: q <= i < p ==> IsWhiteSpace(s[i]) == white
    ensures q == 0 || IsWhiteSpace(s[q - 1]) != white
  {
    if p == 0 || IsWhiteSpace(s[p - 1]) != white then p else SkipBack(s, p - 1, white)
  }

  /** Start of the next word: skips whitespace. */
  method NextWordStart(s: string, p: nat) returns (q: nat)
    requires p <= |s|
    ensures q == SkipFwd(s, p, true)
  {
    q := p;
    while q < |s| && IsWhiteSpace(s[q])
      invariant p <= q <= |s|
      invariant SkipFwd(s, q, true) == SkipFwd(s, p, true)
      decreases |s| - q
    {
      q := q + 1;
    }
  }

  /** End of the next word: skips whitespace, then the word. */
  method NextWordEnd(s: string, p: nat) returns (q: nat)
    requires p <= |s|
    ensures q == SkipFwd(s, SkipFwd(s, p, true), false)
  {
    q := p;
    var init := true;
    while q < |s|
      invariant p <= q <= |s|
      invariant init ==> SkipFwd(s, q, true) == SkipFwd(s, p, true)
      invariant !init ==>
        (SkipFwd(s, p, true) < q && SkipFwd(s, q, false) == SkipFwd(s, SkipFwd(s, p, true), false))
      decreases |s| - q
    {
      var c := s[q];
      if init {
        if !IsWhiteSpace(c) {
          init := false;
        }
      } else if IsWhiteSpace(c) {
        break;
      }
      q := q + 1;
    }
  }

  /** Start of the previous word: skips whitespace backwards, then the word. */
  method PrevWordStart(s: string, p: nat) returns (q: nat)
    requires p <= |s|
    ensures q == SkipBack(s, SkipBack(s, p, true), false)
  {
    q := p;
    var init := true;
    while q > 0
      invariant q <= p
      invariant init ==> SkipBack(s, q, true) == SkipBack(s, p, true)
      invariant !init ==>
        (q < SkipBack(s, p, true) && SkipBack(s, q, false) == SkipBack(s, SkipBack(s, p, true), false))
    {
      var c := s[q - 1];
      if init {
        if !IsWhiteSpace(c) {
          init := false;
        }
      } else if IsWhiteSpace(c) {
        break;
      }
      q := q - 1;
    }
  }

  /** End of the previous word: skips whitespace backwards. */
  method PrevWordEnd(s: string, p: nat) returns (q: nat)
    requires p <= |s|
    ensures q == SkipBack(s, p, true)
  {
    q := p;
    while q > 0 && IsWhiteSpace(s[q - 1])
      invariant q <= p
      invariant SkipBack(s, q, true) == SkipBack(s, p, true)
    {
      q := q - 1;
    }
  }

  /** Start of the word at p: goes back to the preceding whitespace. */
  method WordStart(s: string, p: nat) returns (q: nat)
    requires p <= |s|
    ensures q == SkipBack(s, p, false)
  {
    q := p;
    while q > 0 && !IsWhiteSpace(s[q - 1])
      invariant q <= p
      invariant SkipBack(s, q, false) == SkipBack(s, p, false)
    {
      q := q - 1;
    }
  }

  /** End of the word at p: goes forward to the next whitespace. */
  method WordEnd(s: string, p: nat) returns (q: nat)
    requires p <= |s|
    ensures q == SkipFwd(s, p, false)
  {
    q := p;
    while q < |s| && !IsWhiteSpace(s[q])
      invariant p <= q <= |s|
      invariant SkipFwd(s, q, false) == SkipFwd(s, p, false)
      decreases |s| - q
    {
      q := q + 1;
    }
  }

  /**
   * A word boundary: there are characters on both sides and exactly one of them
   * is whitespace. (The widget steps its iterator back and forth twice; the two
   * characters it compares are the ones at p - 1 and p.)
   */
  predicate IsWordBoundary(s: string, p: nat)
    requires p <= |s|
  {
    0 < p < |s|
      && ((IsWhiteSpace(s[p - 1]) && !IsWhiteSpace(s[p]))
        || (!IsWhiteSpace(s[p - 1]) && IsWhiteSpace(s[p])))
  }

  /** Skipping a run forward ends on a boundary, and crosses none on the way. */
  lemma SkipFwdBoundaries(s: string, p: nat, white: bool)
    requires p <= |s|
    ensures var q := SkipFwd(s, p, white);
      (p < q < |s| ==> IsWordBoundary(s, q))
      && forall i :: p < i < q ==> !IsWordBoundary(s, i)
  {
    var q := SkipFwd(s, p, white);
    forall i | p < i < q
      ensures !IsWordBoundary(s, i)
    {
      assert IsWhiteSpace(s[i - 1]) == white && IsWhiteSpace(s[i]) == white;
    }
    if p < q < |s| {
      assert IsWhiteSpace(s[q - 1]) == white;
    }
  }

  /** Skipping a run backward ends on a boundary, and crosses none on the way. */
  lemma SkipBackBoundaries(s: string, p: nat, white: bool)
    requires p <= |s|
    ensures var q := SkipBack(s, p, white);
      (0 < q < p ==> IsWordBoundary(s, q))
      && forall i :: q < i < p ==> !IsWordBoundary(s, i)
  {
    var q := SkipBack(s, p, white);
    forall i | q < i < p
      ensures !IsWordBoundary(s, i)
    {
      assert IsWhiteSpace(s[i - 1]) == white && IsWhiteSpace(s[i]) == white;
    }
    if 0 < q < p {
      assert IsWhiteSpace(s[q]) == white;
    }
  }

  /** Skipping the same run twice is skipping it once. */
  lemma SkipFwdIdempotent(s: string, p: nat, white: bool)
    requires p <= |s|
    ensures SkipFwd(s, SkipFwd(s, p, white), white) == SkipFwd(s, p, white)
  {
  }

  /**
   * The range delete-next-word removes from p: the whitespace up to the next
   * word, or, when p already starts a word, that word.
   */
  function NextWordRange(s: string, p: nat): (r: (nat, nat))
    requires p <= |s|
    ensures r.0 == p <= r.1 <= |s|
    ensures (forall i :: p <= i < r.1 ==> IsWhiteSpace(s[i]))
      || (forall i :: p <= i < r.1 ==> !IsWhiteSpace(s[i]))
    ensures r.0 == r.1 <==> p == |s|
  {
    var ws := SkipFwd(s, p, true);
    if ws == p then (p, SkipFwd(s, ws, false)) else (p, ws)
  }

  /**
   * The range delete-prev-word removes before p: the whitespace back to the
   * previous word, or, when p directly follows a word, that word.
   */
  function PrevWordRange(s: string, p: nat): (r: (nat, nat))
    requires p <= |s|
    ensures r.0 <= r.1 == p
    ensures (forall i :: r.0 <= i < p ==> IsWhiteSpace(s[i]))
      || (forall i :: r.0 <= i < p ==> !IsWhiteSpace(s[i]))
    ensures r.0 == r.1 <==> p == 0
  {
    var we := SkipBack(s, p, true);
    if we == p then (SkipBack(s, we, false), p) else (we, p)
  }

  /** Deletes a character range; an empty range reports false. */
  function DeleteChars(s: string, r: (nat, nat)): (res: (string, bool))
    requires r.0 <= r.1 <= |s|
    ensures res.1 <==> r.0 < r.1
    ensures |res.0| == |s| - (r.1 - r.0)
    ensures res.0[..r.0] == s[..r.0] && res.0[r.0..] == s[r.1..]
  {
    if r.0 < r.1 then (s[..r.0] + s[r.1..], true) else (s, false)
  }

  /** Two delete-next-word steps from a word's whitespace remove the whitespace, then the word. */
  lemma DeleteNextWordAlternates(s: string, p: nat)
    requires p < |s| && IsWhiteSpace(s[p])
    ensures var r := NextWordRange(s, p);
      var s' := DeleteChars(s, r).0;
      r.1 == SkipFwd(s, p, true)
      && NextWordRange(s', p).1 == p + (SkipFwd(s, r.1, false) - r.1)
  {
    var r := NextWordRange(s, p);
    var s' := DeleteChars(s, r).0;
    var q := SkipFwd(s, p, true);
    var e := SkipFwd(s, q, false);
    assert r.1 == q;
    if q < |s| {
      assert s'[p] == s[q];
    }
    SkipFwdShift(s, s', p, q, e);
  }

  /** Skipping a run in a suffix-preserving copy gives the same run length. */
  lemma {:induction false} SkipFwdShift(s: string, s': string, p: nat, q: nat, e: nat)
    requires p <= q <= e <= |s| && |s'| == |s| - (q - p)
    requires s'[p..] == s[q..]
    requires e == SkipFwd(s, q, false)
    ensures SkipFwd(s', p, false) == p + (e - q)
    ensures SkipFwd(s', p, true) == p ==> NextWordRange(s', p).1 == p + (e - q)
    decreases e - q
  {
    assert forall i :: p <= i < |s'| ==> s'[i] == s[i + (q - p)] by {
      forall i | p <= i < |s'|
        ensures s'[i] == s[i + (q - p)]
      {
        assert s'[p..][i - p] == s[q..][i - p];
      }
    }
    if q < |s| && !IsWhiteSpace(s[q]) {
      assert s'[p] == s[q];
      SkipFwdShift(s, s', p + 1, q + 1, e) by {
        assert s'[p + 1..] == s'[p..][1..];
        assert s[q + 1..] == s[q..][1..];
      }
    }
  }
}

=== FILE: util.dfy ===
/**
 * Shared vocabulary of the model: optional values and results, saturating
 * unsigned arithmetic as Rust's `saturating_sub` performs it, sums, decimal
 * number text as Rust's `usize` parser reads it, and `str::split` on one
 * separator character together with its inverse, joining.
 */
module Util {

  datatype Option<+T> = None | Some(value: T)

  datatype Result<+T, +E> = Ok(value: T) | Err(error: E)

  /** The largest value of a 64-bit `usize`, plus one. */
  const USIZE_LIMIT: nat := 0x1_0000_0000_0000_0000

  function Min(a: int, b: int): int { if a <= b then a else b }

  function Max(a: int, b: int): int { if a >= b then a else b }

  /** `a.saturating_sub(b)` on unsigned integers. */
  function SatSub(a: nat, b: nat): nat { if a >= b then a - b else 0 }

  // ---------------------------------------------------------------------
  // Decimal numbers
  // ---------------------------------------------------------------------

  predicate IsDigit(c: char) { '0' <= c <= '9' }

  predicate AllDigits(s: string) { forall i :: 0 <= i < |s| ==> IsDigit(s[i]) }

  function DigitValue(c: char): nat
    requires IsDigit(c)
  {
    (c as int) - ('0' as int)
  }

  function DigitChar(d: nat): (c: char)
    requires d < 10
    ensures IsDigit(c) && DigitValue(c) == d
  {
    ('0' as int + d) as char
  }

  /** The value of a string of decimal digits, most significant first. */
  function DigitsValue(s: string): nat
    requires AllDigits(s)
  {
    if |s| == 0 then 0 else DigitsValue(s[..|s| - 1]) * 10 + DigitValue(s[|s| - 1])
  }

  /** Shortest decimal text of `n`, as Rust's `Display` writes an unsigned integer. */
  function NatToDecimal(n: nat): (s: string)
    ensures |s| > 0 && AllDigits(s)
    ensures |s| > 1 ==> s[0] != '0'
    ensures DigitsValue(s) == n
  {
    if n < 10 then [DigitChar(n)]
    else
      var p := NatToDecimal(n / 10);
      var s := p + [DigitChar(n % 10)];
      assert s[..|s| - 1] == p;
      s
  }

  /**
   * `s.parse::<usize>()`: an optional leading '+', then at least one
   * decimal digit, and a value that fits in 64 bits.
   */
  function ParseUsize(s: string): (r: Option<nat>)
    ensures r.Some? ==> r.value < USIZE_LIMIT
    ensures r.Some? <==>
      var d := if |s| > 0 && s[0] == '+' then s[1..] else s;
      |d| > 0 && AllDigits(d) && DigitsValue(d) < USIZE_LIMIT
  {
    var d := if |s| > 0 && s[0] == '+' then s[1..] else s;
    if |d| > 0 && AllDigits(d) && DigitsValue(d) < USIZE_LIMIT then Some(DigitsValue(d)) else None
  }

  /** Writing a `usize` in decimal and parsing it back gives the same number. */
  lemma ParseUsizeOfDecimal(n: nat)
    requires n < USIZE_LIMIT
    ensures ParseUsize(NatToDecimal(n)) == Some(n)
  {
    var s := NatToDecimal(n);
    assert s[0] != '+' by { assert IsDigit(s[0]); }
  }

  // ---------------------------------------------------------------------
  // Splitting and joining on one separator character
  // ---------------------------------------------------------------------

  /** `s.split(sep)` collected: the pieces between separators, always at least one. */
  function Split(s: string, sep: char): (parts: seq<string>)
    ensures |parts| > 0
    ensures forall i :: 0 <= i < |parts| ==> sep !in parts[i]
    decreases |s|
  {
    if |s| == 0 then [""]
    else
      var rest := Split(s[1..], sep);
      if s[0] == sep then [""] + rest
      else [[s[0]] + rest[0]] + rest[1..]
  }

  /** `parts.join(sep)`. */
  function Join(parts: seq<string>, sep: char): string
    requires |parts| > 0
  {
    if |parts| == 1 then parts[0] else parts[0] + [sep] + Join(parts[1..], sep)
  }

  /** Joining the pieces of a split with the same separator gives back the text. */
  lemma {:induction false} JoinSplit(s: string, sep: char)
    ensures Join(Split(s, sep), sep) == s
    decreases |s|
  {
    if |s| > 0 {
      var rest := Split(s[1..], sep);
      JoinSplit(s[1..], sep);
      if s[0] == sep {
        assert Split(s, sep) == [""] + rest;
        assert ([""] + rest)[1..] == rest;
      } else {
        var parts := [[s[0]] + rest[0]] + rest[1..];
        assert Split(s, sep) == parts;
        if |rest| == 1 {
          assert Join(parts, sep) == [s[0]] + rest[0];
        } else {
          assert parts[1..] == rest[1..];
          assert Join(parts, sep) == [s[0]] + rest[0] + [sep] + Join(rest[1..], sep);
          assert Join(rest, sep) == rest[0] + [sep] + Join(rest[1..], sep);
        }
      }
    }
  }

  /** Splitting `a + [sep] + b` where `a` holds no separator peels `a` off. */
  lemma {:induction false} SplitAfterPiece(a: string, sep: char, b: string)
    requires sep !in a
    ensures Split(a + [sep] + b, sep) == [a] + Split(b, sep)
    decreases |a|
  {
    if |a| == 0 {
      assert a + [sep] + b == [sep] + b;
      assert ([sep] + b)[1..] == b;
    } else {
      var s := a + [sep] + b;
      assert s[1..] == a[1..] + [sep] + b;
      SplitAfterPiece(a[1..], sep, b);
      assert [a[0]] + a[1..] == a;
    }
  }

  /** A text without the separator is one piece. */
  lemma {:induction false} SplitNoSep(a: string, sep: char)
    requires sep !in a
    ensures Split(a, sep) == [a]
    decreases |a|
  {
    if |a| > 0 {
      SplitNoSep(a[1..], sep);
      assert [a[0]] + a[1..] == a;
    }
  }

  /** Splitting a join of separator-free pieces gives back the pieces. */
  lemma {:induction false} SplitJoin(parts: seq<string>, sep: char)
    requires |parts| > 0
    requires forall i :: 0 <= i < |parts| ==> sep !in parts[i]
    ensures Split(Join(parts, sep), sep) == parts
    decreases |parts|
  {
    if |parts| == 1 {
      SplitNoSep(parts[0], sep);
    } else {
      SplitJoin(parts[1..], sep);
      SplitAfterPiece(parts[0], sep, Join(parts[1..], sep));
      assert [parts[0]] + parts[1..] == parts;
    }
  }

  // ---------------------------------------------------------------------
  // Sums of lengths
  // ---------------------------------------------------------------------

  /** The sum of a sequence of lengths, as `iter().sum()` computes it. */
  function Sum(s: seq<nat>): nat
  {
    if |s| == 0 then 0 else Sum(s[..|s| - 1]) + s[|s| - 1]
  }

  lemma {:induction false} SumAppend(s: seq<nat>, t: seq<nat>)
    ensures Sum(s + t) == Sum(s) + Sum(t)
    decreases |t|
  {
    if |t| == 0 {
      assert s + t == s;
    } else {
      assert (s + t)[..|s + t| - 1] == s + t[..|t| - 1];
      SumAppend(s, t[..|t| - 1]);
    }
  }

  /** A prefix one longer adds the next element. */
  lemma SumPrefixStep(s: seq<nat>, i: nat)
    requires i < |s|
    ensures Sum(s[..i + 1]) == Sum(s[..i]) + s[i]
  {
    assert s[..i + 1][..i] == s[..i];
  }

  /** Replacing one length changes the sum by the difference. */
  lemma SumUpdate(s: seq<nat>, i: nat, v: nat)
    requires i < |s|
    ensures Sum(s[i := v]) + s[i] == Sum(s) + v
  {
    assert s == s[..i] + [s[i]] + s[i + 1..];
    assert s[i := v] == s[..i] + [v] + s[i + 1..];
    SumAppend(s[..i] + [s[i]], s[i + 1..]);
    SumAppend(s[..i], [s[i]]);
    SumAppend(s[..i] + [v], s[i + 1..]);
    SumAppend(s[..i], [v]);
    assert Sum([s[i]]) == s[i] by { assert [s[i]][..0] == []; }
    assert Sum([v]) == v by { assert [v][..0] == []; }
  }

  /** A space or a tab. */
  predicate IsBlank(c: char) { c == ' ' || c == '\t' }

  predicate AllBlank(s: string) { forall i :: 0 <= i < |s| ==> IsBlank(s[i]) }

  /** A text whose tail is `a + b` holds `a` and then `b` there. */
  lemma SplitTail(txt: string, idx: nat, a: string, b: string)
    requires idx <= |txt| && txt[idx..] == a + b
    ensures idx + |a| <= |txt| && txt[idx..idx + |a|] == a && txt[idx + |a|..] == b
  {
    assert txt[idx..idx + |a|] == (a + b)[..|a|];
    assert txt[idx + |a|..] == (a + b)[|a|..];
  }

  // ---------------------------------------------------------------------
  // Trimming
  // ---------------------------------------------------------------------

  /** Unicode `White_Space`, the set `str::trim` removes. */
  predicate IsWhiteSpace(c: char)
  {
    ('\t' <= c <= '\r') || c == ' ' || c == '\U{85}' || c == '\U{A0}' || c == '\U{1680}' ||
    ('\U{2000}' <= c <= '\U{200A}') || c == '\U{2028}' || c == '\U{2029}' || c == '\U{202F}' ||
    c == '\U{205F}' || c == '\U{3000}'
  }

  /** `trim_start`: the suffix after the leading white space. */
  function TrimStart(s: string): (r: string)
    ensures |r| <= |s| && s == s[..|s| - |r|] + r
    ensures forall k :: 0 <= k < |s| - |r| ==> IsWhiteSpace(s[k])
    ensures |r| > 0 ==> !IsWhiteSpace(r[0])
    decreases |s|
  {
    if |s| > 0 && IsWhiteSpace(s[0]) then TrimStart(s[1..]) else s
  }

  /** `trim_end`: the prefix before the trailing white space. */
  function TrimEnd(s: string): (r: string)
    ensures |r| <= |s| && r == s[..|r|]
    ensures forall k :: |r| <= k < |s| ==> IsWhiteSpace(s[k])
    ensures |r| > 0 ==> !IsWhiteSpace(r[|r| - 1])
    decreases |s|
  {
    if |s| > 0 && IsWhiteSpace(s[|s| - 1]) then TrimEnd(s[..|s| - 1]) else s
  }

  /** `trim`: neither end of the result is white space, and nothing else was removed. */
  function Trim(s: string): (r: string)
    ensures |r| > 0 ==> !IsWhiteSpace(r[0]) && !IsWhiteSpace(r[|r| - 1])
    ensures |s| > 0 && !IsWhiteSpace(s[0]) && !IsWhiteSpace(s[|s| - 1]) ==> r == s
  {
    var t := TrimStart(s);
    TrimEnd(t)
  }

  /** A leading space makes no difference to the trimmed text. */
  lemma TrimSpace(s: string)
    ensures Trim(" " + s) == Trim(s)
  {
    assert (" " + s)[1..] == s;
  }
}
